=== FILE: README.md ===
# disclosureupdater in Dafny

A Dafny model of the core of `disclosureupdater`, a Go command-line tool
that collects the financial disclosure filings of the U.S. House of
Representatives and turns them into text:

- **Downloads.** Build the yearly index archive URLs (`{YEAR}FD.zip` from
  2008 to the current year), fetch each archive unless its XML index is
  already present, and unpack the first `.xml` member. Build the PDF URL,
  file name and path of each filing, and decide whether it still has to be
  fetched. The download-URLs command first deletes the current year's
  archive and index so that they are fetched again.
- **PDF to images.** For each PDF, derive the base name, skip documents
  whose image folder exists, and write one image per page
  (`{base}-{n}.png` or `.jpg`). The v2 converter plans page-weighted
  batches; the older one slices the listing into fixed batches.
- **OCR.** Walk the image folders, pick the images without a CSV yet (up
  to a limit), run the OCR engine on each, and write one record per word
  box with the word cleaned of spaces and line breaks. Failures are
  aggregated into one error and listed in `failed.txt`.
- **Configuration.** Resolve the data folders from command-line flags, the
  `config.yaml` store and defaults under `$HOME/.disclosurecli/data`,
  create the folders, write the store back, and read S3 profiles from
  flags or the store.

How the model is laid out:

- **One module per Go file of the core.** Where the repository has two
  versions of a file (`commonConfig.go` and `common_config.go`,
  `initConfig.go` and `init_config.go`, `pdfConversionV2.go` and
  `pdf_conversion_v2.go`, `main.go` and `downloader/disclosures.go`, the
  `cmds` and `cmd/disclosurecli` commands), each version has its own
  module and lemmas relate the two.
- **Shared modules.** `Strs` models the string functions used (`strings`,
  `strconv`), `FilePath` models `path/filepath`, and `FileSystem` models
  the filesystem as a map from paths to nodes. A node is a directory with
  its listing, a file with its content, or an unreadable entry whose stat
  fails with an error other than "does not exist". `Outcomes` and
  `Aggregation` hold error values and the folding of many outcomes into
  one. `Viper` holds command-line flags and the configuration store.
- **Parameters instead of the outside world.** The following are inputs
  to the operations:
  - the current year, `$HOME` and the temporary directory;
  - HTTP answers;
  - the PDF renderer's pages, stored as the content of a PDF file;
  - the OCR engine, a function from image path to outcome;
  - the page-count probe that batching uses;
  - the outcome of writing the configuration file.
- **Concurrency.** Where the source fans work out to goroutines or a
  worker pool, the model is the sequential fold over the items in
  listing order.
- **`failed.txt` is written from the start, not truncated.** The code
  opens it with `O_CREATE|O_RDWR` and no `O_TRUNC`, so an older, longer
  list keeps its tail (`Ocr.OcrImages`, `FileSystem.WriteFromStart`).

## Model

| member | source | states |
|---|---|---|
| Strs.TrimPrefix | common/paths/path.go:19 | a present prefix is removed and nothing else changes; otherwise the text is unchanged |
| Strs.IndexOf | cmds/downloadUrlsCmd.go:67 | the first occurrence of the pattern, or -1 exactly when there is none |
| Strs.LastIndexChar | common/paths/path.go:43-47 | the last index holding the character, or -1 |
| Strs.ReplaceFirst | downloader/disclosures.go:23 | with no occurrence the text is unchanged; otherwise exactly the first occurrence is replaced |
| Strs.ReplaceFirstAfterPlainPrefix | downloader/disclosures.go:23 | in "pre target post", with no character of pre starting the target, the replacement lands exactly between pre and post |
| Strs.ReplaceAll | model/ocrResult.go:19 | with no occurrence the text is unchanged |
| Strs.ReplaceAllAtFirst | model/disclosure.go:65-68 | replacing all occurrences replaces the first and carries on after it |
| Strs.ReplaceAllOneCharIsWithout | model/ocrResult.go:19 | replacing a one-character text by "" deletes that character and keeps the rest in order |
| Strs.ReplaceAllOneCharIsSubst | model/disclosure.go:65 | replacing a one-character text by another swaps that character and keeps the rest |
| Strs.ReplaceAllOwnSuffix | cmds/ocr.go:203 | in a text that ends with the pattern and holds it nowhere else, only that ending is replaced |
| Strs.WithoutContents | model/ocrResult.go:19 | filtering keeps every other character, as often as it occurs |
| Strs.WithoutAppend | model/ocrResult.go:19 | filtering works piece by piece |
| Strs.WithoutIdempotent | model/ocrResult.go:19 | filtering twice is filtering once |
| Strs.WithoutCommutes | model/ocrResult.go:19 | filtering by two characters can be done in either order |
| Strs.SplitOn | cmd/disclosurecli/downloadUrlsCmd.go:29 | splitting gives at least one piece, none holding the separator |
| Strs.SplitOnJoinWith | cmd/disclosurecli/downloadUrlsCmd.go:29 | splitting undoes joining when no piece holds the separator |
| Strs.JoinWithSplitOn | cmd/disclosurecli/downloadUrlsCmd.go:29 | joining the pieces with the separator gives the text back |
| Strs.NatToString | model/disclosure.go:54 | a non-empty decimal text without a leading zero |
| Strs.DigitsValueOfNatToString | model/disclosure.go:54 | reading the decimal text gives the number back |
| Strs.Itoa | downloader/disclosures.go:23 | a non-empty decimal text, with a leading '-' exactly for negative numbers |
| Strs.ItoaInjective | model/disclosure.go:54 | different numbers have different decimal texts |
| Strs.Lower | config/commonConfig.go:148 | lower-casing works character by character and keeps the length |
| Strs.LowerIdempotent | config/commonConfig.go:148 | lower-casing twice is lower-casing once |
| FilePath.Base | cmds/ocr.go:202 | the last element of a path: "." for the empty path, "/" for separators only, otherwise a plain name ending the path without its trailing separators, preceded by a separator or the start |
| FilePath.Ext | cmd/disclosurecli/PngOcr.go:62 | the extension is empty or a '.' with no further '.' or separator, ending the path |
| FilePath.Split | common/paths/path.go:64 | the two halves put back together give the path; the file half holds no separator and the directory half is empty or ends with one |
| FilePath.Dir | cmd/disclosurecli/PngOcr.go:53 | "." when the path has no directory part; otherwise a prefix of the path without a trailing separator (or "/") |
| FilePath.Join | cmd/disclosurecli/PngOcr.go:41 | an empty side gives the other; otherwise the two sides with one separator between them |
| FilePath.BaseOfJoin | cmd/disclosurecli/PngOcr.go:61 | `Base` of a directory joined with a plain name gives the name back |
| FilePath.SplitOfJoin | common/paths/path.go:63-66 | `Split` of a directory joined with a plain name gives the directory with its separator and the name |
| FilePath.DirOfJoin | cmd/disclosurecli/PngOcr.go:53 | `Dir` of a directory joined with a plain name gives the directory back |
| FilePath.ExtOfJoin | cmd/disclosurecli/PngOcr.go:61-62 | the extension of a joined path is the extension of its file name |
| FilePath.ExtOfDotSuffix | cmd/disclosurecli/PngOcr.go:62 | the extension of "stem.suffix" is ".suffix" when the suffix has no '.' or separator |
| FilePath.ExtOfNameWithoutDot | cmd/disclosurecli/PngOcr.go:62 | a plain name without '.' has no extension, wherever it is joined |
| FilePath.JoinInjective | cmds/pdf_to_png.go:82 | joining one directory with two non-empty names gives the same path only for the same name |
| FileSystem.EnsureDir | main.go:297-302 | creating a directory fails, with the stat error, exactly when stat fails for a reason other than "does not exist"; an absent path becomes an empty directory; an existing path, even a file, is left as it is; nothing else changes |
| FileSystem.EnsureDirIdempotent | main.go:297-302 | ensuring a directory twice gives the same result as ensuring it once |
| FileSystem.Stat | cmds/ocr.go:114-118 | a missing path reports "does not exist", an unreadable one its error, any other its node |
| FileSystem.Exists | cmds/ocr.go:335-343 | true for a readable path, false for a missing one, the stat error for an unreadable one |
| FileSystem.EnsureAll | config/common_config.go:86-91 | creating folders in turn succeeds exactly when none is blocked; only new empty directories for listed folders are added, and a failure carries a blocked folder's error |
| FileSystem.EnsureAllExisting | util/files.go:10-15 | folders that all exist already leave everything as it was |
| FileSystem.EnsureAllStopsAtFirstError | config/common_config.go:86-89 | the first blocked folder's error is returned and only the folders before it are created |
| FileSystem.EnsureAllAppend | config/common_config.go:86-91 | creating two lists in turn is creating the first and, if that succeeded, then the second |
| FileSystem.CreateEach | config/common_config.go:86-91 | the loop that stops at the first error creates exactly what the recursive definition does |
| FileSystem.ReadDir | cmds/ocr.go:95-98 | listing succeeds exactly on a directory, giving its entries in order |
| FileSystem.CreateFile | cmds/pdf_to_png.go:82 | creating succeeds exactly when the parent is a directory and the path is absent or a file; the file then holds the content |
| FileSystem.WriteFromStart | cmds/ocr.go:175-184 | writing without truncation: the text is written at the start of the file, and a longer old content keeps its tail |
| FileSystem.Remove | downloader/disclosures.go:164 | removing succeeds exactly on a file or an empty directory, and then only that path goes |
| FileSystem.OpenPdf | cmds/pdf_to_png.go:71 | opening succeeds exactly on a PDF file, giving its pages |
| FileSystem.OpenArchive | downloader/disclosures.go:116 | opening succeeds exactly on an archive file, giving its members in order |
| Paths.FileAndExtension | common/paths/path.go:11-32 | empty input gives ("", ""); otherwise the extension is `Ext` of the input; an input ending in '/' has an empty name; outside the no-name cases name followed by extension is the base name; the name holds no '/' |
| Paths.ExtractFilename | common/paths/path.go:36-54 | the no-name cases give ""; without an extension the name is the base; with one, the name is the base up to its last '.', which is followed by no further '.' |
| Paths.FileNameDefined | common/paths/path.go:23-32 | the cut at the last '.' is always in range, an input ending in '/' is a no-name case, and otherwise name and extension rebuild the base |
| Paths.ExtractFilenameRebuilds | common/paths/path.go:45-51 | whenever the extension is a suffix of the base starting with its only trailing '.', name followed by extension is the base |
| Paths.LastDotOfExtension | common/paths/path.go:47 | the last '.' of the base is where its extension starts |
| Paths.ExtIsSuffixOfBase | common/paths/path.go:28-29 | for an input not ending in '/', the extension is a suffix of the base |
| Paths.FileAndExtensionOfJoin | common/paths/path.go:23-32 | a plain file name joined to any directory splits into the file name without its extension and the extension |
| Paths.DottedInDir | common/paths/path.go:45-47 | "<dir>/<stem>.<e>" with a plain stem and a dot-free e splits into stem and ".e" |
| Paths.ExampleMd | common/paths/path_test.go:11 | "path/to/file.md" splits into "file" and ".md" |
| Paths.ExamplePlainFile | common/paths/path_test.go:12 | "file" splits into "file" and "" |
| Paths.ExampleDirectory | common/paths/path_test.go:13 | "path/to/" splits into "" and "" |
| Paths.ExampleTarGz | common/paths/path_test.go:15 | "path/to/file.tar.gz" splits into "file.tar" and ".gz": only the last extension comes off |
| Paths.ExampleHidden | common/paths/path_test.go:16 | "path/to/.hiddenfile" splits into "" and ".hiddenfile" |
| Paths.FileAndExtensionNoDelimiter | common/paths/path.go:17-20 | the name is the one `FileAndExtension` gives, and the extension is its extension with the leading '.' removed |
| Paths.DelimiterDropped | common/paths/path.go:17-20 | whatever extension ".e" `FileAndExtension` finds, the variant without delimiter reports "e" with the same name |
| Paths.DottedNoDelimiter | common/paths/path.go:17-20 | "<dir>/<stem>.<e>" gives stem and "e" |
| Paths.NoDelimiterExampleMd | common/paths/path_test.go:34 | "path/to/file.md" gives "file" and "md" |
| Paths.NoDelimiterExamplePlainFile | common/paths/path_test.go:35 | "file" gives "file" and "" |
| Paths.NoDelimiterExampleDirectory | common/paths/path_test.go:36 | "path/to/" gives "" and "" |
| Paths.NoDelimiterExampleEmpty | common/paths/path_test.go:37 | "" gives "" and "" |
| Paths.NoDelimiterExampleTarGz | common/paths/path_test.go:38 | "path/to/file.tar.gz" gives "file.tar" and "gz": only the last extension comes off |
| Paths.NoDelimiterExampleHidden | common/paths/path_test.go:39 | "path/to/.hiddenfile" gives "" and "hiddenfile" |
| Paths.SplitDirFile | common/paths/path.go:63-66 | directory followed by file is the path, the file holds no '/', and the directory is empty or ends in '/' |
| Paths.SplitDirFileExamples | common/paths/path_test.go:56-59 | the four cases of the package's table |
| Paths.LastSepAtEnd | common/paths/path.go:43 | the last separator is at the end exactly when the path ends with a separator |
| Disclosure.BuildPdfUrl | model/disclosure.go:52-58 | the address of a filing's PDF starts with the clerk's public address and ends in ".pdf" |
| Disclosure.PdfUrlIdentifiesFiling | model/disclosure.go:52-58 | two filings get the same PDF address exactly when they agree on being a periodic transaction report or not, on the year and on the document id |
| Disclosure.DocPathInjective | model/disclosure.go:54-56 | the "year/docid.pdf" tail of the address names one year and one document |
| Disclosure.SanitizeName | model/disclosure.go:65-68 | a sanitised first or last name holds no '.' and no ' ', and each of its characters is '_' or comes from the name |
| Disclosure.SanitizeNameIsSubstThenFilter | model/disclosure.go:65-68 | sanitising is exactly "every space becomes '_'" followed by "every '.' is deleted" |
| Disclosure.SanitizeNameIdempotent | model/disclosure.go:65-68 | sanitising a sanitised name leaves it unchanged |
| Disclosure.FilingExtension | model/disclosure.go:61-64 | the filing segment is ".ptr-pdfs" if and only if the filing type is "P", and ".financial-pdfs" otherwise |
| Disclosure.BuildPdfFileName | model/disclosure.go:60-71 | the file name ends in ".pdf" |
| Disclosure.PdfFileNameFields | model/disclosure.go:60-71 | when the state and district holds no '.', splitting the file name at '.' gives back exactly the seven fields: year, filing type, state, last name, first name, document id, "pdf" |
| Disclosure.FileNameIsJoin | model/disclosure.go:69-70 | the file name is the seven fields joined with '.' |
| Disclosure.FileNameHead | model/disclosure.go:69-70 | the file name up to the document id is year, filing segment, state, sanitised last and first name, separated by '.' |
| Disclosure.FileNameNoSep | model/disclosure.go:60-71 | a filing whose state and names hold no '/' has a non-empty file name without '/' |
| Disclosure.BuildPdfFilePath | model/disclosure.go:73-75 | the file path ends with the file name |
| Disclosure.PdfFilePathInDisclosures | model/disclosure.go:73-75 | for a data folder without a trailing '/', the file lies directly in "<data folder>/disclosures" and its base name is the file name |
| Disclosure.PathIsJoin | model/disclosure.go:73-75 | the file path is the file name joined under the data folder's disclosures directory |
| Disclosure.PdfFileExists | model/disclosure.go:77-80 | the file counts as present unless stat reports "does not exist", so an unreadable path counts as present |
| Disclosure.ShouldDownload | model/disclosure.go:82-87 | a filing is to be downloaded if and only if it is a periodic transaction report ("P") whose file does not exist; never for other filing types |
| Disclosure.ShouldDownloadAfterWrite | model/disclosure.go:77-87 | once a filing's file has been written it is no longer to be downloaded, and the decision for every filing with another path is unchanged |
| Disclosure.SegmentDetermined | model/disclosure.go:52-58 | two URLs that agree after the base agree on the filing kind and on the year and document id |
| Disclosure.FieldsHaveNoDot | model/disclosure.go:64-71 | with a state and district free of '.', no field of the file name holds a '.' |
| Downloader.GenerateZipUrlForYear | downloader/disclosures.go:22-24 | replacing the year placeholder of the template gives the archive "<year>FD.zip" joined to the clerk's archive directory |
| Downloader.ZipUrlInjective | downloader/disclosures.go:22-24 | two years have the same archive address if and only if they are the same year |
| Downloader.GenerateAllZipUrls | downloader/disclosures.go:26-37 | with the current year as a parameter: one address per year from 2008 to the current year, element i for year 2008 + i, and a year's address is listed if and only if the year is in that range |
| Downloader.AllZipUrlsCoverYears | downloader/disclosures.go:26-37 | the list of all addresses holds a year's address exactly for the years from 2008 to the current year, and no address twice |
| Downloader.NewDisclosureDownload | downloader/disclosures.go:48-62 | the download keeps the address, takes its file name from the address's name and extension, and puts the xml and csv files as "<name>.xml" and "<name>.csv" under the base folder |
| Downloader.DownloadOfYear | downloader/disclosures.go:48-62 | for a year's archive the name is "<year>FD" and the zip, xml, csv and temporary paths are "<year>FD.zip", "<year>FD.xml", "<year>FD.csv" under their folders; the zip and xml paths differ |
| Downloader.YearArchiveName | downloader/disclosures.go:49 | the name and extension of a year's archive address are "<year>FD" and ".zip" |
| Downloader.DownloadFile | downloader/disclosures.go:74-99 | a failed request is returned with nothing written; a status other than 200 returns no error and writes nothing; a received body is written at the output path if and only if that file can be created |
| Downloader.FirstXml | downloader/disclosures.go:126-133 | the position of the first archive member whose name ends in ".xml", or -1 exactly when there is none |
| Downloader.Extract | downloader/disclosures.go:115-170 | an archive that cannot be opened returns that error with no change; an archive without exactly two members or without an ".xml" member returns no error with no change; any change happens only for a two-member archive with an ".xml" member, and then the xml path holds that member's data |
| Downloader.ExtractTakesFirstXml | downloader/disclosures.go:121-167 | for a two-member archive with an ".xml" member, extraction succeeds, writes the first ".xml" member's data to the xml path and removes the zip, and nothing else changes |
| Downloader.Decide | downloader/disclosures.go:179-199 | the decision table: skip if and only if the xml is present; download then extract if and only if neither xml nor zip is present; otherwise extract only |
| Downloader.DownloadIfNotPresent | downloader/disclosures.go:177-199 | a present xml means nothing happens; a present zip without xml means extraction only |
| Downloader.BadStatusIsFatal | downloader/disclosures.go:79-80 | a download answered with a non-200 status writes nothing, so the extraction that follows fails because the zip does not exist |
| Downloader.DownloadFirst | downloader/disclosures.go:180-189 | with neither file present, the body is stored at the zip path and extraction then runs on that |
| Downloader.DownloadThenSkip | downloader/disclosures.go:179-199 | downloading a well-formed archive leaves exactly the xml file (the zip is removed), and a second run then changes nothing |
| Downloader.DownloadZipsIfNotPresent | downloader/disclosures.go:172-204 | when every xml file is already present the batch succeeds and changes nothing |
| Downloader.DownloadMultiple | downloader/disclosures.go:232-261 | every value keeps its address and file path and takes the received bytes when its download succeeded; the error is set if and only if some download failed, and its text is " " followed by the message of each failure, in order |
| Downloader.YearUrlsCover | downloader/disclosures.go:26-37 | a run of consecutive years holds a year's URL exactly when the year is in range, and no URL twice |
| Downloader.YearArchiveInjective | downloader/disclosures.go:49 | two years give the same archive path only when they are the same year |
| Downloader.DownloadInDir | downloader/disclosures.go:48-62 | a year's archive URL gives the name "<year>FD", the temporary and final ".zip" paths, and the ".xml" and ".csv" paths beside it, the archive and XML paths different |
| Downloader.FilledUrls | downloader/disclosures.go:26-37 | URLs for every year from 2008 to the current one are exactly the full list |
| MainDownloads.NewDisclosureDownload | main.go:114-129 | the file name is the address's base name with its first ".zip" cut out (unchanged when there is none); zip, xml and csv paths are that name plus ".zip", ".xml" and ".csv" under the base folder; the temporary path keeps the base name |
| MainDownloads.AgreesOnPlainArchives | main.go:114-129 | for an archive "<stem>.zip" whose stem holds no '.' or '/', the first program's download equals the later package's |
| MainDownloads.StemOfPlainArchive | main.go:115-116 | the base name of "<dir>/<stem>.zip" is "<stem>.zip" and cutting its first ".zip" gives back the stem |
| MainDownloads.DownloadOfYear | main.go:114-129 | for a year's archive both programs build the same download, named "<year>FD" |
| MainDownloads.PlainArchiveMarker | main.go:115-116 | removing the first ".zip" from "<stem>.zip", for a stem without '.', gives the stem |
| DownloadUrls.ExtractYearRoundTrip | cmds/downloadUrlsCmd.go:64-68 | the year read back from a year's archive address is the decimal year |
| DownloadUrls.ExtractYearOfArchive | cmds/downloadUrlsCmd.go:64-68 | in any directory, the name of "<year>FD.zip" with its first "FD" cut out is the decimal year |
| DownloadUrls.CurrentYearMatch | cmds/downloadUrlsCmd.go:30-31 | an address is taken for the current year's if and only if its year is the current year |
| DownloadUrls.YearMatchInDir | cmds/downloadUrlsCmd.go:30-31 | the same, for an archive address in any directory |
| DownloadUrls.SplitYear | cmd/disclosurecli/downloadUrlsCmd.go:28-30 | the last '/'-segment of the text before the first "FD.zip" holds no '/' |
| DownloadUrls.SplitYearOfArchive | cmd/disclosurecli/downloadUrlsCmd.go:28-30 | for "<dir>/<year>FD.zip" with no "FD.zip" in the directory, that segment is the decimal year |
| DownloadUrls.SplitYearRoundTrip | cmd/disclosurecli/downloadUrlsCmd.go:28-31 | for a generated address the segment is the decimal year, the same text the newer command reads |
| DownloadUrls.SplitYearMatch | cmd/disclosurecli/downloadUrlsCmd.go:28-31 | the older command takes an address for the current year's if and only if its year is the current year |
| DownloadUrls.DeleteYearFiles | cmds/downloadUrlsCmd.go:33-51 | on success neither the zip nor the xml is present; no path is added or changed, and only the zip and xml paths can disappear |
| DownloadUrls.DeleteYearFilesOkIff | cmds/downloadUrlsCmd.go:36-51 | deletion succeeds if and only if each of the zip and xml paths is absent, a file or an empty directory |
| DownloadUrls.CurrentFlags | cmds/downloadUrlsCmd.go:28-31 | position i is flagged if and only if the year read from address i is the current year |
| DownloadUrls.FlagsOfArchiveUrls | cmds/downloadUrlsCmd.go:28-31 | in a list of yearly archive addresses exactly the current year's position is flagged |
| DownloadUrls.CleanFromTouchesOnlyFlagged | cmds/downloadUrlsCmd.go:28-54 | a path that belongs to no flagged download is present after the clean-up exactly when it was before |
| DownloadUrls.CleanFromRemovesFlagged | cmds/downloadUrlsCmd.go:31-52 | after a successful clean-up no flagged download's zip or xml is present |
| DownloadUrls.CleanupIn | cmds/downloadUrlsCmd.go:28-54 | the clean-up only removes paths: everything left is unchanged |
| DownloadUrls.CleanupInRemovesOnlyCurrentYear | cmds/downloadUrlsCmd.go:28-54 | after a successful clean-up the current year's zip and xml are absent and every other path is as it was |
| DownloadUrls.DeletionErrorPrecedesDownloads | cmds/downloadUrlsCmd.go:38-50 | a deletion error is the command's result, whatever the downloads would have answered: nothing is downloaded |
| DownloadUrls.Downloads | cmds/downloadUrlsCmd.go:26-27 | one download per URL, in order, each built from its URL |
| DownloadUrls.CleanFrom | cmds/downloadUrlsCmd.go:33-51 | the clean-up only removes paths, and leaves every remaining path as it was |
| DownloadUrls.CleanFromOnlyOne | cmds/downloadUrlsCmd.go:33-51 | with only the current year flagged, its archive and XML file are gone and every other path is untouched |
| DownloadUrls.FlagsOfYearList | cmds/downloadUrlsCmd.go:28-31 | an archive URL is flagged exactly when its year is the current one |
| DownloadUrls.CurrentYearDownload | cmds/downloadUrlsCmd.go:33-47 | the current year's download holds "<year>FD.zip" and "<year>FD.xml" in the data folder |
| DownloadUrls.DropMarker | cmds/downloadUrlsCmd.go:67 | removing the first "FD" from "<year>FD" gives the year back |
| Naming.PdfBaseName | cmds/pdf_to_png.go:35-38 | the base name of the text before the first ".pdf" is non-empty and holds no ".pdf" (unless it is ".") |
| Naming.PdfBaseNameOfEntry | cmds/pdf_to_png.go:35-38 | for a listed entry "<dir>/<stem>.pdf" with no other ".pdf" the base name is the stem |
| Naming.PageImageName | cmds/pdf_to_png.go:109-111 | the image name is the base name, '-', the decimal page number and the extension, in that order |
| Naming.PageImageNamesDistinct | cmds/pdf_to_png.go:109-111 | two pages of one document get the same image name if and only if they are the same page |
| Naming.PageImageNameNoSep | cmds/pdf_to_png.go:109-111 | an image name built from a plain base name and extension holds no '/' |
| Naming.BaseHasNoPdf | cmds/pdf_to_png.go:35-38 | the text before the first ".pdf" leaves no ".pdf" in its last element |
| PdfToPng.NewPdfConverter | cmds/pdf_to_png.go:25-43 | the converter keeps the PDF path, takes the base name of the text before the first ".pdf", and its image directory is that name joined to the image folder |
| PdfToPng.ImageDirExists | cmds/pdf_to_png.go:45-55 | (true, no error) when the directory is there, (false, no error) when it does not exist, the stat error otherwise |
| PdfToPng.PagePaths | cmds/pdf_to_png.go:76-82 | page k's file is "<base>-<k><ext>" in the image directory, for every k below the page count |
| PdfToPng.PagePathsDistinct | cmds/pdf_to_png.go:76-82 | all page files lie directly in the image directory and no two pages share a file |
| PdfToPng.WriteImages | cmds/pdf_to_png.go:76-96 | the page loop only adds files among the page paths still to be written and changes nothing else; it succeeds only if every remaining page rendered |
| PdfToPng.WritePages | cmds/pdf_to_png.go:76-96 | the loop over a document's pages adds files only inside its image directory and leaves every other path unchanged |
| PdfToPng.WriteImagesStopsAtRenderFailure | cmds/pdf_to_png.go:77-80 | the first page that fails to render ends the loop with its error, and the files are those of the pages before it |
| PdfToPng.WritePagesStopsAtRenderFailure | cmds/pdf_to_png.go:77-80 | the same for a document's own page paths |
| PdfToPng.WriteImagesComplete | cmds/pdf_to_png.go:76-96 | when every page renders and its distinct file in an existing directory is absent, the loop succeeds and every page is stored at its path |
| PdfToPng.ConvertIfNotPresent | cmds/pdf_to_png.go:57-103 | an existing image directory means no error and no change; a stat error is returned with no change; otherwise the directory is created first, so a PDF that cannot be opened leaves an empty directory behind together with the error |
| PdfToPng.ConvertIfNotPresentIdempotent | cmds/pdf_to_png.go:57-65 | after any conversion attempt whose stat succeeded, running it again succeeds and changes nothing |
| PdfToPng.ConvertIfNotPresentWritesEveryPage | cmds/pdf_to_png.go:66-102 | on a fresh directory with every page rendering, the conversion succeeds and page k is stored at "<base>-<k><ext>" for every page |
| PdfToPng.Extension | cmds/pdf_to_png.go:121-127 | the extension is ".jpg" if and only if the jpg flag is set, and ".png" otherwise |
| PdfToPng.Converters | cmds/pdf_to_png.go:134-140 | one converter per listed entry, in listing order, each for the entry joined to the disclosures folder |
| PdfToPng.PdfToPngCmd | cmds/pdf_to_png.go:119-175 | a listing error is returned with no change; otherwise the command fails if and only if some conversion failed, and its message is " " followed by each failure's message, in order |
| PdfToPng.RunAllSkipsPresent | cmds/pdf_to_png.go:146-160 | when every converter's image directory exists, every conversion reports success and nothing changes |
| PdfToPng.PdfToPngCmdSkipsConverted | cmds/pdf_to_png.go:119-175 | a command run over documents that all have their image directory succeeds and changes nothing |
| PdfToPng.BlockedRunFails | cmds/pdf_to_png.go:142-160 | every run in which `MaxJobs` conversions fail before the last dispatch, where the Go command never returns normally (it blocks, or the runtime aborts on deadlock), is reported by the model as failed; fewer failures than slots never block |
| PdfToPng.RunAll | cmds/pdf_to_png.go:146-160 | one status per converter, in order |
| PdfToPng.PagePathInImageDir | cmds/pdf_to_png.go:76-82 | each page's image lies directly inside the converter's image folder |
| PdfToPng.WriteImagesKeeps | cmds/pdf_to_png.go:76-96 | writing pages to new paths leaves every existing path as it was |
| CliPdfToPng.GetImageName | cmd/disclosurecli/pdfToPng.go:109-111 | the older converter names page n "<base>-<n>.png": the extension is always ".png" |
| CliPdfToPng.ConvertIfNotPresent | cmd/disclosurecli/pdfToPng.go:57-103 | an existing image directory means no error and no change; a stat error is returned with no change; otherwise the directory is created before anything else |
| CliPdfToPng.ConvertWritesEveryPage | cmd/disclosurecli/pdfToPng.go:66-102 | on a fresh directory with every page rendering, page k is stored at "<base>-<k>.png" in the image directory for every page |
| CliPdfToPng.PdfToPngCmd | cmd/disclosurecli/pdfToPng.go:119-168 | a listing error is returned with no change; otherwise the command fails if and only if some conversion failed, with " " followed by each failure's message, in order |
| CliPdfToPng.BlockedRunFails | cmd/disclosurecli/pdfToPng.go:135-153 | a run on which the Go command never returns normally because of the leaked slots (it blocks, or the runtime aborts on deadlock) is reported by the model as failed |
| CliPdfToJpg.BaseName | cmd/disclosurecli/pdfToJpg.go:42-43 | the base is the entry name up to its first ".pdf" (the whole name when there is none) and holds no ".pdf" |
| CliPdfToJpg.WritePages | cmd/disclosurecli/pdfToJpg.go:37-69 | the page loop succeeds only if every remaining page renders |
| CliPdfToJpg.WritePagesSkipsExisting | cmd/disclosurecli/pdfToJpg.go:38-50 | when the image directory already exists nothing is written, yet each page is still rendered first: the loop fails, with the first render error, exactly when some page does not render |
| CliPdfToJpg.WritePagesAtMostOnePage | cmd/disclosurecli/pdfToJpg.go:37-69 | the loop that starts at page n can change only the image directory and page n's file: page 0 creates the directory, so every later page is skipped |
| CliPdfToJpg.WritePagesFirstPage | cmd/disclosurecli/pdfToJpg.go:52-68 | on a fresh directory the first page creates it and writes its "<base>-<n>.jpg" file, and nothing more is written |
| CliPdfToJpg.PagePathInDir | cmd/disclosurecli/pdfToJpg.go:56-57 | a page file lies directly in the image directory |
| CliPdfToJpg.ConvertEntriesStopsAtError | cmd/disclosurecli/pdfToJpg.go:28-72 | entries are processed in listing order and the first error ends the command, so later entries are untouched |
| CliPdfToJpg.ConvertEntriesSkipsConverted | cmd/disclosurecli/pdfToJpg.go:28-72 | when every entry's image directory exists and every page renders, the command succeeds and changes nothing |
| CliPdfToJpg.PdfToJpg | cmd/disclosurecli/pdfToJpg.go:22-26 | a listing error is returned with no change |
| ConverterV2.NewPdfConverterV2 | cmds/pdfConversionV2.go:37-43 | the converter keeps the PDF path and the shared image directory, and its base name is the base of the text before the first ".pdf"; the same constructor appears at cmds/pdf_conversion_v2.go:35-41 |
| ConverterV2.PagePathsDiffer | cmds/pdfConversionV2.go:45-47 | "<base>-<n><ext>" names differ for different pages, so two pages never share a file in the flat image directory; the same naming appears at cmds/pdf_conversion_v2.go:43-45 |
| ConverterV2.RenderFrom | cmds/pdf_conversion_v2.go:61-74 | rendering the remaining pages succeeds if and only if every one of them renders, and then gives one result per page |
| ConverterV2.RenderFromContents | cmds/pdf_conversion_v2.go:61-74 | result i holds page i's raster, its name "<base>-<i><ext>" and the converter's image directory; a failure carries the message of the first page that did not render |
| ConverterV2.ConvertPagesToImages | cmds/pdf_conversion_v2.go:47-77 | success exactly when the PDF opens and every page renders; then one result per page, in page order, all in the same image directory, named for pages 0 to the page count minus one; any failure gives no results |
| ConverterV2.PageResults | cmds/pdf_conversion_v2.go:61-74 | the results of a conversion are one per page, each naming a distinct plain file in the image directory |
| ConverterV2.WriteImage | cmds/pdf_conversion_v2.go:79-105 | writing a result succeeds exactly when its file can be created in the image directory, and then stores the page as a PNG image there |
| ConverterV2.WriteAll | cmds/pdf_conversion_v2.go:165-173 | writing the results adds files only at the result paths and changes no other path |
| ConverterV2.WriteAllContents | cmds/pdf_conversion_v2.go:165-173 | after a complete write every result's file is there, holding that result's image unless a later result has the same path |
| ConverterV2.WriteAllIntoDirectory | cmds/pdf_conversion_v2.go:165-173 | results with plain names in one existing directory, whose paths are free or hold files, are all written without error |
| ConverterV2.RunConverter | cmds/pdf_conversion_v2.go:157-163 | a conversion failure ends the task with an error before anything is written |
| ConverterV2.RunConverterWritesEveryPage | cmds/pdf_conversion_v2.go:157-178 | when the image directory exists and every page renders, the task succeeds and page n is stored at "<image dir>/<base>-<n>.png" for every page |
| ConverterV2.ConvertEntry | cmds/pdf_conversion_v2.go:155-163 | the task of one listed entry: a conversion failure is reported with nothing written |
| ConverterV2.WrittenPages | cmds/pdf_conversion_v2.go:165-173 | after a successful run every page's image is stored at its own path |
| PdfConversionV2.ProcessBatch | cmds/pdf_conversion_v2.go:151-181 | one task per batch entry: task i carries entry i, id i, and the shared PDF and image folders |
| PdfConversionV2.ProcessBatchRoundTrip | cmds/pdf_conversion_v2.go:151-181 | the tasks' entries are the batch again, and no two tasks share an id |
| PdfConversionV2.GetPdfEntries | cmds/pdf_conversion_v2.go:107-116 | a listing error is returned; without slicing the entries are the listing; with slicing they are the first 200 entries |
| PdfConversionV2.BatchPdfToPng | cmds/pdf_conversion_v2.go:118-149 | the command succeeds if and only if the listing succeeds and every page count can be read; the batches then form a greedy plan of the listing, with the task layout of `processBatch`; on error there are no batches. Task errors never reach the result |
| BatchGreedy.CalculateBatches | cmds/pdf_conversion_v2.go:192-217 | planning succeeds if and only if every page count can be read; the error is the first failing probe's; empty input gives no batches; the batches are the planner's |
| BatchGreedy.PlanIsGreedy | cmds/pdf_conversion_v2.go:197-216 | the batches put the entries back together in order; each batch of two or more documents has at most 100 pages; no batch could have taken the next batch's first document; only the first batch can be empty, exactly when the first document alone has more than 100 pages; the last batch is not empty |
| BatchGreedy.FinishPlan | cmds/pdf_conversion_v2.go:212-216 | closing the open batch after the last entry (only when it is non-empty) completes a greedy plan |
| BatchGreedy.RunKeepsPlan | cmds/pdf_conversion_v2.go:197-210 | every step of the loop keeps the planner's invariant: entries seen so far are covered in order, batches fit, batches are maximal |
| BatchGreedy.FlushShape | cmds/pdf_conversion_v2.go:202-205 | flushing at the first entry closes an empty batch, which happens only when that entry alone is over the budget |
| BatchGreedy.FlushMaximal | cmds/pdf_conversion_v2.go:202-206 | the closed batch could not have taken the entry that opens the next one |
| BatchGreedy.NextKeepsPlan | cmds/pdf_conversion_v2.go:197-210 | each step of the loop keeps the batching invariant |
| PdfConversionV2Slices.GetPdfEntries | cmds/pdfConversionV2.go:111-120 | a listing error is returned; without slicing the entries are the listing; with slicing they are its first 500 entries |
| PdfConversionV2Slices.SliceBatches | cmds/pdfConversionV2.go:132-139 | the batches are the consecutive slices [250k, min(250(k+1), n)): together they are the entries in order, there are ceil(n/250) of them, none is empty and all but the last hold exactly 250 |
| PdfConversionV2Slices.SliceCount | cmds/pdfConversionV2.go:132-137 | the number of slices is the least k with 250k covering the entries, that is ceil(n/250) |
| PdfConversionV2Slices.BatchPdfToPng | cmds/pdfConversionV2.go:122-145 | the command succeeds if and only if the listing succeeds, and then plans exactly two batches of 250 covering the first 500 entries; task errors never reach the result |
| PdfConversionV2Slices.SlicesCover | cmds/pdfConversionV2.go:132-139 | consecutive slices of at most the batch size cover the entries in order, all full but the last and none empty |
| OcrResults.CleanWord | model/ocrResult.go:19 | the cleaned word holds no line break and no space, and keeps every other character as often as the box word has it |
| OcrResults.CleanWordIsFilter | model/ocrResult.go:19 | the two replacements delete line breaks and then spaces, keeping the rest in order |
| OcrResults.CleanWordAppend | model/ocrResult.go:19 | cleaning works character by character: the cleaned concatenation is the concatenation of the cleaned parts |
| OcrResults.CleanWordIdempotent | model/ocrResult.go:19 | cleaning a cleaned word leaves it unchanged |
| OcrResults.NewOcrResult | model/ocrResult.go:15-22 | line and word numbers and the confidence are copied unchanged, and the word is the cleaned box word |
| OcrResults.Results | cmds/ocr.go:266-271 | one record per box, in the engine's order |
| Aggregation.ErrorTextEmptyIff | cmds/ocr.go:161-165 | the aggregate error text is empty if and only if no item failed |
| Aggregation.ErrorTextAppend | cmds/ocr.go:161-165 | the text of two runs of outcomes is the text of the first followed by the text of the second |
| Aggregation.ErrorTextSnoc | cmds/ocr.go:163-165 | one more outcome adds " " and its message at the end if it failed, and nothing otherwise |
| Aggregation.Combine | cmds/ocr.go:191-196 | the combined status is an error if and only if some item failed, and its message is the aggregate text |
| Aggregation.FailedIdsExact | cmds/ocr.go:166-171 | the failed list names exactly the failed items, one entry per failure |
| Aggregation.FailedIdsAppend | cmds/ocr.go:166-171 | the failed list of two runs is the first run's followed by the second's |
| Aggregation.Drain | cmds/ocr.go:160-172 | the collecting loop yields the aggregate text and the failed list, and the text is empty exactly when nothing failed |
| Aggregation.ErrorTextLength | cmds/ocr.go:161-165 | the aggregate text is at least as long as the number of failures, each adding at least its separating space |
| Aggregation.CountFailedAppend | cmds/ocr.go:161-165 | the failures of two runs together are the failures of each |
| Aggregation.CountFailedPositive | cmds/ocr.go:161-165 | the failure count is positive exactly when some item failed |
| Aggregation.PoolBlocksOnlyOnFailures | cmds/pdf_to_png.go:142-160 | a pool whose last dispatch can never proceed has at least as many failures as slots, and so some failure; a run with fewer failures than slots never blocks |
| Ocr.EffectiveLimit | cmds/ocr.go:34-37 | a limit flag of 0 means no limit (the largest int); any other flag is the limit |
| Ocr.CsvPathFromImagePath | cmds/ocr.go:201-204 | the CSV name of an image holds no '/' |
| Ocr.CsvPathOfPageImage | cmds/ocr.go:201-204 | the CSV name of "<dir>/<stem>.png" is "<stem>.csv" |
| Ocr.ImagePaths | cmds/ocr.go:111-112 | one path per listed file, in listing order, each the file joined to its directory |
| Ocr.ScanImages | cmds/ocr.go:111-125 | only images whose CSV file does not exist are taken, at most one per listed file |
| Ocr.ScanImagesExact | cmds/ocr.go:111-125 | the scan fails exactly when some image's CSV path cannot be stat-ed, with the first such error; otherwise every image without a CSV file is taken, in listing order, and images with one are skipped |
| Ocr.Discover | cmds/ocr.go:99-126 | discovery only adds to what was found; once the count reaches the limit no further subdirectory is examined; a subdirectory that cannot be read, examined below the limit, ends discovery with its error |
| Ocr.DiscoverWithinLimit | cmds/ocr.go:102-126 | while the limit is out of reach, discovery is every subdirectory's new images, in subdirectory then file order |
| Ocr.DiscoverUnlimited | cmds/ocr.go:34-37 | a limit flag of 0 examines every subdirectory |
| Ocr.DiscoverNegativeLimit | cmds/ocr.go:103-105 | a negative limit flag examines no subdirectory at all |
| Ocr.DiscoverOvershootsLimit | cmds/ocr.go:103-125 | the limit is checked only before a subdirectory: one entered below the limit contributes all its new images, however many |
| Ocr.ExtractOcrResults | cmds/ocr.go:260-272 | a bounding-box failure gives nil results, not an error; otherwise one record per box |
| Ocr.ExtractImageToCsvIfNotExists | cmds/ocr.go:208-237 | reports "created" exactly when the engine starts, the CSV is absent and its folder exists, and then writes the records there; reports "existed" without writing when the CSV is there; an engine start failure is returned with nothing written |
| Ocr.RunExtractions | cmds/ocr.go:133-159 | one report per discovered image, in order, each naming its image |
| Ocr.LinesOfFailedText | cmds/ocr.go:179-184 | the failed-list text holds each failed path as one line, in order |
| Ocr.OcrImages | cmds/ocr.go:32-198 | listing and discovery errors are returned with no change, and so is a failure to write the failed list; the failed list is written into "failed.txt" from the start without truncation, so the tail of a longer older file survives; the command fails if and only if some extraction failed, with " " followed by each failure's message, in order |
| Ocr.BlockedRunFails | cmds/ocr.go:128-158 | a run in which `MaxConversions` extractions fail before the last dispatch, where the Go command never returns normally (it blocks, or the runtime aborts on deadlock), is reported by the model as failed |
| Ocr.CsvExists | cmds/ocr.go:335-343 | (true, no error) when the CSV is there, (false, no error) when it does not exist, the stat error otherwise |
| Ocr.ExtractIfNotExists | cmds/ocr.go:345-356 | an existing CSV gives no results and no error; a stat error is returned; otherwise the engine's records, or its error |
| OcrImageIterator.NewImageIterator | cmds/ocr.go:393-404 | a listing error is returned; otherwise the iterator holds the base directory's listing, with no current images and the first subdirectory next |
| OcrImageIterator.HasNext | cmds/ocr.go:406-418 | the answer is whether an image is left in the current listing after reading on past used-up or empty subdirectories; it never moves backwards |
| OcrImageIterator.HasNextKeepsRemaining | cmds/ocr.go:406-418 | asking does not change which images are still to come, and the answer is yes exactly when some are |
| OcrImageIterator.ReadFailureEnds | cmds/ocr.go:410-413 | a subdirectory that cannot be read ends the walk: nothing more is yielded |
| OcrImageIterator.GetNext | cmds/ocr.go:420-426 | when nothing is left the result is "" |
| OcrImageIterator.GetNextTakesFirst | cmds/ocr.go:420-426 | each call yields the first image still to come and moves past it |
| OcrImageIterator.CollectIsRemaining | cmds/ocr.go:406-426 | the loop of `HasNext` and `GetNext` yields exactly the images still to come, each once, in order |
| OcrImageIterator.CollectFresh | cmds/ocr.go:393-426 | a fresh iterator yields the files of the subdirectories in subdirectory then file order, ending at the first subdirectory that cannot be read |
| OcrImageIterator.ExhaustedStaysExhausted | cmds/ocr.go:406-426 | once exhausted, `HasNext` stays false and `GetNext` returns "" |
| CliImageOcr.SetImagePaths | cmd/disclosurecli/PngOcr.go:35-45 | a listing error is returned; otherwise one path per folder entry, in listing order, each the entry joined to the folder |
| CliImageOcr.ImagePathsSplitBack | cmd/disclosurecli/PngOcr.go:40-43 | every listed path splits back into the image folder and the entry's name |
| CliImageOcr.OcrOutputFolder | cmd/disclosurecli/PngOcr.go:47-56 | an empty listing gives ""; otherwise the output folder lies inside the OCR folder |
| CliImageOcr.OutputFolderOfListing | cmd/disclosurecli/PngOcr.go:47-56 | for a listed folder the output folder is the OCR folder joined with the image folder's own name |
| CliImageOcr.TextFileName | cmd/disclosurecli/PngOcr.go:61-62 | the text name ends in ".txt" and is a plain file name |
| CliImageOcr.TextFileNameOfImage | cmd/disclosurecli/PngOcr.go:61-62 | the image "stem.suffix" in any folder gets the text name "stem.txt" |
| CliImageOcr.TextFileNameWithoutExt | cmd/disclosurecli/PngOcr.go:61-62 | an image name without '.' keeps its whole name before ".txt" |
| CliImageOcr.OutputPaths | cmd/disclosurecli/PngOcr.go:58-67 | the mapping has exactly the image paths as keys, each sent to its text name inside the output folder |
| CliImageOcr.OutputOfImage | cmd/disclosurecli/jpgOcr.go:43-52 | the image "stem.suffix" is mapped to "stem.txt" directly inside the output folder |
| CliImageOcr.NewImageOcr | cmd/disclosurecli/PngOcr.go:21-33 | fails exactly when the image folder cannot be listed; otherwise keeps both folders, the listed paths and a mapping over exactly those paths, with the PNG flavour also holding the output folder |
| CliImageOcr.NewImageOcrMapping | cmd/disclosurecli/jpgOcr.go:18-29 | the PNG flavour maps into its output folder, the JPG flavour straight into the OCR folder |
| CliImageOcr.PngMappingOfListing | cmd/disclosurecli/PngOcr.go:21-67 | a listed image "stem.suffix" of a subdirectory is mapped to "stem.txt" inside the OCR folder's copy of that subdirectory |
| CliImageOcr.ImageOcrs | cmd/disclosurecli/PngOcr.go:75-88 | a failure to list the image folder is returned; otherwise one `ImageOcr` per subdirectory |
| CliImageOcr.ImageOcrsOfListing | cmd/disclosurecli/PngOcr.go:81-88 | the listing succeeds exactly when every subdirectory can be listed, and then holds each subdirectory's `ImageOcr` in order |
| CliImageOcr.ImageOcrsFirstError | cmd/disclosurecli/PngOcr.go:83-86 | the first subdirectory that cannot be listed ends the command with its error |
| CliImageOcr.AppendedCap | cmd/disclosurecli/PngOcr.go:87 | the capacity after n appends is at least n, exactly n for n at most 1, and below 2n |
| CliImageOcr.SliceTo | cmd/disclosurecli/PngOcr.go:90 | slicing to k panics exactly when k exceeds the capacity; otherwise the first k slots, holding the elements and then nil pointers |
| CliImageOcr.MapGet | cmd/disclosurecli/PngOcr.go:93 | a missing key reads as "" |
| CliImageOcr.RunPng | cmd/disclosurecli/PngOcr.go:91-110 | the engine is run on each taken folder's first image, in order, and only a complete run succeeds |
| CliImageOcr.PngOcrCmd | cmd/disclosurecli/PngOcr.go:73-113 | a listing failure is returned before any OCR |
| CliImageOcr.PngRunOutcome | cmd/disclosurecli/PngOcr.go:90-111 | fewer than two subdirectories make the slice panic; with two whose first images OCR cleanly, exactly those two images are read, with their mapped text paths |
| CliImageOcr.RunJpg | cmd/disclosurecli/jpgOcr.go:71-73 | the loop finishes exactly when no taken slot is a nil pointer, printing each mapping in order |
| CliImageOcr.JpgOcrCmd | cmd/disclosurecli/jpgOcr.go:54-76 | a listing failure is returned before anything is printed |
| CliImageOcr.JpgRunOutcome | cmd/disclosurecli/jpgOcr.go:70-74 | the command succeeds exactly when there are at least ten subdirectories, printing the first ten mappings; with nine it prints all nine and then dereferences nil; with fewer the slice itself panics |
| S3Profiles.StaticEmbedsDefault | model/s3Profile.go:18-44 | a static profile answers bucket, region and hostname like the default profile it embeds, and only it authenticates statically |
| S3Profiles.SelectProfile | config/commonConfig.go:169-190 | the settings are kept; the profile is static exactly when both the API key and the secret are non-empty, and then holds them |
| S3Profiles.SelectProfileRoundTrip | config/commonConfig.go:158-166 | selecting from a profile's own settings and credentials gives it back exactly when it is canonical (a static profile with both credentials non-empty) |
| Viper.Flag | config/commonConfig.go:31 | an unset flag reads as "", a set one as its value |
| Viper.OrDefault | config/commonConfig.go:31-34 | an empty value is replaced by the default, any other is kept; the result is empty only when both are |
| Viper.GetString | config/commonConfig.go:148-150 | keys are compared without regard to ASCII case, and a missing key reads as "" |
| Viper.Set | config/commonConfig.go:208-211 | after a write the key reads back as the value written, and exactly that key (lower-cased) is added |
| Viper.SetReads | config/commonConfig.go:228-234 | a write changes the reading of the keys equal to it up to case and of no other key |
| Viper.GetStringIgnoresCase | config/commonConfig.go:148-150 | "s3bucket" and "s3Bucket" read the same entry |
| Viper.ReadWritten | config/commonConfig.go:228-237 | after a group of writes to distinct keys, each key reads as the value written to it |
| Viper.ReadUnwritten | config/commonConfig.go:228-237 | a group of writes leaves every other key reading as before |
| Viper.ReadInConfig | config/commonConfig.go:193-201 | reading succeeds exactly when the file exists, giving its contents |
| Viper.WriteConfig | config/commonConfig.go:239-243 | a successful write replaces that file's contents and leaves the others; a failed one changes nothing |
| FolderBuilder.BaseFolder | config/folderBuilder.go:18-20 | the base folder is a path without a trailing separator whose last element is ".disclosurecli" |
| FolderBuilder.DataFolder | config/folderBuilder.go:22-24 | the data folder is the "data" element directly inside the base folder |
| FolderBuilder.InDataFolder | config/folderBuilder.go:59-61 | a plain folder name joined to the data folder lies directly inside it under that name |
| FolderBuilder.CtxBuildCommonDirs | config/folderBuilder.go:91-101 | base and data folders come from the home directory, and the S3 folder is "s3" inside the data folder |
| FolderBuilder.CtxFolderInDataFolder | config/folderBuilder.go:63-69 | a folder taken from the command line, or its default when the flag is empty, is placed directly inside the data folder |
| FolderBuilder.ViperBuildCommonDirs | config/folderBuilder.go:143-153 | base and data folders come from the home directory, and the S3 folder is "s3" inside the data folder |
| FolderBuilder.ViperFolderInDataFolder | config/folderBuilder.go:115-121 | a folder read from the store under "<profile>.<key>", or its default when unset, is placed directly inside the data folder |
| FolderBuilder.BuildersAgree | config/folderBuilder.go:63-121 | the command-line builder and the store builder give the same folder set when the flags carry the values the store holds |
| FolderBuilder.BuildersDefaultLayout | config/folderBuilder.go:91-153 | with no flags and an empty store both builders put "disclosures", "images", "ocr" and "csv" directly inside the data folder |
| KeyMap.BuildConfKeyMaps | config/keymap.go:50-76 | one entry per folder key, in the map's iteration order; flag, default and current value are the key's default folder name, and the configuration key is "<profile>.folders.<key>" |
| KeyMap.GetKeyMap | config/keymap.go:80-87 | the first entry whose flag matches, or nil exactly when none does |
| KeyMap.GetFolders | config/keymap.go:90-96 | the current values of the entries, one each, in table order |
| KeyMap.GetCommonDirs | config/keymap.go:99-109 | the base and data folders come from the home directory; the five looked-up folders are stated by `TableCommonDirs` |
| KeyMap.DefaultNamesDistinct | config/keymap.go:51-57 | the five folder keys have five different default names |
| KeyMap.DefaultNames | config/keymap.go:51-57 | the default names are "s3", "disclosures", "images", "ocr" and "csv" |
| KeyMap.FindsOnlyEntry | config/keymap.go:80-87 | the lookup finds an entry whose flag no other entry shares |
| KeyMap.EntryOf | config/keymap.go:80-87 | in a table laid out in some iteration order, a folder's flag finds that folder's entry |
| KeyMap.TableCommonDirs | config/keymap.go:80-109 | in a table laid out in any iteration order, every folder has an entry, and each folder of the set is the current value of that folder key's entry |
| KeyMap.BuiltEntry | config/keymap.go:50-87 | whatever order the map is walked in, each folder's flag finds that folder's entry in the built table |
| KeyMap.BuiltLookup | config/keymap.go:50-87 | in a built table, looking up a default folder name finds an entry whose current value is that name |
| KeyMap.DefaultCommonDirs | config/keymap.go:99-109 | a table whose five lookups succeed with the default names gives the default folder set |
| KeyMap.BuiltCommonDirs | config/keymap.go:50-109 | a freshly built table, in any iteration order, gives the default folder names without a nil dereference |
| KeyMap.BuiltFolders | config/keymap.go:50-96 | a freshly built table lists five different folders, every default name among them |
| CommonConfig.NewCommonDirsFromCtx | config/commonConfig.go:29-56 | each folder flag is used verbatim when set and otherwise defaults to its name inside the data folder; the S3 folder is always "s3" inside the data folder |
| CommonConfig.CtxVersionsDiffer | config/commonConfig.go:29-56 | this reader agrees with the folder builder when no flag is given, but takes a set flag as a path while the builder puts it inside the data folder |
| CommonConfig.NewCommonDirs | config/commonConfig.go:68-79 | the default folder set with the given base folder, its data folder still taken from the home directory |
| CommonConfig.NewCommonDirsFromConfig | config/commonConfig.go:81-117 | fails exactly when the configuration file is missing; an empty file gives the default folder set |
| CommonConfig.CreateDirectories | config/commonConfig.go:119-141 | succeeds exactly when none of the five folders is blocked, and then all five exist; nothing already present changes |
| CommonConfig.CreateDirectoriesStopsAtFirstError | config/commonConfig.go:119-141 | the first blocked folder's error is returned and only the folders before it are created |
| CommonConfig.S3ProfileFromCtx | config/commonConfig.go:169-191 | the settings come from the three S3 flags, and the profile is static, holding the two credential flags, exactly when both are non-empty |
| CommonConfig.S3ProfileFromCtxRoundTrip | config/commonConfig.go:169-191 | reading back the flags that describe a profile gives that profile exactly when it is canonical |
| CommonConfig.ProfileFromStore | config/commonConfig.go:148-166 | the profile read from a store is always canonical |
| CommonConfig.S3ProfileFromConfig | config/commonConfig.go:143-167 | succeeds exactly when the configuration file exists, giving the profile stored under the profile name |
| CommonConfig.BuildViper | config/commonConfig.go:204-217 | the store is bound to "config.yaml" in the base folder |
| CommonConfig.BuildViperStore | config/commonConfig.go:204-217 | the built store reads back the data folder, the three S3 settings, and the credentials of a static profile ("" otherwise), the settings under the lower-case spellings the reader uses |
| CommonConfig.BuildViperReadBack | config/commonConfig.go:143-217 | writing a built store and reading the profile back from it gives the same profile exactly when it is canonical |
| CommonConfig.UpdateS3Config | config/commonConfig.go:219-244 | succeeds exactly when the file exists and the write succeeds; only that file changes, and on failure nothing does |
| CommonConfig.UpdateStoreSettings | config/commonConfig.go:228-230 | after an update the default profile's bucket, region and hostname read back as the profile's |
| CommonConfig.UpdateStoreFolders | config/commonConfig.go:231-234 | after an update the four data folders read back as the folder set's |
| CommonConfig.UpdateCredentials | config/commonConfig.go:235-238 | a static profile's credentials are written; a default profile leaves the stored ones as they were |
| CommonConfig.UpdateThenLoadFolders | config/commonConfig.go:81-117 | after an update, loading the folder set gives back the four data folders written |
| CommonConfig.UpdateThenLoadStaticProfile | config/commonConfig.go:143-244 | after an update with a canonical static profile, loading the profile gives it back |
| CommonConfig.DefaultUpdateKeepsCredentials | config/commonConfig.go:235-238 | an update with a default profile over stored credentials leaves them, so loading gives a static profile with the old keys |
| CommonConfigV2.ToStringRenders | config/common_config.go:22-32 | the text is "CommonDirs{", then one "\tName: value," line per field in declaration order, then "}" |
| CommonConfigV2.CreateDirectories | config/common_config.go:78-92 | the loop over the five folders creates them exactly as the unrolled version does |
| CommonConfigV2.InitializeViper | config/common_config.go:186-194 | reading succeeds exactly when "config.yaml" exists in the base folder |
| CommonConfigV2.S3ProfileFromConfig | config/common_config.go:94-118 | gives the same profile as the version that takes the folder set |
| InitConfigFields.ExtractValue | config/initConfig.go:41-50 | the flag when set, else the stored value when set, else the default; never empty when the default is not |
| InitConfigFields.FolderValue | config/initConfig.go:59-86 | the key is the profile followed by the folder's name; the value is the flag, else the stored value, else the default inside the data folder |
| InitConfigFields.Initialize | config/initConfig.go:52-93 | the data folder is the home-based one, the S3 folder is "s3" inside it, and the four other folders are resolved from flag, store and default |
| InitConfigFields.NewConfigurationBuilder | config/initConfig.go:28-39 | fails exactly when the configuration file is missing, and otherwise initialises from its contents |
| InitConfigFields.BuildConfig | config/initConfig.go:95-103 | the write's status is returned; on success only the configuration file changes |
| InitConfigFields.BuiltStoreReads | config/initConfig.go:95-101 | after the six writes each folder's key reads back as its value |
| InitConfigFields.CreateDirectories | config/initConfig.go:105-120 | succeeds exactly when none of the six folders is blocked, and then all exist; nothing already present changes |
| InitConfigFields.CreateDirectoriesStopsAtFirstError | config/initConfig.go:114-118 | the first blocked folder's error is returned and only the folders before it are created |
| InitConfigFields.InitConfig | config/initConfig.go:123-134 | succeeds exactly when the base folder can be created and the write succeeds, and then the configuration file is empty |
| InitConfigFields.Profile | config/initConfig.go:142-145 | the profile flag when set, and never empty |
| InitConfigFields.Configure | config/initConfig.go:153-172 | succeeds exactly when the folders are created and the write succeeds; on failure the configuration file is unchanged |
| InitConfigFields.ConfigureDirectories | config/initConfig.go:139-173 | a missing configuration file fails with nothing changed; the folder set returned has an empty base folder |
| InitConfigFields.ReinitializeFromBuilt | config/initConfig.go:52-103 | initialising again from the written store without folder flags gives the same builder |
| InitConfigFields.ConfigureAgain | config/initConfig.go:105-120 | creating the same folders a second time succeeds and changes nothing |
| InitConfigFields.ReconfigureIsStable | config/initConfig.go:139-173 | running the command again without folder flags gives the same folder set and the same directories |
| InitConfigKeyed.ExtractValue | config/init_config.go:40-51 | a set flag is placed inside the data folder; otherwise the stored value, else the default; never empty when the default is not |
| InitConfigKeyed.ExtractValueVersions | config/init_config.go:40-51 | this version differs from the field-by-field one only by joining a set flag to the data folder |
| InitConfigKeyed.Resolve | config/init_config.go:31-34 | every entry's current value is replaced by its resolved value, nothing else changes |
| InitConfigKeyed.ResolvedTable | config/init_config.go:21-36 | resolving a built table keeps its profile, flags, keys and defaults |
| InitConfigKeyed.NewConfigurationBuilder | config/init_config.go:21-36 | fails exactly when the configuration file is missing; otherwise holds its contents and a table whose current values are resolved from flag, store and default |
| InitConfigKeyed.BuildConfig | config/init_config.go:54-59 | the write's status is returned; on success only the configuration file changes |
| InitConfigKeyed.Build | config/init_config.go:73-83 | succeeds exactly when no folder is blocked and the write succeeds; a blocked folder leaves the configuration untouched; on success every folder exists |
| InitConfigKeyed.GetBuilderCommonDirs | config/init_config.go:86-88 | the builder delegates to its table's `GetCommonDirs`; what each folder then is, is stated by `BuilderCommonDirs` |
| InitConfigKeyed.ResolvedEntry | config/init_config.go:21-52 | the entry a made builder holds for a folder key is the flag's value inside the data folder, else the stored "<profile>.folders.<key>" value, else the default name |
| InitConfigKeyed.BuilderCommonDirs | config/init_config.go:21-88 | for any flags, stored configuration and iteration order, each of the five folders of a made builder is the flag joined into the data folder, else the stored value, else the bare default, and the base and data folders come from the home directory |
| InitConfigKeyed.BuiltStoreReads | config/init_config.go:54-57 | after the writes each entry's configuration key reads back as its current value |
| InitConfigKeyed.ReloadAfterBuild | config/init_config.go:21-59 | a builder made again without flags from the written store holds the same table |
| InitConfigKeyed.FreshResolveKeepsTable | config/init_config.go:31-34 | with no flags and an empty store every entry keeps its default |
| InitConfigKeyed.FreshBuilderCommonDirs | config/init_config.go:21-88 | a fresh builder over an empty file gives the bare default names as the folder set |

## Left out

- FilePath.Join: joins with exactly one separator and does not apply `Clean`. So `Join("data/", "x")` is `"data//x"` where Go gives `"data/x"`, and `Join("a/", "")` is `"a/"` where Go gives `"a"`. The paths the commands build have no trailing separators, and the lemmas about joined paths state this as a precondition.
- ConverterV2.WriteImage: the PNG encoder and the file's `Close` are taken to succeed; only the create step can fail.
- PdfToPng.WriteImages: the PNG/JPEG encoder and `Close` are taken to succeed; render and create failures are modelled.
- CliPdfToJpg.WritePages: the JPEG encoder and `Close` are taken to succeed; render and create failures are modelled.
- FilePath.Dir: does not apply `Clean` to the directory part. So `Dir("a/./b")` is `"a/."` where Go gives `"a"`, and `Dir("a/../b")` is `"a/.."` where Go gives `"."`. Repeated and trailing separators are trimmed as in Go. `DirOfJoin` and the parent lookups of `FileSystem.CreateFile` and `FileSystem.WriteFromStart` inherit this. The paths the commands build contain no `.` or `..` elements.
- FileSystem.EnsureDir: `TryCreateDirectories` creates only the path itself, not missing parents. A failure of `os.MkdirAll` on an absent path is not modelled: creating an absent path always succeeds. The new directory is not added to its parent's listing.
- FileSystem.CreateFile: the new file is not added to its parent directory's listing. A directory's entries are a snapshot of its contents when the state was given, and no operation updates them, so a later `ReadDir` of the parent does not show the file.
- FileSystem.WriteFromStart: a file created because it was absent is not added to its parent's listing, for the same reason.
- FileSystem.Remove: the removed name stays in its parent's listing. "Empty" is judged on the directory's recorded entries, which the other operations never update. So after `EnsureDir(fs, "d")` and `CreateFile(_, "d/f", c)`, removing `"d"` succeeds, where Go's `os.Remove` fails with "directory not empty". No command removes a directory.
- Downloader.DownloadMultiple: the goroutines' errors are joined in input order; in Go the order in which they are collected depends on scheduling.
- Downloader.DownloadZipsIfNotPresent: its own contract covers only the case where every index is already present. `DownloadFirst`, `DownloadThenSkip` and `BadStatusIsFatal` state the other cases for one download. The downloads run one after another, where the source starts a goroutine each, and `log.Fatalf`, which ends the process, becomes an `Err` result.
- PdfConversionV2.GetPdfEntries: with slicing on, requires at least 200 entries. With fewer, Go's `pdfs[:200]` goes past the slice's length, which this model does not represent.
- PdfConversionV2Slices.GetPdfEntries: with slicing on, requires at least 500 entries, for the same reason.
- PdfConversionV2Slices.BatchPdfToPng: requires at least 500 entries, because it always lists with slicing on.
- CliImageOcr.AppendedCap: follows Go's doubling growth of an appended slice only below 256 elements; above that it promises only a capacity at least the length. The commands slice at most ten elements, so this does not affect them.
- KeyMap.GetCommonDirs: requires every flag it looks up to have an entry. Go would dereference a nil pointer and panic otherwise. `BuiltCommonDirs` shows that a built table always has the entries.
- `ImageOcr.MakeOcrDir` (cmd/disclosurecli/PngOcr.go:69-71) is not modelled. It is `TryCreateDirectories` on the output folder, `FileSystem.EnsureDir`, and no command calls it.
- The text the OCR engine recognises and everything the commands print (`fmt.Println`, progress output) are not modelled. The OCR engine, PDF rendering, image encoding and TSV marshalling are parameters or opaque values.
- OCR confidence is a `real`, passed through unchanged. Bytes are modelled as characters.
- The worker pool (`common/workerpool`), goroutines, channels, semaphores and rate limits are not modelled; concurrent loops become sequential folds.
- PdfToPng.PdfToPngCmd: a failed conversion returns without giving back its semaphore slot (cmds/pdf_to_png.go:146-160). Once `MaxJobs` conversions have failed with converters still to dispatch, the Go command never returns normally: it blocks, or the runtime aborts on deadlock. The model returns the joined error instead. `Aggregation.PoolBlocks` characterises exactly those runs, and `PdfToPng.BlockedRunFails` shows that the model reports every one of them as failed.
- CliPdfToPng.PdfToPngCmd: the same slot leak (cmd/disclosurecli/pdfToPng.go:139-153); `CliPdfToPng.BlockedRunFails` states the same relation.
- Ocr.OcrImages: the same slot leak with `MaxConversions` slots (cmds/ocr.go:128-158): the Go command never returns normally (it blocks, or the runtime aborts on deadlock) where the model returns the joined error and writes `failed.txt`. `Ocr.BlockedRunFails` shows the model's result is an error on every such run.
- The `maxWorkers` computation from the CPU count (floating point) is not modelled.
- Viper's nested-map storage, YAML serialisation and Unicode case folding are not modelled. The store is a flat map from dotted keys, compared with ASCII case folding.
- Error messages are opaque strings carried from the failing step. The texts Go formats around them are not reproduced, except the `" " + msg` aggregation the commands build themselves.
- Go's map iteration order is a parameter: `KeyMap.BuildConfKeyMaps` takes the order in which the folder keys are visited, and every lemma about it holds for every order.
- Logging (`zap`, `log.Printf`) is not modelled.
- These parts of `main.go` are not part of this model:
  - `Configure`, which reads environment defaults;
  - the S3 commands `S3`, `testUpload`, `ListS3Objects` and `S3Client`, and the `s3client` package, which need the network;
  - `GetTransactionReportMembers`, which unmarshals XML.
- The clock (`CurrentYear`) and `$HOME` are parameters.
- `cmds/cleanup_images.go`, `cmds/updateFolders.go`, the upload commands, the image-processing test commands, `imgProcess`, `commands/commander.go` and the CLI wiring in `cmd/disclosurecli/main.go` and `cmd/disclosurecli_2/main.go` are not part of this model.

=== FILE: batch_greedy.dfy ===
/** The page-weighted batch planner of the newer converter
    (`calculateBatches`): entries are taken in listing order and a batch is
    closed as soon as the next document would push its page total past
    `BatchSize`. The page count of a document is an opaque probe. */
module BatchGreedy {
  import opened Outcomes
  import opened FilePath
  import opened Constants
  import opened Seqs

  /** The page-count probe, applied to the document's full path. */
  type Probe = string -> Result<nat>

  function Pages(probe: Probe, pdfDir: string, name: string): nat {
    match probe(Join(pdfDir, name))
    case Success(n) => n
    case Failure(_) => 0
  }

  /** The page total of a batch. */
  function Weight(probe: Probe, pdfDir: string, batch: seq<string>): nat
    decreases |batch|
  {
    if |batch| == 0 then 0
    else Weight(probe, pdfDir, batch[..|batch| - 1]) + Pages(probe, pdfDir, batch[|batch| - 1])
  }

  lemma WeightSnoc(probe: Probe, pdfDir: string, batch: seq<string>, name: string)
    ensures Weight(probe, pdfDir, batch + [name]) == Weight(probe, pdfDir, batch) + Pages(probe, pdfDir, name)
  {
    assert (batch + [name])[..|batch|] == batch;
  }

  /** What the planner promises, stated without reference to how it loops:
      the batches put the entries back together in order; every batch of
      two or more documents fits the budget; no batch could have taken the
      next batch's first document; only the very first batch can be empty,
      and it is empty exactly when the first document alone is over the
      budget; the last batch is never empty. */
  predicate GreedyPlan(probe: Probe, pdfDir: string, entries: seq<string>, bs: seq<seq<string>>) {
    && Flatten(bs) == entries
    && (forall k :: 0 <= k < |bs| && |bs[k]| >= 2 ==> Weight(probe, pdfDir, bs[k]) <= BatchSize)
    && (forall k :: 0 < k < |bs| ==> bs[k] != [])
    && (forall k :: 0 <= k < |bs| - 1 && bs[k + 1] != [] ==>
          Weight(probe, pdfDir, bs[k]) + Pages(probe, pdfDir, bs[k + 1][0]) > BatchSize)
    && ((|bs| > 0 && bs[0] == []) <==> (|entries| > 0 && Pages(probe, pdfDir, entries[0]) > BatchSize))
    && (|bs| > 0 ==> bs[|bs| - 1] != [])
  }

  predicate ProbeOk(probe: Probe, pdfDir: string, name: string) {
    probe(Join(pdfDir, name)).Success?
  }

  /** The loop state of the planner after the first `i` entries (the closed
      batches, the open batch and its page total), in four parts. */
  predicate Planned(probe: Probe, pdfDir: string, entries: seq<string>, i: nat,
                    batches: seq<seq<string>>, current: seq<string>, count: nat)
  {
    && Covers(probe, pdfDir, entries, i, batches, current)
    && Budgeted(probe, pdfDir, batches, current, count)
    && Shaped(probe, pdfDir, entries, i, batches, current)
    && Maximal(probe, pdfDir, batches, current)
  }

  /** The entries seen so far, all probed, are the batches followed by the open one. */
  predicate Covers(probe: Probe, pdfDir: string, entries: seq<string>, i: nat,
                   batches: seq<seq<string>>, current: seq<string>)
  {
    && i <= |entries|
    && (forall j :: 0 <= j < i ==> ProbeOk(probe, pdfDir, entries[j]))
    && Flatten(batches) + current == entries[..i]
  }

  predicate Budgeted(probe: Probe, pdfDir: string, batches: seq<seq<string>>, current: seq<string>, count: nat) {
    && count == Weight(probe, pdfDir, current)
    && (|current| >= 2 ==> count <= BatchSize)
    && (forall k :: 0 <= k < |batches| && |batches[k]| >= 2 ==> Weight(probe, pdfDir, batches[k]) <= BatchSize)
  }

  predicate Shaped(probe: Probe, pdfDir: string, entries: seq<string>, i: nat,
                   batches: seq<seq<string>>, current: seq<string>)
    requires i <= |entries|
  {
    && (forall k :: 0 < k < |batches| ==> batches[k] != [])
    && (i > 0 ==> current != [])
    && (i == 0 ==> batches == [] && current == [])
    && ((|batches| > 0 && batches[0] == []) <==> (i > 0 && Pages(probe, pdfDir, entries[0]) > BatchSize))
  }

  predicate Maximal(probe: Probe, pdfDir: string, batches: seq<seq<string>>, current: seq<string>) {
    && (forall k :: 0 <= k < |batches| - 1 && batches[k + 1] != [] ==>
          Weight(probe, pdfDir, batches[k]) + Pages(probe, pdfDir, batches[k + 1][0]) > BatchSize)
    && (|batches| > 0 && current != [] ==>
          Weight(probe, pdfDir, batches[|batches| - 1]) + Pages(probe, pdfDir, current[0]) > BatchSize)
  }

  /** Closing the open batch and opening one with the next document keeps
      the entries seen so far in order. */
  lemma FlushCovers(probe: Probe, pdfDir: string, entries: seq<string>, i: nat,
                    batches: seq<seq<string>>, current: seq<string>)
    requires i < |entries| && ProbeOk(probe, pdfDir, entries[i])
    requires Covers(probe, pdfDir, entries, i, batches, current)
    ensures Covers(probe, pdfDir, entries, i + 1, batches + [current], [entries[i]])
  {
    FlattenSnoc(batches, current);
    assert entries[..i + 1] == entries[..i] + [entries[i]];
  }

  lemma FlushBudget(probe: Probe, pdfDir: string, batches: seq<seq<string>>, current: seq<string>, count: nat, name: string)
    requires Budgeted(probe, pdfDir, batches, current, count)
    ensures Budgeted(probe, pdfDir, batches + [current], [name], Pages(probe, pdfDir, name))
  {
    WeightSnoc(probe, pdfDir, [], name);
    assert [] + [name] == [name];
    var bs := batches + [current];
    forall k | 0 <= k < |bs| && |bs[k]| >= 2 ensures Weight(probe, pdfDir, bs[k]) <= BatchSize {
      if k < |batches| { assert bs[k] == batches[k]; } else { assert bs[k] == current; }
    }
  }

  lemma FlushShape(probe: Probe, pdfDir: string, entries: seq<string>, i: nat,
                   batches: seq<seq<string>>, current: seq<string>)
    requires i < |entries|
    requires Shaped(probe, pdfDir, entries, i, batches, current)
    requires i == 0 ==> Pages(probe, pdfDir, entries[0]) > BatchSize
    ensures Shaped(probe, pdfDir, entries, i + 1, batches + [current], [entries[i]])
  {
    var bs := batches + [current];
    if i == 0 {
      assert bs == [[]];
    } else {
      assert bs[0] == (if |batches| > 0 then batches[0] else current);
      forall k | 0 < k < |bs| ensures bs[k] != [] {
        if k < |batches| { assert bs[k] == batches[k]; }
      }
    }
  }

  lemma FlushMaximal(probe: Probe, pdfDir: string, batches: seq<seq<string>>, current: seq<string>, count: nat, name: string)
    requires Maximal(probe, pdfDir, batches, current)
    requires count == Weight(probe, pdfDir, current)
    requires count + Pages(probe, pdfDir, name) > BatchSize
    ensures Maximal(probe, pdfDir, batches + [current], [name])
  {
    var bs := batches + [current];
    forall k | 0 <= k < |bs| - 1 && bs[k + 1] != []
      ensures Weight(probe, pdfDir, bs[k]) + Pages(probe, pdfDir, bs[k + 1][0]) > BatchSize
    {
      if k < |batches| - 1 {
        assert bs[k] == batches[k] && bs[k + 1] == batches[k + 1];
      } else {
        assert bs[k] == batches[|batches| - 1] && bs[k + 1] == current;
      }
    }
  }

  lemma AppendCovers(probe: Probe, pdfDir: string, entries: seq<string>, i: nat,
                     batches: seq<seq<string>>, current: seq<string>)
    requires i < |entries| && ProbeOk(probe, pdfDir, entries[i])
    requires Covers(probe, pdfDir, entries, i, batches, current)
    ensures Covers(probe, pdfDir, entries, i + 1, batches, current + [entries[i]])
  {
    assert entries[..i + 1] == entries[..i] + [entries[i]];
  }

  lemma AppendBudget(probe: Probe, pdfDir: string, batches: seq<seq<string>>, current: seq<string>, count: nat, name: string)
    requires Budgeted(probe, pdfDir, batches, current, count)
    requires count + Pages(probe, pdfDir, name) <= BatchSize
    ensures Budgeted(probe, pdfDir, batches, current + [name], count + Pages(probe, pdfDir, name))
  {
    WeightSnoc(probe, pdfDir, current, name);
  }

  lemma AppendShape(probe: Probe, pdfDir: string, entries: seq<string>, i: nat,
                    batches: seq<seq<string>>, current: seq<string>)
    requires i < |entries|
    requires Shaped(probe, pdfDir, entries, i, batches, current)
    requires i == 0 ==> Pages(probe, pdfDir, entries[0]) <= BatchSize
    ensures Shaped(probe, pdfDir, entries, i + 1, batches, current + [entries[i]])
  {
  }

  lemma AppendMaximal(probe: Probe, pdfDir: string, entries: seq<string>, i: nat,
                      batches: seq<seq<string>>, current: seq<string>)
    requires i < |entries|
    requires current == [] ==> batches == []
    requires Maximal(probe, pdfDir, batches, current)
    ensures Maximal(probe, pdfDir, batches, current + [entries[i]])
  {
    if current != [] {
      assert (current + [entries[i]])[0] == current[0];
    }
  }

  /** Closing the last open batch completes the plan. */
  lemma {:induction false} FinishPlan(probe: Probe, pdfDir: string, entries: seq<string>,
                                      batches: seq<seq<string>>, current: seq<string>, count: nat)
    requires Planned(probe, pdfDir, entries, |entries|, batches, current, count)
    ensures GreedyPlan(probe, pdfDir, entries, if |current| > 0 then batches + [current] else batches)
  {
    assert entries[..|entries|] == entries;
    if |current| > 0 {
      var bs := batches + [current];
      assert Flatten(bs) == entries by {
        FlattenSnoc(batches, current);
      }
      assert forall k :: 0 <= k < |bs| && |bs[k]| >= 2 ==> Weight(probe, pdfDir, bs[k]) <= BatchSize by {
        FlushBudget(probe, pdfDir, batches, current, count, current[0]);
      }
      CloseMaximal(probe, pdfDir, batches, current);
      CloseShape(probe, pdfDir, entries, batches, current);
    } else {
      assert |entries| == 0;
    }
  }

  /** Closing a non-empty open batch keeps every batch maximal. */
  lemma CloseMaximal(probe: Probe, pdfDir: string, batches: seq<seq<string>>, current: seq<string>)
    requires current != [] && Maximal(probe, pdfDir, batches, current)
    ensures var bs := batches + [current];
      forall k :: 0 <= k < |bs| - 1 && bs[k + 1] != [] ==>
        Weight(probe, pdfDir, bs[k]) + Pages(probe, pdfDir, bs[k + 1][0]) > BatchSize
  {
    var bs := batches + [current];
    forall k | 0 <= k < |bs| - 1 && bs[k + 1] != []
      ensures Weight(probe, pdfDir, bs[k]) + Pages(probe, pdfDir, bs[k + 1][0]) > BatchSize
    {
      if k < |batches| - 1 {
        assert bs[k] == batches[k] && bs[k + 1] == batches[k + 1];
      } else {
        assert bs[k] == batches[|batches| - 1] && bs[k + 1] == current;
      }
    }
  }

  /** Closing the open batch at the end leaves only the first batch
      possibly empty, and the last one not. */
  lemma CloseShape(probe: Probe, pdfDir: string, entries: seq<string>, batches: seq<seq<string>>, current: seq<string>)
    requires current != [] && Shaped(probe, pdfDir, entries, |entries|, batches, current)
    ensures var bs := batches + [current];
      && (forall k :: 0 < k < |bs| ==> bs[k] != [])
      && ((|bs| > 0 && bs[0] == []) <==> (|entries| > 0 && Pages(probe, pdfDir, entries[0]) > BatchSize))
      && bs[|bs| - 1] != []
  {
    var bs := batches + [current];
    forall k | 0 < k < |bs| ensures bs[k] != [] {
      if k < |batches| { assert bs[k] == batches[k]; }
    }
    assert |batches| > 0 ==> bs[0] == batches[0];
  }

  /** The planner's state: the closed batches, the open batch and its
      page total. */
  datatype PlanState = PlanState(batches: seq<seq<string>>, current: seq<string>, count: nat)

  /** One step of the planner: close the open batch and start a new one
      with the document when it does not fit, add it otherwise. */
  function Next(st: PlanState, name: string, pageCount: nat): PlanState {
    if st.count + pageCount > BatchSize then PlanState(st.batches + [st.current], [name], pageCount)
    else PlanState(st.batches, st.current + [name], st.count + pageCount)
  }

  /** The planner run from state `st` over the entries from `i` on, every
      probe taken to succeed. */
  function Run(probe: Probe, pdfDir: string, entries: seq<string>, st: PlanState, i: nat): PlanState
    requires i <= |entries|
    decreases |entries| - i
  {
    if i == |entries| then st
    else Run(probe, pdfDir, entries, Next(st, entries[i], Pages(probe, pdfDir, entries[i])), i + 1)
  }

  /** One step of the planner keeps the loop state's four parts. */
  lemma NextKeepsPlan(probe: Probe, pdfDir: string, entries: seq<string>, st: PlanState, i: nat)
    requires i < |entries| && ProbeOk(probe, pdfDir, entries[i])
    requires Planned(probe, pdfDir, entries, i, st.batches, st.current, st.count)
    ensures var next := Next(st, entries[i], Pages(probe, pdfDir, entries[i]));
      Planned(probe, pdfDir, entries, i + 1, next.batches, next.current, next.count)
  {
    var name := entries[i];
    if st.count + Pages(probe, pdfDir, name) > BatchSize {
      FlushCovers(probe, pdfDir, entries, i, st.batches, st.current);
      FlushBudget(probe, pdfDir, st.batches, st.current, st.count, name);
      FlushShape(probe, pdfDir, entries, i, st.batches, st.current);
      FlushMaximal(probe, pdfDir, st.batches, st.current, st.count, name);
    } else {
      AppendCovers(probe, pdfDir, entries, i, st.batches, st.current);
      AppendBudget(probe, pdfDir, st.batches, st.current, st.count, name);
      AppendShape(probe, pdfDir, entries, i, st.batches, st.current);
      AppendMaximal(probe, pdfDir, entries, i, st.batches, st.current);
    }
  }

  /** From a loop state that keeps the four parts, running to the end keeps
      them too. */
  lemma {:induction false} RunKeepsPlan(probe: Probe, pdfDir: string, entries: seq<string>, st: PlanState, i: nat,
                                        r: PlanState)
    requires i <= |entries| && r == Run(probe, pdfDir, entries, st, i)
    requires forall j :: 0 <= j < |entries| ==> ProbeOk(probe, pdfDir, entries[j])
    requires Planned(probe, pdfDir, entries, i, st.batches, st.current, st.count)
    ensures Planned(probe, pdfDir, entries, |entries|, r.batches, r.current, r.count)
    decreases |entries| - i
  {
    if i < |entries| {
      NextKeepsPlan(probe, pdfDir, entries, st, i);
      var next := Next(st, entries[i], Pages(probe, pdfDir, entries[i]));
      RunKeepsPlan(probe, pdfDir, entries, next, i + 1, r);
    }
  }

  lemma StartPlanned(probe: Probe, pdfDir: string, entries: seq<string>)
    ensures Planned(probe, pdfDir, entries, 0, [], [], 0)
  {
    assert entries[..0] == [];
  }

  /** The batches the planner returns when every probe succeeds: the closed
      batches and, when it holds anything, the open one. */
  function Plan(probe: Probe, pdfDir: string, entries: seq<string>): seq<seq<string>> {
    var st := Run(probe, pdfDir, entries, PlanState([], [], 0), 0);
    if |st.current| > 0 then st.batches + [st.current] else st.batches
  }

  /** The planner's batches are a greedy plan. */
  lemma PlanIsGreedy(probe: Probe, pdfDir: string, entries: seq<string>)
    requires forall j :: 0 <= j < |entries| ==> ProbeOk(probe, pdfDir, entries[j])
    ensures GreedyPlan(probe, pdfDir, entries, Plan(probe, pdfDir, entries))
  {
    StartPlanned(probe, pdfDir, entries);
    var st := Run(probe, pdfDir, entries, PlanState([], [], 0), 0);
    RunKeepsPlan(probe, pdfDir, entries, PlanState([], [], 0), 0, st);
    FinishPlan(probe, pdfDir, entries, st.batches, st.current, st.count);
  }

  /** `calculateBatches`: the first probe failure discards everything and is
      returned; otherwise the greedy plan. */
  method CalculateBatches(entries: seq<string>, pdfDir: string, probe: Probe)
    returns (r: Result<seq<seq<string>>>)
    ensures r.Success? <==> forall i :: 0 <= i < |entries| ==> ProbeOk(probe, pdfDir, entries[i])
    ensures r.Failure? ==>
      exists i :: 0 <= i < |entries| && probe(Join(pdfDir, entries[i])) == Failure(r.msg)
        && forall j :: 0 <= j < i ==> ProbeOk(probe, pdfDir, entries[j])
    ensures r.Success? ==> r.value == Plan(probe, pdfDir, entries)
    ensures entries == [] ==> r == Success([])
  {
    var batches: seq<seq<string>> := [];
    var current: seq<string> := [];
    var count: nat := 0;
    var i := 0;
    while i < |entries|
      invariant i <= |entries|
      invariant forall j :: 0 <= j < i ==> ProbeOk(probe, pdfDir, entries[j])
      invariant Run(probe, pdfDir, entries, PlanState(batches, current, count), i)
             == Run(probe, pdfDir, entries, PlanState([], [], 0), 0)
    {
      var name := entries[i];
      var probed := probe(Join(pdfDir, name));
      if probed.Failure? {
        return Failure(probed.msg);
      }
      var next := Next(PlanState(batches, current, count), name, probed.value);
      batches, current, count := next.batches, next.current, next.count;
      i := i + 1;
    }
    if |current| > 0 {
      batches := batches + [current];
    }
    return Success(batches);
  }
}

=== FILE: cli_image_ocr.dfy ===
/** The older text-extraction commands of the command-line program
    (`PngOcr` and `JpgOcr`): for every subdirectory of the image folder,
    list its images and map each image to the text file its OCR output
    would go to. The PNG command keeps one output folder per subdirectory
    under the OCR folder and runs the OCR engine on the first image of the
    first two subdirectories; the JPG command maps into the OCR folder
    itself and prints the mappings of the first ten subdirectories. The
    OCR engine is a parameter; what the commands print is not modelled
    beyond the mappings the JPG command prints. */
module CliImageOcr {
  import opened Outcomes
  import opened Strs
  import opened FilePath
  import opened FileSystem
  import opened ConfigTypes
  import Ocr

  const TextSuffix := ".txt"

  /** Which of the two commands' `ImageOcr` types is meant. */
  datatype Flavour = PngFlavour | JpgFlavour

  /** `ImageOcr`: one image subdirectory, its image paths and where each
      image's text goes. Only the PNG command's type has an output folder. */
  datatype ImageOcr =
    | PngImageOcr(imageFolder: string, ocrFolder: string, ocrOutputFolder: string,
                  imagePaths: seq<string>, outputMapping: map<string, string>)
    | JpgImageOcr(imageFolder: string, ocrFolder: string,
                  imagePaths: seq<string>, outputMapping: map<string, string>)

  /** How a command ends: it returns an error value (nil or not), or the
      program panics. */
  datatype CmdOutcome = Returned(status: Status) | Panicked(reason: string)

  /** `SetImagePaths`: the folder's listing, each entry joined under the
      folder, in listing order; a listing error is returned as is. */
  function SetImagePaths(fs: FS, imageFolder: string): (r: Result<seq<string>>)
    ensures r.Failure? <==> ReadDir(fs, imageFolder).Failure?
    ensures r.Failure? ==> r.msg == ReadDir(fs, imageFolder).msg
    ensures r.Success? ==> |r.value| == |fs[imageFolder].entries|
    ensures r.Success? ==> forall k :: 0 <= k < |r.value| ==> r.value[k] == Join(imageFolder, fs[imageFolder].entries[k])
  {
    match ReadDir(fs, imageFolder)
    case Failure(m) => Failure(m)
    case Success(entries) => Success(Ocr.ImagePaths(imageFolder, entries))
  }

  /** Entry names that `Join` keeps apart from the folder: non-empty and
      without a separator. */
  predicate PlainNames(names: seq<string>) {
    forall k :: 0 <= k < |names| ==> names[k] != [] && NoSep(names[k])
  }

  /** A folder written without a trailing separator. */
  predicate PlainFolder(d: string) {
    d != [] && d[|d| - 1] != Separator
  }

  /** For a plain folder of plainly named entries, every listed path splits
      back into the folder and the entry's name. */
  lemma ImagePathsSplitBack(fs: FS, imageFolder: string, k: nat)
    requires PlainFolder(imageFolder)
    requires SetImagePaths(fs, imageFolder).Success?
    requires PlainNames(fs[imageFolder].entries)
    requires k < |SetImagePaths(fs, imageFolder).value|
    ensures Dir(SetImagePaths(fs, imageFolder).value[k]) == imageFolder
    ensures Base(SetImagePaths(fs, imageFolder).value[k]) == fs[imageFolder].entries[k]
  {
    var name := fs[imageFolder].entries[k];
    DirOfJoin(imageFolder, name);
    BaseOfJoin(imageFolder, name);
  }

  /** `GetOcrOutputFolder`: "" when there are no images, otherwise the OCR
      folder joined with the name of the first image's directory. */
  function OcrOutputFolder(ocrFolder: string, imagePaths: seq<string>): (r: string)
    ensures imagePaths == [] ==> r == ""
    ensures imagePaths != [] && ocrFolder != [] ==> IsPrefix(ocrFolder, r) && |r| > |ocrFolder|
  {
    if imagePaths == [] then "" else Join(ocrFolder, Base(Dir(imagePaths[0])))
  }

  /** The PNG command's output folder for a listed subdirectory: the OCR
      folder joined with the subdirectory's own name, whichever image comes
      first; "" for an empty subdirectory. */
  lemma OutputFolderOfListing(fs: FS, imageFolder: string, ocrFolder: string)
    requires PlainFolder(imageFolder)
    requires SetImagePaths(fs, imageFolder).Success?
    requires PlainNames(fs[imageFolder].entries)
    ensures var paths := SetImagePaths(fs, imageFolder).value;
      OcrOutputFolder(ocrFolder, paths) == if paths == [] then "" else Join(ocrFolder, Base(imageFolder))
  {
    if SetImagePaths(fs, imageFolder).value != [] {
      ImagePathsSplitBack(fs, imageFolder, 0);
    }
  }

  /** A file name without its extension. */
  function StripExt(name: string): (r: string)
    ensures IsPrefix(r, name)
  {
    name[..|name| - |Ext(name)|]
  }

  /** The text file name of an image: its base name without the extension,
      followed by ".txt". */
  function TextFileName(imagePath: string): (r: string)
    ensures HasSuffix(r, TextSuffix)
    ensures TrimTrailingSeps(imagePath) != [] ==> NoSep(r)
  {
    var r := StripExt(Base(imagePath)) + TextSuffix;
    assert r[|r| - |TextSuffix|..] == TextSuffix;
    assert TrimTrailingSeps(imagePath) != [] ==> NoSep(r) by {
      if TrimTrailingSeps(imagePath) != [] {
        var b := Base(imagePath);
        TextSuffixPlain();
        NoSepConcat(b, []);
        NoSepConcat(StripExt(b), TextSuffix);
      }
    }
    r
  }

  lemma TextSuffixPlain()
    ensures NoSep(TextSuffix) && '.' in TextSuffix
  {
    assert TextSuffix == ['.', 't', 'x', 't'];
  }

  /** `stem.suffix` without its extension is `stem`. */
  lemma StripDotSuffix(stem: string, suffix: string)
    requires NoSep(suffix) && '.' !in suffix
    ensures StripExt(stem + "." + suffix) == stem
  {
    ExtOfDotSuffix(stem, suffix);
    var name := stem + "." + suffix;
    assert name[..|name| - |"." + suffix|] == stem;
  }

  /** A plain name without '.' has nothing to strip. */
  lemma StripNoDot(name: string)
    requires name != [] && NoSep(name) && '.' !in name
    ensures StripExt(name) == name
  {
    assert Join([], name) == name;
    ExtOfNameWithoutDot([], name);
    assert name[..|name|] == name;
  }

  /** `stem.suffix` is a plain name when both parts are. */
  lemma DottedPlain(stem: string, suffix: string)
    requires NoSep(stem) && NoSep(suffix)
    ensures NoSep(stem + "." + suffix) && stem + "." + suffix != []
  {
    NoSepConcat(stem, ".");
    NoSepConcat(stem + ".", suffix);
  }

  /** An image `stem.suffix` in any folder gets the text name `stem.txt`. */
  lemma TextFileNameOfImage(d: string, stem: string, suffix: string)
    requires NoSep(stem) && NoSep(suffix) && '.' !in suffix
    ensures TextFileName(Join(d, stem + "." + suffix)) == stem + TextSuffix
  {
    var name := stem + "." + suffix;
    DottedPlain(stem, suffix);
    assert Base(Join(d, name)) == name by {
      BaseOfJoin(d, name);
    }
    StripDotSuffix(stem, suffix);
  }

  /** An image whose name has no '.' gets its whole name followed by ".txt". */
  lemma TextFileNameWithoutExt(d: string, name: string)
    requires name != [] && NoSep(name) && '.' !in name
    ensures TextFileName(Join(d, name)) == name + TextSuffix
  {
    assert Base(Join(d, name)) == name by {
      BaseOfJoin(d, name);
    }
    StripNoDot(name);
  }

  /** `GetOcrOutputPaths`: the loop adding, image by image, the image's
      path mapped to its text file in `folder`. */
  function OutputPaths(folder: string, imagePaths: seq<string>): (m: map<string, string>)
    ensures m.Keys == set p | p in imagePaths
    ensures forall p :: p in m ==> m[p] == Join(folder, TextFileName(p))
    decreases |imagePaths|
  {
    if imagePaths == [] then map[]
    else
      var last := imagePaths[|imagePaths| - 1];
      var front := imagePaths[..|imagePaths| - 1];
      assert imagePaths == front + [last];
      OutputPaths(folder, front)[last := Join(folder, TextFileName(last))]
  }

  /** For a plain output folder, an image `stem.suffix` in the listing maps
      to `stem.txt` directly inside that folder. */
  lemma OutputOfImage(folder: string, imagePaths: seq<string>, d: string, stem: string, suffix: string)
    requires PlainFolder(folder)
    requires stem != [] && NoSep(stem) && NoSep(suffix) && '.' !in suffix
    requires Join(d, stem + "." + suffix) in imagePaths
    ensures var out := OutputPaths(folder, imagePaths)[Join(d, stem + "." + suffix)];
      Dir(out) == folder && Base(out) == stem + TextSuffix
  {
    TextFileNameOfImage(d, stem, suffix);
    TextSuffixPlain();
    NoSepConcat(stem, TextSuffix);
    DirOfJoin(folder, stem + TextSuffix);
    BaseOfJoin(folder, stem + TextSuffix);
  }

  /** `NewImageOcr` of either command: list the images, then (PNG only)
      choose the output folder, then map the images to their text files. */
  function NewImageOcr(fs: FS, flavour: Flavour, imageFolder: string, ocrFolder: string): (r: Result<ImageOcr>)
    ensures r.Failure? <==> ReadDir(fs, imageFolder).Failure?
    ensures r.Failure? ==> r.msg == ReadDir(fs, imageFolder).msg
    ensures r.Success? ==>
      r.value.imageFolder == imageFolder && r.value.ocrFolder == ocrFolder
      && r.value.imagePaths == SetImagePaths(fs, imageFolder).value
      && r.value.outputMapping.Keys == set p | p in r.value.imagePaths
      && (flavour == PngFlavour <==> r.value.PngImageOcr?)
    ensures r.Success? && flavour == PngFlavour ==>
      r.value.PngImageOcr? && r.value.ocrOutputFolder == OcrOutputFolder(ocrFolder, r.value.imagePaths)
  {
    match SetImagePaths(fs, imageFolder)
    case Failure(m) => Failure(m)
    case Success(paths) =>
      match flavour
      case PngFlavour =>
        var out := OcrOutputFolder(ocrFolder, paths);
        Success(PngImageOcr(imageFolder, ocrFolder, out, paths, OutputPaths(out, paths)))
      case JpgFlavour =>
        Success(JpgImageOcr(imageFolder, ocrFolder, paths, OutputPaths(ocrFolder, paths)))
  }

  /** Each image's text path: in the PNG command's output folder, or in
      the OCR folder itself for the JPG command. */
  lemma NewImageOcrMapping(fs: FS, flavour: Flavour, imageFolder: string, ocrFolder: string, p: string)
    requires NewImageOcr(fs, flavour, imageFolder, ocrFolder).Success?
    requires p in NewImageOcr(fs, flavour, imageFolder, ocrFolder).value.outputMapping
    ensures var o := NewImageOcr(fs, flavour, imageFolder, ocrFolder).value;
      o.outputMapping[p] == Join(if flavour == PngFlavour then o.ocrOutputFolder else ocrFolder, TextFileName(p))
  {
  }

  /** Every entry of a listed folder has its path among the listed ones. */
  lemma ListedPath(fs: FS, imageFolder: string, name: string)
    requires ReadDir(fs, imageFolder).Success? && name in fs[imageFolder].entries
    ensures Join(imageFolder, name) in SetImagePaths(fs, imageFolder).value
  {
    var es := fs[imageFolder].entries;
    var k :| 0 <= k < |es| && es[k] == name;
    assert SetImagePaths(fs, imageFolder).value[k] == Join(imageFolder, name);
  }

  /** A folder named after another folder, inside a plain folder, is plain. */
  lemma NamedFolderPlain(parent: string, d: string)
    requires PlainFolder(parent) && PlainFolder(d)
    ensures PlainFolder(Join(parent, Base(d)))
  {
    var b := Base(d);
    var folder := Join(parent, b);
    assert b != [] && NoSep(b);
    assert folder[|folder| - 1] == b[|b| - 1];
  }

  /** A listed subdirectory's PNG `ImageOcr`, field by field. */
  lemma PngImageOcrShape(fs: FS, imageFolder: string, ocrFolder: string)
    requires ReadDir(fs, imageFolder).Success?
    ensures var paths := SetImagePaths(fs, imageFolder).value;
      var out := OcrOutputFolder(ocrFolder, paths);
      NewImageOcr(fs, PngFlavour, imageFolder, ocrFolder)
        == Success(PngImageOcr(imageFolder, ocrFolder, out, paths, OutputPaths(out, paths)))
  {
  }

  /** The PNG command's mapping for a listed subdirectory sends each image
      `stem.suffix` to `stem.txt` in the folder named after the
      subdirectory under the OCR folder. */
  lemma PngMappingOfListing(fs: FS, imageFolder: string, ocrFolder: string, stem: string, suffix: string)
    requires PlainFolder(imageFolder) && PlainFolder(ocrFolder)
    requires ReadDir(fs, imageFolder).Success? && PlainNames(fs[imageFolder].entries)
    requires stem != [] && NoSep(stem) && NoSep(suffix) && '.' !in suffix
    requires stem + "." + suffix in fs[imageFolder].entries
    ensures var o := NewImageOcr(fs, PngFlavour, imageFolder, ocrFolder).value;
      var out := o.outputMapping[Join(imageFolder, stem + "." + suffix)];
      Dir(out) == Join(ocrFolder, Base(imageFolder)) && Base(out) == stem + TextSuffix
  {
    var paths := SetImagePaths(fs, imageFolder).value;
    var name := stem + "." + suffix;
    var folder := Join(ocrFolder, Base(imageFolder));
    ListedPath(fs, imageFolder, name);
    var out := OcrOutputFolder(ocrFolder, paths);
    assert out == folder by {
      OutputFolderOfListing(fs, imageFolder, ocrFolder);
    }
    assert NewImageOcr(fs, PngFlavour, imageFolder, ocrFolder).value.outputMapping == OutputPaths(out, paths) by {
      PngImageOcrShape(fs, imageFolder, ocrFolder);
    }
    NamedFolderPlain(ocrFolder, imageFolder);
    OutputOfImage(folder, paths, imageFolder, stem, suffix);
  }

  /** What `NewImageOcr` gives for each subdirectory of the image folder. */
  function Subdirs(fs: FS, flavour: Flavour, dirs: CommonDirs, entries: seq<string>): (rs: seq<Result<ImageOcr>>)
    ensures |rs| == |entries|
    ensures forall j :: 0 <= j < |entries| ==>
      rs[j] == NewImageOcr(fs, flavour, Join(dirs.imageFolder, entries[j]), dirs.ocrFolder)
  {
    seq(|entries|, j requires 0 <= j < |entries| =>
      NewImageOcr(fs, flavour, Join(dirs.imageFolder, entries[j]), dirs.ocrFolder))
  }

  /** The shared listing loop of both commands from position `k`: the
      values in order, or the first error, which ends the loop. */
  function CollectFrom<T>(rs: seq<Result<T>>, k: nat): (r: Result<seq<T>>)
    requires k <= |rs|
    ensures r.Success? ==> |r.value| == |rs| - k
    ensures r.Success? ==> forall j :: k <= j < |rs| ==> rs[j] == Success(r.value[j - k])
    ensures r.Failure? <==> exists j :: k <= j < |rs| && rs[j].Failure?
    decreases |rs| - k
  {
    if k == |rs| then Success([])
    else
      match rs[k]
      case Failure(m) => Failure(m)
      case Success(o) =>
        match CollectFrom(rs, k + 1)
        case Failure(m) => Failure(m)
        case Success(rest) => Success([o] + rest)
  }

  /** The error the listing loop ends with is that of the first failed
      position. */
  lemma {:induction false} CollectFirstError<T>(rs: seq<Result<T>>, k: nat, j: nat)
    requires k <= j < |rs| && rs[j].Failure?
    requires forall i :: k <= i < j ==> rs[i].Success?
    ensures CollectFrom(rs, k) == Failure(rs[j].msg)
    decreases j - k
  {
    if k < j {
      CollectFirstError(rs, k + 1, j);
    }
  }

  /** Both commands' listing of the image folder. */
  function ImageOcrs(fs: FS, flavour: Flavour, dirs: CommonDirs): (r: Result<seq<ImageOcr>>)
    ensures ReadDir(fs, dirs.imageFolder).Failure? ==> r == Failure(ReadDir(fs, dirs.imageFolder).msg)
    ensures r.Success? ==> |r.value| == |fs[dirs.imageFolder].entries|
  {
    match ReadDir(fs, dirs.imageFolder)
    case Failure(m) => Failure(m)
    case Success(entries) => CollectFrom(Subdirs(fs, flavour, dirs, entries), 0)
  }

  /** A listed image folder gives one `ImageOcr` per subdirectory, in
      order, exactly when every subdirectory can be listed. */
  lemma ImageOcrsOfListing(fs: FS, flavour: Flavour, dirs: CommonDirs)
    requires ReadDir(fs, dirs.imageFolder).Success?
    ensures var es := fs[dirs.imageFolder].entries;
      var r := ImageOcrs(fs, flavour, dirs);
      (r.Success? <==> forall j :: 0 <= j < |es| ==> ReadDir(fs, Join(dirs.imageFolder, es[j])).Success?)
      && (r.Success? ==> forall j :: 0 <= j < |es| ==>
            NewImageOcr(fs, flavour, Join(dirs.imageFolder, es[j]), dirs.ocrFolder) == Success(r.value[j]))
  {
    var es := fs[dirs.imageFolder].entries;
    var rs := Subdirs(fs, flavour, dirs, es);
    assert ImageOcrs(fs, flavour, dirs) == CollectFrom(rs, 0);
    forall j | 0 <= j < |es|
      ensures rs[j].Failure? <==> ReadDir(fs, Join(dirs.imageFolder, es[j])).Failure?
    {
      assert rs[j] == NewImageOcr(fs, flavour, Join(dirs.imageFolder, es[j]), dirs.ocrFolder);
    }
  }

  /** When a subdirectory cannot be listed and every one before it can, the
      listing ends with that subdirectory's error. */
  lemma ImageOcrsFirstError(fs: FS, flavour: Flavour, dirs: CommonDirs, j: nat)
    requires ReadDir(fs, dirs.imageFolder).Success?
    requires var es := fs[dirs.imageFolder].entries;
      j < |es| && ReadDir(fs, Join(dirs.imageFolder, es[j])).Failure?
      && forall i :: 0 <= i < j ==> ReadDir(fs, Join(dirs.imageFolder, es[i])).Success?
    ensures ImageOcrs(fs, flavour, dirs) == Failure(ReadDir(fs, Join(dirs.imageFolder, fs[dirs.imageFolder].entries[j])).msg)
  {
    var es := fs[dirs.imageFolder].entries;
    var rs := Subdirs(fs, flavour, dirs, es);
    assert ImageOcrs(fs, flavour, dirs) == CollectFrom(rs, 0);
    assert rs[j].msg == ReadDir(fs, Join(dirs.imageFolder, es[j])).msg;
    assert forall i :: 0 <= i < j ==> rs[i].Success?;
    CollectFirstError(rs, 0, j);
  }

  /** The capacity of a slice of pointers grown by appending `n` elements
      one at a time to an empty one: the least power of two that is at
      least `n`. Go doubles the capacity only below 256 elements; beyond,
      the commands slice at most ten, below any length that large, so only
      the capacity's being at least the length matters there. */
  function AppendedCap(n: nat): (c: nat)
    ensures n <= c && (n <= 1 ==> c == n)
    ensures n >= 2 ==> c < 2 * n
  {
    if n <= 1 then n else 2 * AppendedCap((n + 1) / 2)
  }

  /** `s[:k]` on a slice grown by appending: a panic when `k` exceeds the
      capacity, otherwise `k` slots where those past the length hold nil
      pointers. */
  function SliceTo(s: seq<ImageOcr>, k: nat): (r: Result<seq<Option<ImageOcr>>>)
    ensures r.Failure? <==> k > AppendedCap(|s|)
    ensures r.Success? ==> |r.value| == k
    ensures r.Success? ==> forall j :: 0 <= j < k && j < |s| ==> r.value[j] == Some(s[j])
    ensures r.Success? ==> forall j :: |s| <= j < k ==> r.value[j] == None
  {
    if k > AppendedCap(|s|) then Failure("slice bounds out of range")
    else Success(seq(k, j requires 0 <= j < k => if j < |s| then Some(s[j]) else None))
  }

  /** Which of a PNG command's `ImageOcr`s it takes. */
  const PngTaken: nat := 2

  /** Which of a JPG command's `ImageOcr`s it takes. */
  const JpgTaken: nat := 10

  const NilDereference := "invalid memory address or nil pointer dereference"

  const IndexOutOfRange := "index out of range"

  /** The OCR engine of the PNG command: for an image, the error of setting
      the image or of closing the client (the first one met), or none; the
      extracted text is only printed. */
  type Engine = string -> Status

  /** A Go map read: the zero value "" for a missing key. */
  function MapGet(m: map<string, string>, k: string): (v: string)
    ensures k in m ==> v == m[k]
    ensures k !in m ==> v == ""
  {
    if k in m then m[k] else ""
  }

  /** The PNG command's OCR loop over the taken `ImageOcr`s: each one's
      first image and its text path are printed, then the engine runs on
      that image; the first engine error is returned. The printed pairs are
      returned alongside. */
  function RunPng(taken: seq<Option<ImageOcr>>, engine: Engine): (r: (CmdOutcome, seq<(string, string)>))
    ensures r.0 == Returned(Ok) ==> |r.1| == |taken|
    ensures |r.1| <= |taken|
    ensures forall j :: 0 <= j < |r.1| ==>
      taken[j].Some? && taken[j].value.imagePaths != [] && r.1[j].0 == taken[j].value.imagePaths[0]
    decreases |taken|
  {
    if taken == [] then (Returned(Ok), [])
    else match taken[0]
      case None => (Panicked(NilDereference), [])
      case Some(o) =>
        if o.imagePaths == [] then (Panicked(IndexOutOfRange), [])
        else
          var input := o.imagePaths[0];
          var output := MapGet(o.outputMapping, input);
          match engine(input)
          case Err(m) => (Returned(Err(m)), [(input, output)])
          case Ok =>
            var (rest, printed) := RunPng(taken[1..], engine);
            (rest, [(input, output)] + printed)
  }

  /** `PngOcr`: list every subdirectory, take the first two, and run the
      engine on each one's first image. */
  function PngOcrCmd(fs: FS, dirs: CommonDirs, engine: Engine): (r: (CmdOutcome, seq<(string, string)>))
    ensures ImageOcrs(fs, PngFlavour, dirs).Failure? ==> r == (Returned(Err(ImageOcrs(fs, PngFlavour, dirs).msg)), [])
  {
    match ImageOcrs(fs, PngFlavour, dirs)
    case Failure(m) => (Returned(Err(m)), [])
    case Success(ocrs) => PngRun(ocrs, engine)
  }

  /** The PNG command after listing: take the first two, then run. */
  function PngRun(ocrs: seq<ImageOcr>, engine: Engine): (r: (CmdOutcome, seq<(string, string)>))
  {
    match SliceTo(ocrs, PngTaken)
    case Failure(m) => (Panicked(m), [])
    case Success(taken) => RunPng(taken, engine)
  }

  /** After listing, the PNG command panics on fewer than two subdirectories;
      otherwise, when both taken subdirectories hold images and the engine
      succeeds on both first images, it returns nil having printed, for
      each of them, the first image and the text path its mapping gives. */
  lemma PngRunOutcome(ocrs: seq<ImageOcr>, engine: Engine)
    ensures var r := PngRun(ocrs, engine);
      (|ocrs| < PngTaken ==> r.0.Panicked?)
      && (|ocrs| >= PngTaken && ocrs[0].imagePaths != [] && ocrs[1].imagePaths != []
          && engine(ocrs[0].imagePaths[0]) == Ok && engine(ocrs[1].imagePaths[0]) == Ok ==>
            r.0 == Returned(Ok)
            && r.1 == [(ocrs[0].imagePaths[0], MapGet(ocrs[0].outputMapping, ocrs[0].imagePaths[0])),
                       (ocrs[1].imagePaths[0], MapGet(ocrs[1].outputMapping, ocrs[1].imagePaths[0]))])
  {
    if |ocrs| >= PngTaken && ocrs[0].imagePaths != [] && ocrs[1].imagePaths != []
       && engine(ocrs[0].imagePaths[0]) == Ok && engine(ocrs[1].imagePaths[0]) == Ok {
      var taken := SliceTo(ocrs, PngTaken).value;
      assert taken[0] == Some(ocrs[0]) && taken[1] == Some(ocrs[1]);
      assert taken[1..][0] == Some(ocrs[1]);
      assert taken[1..][1..] == [];
      var i0, i1 := ocrs[0].imagePaths[0], ocrs[1].imagePaths[0];
      var p0, p1 := (i0, MapGet(ocrs[0].outputMapping, i0)), (i1, MapGet(ocrs[1].outputMapping, i1));
      assert taken[1..] == [Some(ocrs[1])];
      assert [Some(ocrs[1])][1..] == [];
      assert RunPng([], engine) == (Returned(Ok), []);
      var o1 := taken[1..][0].value;
      assert o1 == ocrs[1] && o1.imagePaths != [];
      assert engine(o1.imagePaths[0]) == Ok;
      assert RunPng(taken[1..], engine).0 == Returned(Ok);
      assert RunPng(taken[1..], engine).1 == [p1];
      assert taken[0].value == ocrs[0] && engine(taken[0].value.imagePaths[0]) == Ok;
      assert RunPng(taken, engine).0 == Returned(Ok);
      assert RunPng(taken, engine).1 == [p0] + [p1];
      assert PngRun(ocrs, engine) == RunPng(taken, engine);
    }
  }

  /** The JPG command's printing loop: each taken `ImageOcr`'s mapping is
      printed; a nil slot panics. */
  function RunJpg(taken: seq<Option<ImageOcr>>): (r: (CmdOutcome, seq<map<string, string>>))
    ensures r.0 == Returned(Ok) <==> forall j :: 0 <= j < |taken| ==> taken[j].Some?
    ensures r.0 == Returned(Ok) ==> |r.1| == |taken|
    ensures |r.1| <= |taken|
    ensures forall j :: 0 <= j < |r.1| ==> taken[j].Some? && r.1[j] == taken[j].value.outputMapping
    decreases |taken|
  {
    if taken == [] then (Returned(Ok), [])
    else match taken[0]
      case None => (Panicked(NilDereference), [])
      case Some(o) =>
        var (rest, printed) := RunJpg(taken[1..]);
        assert forall j :: 1 <= j < |taken| ==> taken[j] == taken[1..][j - 1];
        (rest, [o.outputMapping] + printed)
  }

  /** `JpgOcr`: list every subdirectory, take the first ten, and print
      their mappings. */
  function JpgOcrCmd(fs: FS, dirs: CommonDirs): (r: (CmdOutcome, seq<map<string, string>>))
    ensures ImageOcrs(fs, JpgFlavour, dirs).Failure? ==> r == (Returned(Err(ImageOcrs(fs, JpgFlavour, dirs).msg)), [])
  {
    match ImageOcrs(fs, JpgFlavour, dirs)
    case Failure(m) => (Returned(Err(m)), [])
    case Success(ocrs) => JpgRun(ocrs)
  }

  /** The JPG command after listing: take the first ten, then print. */
  function JpgRun(ocrs: seq<ImageOcr>): (r: (CmdOutcome, seq<map<string, string>>))
  {
    match SliceTo(ocrs, JpgTaken)
    case Failure(m) => (Panicked(m), [])
    case Success(taken) => RunJpg(taken)
  }

  /** After listing, the JPG command returns nil exactly when there are at
      least ten subdirectories, and then it has printed the first ten
      mappings in order. With nine it prints all nine before the nil slot
      panics; with fewer the slice expression itself panics. */
  lemma JpgRunOutcome(ocrs: seq<ImageOcr>)
    ensures var r := JpgRun(ocrs);
      (r.0 == Returned(Ok) <==> |ocrs| >= JpgTaken)
      && (|ocrs| >= JpgTaken ==> |r.1| == JpgTaken && forall j :: 0 <= j < JpgTaken ==> r.1[j] == ocrs[j].outputMapping)
      && (|ocrs| == JpgTaken - 1 ==> r.0.Panicked? && |r.1| == |ocrs|)
      && (|ocrs| < JpgTaken - 1 ==> r.0.Panicked? && r.1 == [])
  {
    if |ocrs| == JpgTaken - 1 {
      assert AppendedCap(9) == 16 by {
        assert AppendedCap(5) == 8 by {
          assert AppendedCap(3) == 4;
        }
      }
      var taken := SliceTo(ocrs, JpgTaken).value;
      RunJpgNilAt(taken, 9);
    } else if |ocrs| < JpgTaken - 1 {
      AppendedCapSmall(|ocrs|);
    } else {
      var taken := SliceTo(ocrs, JpgTaken).value;
      assert forall j :: 0 <= j < |taken| ==> taken[j].Some?;
    }
  }

  /** Fewer than nine appended pointers leave a capacity below ten. */
  lemma AppendedCapSmall(n: nat)
    requires n < 9
    ensures AppendedCap(n) < 10
  {
    if n >= 2 {
      assert AppendedCap(n) == 2 * AppendedCap((n + 1) / 2);
      if n >= 5 {
        assert AppendedCap((n + 1) / 2) == 2 * AppendedCap((n + 3) / 4);
        assert AppendedCap((n + 3) / 4) <= 2;
      }
    }
  }

  /** The printing loop stops exactly at its first nil slot, having
      printed every mapping before it. */
  lemma {:induction false} RunJpgNilAt(taken: seq<Option<ImageOcr>>, k: nat)
    requires k < |taken| && taken[k] == None
    requires forall j :: 0 <= j < k ==> taken[j].Some?
    ensures RunJpg(taken).0 == Panicked(NilDereference) && |RunJpg(taken).1| == k
    decreases k
  {
    if k > 0 {
      RunJpgNilAt(taken[1..], k - 1);
    }
  }
}

=== FILE: cli_pdf_to_jpg.dfy ===
/** The JPEG conversion command of the command-line tool (`PdfToJpg`): one
    document after the other, in listing order. Every page is rendered
    first; then, inside the page loop, the document's image directory is
    looked up, and the page is skipped when it exists. Since writing page 0
    creates the directory, at most one page per document is written. The
    first error of any kind ends the whole command. */
module CliPdfToJpg {
  import opened Outcomes
  import opened Strs
  import opened FilePath
  import opened FileSystem
  import opened Naming
  import opened ConfigTypes

  const JpgExtension := ".jpg"

  /** The entry name up to its first ".pdf" (no `Base` here). */
  function BaseName(entryName: string): (base: string)
    ensures IsPrefix(base, entryName)
    ensures !Contains(base, PdfSuffix)
    ensures Contains(entryName, PdfSuffix) ==> OccursAt(entryName, PdfSuffix, |base|)
    ensures !Contains(entryName, PdfSuffix) ==> base == entryName
  {
    var base := BeforeFirst(entryName, PdfSuffix);
    assert forall j :: 0 <= j <= |base| ==> !OccursAt(base, PdfSuffix, j) by {
      forall j | 0 <= j <= |base| ensures !OccursAt(base, PdfSuffix, j) {
        if j + |PdfSuffix| <= |base| {
          assert base[j..j + |PdfSuffix|] == entryName[j..j + |PdfSuffix|];
          assert !OccursAt(entryName, PdfSuffix, j);
        }
      }
    }
    base
  }

  function ImageDir(dirs: CommonDirs, entryName: string): string {
    Join(dirs.imageFolder, BaseName(entryName))
  }

  /** The file of page `n`: `{base}-{n}.jpg` inside the image directory. */
  function PagePath(dir: string, base: string, n: int): string {
    Join(dir, PageImageName(base, n, JpgExtension))
  }

  /** The page loop of one document from page `n`. A stat error on the
      image directory is not "does not exist", so it too counts as present
      and skips the page. */
  function WritePages(fs: FS, dir: string, base: string, pages: seq<PageRender>, n: nat): (r: (Status, FS))
    requires n <= |pages|
    ensures r.0.Ok? ==> forall k :: n <= k < |pages| ==> pages[k].Rendered?
    decreases |pages| - n
  {
    if n == |pages| then (Ok, fs)
    else match pages[n]
      case RenderFailed(m) => (Err(m), fs)
      case Rendered(img) =>
        if dir in fs then WritePages(fs, dir, base, pages, n + 1)
        else
          var (st, fs1) := EnsureDir(fs, dir);
          if st.Err? then (st, fs1)
          else match CreateFile(fs1, PagePath(dir, base, n), Image(Jpeg, img))
            case Failure(m) => (Err(m), fs1)
            case Success(fs2) => WritePages(fs2, dir, base, pages, n + 1)
  }

  /** With the image directory present, nothing is written, yet every page
      is still rendered: the loop fails exactly at the first page that does
      not render. */
  lemma {:induction false} WritePagesSkipsExisting(fs: FS, dir: string, base: string, pages: seq<PageRender>, n: nat)
    requires n <= |pages| && dir in fs
    ensures WritePages(fs, dir, base, pages, n).1 == fs
    ensures WritePages(fs, dir, base, pages, n).0.Ok? <==> forall k :: n <= k < |pages| ==> pages[k].Rendered?
    ensures forall k :: n <= k < |pages| && pages[k].RenderFailed? && (forall j :: n <= j < k ==> pages[j].Rendered?) ==>
      WritePages(fs, dir, base, pages, n).0 == Err(pages[k].msg)
    decreases |pages| - n
  {
    if n < |pages| {
      WritePagesSkipsExisting(fs, dir, base, pages, n + 1);
    }
  }

  /** Whatever the pages, the loop changes at most the image directory
      and the file of page `n`: later pages find the directory and are
      skipped. */
  lemma {:induction false} WritePagesAtMostOnePage(fs: FS, dir: string, base: string, pages: seq<PageRender>, n: nat)
    requires n <= |pages|
    ensures forall q :: q != dir && q != PagePath(dir, base, n) ==>
      (q in WritePages(fs, dir, base, pages, n).1 <==> q in fs)
      && (q in fs ==> WritePages(fs, dir, base, pages, n).1[q] == fs[q])
  {
    var r := WritePages(fs, dir, base, pages, n);
    if n < |pages| && pages[n].Rendered? {
      if dir in fs {
        WritePagesSkipsExisting(fs, dir, base, pages, n + 1);
      } else {
        var fs1 := fs[dir := Directory([])];
        assert EnsureDir(fs, dir) == (Ok, fs1);
        var p := PagePath(dir, base, n);
        match CreateFile(fs1, p, Image(Jpeg, pages[n].raster))
        case Failure(m) =>
        case Success(fs2) =>
          assert fs2 == fs1[p := File(Image(Jpeg, pages[n].raster))];
          assert p != dir;
          assert dir in fs2;
          WritePagesSkipsExisting(fs2, dir, base, pages, n + 1);
          assert r.1 == fs2;
      }
    }
  }

  /** A document without an image directory whose page `n` renders and
      whose page file is free: the directory is created and exactly that
      page's file is written, as JPEG; the outcome is that of rendering
      the remaining pages. */
  lemma WritePagesFirstPage(fs: FS, dir: string, base: string, pages: seq<PageRender>, n: nat)
    requires n < |pages| && pages[n].Rendered?
    requires dir != [] && dir[|dir| - 1] != Separator && dir !in fs
    requires NoSep(base) && PagePath(dir, base, n) !in fs
    ensures WritePages(fs, dir, base, pages, n).1
      == fs[dir := Directory([])][PagePath(dir, base, n) := File(Image(Jpeg, pages[n].raster))]
    ensures WritePages(fs, dir, base, pages, n).0.Ok? <==> forall k :: n < k < |pages| ==> pages[k].Rendered?
  {
    var p := PagePath(dir, base, n);
    var fs1 := fs[dir := Directory([])];
    PagePathInDir(dir, base, n);
    assert EnsureDir(fs, dir) == (Ok, fs1);
    var fs2 := fs1[p := File(Image(Jpeg, pages[n].raster))];
    assert CreateFile(fs1, p, Image(Jpeg, pages[n].raster)) == Success(fs2);
    WritePagesSkipsExisting(fs2, dir, base, pages, n + 1);
  }

  /** A page file lies directly inside the image directory. */
  lemma PagePathInDir(dir: string, base: string, n: int)
    requires dir != [] && dir[|dir| - 1] != Separator && NoSep(base)
    ensures Dir(PagePath(dir, base, n)) == dir && PagePath(dir, base, n) != dir
  {
    assert NoSep(JpgExtension) by {
      assert JpgExtension == ['.', 'j', 'p', 'g'];
    }
    PageImageNameNoSep(base, n, JpgExtension);
    DirOfJoin(dir, PageImageName(base, n, JpgExtension));
  }

  /** The document loop from entry `i`: open, then the page loop; the first
      error ends the command. */
  function ConvertEntries(fs: FS, dirs: CommonDirs, entries: seq<string>, i: nat): (r: (Status, FS))
    requires i <= |entries|
    decreases |entries| - i
  {
    if i == |entries| then (Ok, fs)
    else match OpenPdf(fs, Join(dirs.disclosuresFolder, entries[i]))
      case Failure(m) => (Err(m), fs)
      case Success(pages) =>
        var (st, fs1) := WritePages(fs, ImageDir(dirs, entries[i]), BaseName(entries[i]), pages, 0);
        if st.Err? then (st, fs1)
        else ConvertEntries(fs1, dirs, entries, i + 1)
  }

  /** Once the entries up to `k` end in an error, the entries after `k` make
      no difference: the command returns as soon as the error occurs. */
  lemma {:induction false} ConvertEntriesStopsAtError(fs: FS, dirs: CommonDirs, entries: seq<string>, i: nat, k: nat)
    requires i <= k < |entries|
    requires ConvertEntries(fs, dirs, entries[..k + 1], i).0.Err?
    ensures ConvertEntries(fs, dirs, entries, i) == ConvertEntries(fs, dirs, entries[..k + 1], i)
    decreases k - i
  {
    var pre := entries[..k + 1];
    assert pre[i] == entries[i];
    match OpenPdf(fs, Join(dirs.disclosuresFolder, entries[i]))
    case Failure(m) =>
    case Success(pages) =>
      var (st, fs1) := WritePages(fs, ImageDir(dirs, entries[i]), BaseName(entries[i]), pages, 0);
      if st.Ok? && i < k {
        ConvertEntriesStopsAtError(fs1, dirs, entries, i + 1, k);
      }
  }

  /** `PdfToJpg`: list the disclosures folder, then convert every entry. */
  function PdfToJpg(fs: FS, dirs: CommonDirs): (r: (Status, FS))
    ensures ReadDir(fs, dirs.disclosuresFolder).Failure? ==> r == (Err(ReadDir(fs, dirs.disclosuresFolder).msg), fs)
  {
    match ReadDir(fs, dirs.disclosuresFolder)
    case Failure(m) => (Err(m), fs)
    case Success(entries) => ConvertEntries(fs, dirs, entries, 0)
  }

  /** A listing whose documents all open, all render and all have their
      image directory already: the command returns nil and writes
      nothing. */
  lemma {:induction false} ConvertEntriesSkipsConverted(fs: FS, dirs: CommonDirs, entries: seq<string>, i: nat)
    requires i <= |entries|
    requires forall j :: i <= j < |entries| ==>
      ImageDir(dirs, entries[j]) in fs
      && OpenPdf(fs, Join(dirs.disclosuresFolder, entries[j])).Success?
      && forall k :: 0 <= k < |OpenPdf(fs, Join(dirs.disclosuresFolder, entries[j])).value| ==>
           OpenPdf(fs, Join(dirs.disclosuresFolder, entries[j])).value[k].Rendered?
    ensures ConvertEntries(fs, dirs, entries, i) == (Ok, fs)
    decreases |entries| - i
  {
    if i < |entries| {
      var pages := OpenPdf(fs, Join(dirs.disclosuresFolder, entries[i])).value;
      WritePagesSkipsExisting(fs, ImageDir(dirs, entries[i]), BaseName(entries[i]), pages, 0);
      ConvertEntriesSkipsConverted(fs, dirs, entries, i + 1);
    }
  }
}

=== FILE: cli_pdf_to_png.dfy ===
/** The older conversion command of the command-line tool: the same
    converter as `PdfToPng`, with the image extension fixed to ".png". */
module CliPdfToPng {
  import opened Outcomes
  import opened Strs
  import opened FilePath
  import opened FileSystem
  import opened ConfigTypes
  import PdfToPng
  import Aggregation
  import Constants

  const PngExtension := ".png"

  /** `GetImageName`: `{base}-{n}.png`. */
  function GetImageName(c: PdfToPng.PdfConverter, pageNumber: int): (name: string)
    ensures name == c.baseFileName + "-" + Itoa(pageNumber) + PngExtension
  {
    PdfToPng.GetImageName(c, pageNumber, PngExtension)
  }

  /** `ConvertIfNotPresent` with PNG file names. */
  function ConvertIfNotPresent(fs: FS, c: PdfToPng.PdfConverter): (r: (Status, FS))
    requires c.imageDir != []
    ensures PdfToPng.ImageDirExists(fs, c) == Success(true) ==> r == (Ok, fs)
    ensures PdfToPng.ImageDirExists(fs, c).Failure? ==> r == (Err(fs[c.imageDir].msg), fs)
    ensures PdfToPng.ImageDirExists(fs, c) == Success(false) ==> c.imageDir in r.1 && r.1[c.imageDir] == Directory([])
  {
    PdfToPng.ConvertIfNotPresent(fs, c, PngExtension)
  }

  /** A document whose image directory is missing, whose pages all render
      and whose page paths are free gets page `n` as `{base}-{n}.png`. */
  lemma ConvertWritesEveryPage(fs: FS, c: PdfToPng.PdfConverter, pages: seq<PageRender>)
    requires c.imageDir != [] && c.imageDir[|c.imageDir| - 1] != Separator && c.imageDir !in fs
    requires c.pdfPath != c.imageDir && OpenPdf(fs, c.pdfPath) == Success(pages)
    requires NoSep(c.baseFileName)
    requires forall k :: 0 <= k < |pages| ==> pages[k].Rendered? && Join(c.imageDir, GetImageName(c, k)) !in fs
    ensures ConvertIfNotPresent(fs, c).0 == Ok
    ensures forall k :: 0 <= k < |pages| ==>
      Join(c.imageDir, GetImageName(c, k)) in ConvertIfNotPresent(fs, c).1
      && ConvertIfNotPresent(fs, c).1[Join(c.imageDir, GetImageName(c, k))] == File(Image(Png, pages[k].raster))
  {
    assert NoSep(PngExtension) by {
      assert PngExtension == ['.', 'p', 'n', 'g'];
    }
    assert forall k :: 0 <= k < |pages| ==> PdfToPng.PagePath(c, k, PngExtension) == Join(c.imageDir, GetImageName(c, k));
    PdfToPng.ConvertIfNotPresentWritesEveryPage(fs, c, PngExtension, pages);
  }

  /** `PdfToPng` of the command-line tool: a listing error is returned as
      is; otherwise the error is non-nil exactly when some conversion
      failed, with the failures' messages joined in order. */
  function PdfToPngCmd(fs: FS, dirs: CommonDirs): (r: (Status, FS))
    ensures ReadDir(fs, dirs.disclosuresFolder).Failure? ==> r == (Err(ReadDir(fs, dirs.disclosuresFolder).msg), fs)
    ensures ReadDir(fs, dirs.disclosuresFolder).Success? ==>
      var cs := PdfToPng.Converters(ReadDir(fs, dirs.disclosuresFolder).value, dirs);
      var outcomes := PdfToPng.RunAll(fs, cs, PngExtension).0;
      (r.0.Err? <==> Aggregation.SomeFailed(outcomes))
      && (r.0.Err? ==> r.0.msg == Aggregation.ErrorText(outcomes))
  {
    PdfToPng.PdfToPngCmd(fs, dirs, false)
  }

  /** The same token leak as in the newer command: a run in which `MaxJobs`
      conversions fail before the last dispatch never returns normally in
      the source (it blocks, or the runtime aborts on deadlock), and the
      model reports it as failed. */
  lemma BlockedRunFails(fs: FS, dirs: CommonDirs)
    requires ReadDir(fs, dirs.disclosuresFolder).Success?
    ensures var cs := PdfToPng.Converters(ReadDir(fs, dirs.disclosuresFolder).value, dirs);
      var outcomes := PdfToPng.RunAll(fs, cs, PngExtension).0;
      Aggregation.PoolBlocks(outcomes, Constants.MaxJobs) ==> PdfToPngCmd(fs, dirs).0.Err?
  {
    PdfToPng.BlockedRunFails(fs, dirs, false);
  }
}

=== FILE: common_config.dfy ===
/** The first version of the configuration code (`config/commonConfig.go`):
    the folder set from the command line, from defaults or from the
    configuration file; creating its folders; the S3 profile from the
    command line or from the configuration file; building and updating the
    configuration store. The home directory, the configuration files on disk
    and the outcome of writing them are parameters. */
module CommonConfig {
  import opened Outcomes
  import opened Strs
  import opened FilePath
  import opened FileSystem
  import opened Constants
  import opened ConfigTypes
  import opened Viper
  import opened FolderBuilder
  import opened S3Profiles

  /** The configuration file of a base folder. */
  function ConfigPath(baseFolder: string): string {
    Join(baseFolder, ConfigFileName)
  }

  // Key suffixes, appended to the profile name.
  const DataFolderKey: string := ".dataFolder"
  const BucketKey: string := ".s3.s3Bucket"
  const RegionKey: string := ".s3.s3Region"
  const HostnameKey: string := ".s3.s3Hostname"
  const ApiKeyKey: string := ".s3.s3ApiKey"
  const SecretKeyKey: string := ".s3.s3SecretKey"
  const DisclosuresFolderKey: string := ".data.disclosuresFolder"
  const ImagesFolderKey: string := ".data.imagesFolder"
  const OcrFolderKey: string := ".data.ocrFolder"
  const CsvFolderKey: string := ".data.csvFolder"
  // The spellings the profile reader uses for three of them.
  const BucketReadKey: string := ".s3.s3bucket"
  const RegionReadKey: string := ".s3.s3region"
  const HostnameReadKey: string := ".s3.s3hostname"

  /** The position whose character, with the length, tells these suffixes
      apart. */
  const TagAt: nat := 6

  /** The reader's spellings are the writer's keys. */
  lemma ReadSpellings()
    ensures Lower(BucketReadKey) == Lower(BucketKey)
    ensures Lower(RegionReadKey) == Lower(RegionKey)
    ensures Lower(HostnameReadKey) == Lower(HostnameKey)
  {
  }

  /** The tags of the suffixes. */
  lemma SuffixTags()
    ensures Tag(DataFolderKey, TagAt) == (11, 'o')
    ensures Tag(BucketKey, TagAt) == (12, 'b') && Tag(BucketReadKey, TagAt) == (12, 'b')
    ensures Tag(RegionKey, TagAt) == (12, 'r') && Tag(RegionReadKey, TagAt) == (12, 'r')
    ensures Tag(HostnameKey, TagAt) == (14, 'h') && Tag(HostnameReadKey, TagAt) == (14, 'h')
    ensures Tag(ApiKeyKey, TagAt) == (12, 'a')
    ensures Tag(SecretKeyKey, TagAt) == (15, 's')
    ensures Tag(DisclosuresFolderKey, TagAt) == (23, 'd')
    ensures Tag(ImagesFolderKey, TagAt) == (18, 'i')
    ensures Tag(OcrFolderKey, TagAt) == (15, 'o')
    ensures Tag(CsvFolderKey, TagAt) == (15, 'c')
  {
  }

  /** `NewCommonDirsFromCtx`: a folder given on the command line is taken
      as given; a missing one is the default name in the data folder. The S3
      folder is always the data folder's `s3`. */
  function NewCommonDirsFromCtx(home: string, flags: Flags): (d: CommonDirs)
    ensures d.baseFolder == BaseFolder(home) && d.dataFolder == DataFolder(home)
    ensures d.s3Folder == Join(DataFolder(home), DefaultS3Folder)
    ensures Flag(flags, ImagesKey) != "" ==> d.imageFolder == Flag(flags, ImagesKey)
    ensures Flag(flags, ImagesKey) == "" ==> d.imageFolder == Join(DataFolder(home), DefaultImageFolder)
    ensures Flag(flags, DisclosuresKey) != "" ==> d.disclosuresFolder == Flag(flags, DisclosuresKey)
    ensures Flag(flags, DisclosuresKey) == "" ==> d.disclosuresFolder == Join(DataFolder(home), DefaultDisclosuresFolder)
    ensures Flag(flags, OcrKey) != "" ==> d.ocrFolder == Flag(flags, OcrKey)
    ensures Flag(flags, OcrKey) == "" ==> d.ocrFolder == Join(DataFolder(home), DefaultOcrFolder)
    ensures Flag(flags, CsvKey) != "" ==> d.csvFolder == Flag(flags, CsvKey)
    ensures Flag(flags, CsvKey) == "" ==> d.csvFolder == Join(DataFolder(home), DefaultCsvFolder)
  {
    var dataFolder := DataFolder(home);
    CommonDirs(
      BaseFolder(home),
      dataFolder,
      Join(dataFolder, DefaultS3Folder),
      OrDefault(Flag(flags, DisclosuresKey), Join(dataFolder, DefaultDisclosuresFolder)),
      OrDefault(Flag(flags, ImagesKey), Join(dataFolder, DefaultImageFolder)),
      OrDefault(Flag(flags, OcrKey), Join(dataFolder, DefaultOcrFolder)),
      OrDefault(Flag(flags, CsvKey), Join(dataFolder, DefaultCsvFolder)))
  }

  /** This version takes a folder given on the command line as a path of
      its own, where the folder builder places the name in the data folder;
      without flags both give the default layout. */
  lemma CtxVersionsDiffer(home: string, flags: Flags)
    ensures NewCommonDirsFromCtx(home, map[]) == CtxBuildCommonDirs(home, map[])
    ensures Flag(flags, ImagesKey) != "" ==>
      NewCommonDirsFromCtx(home, flags).imageFolder == Flag(flags, ImagesKey)
      && CtxBuildCommonDirs(home, flags).imageFolder == Join(DataFolder(home), Flag(flags, ImagesKey))
      && NewCommonDirsFromCtx(home, flags).imageFolder != CtxBuildCommonDirs(home, flags).imageFolder
  {
  }

  /** `NewCommonDirs`: the given base folder, and the default layout in the
      data folder of the home directory, whatever the base folder is. */
  function NewCommonDirs(home: string, baseFolder: string): (d: CommonDirs)
    ensures d.baseFolder == baseFolder
    ensures d == NewCommonDirsFromCtx(home, map[]).(baseFolder := baseFolder)
  {
    var dataFolder := DataFolder(home);
    CommonDirs(
      baseFolder,
      dataFolder,
      Join(dataFolder, DefaultS3Folder),
      Join(dataFolder, DefaultDisclosuresFolder),
      Join(dataFolder, DefaultImageFolder),
      Join(dataFolder, DefaultOcrFolder),
      Join(dataFolder, DefaultCsvFolder))
  }

  /** `NewCommonDirsFromConfig`: the folders stored under the default
      profile, each replaced by its default path when empty or missing; an
      unreadable configuration file is the error. */
  function NewCommonDirsFromConfig(home: string, files: ConfigFiles): (r: Result<CommonDirs>)
    ensures r.Success? <==> ConfigPath(BaseFolder(home)) in files
    ensures r.Success? ==>
      r.value.baseFolder == BaseFolder(home) && r.value.dataFolder == DataFolder(home)
      && r.value.s3Folder == Join(DataFolder(home), DefaultS3Folder)
    ensures r.Success? && files[ConfigPath(BaseFolder(home))] == map[] ==>
      r.value == NewCommonDirs(home, BaseFolder(home))
  {
    match ReadInConfig(files, ConfigPath(BaseFolder(home)))
    case Failure(m) => Failure(m)
    case Success(v) =>
      var dataFolder := DataFolder(home);
      Success(CommonDirs(
        BaseFolder(home),
        dataFolder,
        Join(dataFolder, DefaultS3Folder),
        OrDefault(GetString(v, DefaultProfile + DisclosuresFolderKey), Join(dataFolder, DefaultDisclosuresFolder)),
        OrDefault(GetString(v, DefaultProfile + ImagesFolderKey), Join(dataFolder, DefaultImageFolder)),
        OrDefault(GetString(v, DefaultProfile + OcrFolderKey), Join(dataFolder, DefaultOcrFolder)),
        OrDefault(GetString(v, DefaultProfile + CsvFolderKey), Join(dataFolder, DefaultCsvFolder))))
  }

  /** The order in which `CreateDirectories` creates the folders. */
  function CreationOrder(d: CommonDirs): seq<string> {
    [d.s3Folder, d.disclosuresFolder, d.imageFolder, d.ocrFolder, d.csvFolder]
  }

  /** `CreateDirectories`: the five creations written out one after
      another, each returning at its error, which is the creation loop over
      the folders in order: it succeeds exactly when none of them is
      unreadable, and then each of them is a readable entry. */
  function CreateDirectories(fs: FS, d: CommonDirs): (r: (Status, FS))
    ensures r.0.Ok? <==> forall i :: 0 <= i < 5 ==> !(CreationOrder(d)[i] in fs && fs[CreationOrder(d)[i]].Unreadable?)
    ensures r.0.Ok? ==> forall i :: 0 <= i < 5 ==> CreationOrder(d)[i] in r.1 && !r.1[CreationOrder(d)[i]].Unreadable?
    ensures forall q :: q in fs ==> q in r.1 && r.1[q] == fs[q]
  {
    EnsureAll(fs, CreationOrder(d))
  }

  /** The first unreadable folder in creation order ends the creations
      with its error; only the folders before it have been created. */
  lemma CreateDirectoriesStopsAtFirstError(fs: FS, d: CommonDirs, k: nat)
    requires k < 5 && CreationOrder(d)[k] in fs && fs[CreationOrder(d)[k]].Unreadable?
    requires forall i :: 0 <= i < k ==> !(CreationOrder(d)[i] in fs && fs[CreationOrder(d)[i]].Unreadable?)
    ensures CreateDirectories(fs, d).0 == Err(fs[CreationOrder(d)[k]].msg)
    ensures CreateDirectories(fs, d).1 == EnsureAll(fs, CreationOrder(d)[..k]).1
  {
    EnsureAllStopsAtFirstError(fs, CreationOrder(d), k);
  }

  // S3 profiles.

  const BucketFlag: string := "s3-bucket"
  const RegionFlag: string := "s3-region"
  const HostnameFlag: string := "s3-hostname"
  const ApiKeyFlag: string := "s3-api-key"
  const SecretKeyFlag: string := "s3-secret-key"

  /** `S3ProfileFromCtx`: the settings from the command line; static
      exactly when both credentials are given. */
  function S3ProfileFromCtx(flags: Flags): (p: S3Profile)
    ensures Canonical(p)
    ensures p.GetBucket() == Flag(flags, BucketFlag) && p.GetRegion() == Flag(flags, RegionFlag)
      && p.GetHostname() == Flag(flags, HostnameFlag)
    ensures p.StaticAuthentication() <==> Flag(flags, ApiKeyFlag) != "" && Flag(flags, SecretKeyFlag) != ""
    ensures p.StaticAuthentication() ==> p.apiKey == Flag(flags, ApiKeyFlag) && p.secretKey == Flag(flags, SecretKeyFlag)
  {
    SelectProfileRoundTrip(S3DefaultProfile(S3Settings("", "", "")),
      S3Settings(Flag(flags, BucketFlag), Flag(flags, RegionFlag), Flag(flags, HostnameFlag)),
      Flag(flags, ApiKeyFlag), Flag(flags, SecretKeyFlag));
    SelectProfile(
      S3Settings(Flag(flags, BucketFlag), Flag(flags, RegionFlag), Flag(flags, HostnameFlag)),
      Flag(flags, ApiKeyFlag), Flag(flags, SecretKeyFlag))
  }

  /** The command line that names a profile. */
  function ProfileFlags(p: S3Profile): Flags {
    map[BucketFlag := p.GetBucket(), RegionFlag := p.GetRegion(), HostnameFlag := p.GetHostname(),
        ApiKeyFlag := ApiKeyOf(p), SecretKeyFlag := SecretKeyOf(p)]
  }

  /** Naming a profile on the command line gives it back exactly when it is
      canonical (a static profile with an empty credential reads back as a
      default profile). */
  lemma S3ProfileFromCtxRoundTrip(p: S3Profile)
    ensures S3ProfileFromCtx(ProfileFlags(p)) == p <==> Canonical(p)
  {
    SelectProfileRoundTrip(p, p.settings, ApiKeyOf(p), SecretKeyOf(p));
  }

  /** The profile a configuration store holds under a profile name. */
  function ProfileFromStore(v: Store, profile: string): (p: S3Profile)
    ensures Canonical(p)
  {
    SelectProfileRoundTrip(S3DefaultProfile(S3Settings("", "", "")),
      S3Settings(GetString(v, profile + BucketReadKey), GetString(v, profile + RegionReadKey),
        GetString(v, profile + HostnameReadKey)),
      GetString(v, profile + ApiKeyKey), GetString(v, profile + SecretKeyKey));
    SelectProfile(
      S3Settings(GetString(v, profile + BucketReadKey), GetString(v, profile + RegionReadKey),
        GetString(v, profile + HostnameReadKey)),
      GetString(v, profile + ApiKeyKey), GetString(v, profile + SecretKeyKey))
  }

  /** `S3ProfileFromConfig`: the profile stored in the configuration file
      of the base folder; an unreadable file (a panic in the source) is a
      failure. */
  function S3ProfileFromConfig(files: ConfigFiles, dirs: CommonDirs, profile: string): (r: Result<S3Profile>)
    ensures r.Success? <==> ConfigPath(dirs.baseFolder) in files
    ensures r.Success? ==> r.value == ProfileFromStore(files[ConfigPath(dirs.baseFolder)], profile)
  {
    match ReadInConfig(files, ConfigPath(dirs.baseFolder))
    case Failure(m) => Failure(m)
    case Success(v) => Success(ProfileFromStore(v, profile))
  }

  /** The credential writes of a static profile; none for a default one. */
  function StaticWrites(s3: S3Profile): seq<(string, string)> {
    if s3.StaticAuthentication() then [(ApiKeyKey, s3.apiKey), (SecretKeyKey, s3.secretKey)] else []
  }

  function BuildWrites(dirs: CommonDirs, s3: S3Profile): seq<(string, string)> {
    [(DataFolderKey, dirs.dataFolder), (BucketKey, s3.GetBucket()), (RegionKey, s3.GetRegion()),
     (HostnameKey, s3.GetHostname())]
  }

  /** The two credential suffixes are told apart from each other and from
      every other suffix written. */
  lemma StaticWritesTagged(s3: S3Profile)
    ensures TagsDistinct(StaticWrites(s3), TagAt)
    ensures forall i :: 0 <= i < |StaticWrites(s3)| ==>
      Tag(StaticWrites(s3)[i].0, TagAt) == (12, 'a') || Tag(StaticWrites(s3)[i].0, TagAt) == (15, 's')
    ensures s3.StaticAuthentication() ==>
      StaticWrites(s3) == [(ApiKeyKey, s3.apiKey), (SecretKeyKey, s3.secretKey)]
  {
    SuffixTags();
  }

  /** `BuildViper`: a fresh store for the base folder's configuration file
      holding the data folder and the profile. */
  function BuildViper(profile: string, dirs: CommonDirs, s3: S3Profile): (r: (string, Store))
    ensures r.0 == ConfigPath(dirs.baseFolder)
  {
    (ConfigPath(dirs.baseFolder), SetAll(SetAll(map[], profile, BuildWrites(dirs, s3)), profile, StaticWrites(s3)))
  }

  lemma BuildWritesTagged(dirs: CommonDirs, s3: S3Profile)
    ensures TagsDistinct(BuildWrites(dirs, s3), TagAt)
  {
    SuffixTags();
  }

  /** A key the credential writes do not touch reads as before them. */
  lemma PastStaticWrites(v: Store, profile: string, s3: S3Profile, a: string)
    requires TagAt < |a| && Tag(a, TagAt) != (12, 'a') && Tag(a, TagAt) != (15, 's')
    ensures GetString(SetAll(v, profile, StaticWrites(s3)), profile + a) == GetString(v, profile + a)
  {
    StaticWritesTagged(s3);
    ReadUnwritten(v, profile, StaticWrites(s3), a, TagAt);
  }

  /** After the credential writes the credential keys hold a static
      profile's credentials, and for a default profile what they held. */
  lemma CredentialsWritten(v: Store, profile: string, s3: S3Profile)
    ensures GetString(SetAll(v, profile, StaticWrites(s3)), profile + ApiKeyKey)
      == if s3.StaticAuthentication() then s3.apiKey else GetString(v, profile + ApiKeyKey)
    ensures GetString(SetAll(v, profile, StaticWrites(s3)), profile + SecretKeyKey)
      == if s3.StaticAuthentication() then s3.secretKey else GetString(v, profile + SecretKeyKey)
  {
    StaticWritesTagged(s3);
    if s3.StaticAuthentication() {
      ReadWritten(v, profile, StaticWrites(s3), 0, ApiKeyKey, TagAt);
      ReadWritten(v, profile, StaticWrites(s3), 1, SecretKeyKey, TagAt);
    }
  }

  /** What the store `BuildViper` builds holds: the data folder, the
      settings under the reader's spellings of their keys, and the
      credentials of a static profile (none for a default one). */
  lemma BuildViperStore(profile: string, dirs: CommonDirs, s3: S3Profile)
    ensures var v := BuildViper(profile, dirs, s3).1;
      GetString(v, profile + DataFolderKey) == dirs.dataFolder
      && GetString(v, profile + BucketReadKey) == s3.GetBucket()
      && GetString(v, profile + RegionReadKey) == s3.GetRegion()
      && GetString(v, profile + HostnameReadKey) == s3.GetHostname()
      && GetString(v, profile + ApiKeyKey) == ApiKeyOf(s3)
      && GetString(v, profile + SecretKeyKey) == SecretKeyOf(s3)
  {
    var writes := BuildWrites(dirs, s3);
    var v1 := SetAll(map[], profile, writes);
    BuildWritesTagged(dirs, s3);
    SuffixTags();
    ReadSpellings();
    ReadWritten(map[], profile, writes, 0, DataFolderKey, TagAt);
    ReadWritten(map[], profile, writes, 1, BucketReadKey, TagAt);
    ReadWritten(map[], profile, writes, 2, RegionReadKey, TagAt);
    ReadWritten(map[], profile, writes, 3, HostnameReadKey, TagAt);
    ReadUnwritten(map[], profile, writes, ApiKeyKey, TagAt);
    ReadUnwritten(map[], profile, writes, SecretKeyKey, TagAt);
    PastStaticWrites(v1, profile, s3, DataFolderKey);
    PastStaticWrites(v1, profile, s3, BucketReadKey);
    PastStaticWrites(v1, profile, s3, RegionReadKey);
    PastStaticWrites(v1, profile, s3, HostnameReadKey);
    CredentialsWritten(v1, profile, s3);
  }

  /** Reading back the store `BuildViper` builds, as the configuration
      file of the base folder, gives the profile exactly when it is
      canonical: the writer's keys and the reader's keys differ only in
      case. */
  lemma BuildViperReadBack(profile: string, dirs: CommonDirs, s3: S3Profile, files: ConfigFiles)
    ensures var (path, v) := BuildViper(profile, dirs, s3);
      S3ProfileFromConfig(files[path := v], dirs, profile) == Success(s3) <==> Canonical(s3)
  {
    var (path, v) := BuildViper(profile, dirs, s3);
    BuildViperStore(profile, dirs, s3);
    assert ProfileFromStore(v, profile) == SelectProfile(s3.settings, ApiKeyOf(s3), SecretKeyOf(s3));
    SelectProfileRoundTrip(s3, s3.settings, ApiKeyOf(s3), SecretKeyOf(s3));
  }

  function UpdateWrites(s3: S3Profile, dirs: CommonDirs): seq<(string, string)> {
    [(BucketKey, s3.GetBucket()), (RegionKey, s3.GetRegion()), (HostnameKey, s3.GetHostname()),
     (DisclosuresFolderKey, dirs.disclosuresFolder), (ImagesFolderKey, dirs.imageFolder),
     (OcrFolderKey, dirs.ocrFolder), (CsvFolderKey, dirs.csvFolder)]
  }

  /** The store after an update of the stored one. */
  function Updated(v: Store, s3: S3Profile, dirs: CommonDirs): Store {
    SetAll(SetAll(v, DefaultProfile, UpdateWrites(s3, dirs)), DefaultProfile, StaticWrites(s3))
  }

  lemma UpdateWritesTagged(s3: S3Profile, dirs: CommonDirs)
    ensures TagsDistinct(UpdateWrites(s3, dirs), TagAt)
  {
    SuffixTags();
  }

  /** `UpdateS3Config`: the base folder's configuration file, read, updated
      under the default profile with the profile and the four data folders,
      and written back; a missing file or a failed write is the error, and
      then no file changes. */
  function UpdateS3Config(files: ConfigFiles, s3: S3Profile, dirs: CommonDirs, written: Status): (r: (Status, ConfigFiles))
    ensures r.0.Ok? <==> ConfigPath(dirs.baseFolder) in files && written.Ok?
    ensures r.0.Err? ==> r.1 == files
    ensures r.0.Ok? ==>
      r.1.Keys == files.Keys && forall p :: p in files && p != ConfigPath(dirs.baseFolder) ==> r.1[p] == files[p]
  {
    var path := ConfigPath(dirs.baseFolder);
    match ReadInConfig(files, path)
    case Failure(m) => (Err(m), files)
    case Success(v) => WriteConfig(files, path, Updated(v, s3, dirs), written)
  }

  /** An updated store holds, under the default profile, the settings
      (under the reader's spellings of their keys). */
  lemma UpdateStoreSettings(v: Store, s3: S3Profile, dirs: CommonDirs)
    ensures var u := Updated(v, s3, dirs);
      GetString(u, DefaultProfile + BucketReadKey) == s3.GetBucket()
      && GetString(u, DefaultProfile + RegionReadKey) == s3.GetRegion()
      && GetString(u, DefaultProfile + HostnameReadKey) == s3.GetHostname()
  {
    var writes := UpdateWrites(s3, dirs);
    var u1 := SetAll(v, DefaultProfile, writes);
    UpdateWritesTagged(s3, dirs);
    SuffixTags();
    ReadSpellings();
    ReadWritten(v, DefaultProfile, writes, 0, BucketReadKey, TagAt);
    ReadWritten(v, DefaultProfile, writes, 1, RegionReadKey, TagAt);
    ReadWritten(v, DefaultProfile, writes, 2, HostnameReadKey, TagAt);
    PastStaticWrites(u1, DefaultProfile, s3, BucketReadKey);
    PastStaticWrites(u1, DefaultProfile, s3, RegionReadKey);
    PastStaticWrites(u1, DefaultProfile, s3, HostnameReadKey);
  }

  /** An updated store holds, under the default profile, the four data
      folders. */
  lemma UpdateStoreFolders(v: Store, s3: S3Profile, dirs: CommonDirs)
    ensures var u := Updated(v, s3, dirs);
      GetString(u, DefaultProfile + DisclosuresFolderKey) == dirs.disclosuresFolder
      && GetString(u, DefaultProfile + ImagesFolderKey) == dirs.imageFolder
      && GetString(u, DefaultProfile + OcrFolderKey) == dirs.ocrFolder
      && GetString(u, DefaultProfile + CsvFolderKey) == dirs.csvFolder
  {
    var writes := UpdateWrites(s3, dirs);
    var u1 := SetAll(v, DefaultProfile, writes);
    UpdateWritesTagged(s3, dirs);
    SuffixTags();
    ReadWritten(v, DefaultProfile, writes, 3, DisclosuresFolderKey, TagAt);
    ReadWritten(v, DefaultProfile, writes, 4, ImagesFolderKey, TagAt);
    ReadWritten(v, DefaultProfile, writes, 5, OcrFolderKey, TagAt);
    ReadWritten(v, DefaultProfile, writes, 6, CsvFolderKey, TagAt);
    PastStaticWrites(u1, DefaultProfile, s3, DisclosuresFolderKey);
    PastStaticWrites(u1, DefaultProfile, s3, ImagesFolderKey);
    PastStaticWrites(u1, DefaultProfile, s3, OcrFolderKey);
    PastStaticWrites(u1, DefaultProfile, s3, CsvFolderKey);
  }

  /** The credentials an updated store holds: a static profile's, and for
      a default profile the ones stored before. */
  lemma UpdateCredentials(v: Store, s3: S3Profile, dirs: CommonDirs)
    ensures GetString(Updated(v, s3, dirs), DefaultProfile + ApiKeyKey)
      == if s3.StaticAuthentication() then s3.apiKey else GetString(v, DefaultProfile + ApiKeyKey)
    ensures GetString(Updated(v, s3, dirs), DefaultProfile + SecretKeyKey)
      == if s3.StaticAuthentication() then s3.secretKey else GetString(v, DefaultProfile + SecretKeyKey)
  {
    var writes := UpdateWrites(s3, dirs);
    UpdateWritesTagged(s3, dirs);
    SuffixTags();
    ReadUnwritten(v, DefaultProfile, writes, ApiKeyKey, TagAt);
    ReadUnwritten(v, DefaultProfile, writes, SecretKeyKey, TagAt);
    CredentialsWritten(SetAll(v, DefaultProfile, writes), DefaultProfile, s3);
  }

  /** Loading the folder set after a successful update gives back the four
      data folders written, when none of them is empty. */
  lemma UpdateThenLoadFolders(home: string, files: ConfigFiles, s3: S3Profile, dirs: CommonDirs)
    requires dirs.baseFolder == BaseFolder(home) && ConfigPath(dirs.baseFolder) in files
    requires dirs.disclosuresFolder != "" && dirs.imageFolder != "" && dirs.ocrFolder != "" && dirs.csvFolder != ""
    ensures UpdateS3Config(files, s3, dirs, Ok).0 == Ok
    ensures NewCommonDirsFromConfig(home, UpdateS3Config(files, s3, dirs, Ok).1)
      == Success(dirs.(dataFolder := DataFolder(home), s3Folder := Join(DataFolder(home), DefaultS3Folder)))
  {
    UpdateStoreFolders(files[ConfigPath(dirs.baseFolder)], s3, dirs);
  }

  /** Loading the profile after a successful update gives back a canonical
      static profile. */
  lemma UpdateThenLoadStaticProfile(files: ConfigFiles, s3: S3Profile, dirs: CommonDirs)
    requires ConfigPath(dirs.baseFolder) in files
    requires s3.StaticAuthentication() && Canonical(s3)
    ensures S3ProfileFromConfig(UpdateS3Config(files, s3, dirs, Ok).1, dirs, DefaultProfile) == Success(s3)
  {
    var v := files[ConfigPath(dirs.baseFolder)];
    UpdateStoreSettings(v, s3, dirs);
    UpdateCredentials(v, s3, dirs);
    SelectProfileRoundTrip(s3, s3.settings, ApiKeyOf(s3), SecretKeyOf(s3));
  }

  /** Updating with a default profile does not remove static credentials
      stored before: loading the profile afterwards gives a static profile
      with the old credentials. */
  lemma DefaultUpdateKeepsCredentials(files: ConfigFiles, s3: S3Profile, dirs: CommonDirs)
    requires ConfigPath(dirs.baseFolder) in files
    requires !s3.StaticAuthentication()
    requires GetString(files[ConfigPath(dirs.baseFolder)], DefaultProfile + ApiKeyKey) != ""
    requires GetString(files[ConfigPath(dirs.baseFolder)], DefaultProfile + SecretKeyKey) != ""
    ensures var r := S3ProfileFromConfig(UpdateS3Config(files, s3, dirs, Ok).1, dirs, DefaultProfile);
      r.Success? && r.value.StaticAuthentication() && r.value.settings == s3.settings
      && r.value.apiKey == GetString(files[ConfigPath(dirs.baseFolder)], DefaultProfile + ApiKeyKey)
  {
    UpdateStoreSettings(files[ConfigPath(dirs.baseFolder)], s3, dirs);
    UpdateCredentials(files[ConfigPath(dirs.baseFolder)], s3, dirs);
  }
}

=== FILE: common_config_v2.dfy ===
/** The second version of the configuration code (`config/common_config.go`).
    The folder set from the command line or from defaults, the store
    builder and the store update are the same code as in the first version
    and are modelled there once; this version adds a printable form of the
    folder set, creates the folders in a loop, and reads the S3 profile from
    the configuration file of the home directory's base folder rather than
    the folder set's. */
module CommonConfigV2 {
  import opened Outcomes
  import opened FileSystem
  import opened ConfigTypes
  import opened Viper
  import opened FolderBuilder
  import opened S3Profiles
  import CommonConfig

  /** A generic printer of a record: its type name, then one tab-indented
      `name: value,` line per field, then a closing brace. */
  function Render(typeName: string, fields: seq<(string, string)>): string {
    typeName + "{\n" + Lines(fields) + "}"
  }

  function Lines(fields: seq<(string, string)>): string
    decreases |fields|
  {
    if fields == [] then "" else Lines(fields[..|fields| - 1]) + Line(fields[|fields| - 1])
  }

  function Line(field: (string, string)): string {
    "\t" + field.0 + ": " + field.1 + ",\n"
  }

  /** The fields of a folder set, by their Go names, in declaration order. */
  function Fields(d: CommonDirs): seq<(string, string)> {
    [("BaseFolder", d.baseFolder), ("DataFolder", d.dataFolder), ("S3Folder", d.s3Folder),
     ("DisclosuresFolder", d.disclosuresFolder), ("ImageFolder", d.imageFolder),
     ("OcrFolder", d.ocrFolder), ("CsvFolder", d.csvFolder)]
  }

  /** `CommonDirs.ToString`: the record printed field by field, in
      declaration order. */
  function ToString(d: CommonDirs): string {
    "CommonDirs{\n" +
      "\tBaseFolder: " + d.baseFolder + ",\n" +
      "\tDataFolder: " + d.dataFolder + ",\n" +
      "\tS3Folder: " + d.s3Folder + ",\n" +
      "\tDisclosuresFolder: " + d.disclosuresFolder + ",\n" +
      "\tImageFolder: " + d.imageFolder + ",\n" +
      "\tOcrFolder: " + d.ocrFolder + ",\n" +
      "\tCsvFolder: " + d.csvFolder + ",\n" +
      "}"
  }

  /** One more field of the record printed. */
  lemma PrintStep(head: string, fields: seq<(string, string)>, k: nat, name: string, value: string, lit: string, printed: string)
    requires k < |fields| && fields[k] == (name, value) && lit == "\t" + name + ": "
    requires printed == head + Lines(fields[..k])
    ensures printed + lit + value + ",\n" == head + Lines(fields[..k + 1])
  {
    assert fields[..k + 1][..k] == fields[..k];
    assert Lines(fields[..k + 1]) == Lines(fields[..k]) + Line(fields[k]);
  }

  /** The first two lines of the printed folder set. */
  lemma PrintedFirst(d: CommonDirs)
    ensures "CommonDirs{\n" +
      "\tBaseFolder: " + d.baseFolder + ",\n" +
      "\tDataFolder: " + d.dataFolder + ",\n"
      == "CommonDirs{\n" + Lines(Fields(d)[..2])
  {
    var f := Fields(d);
    var head := "CommonDirs{\n";
    assert f[..0] == [];
    PrintStep(head, f, 0, "BaseFolder", d.baseFolder, "\tBaseFolder: ", head);
    var p1 := head + "\tBaseFolder: " + d.baseFolder + ",\n";
    PrintStep(head, f, 1, "DataFolder", d.dataFolder, "\tDataFolder: ", p1);
  }

  /** The third and fourth lines of the printed folder set. */
  lemma PrintedSecond(d: CommonDirs, printed: string)
    requires printed == "CommonDirs{\n" + Lines(Fields(d)[..2])
    ensures printed +
      "\tS3Folder: " + d.s3Folder + ",\n" +
      "\tDisclosuresFolder: " + d.disclosuresFolder + ",\n"
      == "CommonDirs{\n" + Lines(Fields(d)[..4])
  {
    var f := Fields(d);
    var head := "CommonDirs{\n";
    PrintStep(head, f, 2, "S3Folder", d.s3Folder, "\tS3Folder: ", printed);
    var p3 := printed + "\tS3Folder: " + d.s3Folder + ",\n";
    PrintStep(head, f, 3, "DisclosuresFolder", d.disclosuresFolder, "\tDisclosuresFolder: ", p3);
  }

  /** The fifth and sixth lines of the printed folder set. */
  lemma PrintedMiddle(d: CommonDirs, printed: string)
    requires printed == "CommonDirs{\n" + Lines(Fields(d)[..4])
    ensures printed +
      "\tImageFolder: " + d.imageFolder + ",\n" +
      "\tOcrFolder: " + d.ocrFolder + ",\n"
      == "CommonDirs{\n" + Lines(Fields(d)[..6])
  {
    var f := Fields(d);
    var head := "CommonDirs{\n";
    PrintStep(head, f, 4, "ImageFolder", d.imageFolder, "\tImageFolder: ", printed);
    var p5 := printed + "\tImageFolder: " + d.imageFolder + ",\n";
    PrintStep(head, f, 5, "OcrFolder", d.ocrFolder, "\tOcrFolder: ", p5);
  }

  /** The last line of the printed folder set. */
  lemma PrintedLast(d: CommonDirs, printed: string)
    requires printed == "CommonDirs{\n" + Lines(Fields(d)[..6])
    ensures printed + "\tCsvFolder: " + d.csvFolder + ",\n" == "CommonDirs{\n" + Lines(Fields(d))
  {
    var f := Fields(d);
    PrintStep("CommonDirs{\n", f, 6, "CsvFolder", d.csvFolder, "\tCsvFolder: ", printed);
    assert f[..7] == f;
  }

  /** The folder set prints as the generic printer prints its fields. */
  lemma ToStringRenders(d: CommonDirs)
    ensures ToString(d) == Render("CommonDirs", Fields(d))
  {
    var p2 := "CommonDirs{\n" +
      "\tBaseFolder: " + d.baseFolder + ",\n" +
      "\tDataFolder: " + d.dataFolder + ",\n";
    var p4 := p2 +
      "\tS3Folder: " + d.s3Folder + ",\n" +
      "\tDisclosuresFolder: " + d.disclosuresFolder + ",\n";
    PrintedFirst(d);
    PrintedSecond(d, p2);
    PrintedMiddle(d, p4);
    PrintedLast(d, p4 + "\tImageFolder: " + d.imageFolder + ",\n" + "\tOcrFolder: " + d.ocrFolder + ",\n");
  }

  /** `CommonDirs.CreateDirectories`, the loop over the folders in
      creation order: the same outcome as the first version's five
      creations written out. */
  method CreateDirectories(fs: FS, d: CommonDirs) returns (st: Status, fs': FS)
    ensures (st, fs') == CommonConfig.CreateDirectories(fs, d)
  {
    st, fs' := CreateEach(fs, CommonConfig.CreationOrder(d));
  }

  /** `InitializeViper`: the configuration file of the home directory's
      base folder. */
  function InitializeViper(home: string, files: ConfigFiles): (r: Result<Store>)
    ensures r.Success? <==> CommonConfig.ConfigPath(BaseFolder(home)) in files
  {
    ReadInConfig(files, CommonConfig.ConfigPath(BaseFolder(home)))
  }

  /** `S3ProfileFromConfig`: the profile stored in the home directory's
      configuration file; the first version reads the folder set's instead,
      and the two agree whenever the folder set's base folder is the home
      directory's. */
  function S3ProfileFromConfig(home: string, files: ConfigFiles, profile: string): (r: Result<S3Profile>)
    ensures forall dirs: CommonDirs :: dirs.baseFolder == BaseFolder(home) ==>
      r == CommonConfig.S3ProfileFromConfig(files, dirs, profile)
  {
    match InitializeViper(home, files)
    case Failure(m) => Failure(m)
    case Success(v) => Success(CommonConfig.ProfileFromStore(v, profile))
  }
}

=== FILE: config_types.dfy ===
/** The folder set every command works on (`config.CommonDirs`). */
module ConfigTypes {
  datatype CommonDirs = CommonDirs(
    baseFolder: string,
    dataFolder: string,
    s3Folder: string,
    disclosuresFolder: string,
    imageFolder: string,
    ocrFolder: string,
    csvFolder: string)
}

/** Command-line flags and the configuration store (`viper.Viper`). A
    command line is a map from flag names to the values given; an unset
    flag reads as "". The store maps lower-cased dotted keys to string
    values: viper compares keys without regard to ASCII case, and a
    missing key reads as "". */
module Viper {
  import opened Outcomes
  import opened Strs

  type Flags = map<string, string>

  /** `cli.Context.String(name)`. */
  function Flag(flags: Flags, name: string): (r: string)
    ensures name !in flags ==> r == ""
    ensures name in flags ==> r == flags[name]
  {
    if name in flags then flags[name] else ""
  }

  /** The recurring fallback of the configuration code: a value, or the
      fallback when the value is empty. */
  function OrDefault(value: string, fallback: string): (r: string)
    ensures r == value || r == fallback
    ensures r == "" <==> value == "" && fallback == ""
    ensures value != "" ==> r == value
  {
    if value == "" then fallback else value
  }

  type Store = map<string, string>

  /** `viper.GetString(key)`. */
  function GetString(v: Store, key: string): (r: string)
    ensures Lower(key) !in v ==> r == ""
    ensures Lower(key) in v ==> r == v[Lower(key)]
  {
    if Lower(key) in v then v[Lower(key)] else ""
  }

  /** `viper.Set(key, value)`. */
  function Set(v: Store, key: string, value: string): (r: Store)
    ensures GetString(r, key) == value
    ensures r.Keys == v.Keys + {Lower(key)}
  {
    v[Lower(key) := value]
  }

  /** Reading after a write: any spelling of the written key gives the
      value written; every other key reads as before. */
  lemma SetReads(v: Store, key: string, value: string, k: string)
    ensures GetString(Set(v, key, value), k) == if Lower(k) == Lower(key) then value else GetString(v, k)
  {
  }

  /** Reading a key does not depend on its case. */
  lemma GetStringIgnoresCase(v: Store, a: string, b: string)
    requires Lower(a) == Lower(b)
    ensures GetString(v, a) == GetString(v, b)
  {
  }

  /** Two keys with a common stem and suffixes of different lengths are
      different keys. */
  lemma KeysDifferInLength(p: string, a: string, b: string)
    requires |a| != |b|
    ensures Lower(p + a) != Lower(p + b)
  {
  }

  /** Two keys with a common stem and suffixes differing at position `j`
      (after lower-casing) are different keys. */
  lemma KeysDifferAt(p: string, a: string, b: string, j: nat)
    requires j < |a| && j < |b| && LowerChar(a[j]) != LowerChar(b[j])
    ensures Lower(p + a) != Lower(p + b)
  {
    assert (p + a)[|p| + j] == a[j];
    assert (p + b)[|p| + j] == b[j];
    assert Lower(p + a)[|p| + j] != Lower(p + b)[|p| + j];
  }

  /** The writes of a configuration routine, in order: the value of each
      pair is set under the common stem followed by the pair's suffix. */
  function SetAll(v: Store, stem: string, writes: seq<(string, string)>): Store
    decreases |writes|
  {
    if writes == [] then v
    else SetAll(Set(v, stem + writes[0].0, writes[0].1), stem, writes[1..])
  }

  /** What tells the suffixes of a group of keys apart: the length and the
      (lower-cased) character at a chosen position. */
  function Tag(s: string, at: nat): (int, char)
    requires at < |s|
  {
    (|s|, LowerChar(s[at]))
  }

  predicate TagsDistinct(writes: seq<(string, string)>, at: nat) {
    (forall i :: 0 <= i < |writes| ==> at < |writes[i].0|)
    && forall i, j :: 0 <= i < j < |writes| ==> Tag(writes[i].0, at) != Tag(writes[j].0, at)
  }

  /** Two suffixes with different tags give different keys. */
  lemma TagsSeparate(stem: string, a: string, b: string, at: nat)
    requires at < |a| && at < |b| && Tag(a, at) != Tag(b, at)
    ensures Lower(stem + a) != Lower(stem + b)
  {
    if |a| == |b| {
      KeysDifferAt(stem, a, b, at);
    } else {
      KeysDifferInLength(stem, a, b);
    }
  }

  /** Keys with a common stem are the same key exactly when their suffixes
      are. */
  lemma LowerStemCancels(stem: string, a: string, b: string)
    ensures Lower(stem + a) == Lower(stem + b) <==> Lower(a) == Lower(b)
  {
    LowerAppend(stem, a);
    LowerAppend(stem, b);
    if Lower(stem + a) == Lower(stem + b) {
      assert Lower(a) == (Lower(stem) + Lower(a))[|stem|..];
    }
  }

  /** Suffixes that are the same key carry the same tag. */
  lemma SameKeySameTag(a: string, b: string, at: nat)
    requires at < |a| && Lower(a) == Lower(b)
    ensures at < |b| && Tag(a, at) == Tag(b, at)
  {
    assert Lower(a)[at] == Lower(b)[at];
  }

  lemma TagsDistinctTail(writes: seq<(string, string)>, at: nat)
    requires writes != [] && TagsDistinct(writes, at)
    ensures TagsDistinct(writes[1..], at)
    ensures forall j :: 0 <= j < |writes[1..]| ==> Tag(writes[1..][j].0, at) != Tag(writes[0].0, at)
  {
    var rest := writes[1..];
    forall i, j | 0 <= i < j < |rest| ensures Tag(rest[i].0, at) != Tag(rest[j].0, at) {
      assert rest[i] == writes[i + 1] && rest[j] == writes[j + 1];
    }
    forall j | 0 <= j < |rest| ensures Tag(rest[j].0, at) != Tag(writes[0].0, at) {
      assert rest[j] == writes[j + 1];
    }
  }

  /** Reading back after a group of writes whose suffixes have distinct
      tags: a key written by the group reads as the value written, under any
      spelling of its suffix; a key whose tag no write carries reads as
      before the group. */
  lemma {:induction false} ReadSetAll(v: Store, stem: string, writes: seq<(string, string)>, a: string, at: nat)
    requires TagsDistinct(writes, at) && at < |a|
    ensures forall i :: 0 <= i < |writes| && Lower(writes[i].0) == Lower(a) ==>
      GetString(SetAll(v, stem, writes), stem + a) == writes[i].1
    ensures (forall i :: 0 <= i < |writes| ==> Tag(writes[i].0, at) != Tag(a, at)) ==>
      GetString(SetAll(v, stem, writes), stem + a) == GetString(v, stem + a)
    decreases |writes|
  {
    if writes != [] {
      var w := writes[0];
      var rest := writes[1..];
      var v1 := Set(v, stem + w.0, w.1);
      SetReads(v, stem + w.0, w.1, stem + a);
      TagsDistinctTail(writes, at);
      ReadSetAll(v1, stem, rest, a, at);
      LowerStemCancels(stem, w.0, a);
      forall i | 0 <= i < |writes| && Lower(writes[i].0) == Lower(a)
        ensures Tag(writes[i].0, at) == Tag(a, at)
      {
        SameKeySameTag(a, writes[i].0, at);
      }
      if Tag(w.0, at) != Tag(a, at) {
        TagsSeparate(stem, w.0, a, at);
        forall i | 1 <= i < |writes| && Lower(writes[i].0) == Lower(a)
          ensures GetString(SetAll(v, stem, writes), stem + a) == writes[i].1
        {
          assert writes[i] == rest[i - 1];
        }
      }
    }
  }

  /** The value a group of writes leaves under one of its keys. */
  lemma ReadWritten(v: Store, stem: string, writes: seq<(string, string)>, i: nat, a: string, at: nat)
    requires TagsDistinct(writes, at) && at < |a|
    requires i < |writes| && Lower(writes[i].0) == Lower(a)
    ensures GetString(SetAll(v, stem, writes), stem + a) == writes[i].1
  {
    ReadSetAll(v, stem, writes, a, at);
  }

  /** A group of writes leaves a key with a tag of its own alone. */
  lemma ReadUnwritten(v: Store, stem: string, writes: seq<(string, string)>, a: string, at: nat)
    requires TagsDistinct(writes, at) && at < |a|
    requires forall i :: 0 <= i < |writes| ==> Tag(writes[i].0, at) != Tag(a, at)
    ensures GetString(SetAll(v, stem, writes), stem + a) == GetString(v, stem + a)
  {
    ReadSetAll(v, stem, writes, a, at);
  }

  /** The configuration files on disk, by path. */
  type ConfigFiles = map<string, Store>

  /** `viper.ReadInConfig` of one file: a missing file is an error. */
  function ReadInConfig(files: ConfigFiles, path: string): (r: Result<Store>)
    ensures r.Success? <==> path in files
    ensures r.Success? ==> r.value == files[path]
  {
    if path in files then Success(files[path]) else Failure("open " + path + ": no such file or directory")
  }

  /** `viper.WriteConfig`: the disk's answer is a parameter; a failed write
      leaves the files as they were. */
  function WriteConfig(files: ConfigFiles, path: string, v: Store, written: Status): (r: (Status, ConfigFiles))
    ensures r.0 == written
    ensures written.Ok? ==> r.1 == files[path := v]
    ensures written.Err? ==> r.1 == files
  {
    if written.Ok? then (Ok, files[path := v]) else (written, files)
  }
}

=== FILE: constants.dfy ===
/** The shared constants of the system. */
module Constants {
  const ZipUrlTemplate: string := "https://disclosures-clerk.house.gov/public_disc/financial-pdfs/{YEAR}FD.zip"
  const MinYear: int := 2008
  const MaxConversions: nat := 25
  const BasePdfUrl: string := "https://disclosures-clerk.house.gov/public_disc/"
  const BasePdfDir: string := "disclosures/"
  const DefaultImageFolder: string := "images"
  const DefaultDisclosuresFolder: string := "disclosures"
  const DefaultOcrFolder: string := "ocr"
  const DefaultCsvFolder: string := "csv"
  const DefaultS3Folder: string := "s3"
  const DefaultProfile: string := "default"
  const MaxJobs: nat := 25
  /** The page budget of one conversion batch. */
  const BatchSize: nat := 100
}

=== FILE: converter_v2.dfy ===
/** The page converter both versions of the batch converter define
    identically (`PdfConverterV2`): every page of a document is rendered into
    memory first, and only when all pages rendered are the images written,
    flat into one image directory, in page order. */
module ConverterV2 {
  import opened Outcomes
  import opened Strs
  import opened FilePath
  import opened FileSystem
  import opened Naming

  datatype PdfConverterV2 = PdfConverterV2(pdfPath: string, baseFileName: string, imageDir: string)

  /** A rendered page waiting to be written. */
  datatype ConversionResult = ConversionResult(image: Raster, imageName: string, imageDir: string)

  function NewPdfConverterV2(pdfPath: string, imageDir: string): (c: PdfConverterV2)
    ensures c.pdfPath == pdfPath && c.imageDir == imageDir
    ensures c.baseFileName == PdfBaseName(pdfPath)
  {
    PdfConverterV2(pdfPath, PdfBaseName(pdfPath), imageDir)
  }

  function GetImageName(c: PdfConverterV2, pageNumber: int, extension: string): string {
    PageImageName(c.baseFileName, pageNumber, extension)
  }

  /** The results for pages `n..` of an opened document: one per page, named
      for its index, or the first render failure. */
  function RenderFrom(c: PdfConverterV2, pages: seq<PageRender>, extension: string, n: nat): (r: Result<seq<ConversionResult>>)
    requires n <= |pages|
    ensures r.Success? <==> forall i :: n <= i < |pages| ==> pages[i].Rendered?
    ensures r.Success? ==> |r.value| == |pages| - n
    decreases |pages| - n
  {
    if n == |pages| then Success([])
    else match pages[n]
      case RenderFailed(m) => Failure(m)
      case Rendered(img) =>
        var rest := RenderFrom(c, pages, extension, n + 1);
        if rest.Failure? then rest
        else Success([ConversionResult(img, GetImageName(c, n, extension), c.imageDir)] + rest.value)
  }

  /** Result `i - n` is page `i`, under the name for index `i`; a failure is
      the first failing page's error. */
  lemma {:induction false} RenderFromContents(c: PdfConverterV2, pages: seq<PageRender>, extension: string, n: nat)
    requires n <= |pages|
    ensures RenderFrom(c, pages, extension, n).Success? ==> forall i :: n <= i < |pages| ==>
      RenderFrom(c, pages, extension, n).value[i - n]
        == ConversionResult(pages[i].raster, GetImageName(c, i, extension), c.imageDir)
    ensures RenderFrom(c, pages, extension, n).Failure? ==>
      exists i :: n <= i < |pages| && pages[i] == RenderFailed(RenderFrom(c, pages, extension, n).msg)
        && (forall j :: n <= j < i ==> pages[j].Rendered?)
    decreases |pages| - n
  {
    if n < |pages| && pages[n].Rendered? {
      RenderFromContents(c, pages, extension, n + 1);
      var r := RenderFrom(c, pages, extension, n);
      var rest := RenderFrom(c, pages, extension, n + 1);
      if rest.Success? {
        forall i | n <= i < |pages|
          ensures r.value[i - n] == ConversionResult(pages[i].raster, GetImageName(c, i, extension), c.imageDir)
        {
          if i > n {
            assert r.value[i - n] == rest.value[i - n - 1];
          }
        }
      }
    }
  }

  /** `ConvertPagesToImages`: the open error, or the first page error with
      no result at all, or one result per page in page order. */
  function ConvertPagesToImages(fs: FS, c: PdfConverterV2, extension: string): (r: Result<seq<ConversionResult>>)
    ensures r.Success? <==> (OpenPdf(fs, c.pdfPath).Success? &&
      forall i :: 0 <= i < |OpenPdf(fs, c.pdfPath).value| ==> OpenPdf(fs, c.pdfPath).value[i].Rendered?)
    ensures r.Success? ==> |r.value| == |OpenPdf(fs, c.pdfPath).value|
    ensures r.Success? ==> forall i :: 0 <= i < |r.value| ==>
      r.value[i].imageName == GetImageName(c, i, extension) && r.value[i].imageDir == c.imageDir
      && r.value[i].image == OpenPdf(fs, c.pdfPath).value[i].raster
  {
    var pages :- OpenPdf(fs, c.pdfPath);
    RenderFromContents(c, pages, extension, 0);
    RenderFrom(c, pages, extension, 0)
  }

  function ResultPath(res: ConversionResult): string {
    Join(res.imageDir, res.imageName)
  }

  /** `WriteImage`: create the file and store the page as a PNG. Encoding
      and closing are taken to succeed. */
  function WriteImage(fs: FS, res: ConversionResult): (r: Result<FS>)
    ensures r.Success? <==> CanCreate(fs, ResultPath(res))
    ensures r.Success? ==> r.value == fs[ResultPath(res) := File(Image(Png, res.image))]
  {
    CreateFile(fs, ResultPath(res), Image(Png, res.image))
  }

  predicate CanCreate(fs: FS, p: string) {
    Dir(p) in fs && fs[Dir(p)].Directory? && !(p in fs && !fs[p].File?)
  }

  /** Writing results in order until the first failure, whose error is
      returned with the files written before it left in place. */
  function WriteAll(fs: FS, results: seq<ConversionResult>): (r: (Status, FS))
    ensures forall q :: q in fs ==> q in r.1
    ensures forall q :: q in r.1 && q !in fs ==> q in Paths(results)
    ensures forall q :: q in fs && q !in Paths(results) ==> r.1[q] == fs[q]
    decreases |results|
  {
    if |results| == 0 then (Ok, fs)
    else match WriteImage(fs, results[0])
      case Failure(m) => (Err(m), fs)
      case Success(fs1) =>
        PathsCons(results);
        WriteAll(fs1, results[1..])
  }

  function Paths(results: seq<ConversionResult>): (ps: seq<string>)
    ensures |ps| == |results|
    ensures forall i :: 0 <= i < |results| ==> ps[i] == ResultPath(results[i])
  {
    seq(|results|, i requires 0 <= i < |results| => ResultPath(results[i]))
  }

  lemma PathsCons(results: seq<ConversionResult>)
    requires |results| > 0
    ensures forall q :: q in Paths(results) <==> q == ResultPath(results[0]) || q in Paths(results[1..])
  {
    assert Paths(results) == [ResultPath(results[0])] + Paths(results[1..]);
  }

  /** After a complete run every result's file exists, and a result not
      overwritten by a later one with the same path holds its own image. */
  lemma {:induction false} WriteAllContents(fs: FS, results: seq<ConversionResult>)
    ensures WriteAll(fs, results).0.Ok? ==>
      forall i :: 0 <= i < |results| ==> ResultPath(results[i]) in WriteAll(fs, results).1
    ensures WriteAll(fs, results).0.Ok? ==>
      forall i :: 0 <= i < |results| && ResultPath(results[i]) !in Paths(results[i + 1..]) ==>
        WriteAll(fs, results).1[ResultPath(results[i])] == File(Image(Png, results[i].image))
    decreases |results|
  {
    if |results| > 0 && WriteImage(fs, results[0]).Success? {
      var fs1 := WriteImage(fs, results[0]).value;
      WriteAllContents(fs1, results[1..]);
      var r := WriteAll(fs, results);
      assert r == WriteAll(fs1, results[1..]);
      if r.0.Ok? {
        forall i | 0 <= i < |results| ensures ResultPath(results[i]) in r.1 {
          if i > 0 { assert results[i] == results[1..][i - 1]; }
        }
        forall i | 0 <= i < |results| && ResultPath(results[i]) !in Paths(results[i + 1..])
          ensures r.1[ResultPath(results[i])] == File(Image(Png, results[i].image))
        {
          if i > 0 {
            assert results[i] == results[1..][i - 1];
            assert results[i + 1..] == results[1..][i..];
          } else {
            assert results[1..] == results[i + 1..];
          }
        }
      }
    }
  }

  /** All writes succeed when every result goes into one existing directory
      (given without a trailing separator) under a plain name that does not
      name a directory or an unreadable path there. */
  lemma {:induction false} WriteAllIntoDirectory(fs: FS, d: string, results: seq<ConversionResult>)
    requires d != [] && d[|d| - 1] != Separator && d in fs && fs[d].Directory?
    requires forall i :: 0 <= i < |results| ==>
      (results[i].imageDir == d && results[i].imageName != [] && NoSep(results[i].imageName))
    requires forall i :: 0 <= i < |results| ==>
      (var p := ResultPath(results[i]); p in fs ==> fs[p].File?)
    ensures WriteAll(fs, results).0 == Ok
    decreases |results|
  {
    if |results| > 0 {
      FirstWritable(fs, d, results[0]);
      var fs1 := WriteImage(fs, results[0]).value;
      NoDirectoryAfterFirst(fs, results, fs1);
      assert forall i :: 0 <= i < |results[1..]| ==>
        (results[1..][i].imageDir == d && results[1..][i].imageName != [] && NoSep(results[1..][i].imageName)) by {
        forall i | 0 <= i < |results[1..]| ensures results[1..][i] == results[i + 1] { }
      }
      WriteAllIntoDirectory(fs1, d, results[1..]);
    }
  }

  /** A plain name in an existing directory, not taken by a directory,
      can be written, and its path is not the directory's own. */
  lemma FirstWritable(fs: FS, d: string, res: ConversionResult)
    requires d != [] && d[|d| - 1] != Separator && d in fs && fs[d].Directory?
    requires res.imageDir == d && res.imageName != [] && NoSep(res.imageName)
    requires ResultPath(res) in fs ==> fs[ResultPath(res)].File?
    ensures WriteImage(fs, res).Success? && ResultPath(res) != d
  {
    DirOfJoin(d, res.imageName);
  }

  /** Storing a file keeps every later result path free of directories. */
  lemma NoDirectoryAfterFirst(fs: FS, results: seq<ConversionResult>, fs1: FS)
    requires |results| > 0
    requires fs1 == fs[ResultPath(results[0]) := File(Image(Png, results[0].image))]
    requires forall i :: 0 <= i < |results| ==>
      (var p := ResultPath(results[i]); p in fs ==> fs[p].File?)
    ensures forall i :: 0 <= i < |results[1..]| ==>
      (var q := ResultPath(results[1..][i]); q in fs1 ==> fs1[q].File?)
  {
    forall i | 0 <= i < |results[1..]|
      ensures (var q := ResultPath(results[1..][i]); q in fs1 ==> fs1[q].File?)
    {
      assert results[1..][i] == results[i + 1];
    }
  }

  /** Converting one document with a converter and writing every page; a
      conversion failure leaves the filesystem as it was. */
  function RunConverter(fs: FS, c: PdfConverterV2): (r: (Status, FS))
    ensures ConvertPagesToImages(fs, c, ".png").Failure? ==> r.0.Err? && r.1 == fs
  {
    match ConvertPagesToImages(fs, c, ".png")
    case Failure(m) => (Err(m), fs)
    case Success(results) => WriteAll(fs, results)
  }

  /** The work of one conversion task of the batch converter. */
  function ConvertEntry(fs: FS, pdfDir: string, imageDir: string, name: string): (r: (Status, FS))
    ensures ConvertPagesToImages(fs, NewPdfConverterV2(Join(pdfDir, name), imageDir), ".png").Failure? ==>
      r.0.Err? && r.1 == fs
  {
    RunConverter(fs, NewPdfConverterV2(Join(pdfDir, name), imageDir))
  }

  /** The path page `n` is written to. */
  function PagePath(c: PdfConverterV2, n: int): string {
    Join(c.imageDir, GetImageName(c, n, ".png"))
  }

  /** When the document renders, its image directory exists and no page
      path is taken by a directory or an unreadable node, the conversion
      succeeds and page `n` is stored as `{base}-{n}.png` in that directory. */
  lemma {:induction false} RunConverterWritesEveryPage(fs: FS, c: PdfConverterV2, pages: seq<PageRender>)
    requires c.imageDir != [] && c.imageDir[|c.imageDir| - 1] != Separator
    requires c.imageDir in fs && fs[c.imageDir].Directory?
    requires OpenPdf(fs, c.pdfPath) == Success(pages)
    requires forall i :: 0 <= i < |pages| ==> pages[i].Rendered?
    requires NoSep(c.baseFileName)
    requires forall n :: 0 <= n < |pages| && PagePath(c, n) in fs ==> fs[PagePath(c, n)].File?
    ensures RunConverter(fs, c).0 == Ok
    ensures forall n :: 0 <= n < |pages| ==>
      PagePath(c, n) in RunConverter(fs, c).1 && RunConverter(fs, c).1[PagePath(c, n)] == File(Image(Png, pages[n].raster))
  {
    var results := ConvertPagesToImages(fs, c, ".png").value;
    PageResults(fs, c, pages, results);
    assert WriteAll(fs, results).0 == Ok by {
      WriteAllIntoDirectory(fs, c.imageDir, results);
    }
    WrittenPages(fs, results);
    var r := WriteAll(fs, results);
    forall n | 0 <= n < |pages| ensures PagePath(c, n) in r.1 && r.1[PagePath(c, n)] == File(Image(Png, pages[n].raster)) {
      assert ResultPath(results[n]) == PagePath(c, n);
    }
  }

  /** A complete write of distinct paths stores every result. */
  lemma WrittenPages(fs: FS, results: seq<ConversionResult>)
    requires WriteAll(fs, results).0 == Ok
    requires forall n :: 0 <= n < |results| ==> ResultPath(results[n]) !in Paths(results[n + 1..])
    ensures forall n :: 0 <= n < |results| ==>
      ResultPath(results[n]) in WriteAll(fs, results).1
      && WriteAll(fs, results).1[ResultPath(results[n])] == File(Image(Png, results[n].image))
  {
    WriteAllContents(fs, results);
  }

  /** The results of a fully rendered document: page `i` under its page
      path, each path used once. */
  lemma PageResults(fs: FS, c: PdfConverterV2, pages: seq<PageRender>, results: seq<ConversionResult>)
    requires c.imageDir != []
    requires OpenPdf(fs, c.pdfPath) == Success(pages)
    requires ConvertPagesToImages(fs, c, ".png") == Success(results)
    requires NoSep(c.baseFileName)
    ensures |results| == |pages|
    ensures forall i :: 0 <= i < |results| ==>
      results[i].imageDir == c.imageDir && results[i].imageName != [] && NoSep(results[i].imageName)
      && ResultPath(results[i]) == PagePath(c, i) && results[i].image == pages[i].raster
    ensures forall n :: 0 <= n < |results| ==> ResultPath(results[n]) !in Paths(results[n + 1..])
  {
    forall i | 0 <= i < |results| ensures results[i].imageName != [] && NoSep(results[i].imageName) {
      PngNameNoSep(c.baseFileName, i);
    }
    forall n | 0 <= n < |results| ensures ResultPath(results[n]) !in Paths(results[n + 1..]) {
      PagePathNotLater(c, results, n, ".png");
    }
  }

  /** A page path differs from the page paths of every later page. */
  lemma PagePathNotLater(c: PdfConverterV2, results: seq<ConversionResult>, n: nat, ext: string)
    requires c.imageDir != [] && n < |results|
    requires forall i :: 0 <= i < |results| ==>
      results[i].imageDir == c.imageDir && results[i].imageName == GetImageName(c, i, ext)
    ensures ResultPath(results[n]) !in Paths(results[n + 1..])
  {
    forall j | n < j < |results| ensures ResultPath(results[j]) != ResultPath(results[n]) {
      PagePathsDiffer(c, n, j, ext);
    }
    NotInLaterPaths(results, n);
  }

  lemma NotInLaterPaths(results: seq<ConversionResult>, n: nat)
    requires n < |results|
    requires forall j :: n < j < |results| ==> ResultPath(results[j]) != ResultPath(results[n])
    ensures ResultPath(results[n]) !in Paths(results[n + 1..])
  {
    var ps := Paths(results[n + 1..]);
    forall k | 0 <= k < |ps| ensures ps[k] != ResultPath(results[n]) {
      assert ps[k] == ResultPath(results[n + 1 + k]);
    }
  }

  /** Different pages go to different paths. */
  lemma PagePathsDiffer(c: PdfConverterV2, m: int, n: int, ext: string)
    requires c.imageDir != [] && m != n
    ensures Join(c.imageDir, GetImageName(c, m, ext)) != Join(c.imageDir, GetImageName(c, n, ext))
  {
    PageImageNamesDistinct(c.baseFileName, m, n, ext);
    JoinInjective(c.imageDir, GetImageName(c, m, ext), GetImageName(c, n, ext));
  }

  lemma PngNameNoSep(base: string, n: int)
    requires NoSep(base)
    ensures NoSep(PageImageName(base, n, ".png"))
  {
    var e := ".png";
    assert e[0] == '.' && e[1] == 'p' && e[2] == 'n' && e[3] == 'g';
    PageImageNameNoSep(base, n, e);
  }
}

=== FILE: disclosure.dfy ===
/** One filing of the disclosure index (`model.Member`) and the names the
    downloader derives from it: the address of its PDF, the local file name
    and path, and whether it still has to be fetched. Reading the index
    (XML) is not modelled; a member is given by its fields. */
module Disclosure {
  import opened Strs
  import opened FilePath
  import opened FileSystem
  import opened Constants

  datatype Member = Member(
    prefix: string,
    last: string,
    first: string,
    suffix: string,
    filingType: string,
    stateDst: string,
    year: int,
    filingDate: string,
    docId: int)

  /** The filing type of periodic transaction reports, the only filings
      that are downloaded. */
  const PtrFiling: string := "P"

  const PtrUrlSegment: string := "ptr-pdfs/"
  const FinancialUrlSegment: string := "financial-pdfs/"

  function UrlSegment(m: Member): string {
    if m.filingType == PtrFiling then PtrUrlSegment else FinancialUrlSegment
  }

  /** The year and document part of the address. */
  function DocPath(year: int, docId: int): string {
    Itoa(year) + "/" + Itoa(docId) + ".pdf"
  }

  /** `BuildPdfUrl`: the archive address of the filing's PDF, under the
      periodic-transaction or the financial-disclosure tree. */
  function BuildPdfUrl(m: Member): (url: string)
    ensures IsPrefix(BasePdfUrl, url) && HasSuffix(url, ".pdf")
  {
    BasePdfUrl + UrlSegment(m) + DocPath(m.year, m.docId)
  }

  /** Two texts without `c`, each followed by `c`: cutting at the first `c`
      recovers both halves. */
  lemma CutAtFirst(x1: string, t1: string, x2: string, t2: string, c: char)
    requires c !in x1 && c !in x2
    requires x1 + [c] + t1 == x2 + [c] + t2
    ensures x1 == x2 && t1 == t2
  {
    var s := x1 + [c] + t1;
    IndexAfterPlainPrefix(x1, [c], t1);
    IndexAfterPlainPrefix(x2, [c], t2);
    assert x1 == s[..|x1|] == x2;
    assert t1 == s[|x1| + 1..] == t2;
  }

  lemma ItoaNoSlash(i: int)
    ensures '/' !in Itoa(i)
  {
    if '/' in Itoa(i) {
      ItoaChars(i, '/');
    }
  }

  /** The year and document part names one year and one document. */
  lemma DocPathInjective(y1: int, d1: int, y2: int, d2: int)
    requires DocPath(y1, d1) == DocPath(y2, d2)
    ensures y1 == y2 && d1 == d2
  {
    ItoaNoSlash(y1);
    ItoaNoSlash(y2);
    assert DocPath(y1, d1) == Itoa(y1) + ['/'] + (Itoa(d1) + ".pdf");
    assert DocPath(y2, d2) == Itoa(y2) + ['/'] + (Itoa(d2) + ".pdf");
    CutAtFirstWithSuffix(Itoa(y1), Itoa(d1), Itoa(y2), Itoa(d2), ".pdf", '/');
    ItoaInjective(y1, y2);
    ItoaInjective(d1, d2);
  }

  /** `CutAtFirst` where both second halves end in the same suffix. */
  lemma CutAtFirstWithSuffix(x1: string, t1: string, x2: string, t2: string, sfx: string, c: char)
    requires c !in x1 && c !in x2
    requires x1 + [c] + (t1 + sfx) == x2 + [c] + (t2 + sfx)
    ensures x1 == x2 && t1 == t2
  {
    CutAtFirst(x1, t1 + sfx, x2, t2 + sfx, c);
    assert t1 == (t1 + sfx)[..|t1|];
    assert t2 == (t2 + sfx)[..|t2|];
  }

  /** The two trees differ in their first character, so the part after
      the tree is determined too. */
  lemma SegmentDetermined(a: Member, b: Member)
    requires UrlSegment(a) + DocPath(a.year, a.docId) == UrlSegment(b) + DocPath(b.year, b.docId)
    ensures (a.filingType == PtrFiling) == (b.filingType == PtrFiling)
    ensures DocPath(a.year, a.docId) == DocPath(b.year, b.docId)
  {
    var sa, sb := UrlSegment(a), UrlSegment(b);
    assert (sa + DocPath(a.year, a.docId))[0] == sa[0];
    assert (sb + DocPath(b.year, b.docId))[0] == sb[0];
    assert sa == sb;
    assert DocPath(a.year, a.docId) == (sa + DocPath(a.year, a.docId))[|sa|..];
    assert DocPath(b.year, b.docId) == (sb + DocPath(b.year, b.docId))[|sb|..];
  }

  /** The address identifies the filing: two members share it exactly
      when they agree on being periodic transaction reports, on the year
      and on the document id. */
  lemma PdfUrlIdentifiesFiling(a: Member, b: Member)
    ensures BuildPdfUrl(a) == BuildPdfUrl(b)
      <==> (a.filingType == PtrFiling) == (b.filingType == PtrFiling) && a.year == b.year && a.docId == b.docId
  {
    var ta := UrlSegment(a) + DocPath(a.year, a.docId);
    var tb := UrlSegment(b) + DocPath(b.year, b.docId);
    UrlTail(a, BasePdfUrl);
    UrlTail(b, BasePdfUrl);
    PrefixCancels(BasePdfUrl, ta, tb);
    if ta == tb {
      SegmentDetermined(a, b);
      DocPathInjective(a.year, a.docId, b.year, b.docId);
    }
  }

  lemma UrlTail(m: Member, base: string)
    requires base == BasePdfUrl
    ensures BuildPdfUrl(m) == base + (UrlSegment(m) + DocPath(m.year, m.docId))
  {
  }

  lemma PrefixCancels(p: string, x: string, y: string)
    ensures p + x == p + y <==> x == y
  {
    if p + x == p + y {
      assert x == (p + x)[|p|..];
      assert y == (p + y)[|p|..];
    }
  }

  /** A name as it appears in a file name: every space becomes '_' and
      every '.' is deleted. */
  function SanitizeName(s: string): (r: string)
    ensures '.' !in r && ' ' !in r
    ensures forall x :: x in r ==> x in s || x == '_'
  {
    ReplaceAllOneCharIsSubst(s, ' ', '_');
    ReplaceAllOneCharIsWithout(Subst(s, ' ', '_'), '.');
    WithoutContents(Subst(s, ' ', '_'), '.');
    ReplaceAll(ReplaceAll(s, " ", "_"), ".", "")
  }

  /** The sanitised name is the original with spaces turned into '_' and
      dots filtered out, every other character kept in order. */
  lemma SanitizeNameIsSubstThenFilter(s: string)
    ensures SanitizeName(s) == Without(Subst(s, ' ', '_'), '.')
  {
    ReplaceAllOneCharIsSubst(s, ' ', '_');
    ReplaceAllOneCharIsWithout(Subst(s, ' ', '_'), '.');
  }

  /** Sanitising a sanitised name changes nothing. */
  lemma SanitizeNameIdempotent(s: string)
    ensures SanitizeName(SanitizeName(s)) == SanitizeName(s)
  {
    var r := SanitizeName(s);
    SanitizeNameIsSubstThenFilter(r);
    assert Subst(r, ' ', '_') == r;
    WithoutAbsent(r, '.');
  }

  /** The filing segment of the file name. */
  function FilingExtension(m: Member): (ext: string)
    ensures ext == ".ptr-pdfs" <==> m.filingType == PtrFiling
    ensures ext == ".ptr-pdfs" || ext == ".financial-pdfs"
  {
    if m.filingType == PtrFiling then ".ptr-pdfs" else ".financial-pdfs"
  }

  /** `BuildPdfFileName`: year, filing segment, state and district, last
      name, first name and document id, separated by '.', with ".pdf". */
  function BuildPdfFileName(m: Member): (name: string)
    ensures HasSuffix(name, ".pdf")
  {
    Itoa(m.year) + FilingExtension(m) + "." + m.stateDst + "." + SanitizeName(m.last) + "." + SanitizeName(m.first)
      + "." + Itoa(m.docId) + ".pdf"
  }

  /** The fields of a file name, in order, as `JoinWith` with '.' puts
      them together. */
  function FileNameFields(m: Member): (fs: seq<string>)
    ensures |fs| == 7
  {
    [Itoa(m.year), FilingExtension(m)[1..], m.stateDst, SanitizeName(m.last), SanitizeName(m.first), Itoa(m.docId), "pdf"]
  }

  lemma ItoaNoDot(i: int)
    ensures '.' !in Itoa(i)
  {
    if '.' in Itoa(i) {
      ItoaChars(i, '.');
    }
  }

  /** When the state and district holds no '.', splitting the file name at
      '.' gives back year, filing segment, state and district, the
      sanitised last and first names, document id and "pdf". */
  lemma PdfFileNameFields(m: Member)
    requires '.' !in m.stateDst
    ensures SplitOn(BuildPdfFileName(m), '.') == FileNameFields(m)
  {
    FieldsHaveNoDot(m);
    FileNameIsJoin(m);
    SplitOnJoinWith(FileNameFields(m), '.');
  }

  lemma FieldsHaveNoDot(m: Member)
    requires '.' !in m.stateDst
    ensures forall k :: 0 <= k < |FileNameFields(m)| ==> '.' !in FileNameFields(m)[k]
  {
    var f := FileNameFields(m);
    ItoaNoDot(m.year);
    ItoaNoDot(m.docId);
    assert f[6] == ['p', 'd', 'f'];
    ExtensionPlain(m);
  }

  /** The filing extension is a '.' followed by letters and a '-': no
      further '.' and no separator. */
  lemma ExtensionPlain(m: Member)
    ensures var e := FilingExtension(m);
      e != [] && e[0] == '.' && '.' !in e[1..] && Separator !in e
  {
    var e := FilingExtension(m);
    if m.filingType == PtrFiling {
      PlainChunks(e, ".ptr-pd", "fs");
    } else {
      PlainChunks(e, ".financi", "al-pdfs");
    }
  }

  lemma PlainChunks(e: string, a: string, b: string)
    requires e == a + b && a != [] && a[0] == '.'
    requires '.' !in a[1..] && '.' !in b && Separator !in a && Separator !in b
    ensures e != [] && e[0] == '.' && '.' !in e[1..] && Separator !in e
  {
    assert e[1..] == a[1..] + b;
  }

  /** The file name is its fields joined with '.'. */
  lemma FileNameIsJoin(m: Member)
    ensures JoinWith(FileNameFields(m), '.') == BuildPdfFileName(m)
  {
    var e := FilingExtension(m);
    JoinSeven(Itoa(m.year), e, m.stateDst, SanitizeName(m.last), SanitizeName(m.first), Itoa(m.docId), "pdf");
    assert "." + "pdf" == ".pdf";
  }

  /** Seven fields joined with '.', the second given with its leading '.'. */
  lemma JoinSeven(y: string, e: string, st: string, l: string, fi: string, id: string, x: string)
    requires |e| > 0 && e[0] == '.'
    ensures JoinWith([y, e[1..], st, l, fi, id, x], '.')
      == y + e + "." + st + "." + l + "." + fi + "." + id + "." + x
  {
    var f := [y, e[1..], st, l, fi, id, x];
    assert f[..5] == [y, e[1..], st, l, fi];
    JoinFive(y, e, st, l, fi);
    JoinWithFields(f, 6);
    JoinWithFields(f, 7);
    assert f[..7] == f;
  }

  /** The first five fields joined: the file name up to the document id. */
  lemma FileNameHead(m: Member)
    ensures JoinWith(FileNameFields(m)[..5], '.')
      == Itoa(m.year) + FilingExtension(m) + "." + m.stateDst + "." + SanitizeName(m.last) + "." + SanitizeName(m.first)
  {
    var f := FileNameFields(m);
    var e := FilingExtension(m);
    assert e[0] == '.';
    assert f[..5] == [Itoa(m.year), e[1..], m.stateDst, SanitizeName(m.last), SanitizeName(m.first)];
    JoinFive(Itoa(m.year), e, m.stateDst, SanitizeName(m.last), SanitizeName(m.first));
  }

  /** Five fields joined with '.', the second given with its leading '.'. */
  lemma JoinFive(y: string, e: string, st: string, l: string, fi: string)
    requires |e| > 0 && e[0] == '.'
    ensures JoinWith([y, e[1..], st, l, fi], '.') == y + e + "." + st + "." + l + "." + fi
  {
    var f := [y, e[1..], st, l, fi];
    assert f[..1] == [y];
    JoinWithFields(f, 2);
    JoinWithFields(f, 3);
    JoinWithFields(f, 4);
    JoinWithFields(f, 5);
    assert f[..5] == f;
    assert e == "." + e[1..];
  }

  lemma JoinWithFields(f: seq<string>, k: nat)
    requires 2 <= k <= |f|
    ensures JoinWith(f[..k], '.') == JoinWith(f[..k - 1], '.') + "." + f[k - 1]
  {
    assert f[..k] == f[..k - 1] + [f[k - 1]];
    JoinWithSnoc(f[..k - 1], f[k - 1], '.');
  }

  /** `BuildPdfFilePath`: the file name under the disclosures directory of
      the data folder. */
  function BuildPdfFilePath(dataFolder: string, m: Member): (path: string)
    ensures HasSuffix(path, BuildPdfFileName(m))
  {
    dataFolder + "/" + BasePdfDir + BuildPdfFileName(m)
  }

  /** A member whose state, names and id hold no separator: its file lies
      directly in the data folder's disclosures directory (the folder the
      configuration calls `disclosures`), under its file name. */
  lemma PdfFilePathInDisclosures(dataFolder: string, m: Member)
    requires dataFolder != [] && dataFolder[|dataFolder| - 1] != Separator
    requires NoSep(m.stateDst) && NoSep(m.last) && NoSep(m.first)
    ensures Dir(BuildPdfFilePath(dataFolder, m)) == Join(dataFolder, DefaultDisclosuresFolder)
    ensures Base(BuildPdfFilePath(dataFolder, m)) == BuildPdfFileName(m)
  {
    var name := BuildPdfFileName(m);
    var dir := Join(dataFolder, DefaultDisclosuresFolder);
    FileNameNoSep(m);
    PathIsJoin(dataFolder, m, DefaultDisclosuresFolder);
    DirOfJoin(dir, name);
    BaseOfJoin(dir, name);
  }

  /** The file path is the file name joined to the disclosures directory,
      which ends in a plain character. */
  lemma PathIsJoin(dataFolder: string, m: Member, folder: string)
    requires dataFolder != [] && folder == DefaultDisclosuresFolder
    ensures BuildPdfFilePath(dataFolder, m) == Join(Join(dataFolder, folder), BuildPdfFileName(m))
    ensures Join(dataFolder, folder) != [] && Join(dataFolder, folder)[|Join(dataFolder, folder)| - 1] != Separator
  {
    assert BasePdfDir == folder + "/";
    assert folder[|folder| - 1] == 's';
    var name := BuildPdfFileName(m);
    assert name != [];
    assert dataFolder + "/" + (folder + "/") + name == dataFolder + [Separator] + folder + [Separator] + name;
  }

  /** A member whose state, names and id hold no separator has a plain
      file name. */
  lemma FileNameNoSep(m: Member)
    requires NoSep(m.stateDst) && NoSep(m.last) && NoSep(m.first)
    ensures NoSep(BuildPdfFileName(m)) && BuildPdfFileName(m) != []
  {
    var name := BuildPdfFileName(m);
    ItoaNoSlash(m.year);
    ItoaNoSlash(m.docId);
    ExtensionPlain(m);
    assert Separator !in "." && Separator !in ".pdf";
    assert Separator !in SanitizeName(m.last) && Separator !in SanitizeName(m.first) && Separator !in m.stateDst;
    assert Separator !in name;
  }

  /** `PdfFileExists`: a stat error other than "does not exist" also
      counts as present. */
  function PdfFileExists(fs: FS, dataFolder: string, m: Member): (b: bool)
    ensures b <==> Stat(fs, BuildPdfFilePath(dataFolder, m)) != NotExist
  {
    BuildPdfFilePath(dataFolder, m) in fs
  }

  /** `ShouldDownload`: only periodic transaction reports, and only while
      their file is absent. */
  function ShouldDownload(fs: FS, dataFolder: string, m: Member): (b: bool)
    ensures b ==> m.filingType == PtrFiling
    ensures b <==> m.filingType == PtrFiling && Stat(fs, BuildPdfFilePath(dataFolder, m)).NotExist?
  {
    m.filingType == PtrFiling && !PdfFileExists(fs, dataFolder, m)
  }

  /** Once a member's file has been written, it is no longer to be
      downloaded, and whether any other member is to be is unchanged
      unless it maps to the same file. */
  lemma ShouldDownloadAfterWrite(fs: FS, dataFolder: string, m: Member, c: Content, other: Member)
    requires CreateFile(fs, BuildPdfFilePath(dataFolder, m), c).Success?
    ensures !ShouldDownload(CreateFile(fs, BuildPdfFilePath(dataFolder, m), c).value, dataFolder, m)
    ensures BuildPdfFilePath(dataFolder, other) != BuildPdfFilePath(dataFolder, m) ==>
      ShouldDownload(CreateFile(fs, BuildPdfFilePath(dataFolder, m), c).value, dataFolder, other)
      == ShouldDownload(fs, dataFolder, other)
  {
  }
}

=== FILE: download_urls.dfy ===
/** The index-update command (`DownloadUrlsCmd`): every year's download is
    derived from its address; the files of the current year are deleted
    first, each only when present, so that the year is fetched again; then
    the downloads run. The year of an address is read from its file name.
    The clock and the network are parameters. */
module DownloadUrls {
  import opened Outcomes
  import opened Strs
  import opened FilePath
  import opened FileSystem
  import opened Paths
  import opened Constants
  import opened Downloader

  const YearMarker: string := "FD"

  /** `extractYearFromUrl`: the file name of the address with its first "FD"
      removed. */
  function ExtractYearFromUrl(url: string): string {
    ReplaceFirst(FileAndExtension(url).name, YearMarker, "")
  }

  /** Removing the first "FD" from a text ending in it, when the text
      before it holds no 'F', leaves that text. */
  lemma DropMarker(t: string)
    requires 'F' !in t
    ensures ReplaceFirst(t + YearMarker, YearMarker, "") == t
  {
    ReplaceFirstAfterPlainPrefix(t, YearMarker, "", "");
    assert t + YearMarker + "" == t + YearMarker;
    assert t + "" + "" == t;
  }

  /** Reading the year back from the address of a year's archive, in any
      directory, gives the year's decimal text. */
  lemma ExtractYearOfArchive(dir: string, year: int)
    ensures ExtractYearFromUrl(Join(dir, Itoa(year) + ZipSuffix)) == Itoa(year)
  {
    var stem := Itoa(year);
    assert FileAndExtension(Join(dir, stem + ZipSuffix)).name == stem + YearMarker by {
      YearArchiveName(dir, year);
    }
    assert 'F' !in stem by {
      ItoaPlain(year);
    }
    DropMarker(stem);
  }

  /** Reading the year back from a generated address gives its decimal
      text. */
  lemma ExtractYearRoundTrip(year: int)
    ensures ExtractYearFromUrl(ZipUrl(year)) == Itoa(year)
  {
    ZipUrlIsJoin(year);
    ExtractYearOfArchive(ZipUrlDir, year);
  }

  /** An archive address is taken for the current year's exactly when it is
      that year's. */
  lemma YearMatchInDir(url: string, dir: string, year: int, currentYear: int)
    requires url == Join(dir, Itoa(year) + ZipSuffix)
    ensures ExtractYearFromUrl(url) == Itoa(currentYear) <==> year == currentYear
  {
    ExtractYearOfArchive(dir, year);
    ItoaInjective(year, currentYear);
  }

  /** A generated address is taken for the current year's exactly when it is
      that year's. */
  lemma CurrentYearMatch(year: int, currentYear: int)
    ensures ExtractYearFromUrl(ZipUrl(year)) == Itoa(currentYear) <==> year == currentYear
  {
    ZipUrlIsJoin(year);
    YearMatchInDir(ZipUrl(year), ZipUrlDir, year, currentYear);
  }

  // The older command (`cmd/disclosurecli/downloadUrlsCmd.go`) differs only
  // in how it reads the year of an address.

  /** The year the older command reads from an address: the last
      '/'-separated piece of the text before the first "FD.zip". */
  function SplitYear(url: string): (r: string)
    ensures '/' !in r
  {
    var pieces := SplitOn(BeforeFirst(url, ZipSuffix), '/');
    pieces[|pieces| - 1]
  }

  /** The first "FD.zip" of a year's address is the one after the year,
      provided the directory holds none: "FD.zip" has no '/', and its 'F'
      is not a digit. */
  lemma MarkerAfterYear(dir: string, year: int)
    requires !Contains(dir, ZipSuffix)
    ensures !Contains(Join(dir, Itoa(year)), ZipSuffix)
  {
    var stem := Join(dir, Itoa(year));
    ItoaPlain(year);
    forall r | 0 <= r <= |stem| ensures !OccursAt(stem, ZipSuffix, r) {
      if r + 6 > |stem| {
      } else if dir == [] {
        assert stem[r] == Itoa(year)[r];
      } else if r + 6 <= |dir| {
        assert stem[r..r + 6] == dir[r..r + 6];
        assert !OccursAt(dir, ZipSuffix, r);
      } else if r <= |dir| {
        assert stem[r..r + 6][|dir| - r] == '/';
      } else {
        assert stem[r] == Itoa(year)[r - |dir| - 1];
      }
    }
  }

  /** The older reading gives back the year of an archive address in any
      directory without "FD.zip". */
  lemma SplitYearOfArchive(dir: string, year: int)
    requires !Contains(dir, ZipSuffix)
    ensures SplitYear(Join(dir, Itoa(year) + ZipSuffix)) == Itoa(year)
  {
    var stem := Join(dir, Itoa(year));
    assert BeforeFirst(Join(dir, Itoa(year) + ZipSuffix), ZipSuffix) == stem by {
      assert Join(dir, Itoa(year) + ZipSuffix) == stem + ZipSuffix;
      MarkerAfterYear(dir, year);
      IndexOfOwnSuffix(stem, ZipSuffix);
      assert (stem + ZipSuffix)[..|stem|] == stem;
    }
    ItoaPlain(year);
    if dir == [] {
      SplitOnPlain(Itoa(year), '/', []);
    } else {
      assert stem == dir + ['/'] + Itoa(year);
      SplitOnSnoc(dir, '/', Itoa(year));
    }
  }

  /** The generated addresses' directory holds no "FD.zip": it holds no
      'F'. */
  lemma NoMarkerInZipUrlDir()
    ensures !Contains(ZipUrlDir, ZipSuffix)
  {
    TemplateShape();
    forall r | 0 <= r <= |ZipUrlDir| ensures !OccursAt(ZipUrlDir, ZipSuffix, r) {
      if r < |ZipUrlDir| {
        assert (ZipUrlDir + "/")[r] == ZipUrlDir[r] != 'F';
      }
    }
  }

  /** On every generated address the two readings of the year agree, and
      both give back the year. */
  lemma SplitYearRoundTrip(year: int)
    ensures SplitYear(ZipUrl(year)) == Itoa(year)
    ensures SplitYear(ZipUrl(year)) == ExtractYearFromUrl(ZipUrl(year))
  {
    ZipUrlIsJoin(year);
    NoMarkerInZipUrlDir();
    SplitYearOfArchive(ZipUrlDir, year);
    ExtractYearRoundTrip(year);
  }

  /** The older command takes a generated address for the current year's
      exactly when it is, so both commands delete the same files. */
  lemma SplitYearMatch(year: int, currentYear: int)
    ensures SplitYear(ZipUrl(year)) == Itoa(currentYear) <==> year == currentYear
  {
    SplitYearRoundTrip(year);
    ItoaInjective(year, currentYear);
  }

  /** Deleting one download's archive and then its index, each only when
      present (any stat outcome but "does not exist"); the first failed
      removal is returned. */
  function DeleteYearFiles(fs: FS, d: DisclosureDownload): (r: (Status, FS))
    ensures r.0.Ok? ==> !Present(r.1, d.zipPath) && !Present(r.1, d.xmlPath)
    ensures r.1.Keys <= fs.Keys && forall q :: q in r.1 ==> r.1[q] == fs[q]
    ensures forall q :: q in fs && q != d.zipPath && q != d.xmlPath ==> q in r.1
  {
    var (st, fs1) :=
      if Present(fs, d.zipPath) then
        match Remove(fs, d.zipPath)
        case Failure(m) => (Err(m), fs)
        case Success(fs') => (Ok, fs')
      else (Ok, fs);
    if st.Err? then (st, fs1)
    else if Present(fs1, d.xmlPath) then
      match Remove(fs1, d.xmlPath)
      case Failure(m) => (Err(m), fs1)
      case Success(fs2) => (Ok, fs2)
    else (Ok, fs1)
  }

  /** Deletion succeeds exactly when each of the two files is absent or
      removable (a file or an empty directory). */
  lemma DeleteYearFilesOkIff(fs: FS, d: DisclosureDownload)
    requires d.zipPath != d.xmlPath
    ensures DeleteYearFiles(fs, d).0.Ok? <==>
      (d.zipPath !in fs || fs[d.zipPath].File? || fs[d.zipPath] == Directory([]))
      && (d.xmlPath !in fs || fs[d.xmlPath].File? || fs[d.xmlPath] == Directory([]))
  {
  }

  /** The deletion loop from download `i`: the downloads flagged as the
      current year's lose their files; the first error ends the loop. */
  function CleanFrom(fs: FS, ds: seq<DisclosureDownload>, current: seq<bool>, i: nat): (r: (Status, FS))
    requires |current| == |ds| && i <= |ds|
    ensures r.1.Keys <= fs.Keys && forall q :: q in r.1 ==> r.1[q] == fs[q]
    decreases |ds| - i
  {
    if i == |ds| then (Ok, fs)
    else if !current[i] then CleanFrom(fs, ds, current, i + 1)
    else
      var (st, fs1) := DeleteYearFiles(fs, ds[i]);
      if st.Err? then (st, fs1) else CleanFrom(fs1, ds, current, i + 1)
  }

  /** Only the files of flagged downloads can disappear. */
  lemma {:induction false} CleanFromTouchesOnlyFlagged(fs: FS, ds: seq<DisclosureDownload>, current: seq<bool>, i: nat, q: string)
    requires |current| == |ds| && i <= |ds|
    requires forall j :: i <= j < |ds| && current[j] ==> q != ds[j].zipPath && q != ds[j].xmlPath
    ensures q in CleanFrom(fs, ds, current, i).1 <==> q in fs
    decreases |ds| - i
  {
    if i < |ds| {
      if !current[i] {
        CleanFromTouchesOnlyFlagged(fs, ds, current, i + 1, q);
      } else {
        var (st, fs1) := DeleteYearFiles(fs, ds[i]);
        if st.Ok? {
          CleanFromTouchesOnlyFlagged(fs1, ds, current, i + 1, q);
        }
      }
    }
  }

  /** When the loop succeeds, no flagged download's archive or index is
      left. */
  lemma {:induction false} CleanFromRemovesFlagged(fs: FS, ds: seq<DisclosureDownload>, current: seq<bool>, i: nat)
    requires |current| == |ds| && i <= |ds|
    requires CleanFrom(fs, ds, current, i).0.Ok?
    ensures forall j :: i <= j < |ds| && current[j] ==>
      !Present(CleanFrom(fs, ds, current, i).1, ds[j].zipPath) && !Present(CleanFrom(fs, ds, current, i).1, ds[j].xmlPath)
    decreases |ds| - i
  {
    if i < |ds| {
      if !current[i] {
        CleanFromRemovesFlagged(fs, ds, current, i + 1);
      } else {
        var (st, fs1) := DeleteYearFiles(fs, ds[i]);
        CleanFromRemovesFlagged(fs1, ds, current, i + 1);
      }
    }
  }

  /** The downloads of the generated addresses, in the data folder. */
  function Downloads(urls: seq<string>, dataFolder: string, tempDir: string): (ds: seq<DisclosureDownload>)
    ensures |ds| == |urls|
    ensures forall i :: 0 <= i < |urls| ==> ds[i] == NewDisclosureDownload(urls[i], dataFolder, tempDir)
  {
    seq(|urls|, i requires 0 <= i < |urls| => NewDisclosureDownload(urls[i], dataFolder, tempDir))
  }

  /** Which downloads the command takes for the current year's: those whose
      address reads back as the current year's decimal text. */
  function CurrentFlags(urls: seq<string>, currentYear: int): (flags: seq<bool>)
    ensures |flags| == |urls|
    ensures forall i :: 0 <= i < |urls| ==> (flags[i] <==> ExtractYearFromUrl(urls[i]) == Itoa(currentYear))
  {
    seq(|urls|, i requires 0 <= i < |urls| => ExtractYearFromUrl(urls[i]) == Itoa(currentYear))
  }

  /** `urls` holds at each position `i` the archive address of year
      `first + i` in directory `dir`. */
  predicate ArchiveList(urls: seq<string>, dir: string, first: int) {
    forall i :: 0 <= i < |urls| ==> urls[i] == Join(dir, Itoa(first + i) + ZipSuffix)
  }

  /** In such a list exactly the current year's position is flagged. */
  lemma FlagsOfYearList(urls: seq<string>, dir: string, first: int, currentYear: int)
    requires ArchiveList(urls, dir, first)
    ensures forall i :: 0 <= i < |urls| ==> (CurrentFlags(urls, currentYear)[i] <==> first + i == currentYear)
  {
    forall i | 0 <= i < |urls|
      ensures CurrentFlags(urls, currentYear)[i] <==> first + i == currentYear
    {
      YearMatchInDir(urls[i], dir, first + i, currentYear);
      assert CurrentFlags(urls, currentYear)[i] <==> ExtractYearFromUrl(urls[i]) == Itoa(currentYear);
    }
  }

  /** The addresses of consecutive years in a non-empty directory form such
      a list. */
  lemma ArchiveUrlsList(dir: string, first: int, n: nat)
    requires dir != []
    ensures ArchiveList(ArchiveUrls(dir, first, n), dir, first)
  {
    var urls := ArchiveUrls(dir, first, n);
    forall i | 0 <= i < n ensures urls[i] == Join(dir, Itoa(first + i) + ZipSuffix) {
      var name := Itoa(first + i) + ZipSuffix;
      assert urls[i] == ArchiveUrl(dir, first + i);
      assert urls[i] == dir + "/" + name;
      assert "/" == [Separator];
    }
  }

  /** Among the addresses of consecutive years exactly the current year's is
      flagged. */
  lemma FlagsOfArchiveUrls(dir: string, first: int, n: nat, currentYear: int)
    requires dir != []
    ensures forall i :: 0 <= i < n ==> (CurrentFlags(ArchiveUrls(dir, first, n), currentYear)[i] <==> first + i == currentYear)
  {
    ArchiveUrlsList(dir, first, n);
    FlagsOfYearList(ArchiveUrls(dir, first, n), dir, first, currentYear);
  }

  /** `DownloadUrlsCmd`: derive the downloads, delete the current year's
      files, then run the downloads (whose errors are fatal). */
  function DownloadUrlsCmd(fs: FS, dataFolder: string, tempDir: string, currentYear: int, fetches: seq<Fetch>): (r: (Status, FS))
    requires currentYear - MinYear + 1 >= 0
    requires |fetches| == currentYear - MinYear + 1
  {
    var (st, fs1) := CleanupIn(fs, ZipUrlDir, MinYear, currentYear - MinYear + 1, dataFolder, tempDir, currentYear);
    if st.Err? then (st, fs1)
    else DownloadZipsIfNotPresent(fs1, Downloads(AllZipUrls(currentYear), dataFolder, tempDir), fetches)
  }

  /** The deletion step of the command, for the archives of the `n`
      consecutive years from `first` in directory `dir`. */
  function CleanupIn(fs: FS, dir: string, first: int, n: nat, dataFolder: string, tempDir: string, currentYear: int): (r: (Status, FS))
    ensures r.1.Keys <= fs.Keys && forall q :: q in r.1 ==> r.1[q] == fs[q]
  {
    var urls := ArchiveUrls(dir, first, n);
    CleanFrom(fs, Downloads(urls, dataFolder, tempDir), CurrentFlags(urls, currentYear), 0)
  }

  /** A deletion error ends the command before any download: the outcome
      does not depend on what the network would answer. */
  lemma DeletionErrorPrecedesDownloads(fs: FS, dataFolder: string, tempDir: string, currentYear: int, f1: seq<Fetch>, f2: seq<Fetch>)
    requires currentYear - MinYear + 1 >= 0
    requires |f1| == |f2| == currentYear - MinYear + 1
    requires CleanupIn(fs, ZipUrlDir, MinYear, currentYear - MinYear + 1, dataFolder, tempDir, currentYear).0.Err?
    ensures DownloadUrlsCmd(fs, dataFolder, tempDir, currentYear, f1).0.Err?
    ensures DownloadUrlsCmd(fs, dataFolder, tempDir, currentYear, f1)
         == DownloadUrlsCmd(fs, dataFolder, tempDir, currentYear, f2)
  {
  }

  /** With exactly one download flagged, a successful deletion loop leaves
      neither of its two files, and every other path as it was. */
  lemma CleanFromOnlyOne(fs: FS, ds: seq<DisclosureDownload>, flags: seq<bool>, k: nat, q: string)
    requires |flags| == |ds| && k < |ds|
    requires forall j :: 0 <= j < |ds| ==> (flags[j] <==> j == k)
    requires CleanFrom(fs, ds, flags, 0).0.Ok?
    ensures var fs1 := CleanFrom(fs, ds, flags, 0).1;
      !Present(fs1, ds[k].zipPath) && !Present(fs1, ds[k].xmlPath)
      && (q != ds[k].zipPath && q != ds[k].xmlPath ==> (q in fs1 <==> q in fs) && (q in fs1 ==> fs1[q] == fs[q]))
  {
    CleanFromRemovesFlagged(fs, ds, flags, 0);
    if q != ds[k].zipPath && q != ds[k].xmlPath {
      CleanFromTouchesOnlyFlagged(fs, ds, flags, 0, q);
    }
  }

  /** For the archives of consecutive years that include the current year
      (the command's are those of `MinYear` to the current year in
      `ZipUrlDir`), a successful deletion step leaves neither the year's
      archive nor its index in the data folder, and every other path as it
      was. */
  lemma CleanupInRemovesOnlyCurrentYear(fs: FS, dir: string, first: int, n: nat, dataFolder: string, tempDir: string, currentYear: int, q: string)
    requires dir != [] && first <= currentYear < first + n
    requires CleanupIn(fs, dir, first, n, dataFolder, tempDir, currentYear).0.Ok?
    ensures var fs1 := CleanupIn(fs, dir, first, n, dataFolder, tempDir, currentYear).1;
      var zip := Join(dataFolder, Itoa(currentYear) + ZipSuffix);
      var xml := Join(dataFolder, Itoa(currentYear) + "FD.xml");
      !Present(fs1, zip) && !Present(fs1, xml)
      && (q != zip && q != xml ==> (q in fs1 <==> q in fs) && (q in fs1 ==> fs1[q] == fs[q]))
  {
    var urls := ArchiveUrls(dir, first, n);
    var ds := Downloads(urls, dataFolder, tempDir);
    var flags := CurrentFlags(urls, currentYear);
    var k := currentYear - first;
    var fs1 := CleanFrom(fs, ds, flags, 0).1;
    assert !Present(fs1, ds[k].zipPath) && !Present(fs1, ds[k].xmlPath)
      && (q != ds[k].zipPath && q != ds[k].xmlPath ==> (q in fs1 <==> q in fs) && (q in fs1 ==> fs1[q] == fs[q])) by {
      FlagsOfArchiveUrls(dir, first, n, currentYear);
      CleanFromOnlyOne(fs, ds, flags, k, q);
    }
    CurrentYearDownload(dir, first, n, dataFolder, tempDir, currentYear);
  }

  /** The current year's download among those of consecutive years keeps
      its archive and its index under the year's name in the data folder. */
  lemma CurrentYearDownload(dir: string, first: int, n: nat, dataFolder: string, tempDir: string, currentYear: int)
    requires dir != [] && first <= currentYear < first + n
    ensures var d := Downloads(ArchiveUrls(dir, first, n), dataFolder, tempDir)[currentYear - first];
      d.zipPath == Join(dataFolder, Itoa(currentYear) + ZipSuffix)
      && d.xmlPath == Join(dataFolder, Itoa(currentYear) + "FD.xml")
  {
    var urls := ArchiveUrls(dir, first, n);
    ArchiveUrlsList(dir, first, n);
    assert urls[currentYear - first] == Join(dir, Itoa(currentYear) + ZipSuffix);
    DownloadInDir(dir, currentYear, dataFolder, tempDir);
  }
}

=== FILE: downloader.dfy ===
/** The yearly index downloads of the `downloader` package: the archive
    address of each year, the local paths of a download, the decision
    whether to fetch, unpack or skip, the unpacking of the index file from
    the archive, and the aggregation of byte downloads. The network is a
    parameter: what a request answers is given, not computed. */
module Downloader {
  import opened Outcomes
  import opened Strs
  import opened FilePath
  import opened FileSystem
  import opened Paths
  import opened Constants
  import Aggregation
  import Seqs

  /** The directory part of the archive address template. */
  const ZipUrlDir: string := "https://disclosures-clerk.house.gov/public_disc/financial-pdfs"
  const YearPlaceholder: string := "{YEAR}"
  /** What follows the year in an archive's file name. */
  const ZipSuffix: string := "FD.zip"

  /** `c` appears nowhere in `s`. */
  predicate Lacks(s: string, c: char) {
    forall i :: 0 <= i < |s| ==> s[i] != c
  }

  lemma LacksAppend(s: string, t: string, c: char)
    requires Lacks(s, c) && Lacks(t, c)
    ensures Lacks(s + t, c)
  {
  }

  /** The template is the directory, a separator, the placeholder and the
      suffix; neither the placeholder's nor the suffix's first character
      occurs before the placeholder. The directory literal is taken in two
      halves, each shown free of those characters by its own small lemma,
      because a single membership test over the whole literal is costly. */
  lemma TemplateShape()
    ensures ZipUrlTemplate == (ZipUrlDir + "/") + YearPlaceholder + ZipSuffix
    ensures Lacks(ZipUrlDir + "/", '{') && Lacks(ZipUrlDir + "/", 'F')
  {
    var x := "https://disclosures-clerk.house";
    var y := ".gov/public_disc/financial-pdfs/";
    TemplateParts();
    DirHalves(x, y);
    FirstHalfPlain();
    SecondHalfPlain();
    LacksAppend(x, y, '{');
    LacksAppend(x, y, 'F');
  }

  lemma TemplateParts()
    ensures ZipUrlTemplate == (ZipUrlDir + "/") + YearPlaceholder + ZipSuffix
  {
  }

  /** The directory with its separator, in two halves. */
  lemma DirHalves(x: string, y: string)
    requires x == "https://disclosures-clerk.house" && y == ".gov/public_disc/financial-pdfs/"
    ensures ZipUrlDir + "/" == x + y
  {
  }

  // The two halves of the directory are checked in chunks of eight
  // characters: a short literal's characters are each compared cheaply,
  // where one long literal makes a single expensive proof obligation.

  /** The first half of the directory holds no '{' and no 'F'. */
  lemma FirstHalfPlain()
    ensures Lacks("https://disclosures-clerk.house", '{') && Lacks("https://disclosures-clerk.house", 'F')
  {
    var a, b, c, d := "https://", "disclosu", "res-cler", "k.house";
    assert "https://disclosures-clerk.house" == a + b + c + d;
    assert Lacks(a, '{') && Lacks(a, 'F') && Lacks(b, '{') && Lacks(b, 'F');
    assert Lacks(c, '{') && Lacks(c, 'F') && Lacks(d, '{') && Lacks(d, 'F');
  }

  /** Nor does the second half. */
  lemma SecondHalfPlain()
    ensures Lacks(".gov/public_disc/financial-pdfs/", '{') && Lacks(".gov/public_disc/financial-pdfs/", 'F')
  {
    var e, f, g, h := ".gov/pub", "lic_disc", "/financi", "al-pdfs/";
    assert ".gov/public_disc/financial-pdfs/" == e + f + g + h;
    assert Lacks(e, '{') && Lacks(e, 'F') && Lacks(f, '{') && Lacks(f, 'F');
    assert Lacks(g, '{') && Lacks(g, 'F') && Lacks(h, '{') && Lacks(h, 'F');
  }

  /** The address of a year's index archive: `{year}FD.zip` in the
      financial-disclosure directory. */
  function ZipUrl(year: int): string {
    ArchiveUrl(ZipUrlDir, year)
  }

  /** The address of year `year`'s index archive in directory `dir`. */
  function ArchiveUrl(dir: string, year: int): string {
    dir + "/" + (Itoa(year) + ZipSuffix)
  }

  /** The address is the archive's file name joined to the directory. */
  lemma ZipUrlIsJoin(year: int)
    ensures ZipUrl(year) == Join(ZipUrlDir, Itoa(year) + ZipSuffix)
  {
  }

  /** `GenerateZipUrlForYear`: the template with its first "{YEAR}" replaced
      by the decimal year is that year's archive address. */
  method GenerateZipUrlForYear(year: int) returns (url: string)
    ensures url == ZipUrl(year)
  {
    TemplateShape();
    ReplaceFirstAfterPlainPrefix(ZipUrlDir + "/", YearPlaceholder, ZipSuffix, Itoa(year));
    url := ReplaceFirst(ZipUrlTemplate, YearPlaceholder, Itoa(year));
  }

  /** In any non-empty directory, archives of distinct years have distinct
      addresses. */
  lemma YearArchiveInjective(dir: string, a: int, b: int)
    requires dir != []
    ensures Join(dir, Itoa(a) + ZipSuffix) == Join(dir, Itoa(b) + ZipSuffix) <==> a == b
  {
    if Join(dir, Itoa(a) + ZipSuffix) == Join(dir, Itoa(b) + ZipSuffix) {
      JoinInjective(dir, Itoa(a) + ZipSuffix, Itoa(b) + ZipSuffix);
      assert Itoa(a) == (Itoa(a) + ZipSuffix)[..|Itoa(a) + ZipSuffix| - |ZipSuffix|];
      assert Itoa(b) == (Itoa(b) + ZipSuffix)[..|Itoa(b) + ZipSuffix| - |ZipSuffix|];
      ItoaInjective(a, b);
    }
  }

  /** Distinct years have distinct archive addresses. */
  lemma ZipUrlInjective(a: int, b: int)
    ensures ZipUrl(a) == ZipUrl(b) <==> a == b
  {
    ZipUrlIsJoin(a);
    ZipUrlIsJoin(b);
    YearArchiveInjective(ZipUrlDir, a, b);
  }

  /** A list holding, at each position `i`, the address of year `first + i`
      holds a year's address exactly when the year is in range, and each
      address once. */
  lemma YearUrlsCover(urls: seq<string>, first: int, y: int)
    requires forall i :: 0 <= i < |urls| ==> urls[i] == ZipUrl(first + i)
    ensures ZipUrl(y) in urls <==> first <= y < first + |urls|
    ensures forall i, j :: 0 <= i < j < |urls| ==> urls[i] != urls[j]
  {
    forall a: int, b: int | ZipUrl(a) == ZipUrl(b) ensures a == b {
      ZipUrlInjective(a, b);
    }
    Seqs.InjectiveImage(urls, ZipUrl, first, y);
  }

  /** The archive addresses from `MinYear` to the current year, oldest
      first. */
  function AllZipUrls(currentYear: int): seq<string>
    requires currentYear - MinYear + 1 >= 0
  {
    ArchiveUrls(ZipUrlDir, MinYear, currentYear - MinYear + 1)
  }

  /** The archive addresses of the `n` years from `first` on, in directory
      `dir`. */
  function ArchiveUrls(dir: string, first: int, n: nat): seq<string> {
    seq(n, i requires 0 <= i < n => ArchiveUrl(dir, first + i))
  }

  /** A year's address is among them exactly when the year is in range, and
      each appears once. */
  lemma AllZipUrlsCoverYears(currentYear: int, y: int)
    requires currentYear - MinYear + 1 >= 0
    ensures ZipUrl(y) in AllZipUrls(currentYear) <==> MinYear <= y <= currentYear
    ensures forall i, j :: 0 <= i < j < |AllZipUrls(currentYear)| ==> AllZipUrls(currentYear)[i] != AllZipUrls(currentYear)[j]
  {
    YearUrlsCover(AllZipUrls(currentYear), MinYear, y);
  }

  /** `GenerateAllZipUrls` with the current year as a parameter: one address
      per year from `MinYear` to the current year, oldest first, so a year's
      address is there exactly when the year is in range. A current year
      before `MinYear - 1` makes the slice length negative, which Go rejects
      with a panic. */
  method GenerateAllZipUrls(currentYear: int) returns (urls: seq<string>)
    requires currentYear - MinYear + 1 >= 0
    ensures |urls| == currentYear - MinYear + 1
    ensures forall i :: 0 <= i < |urls| ==> urls[i] == ZipUrl(MinYear + i)
    ensures forall y :: ZipUrl(y) in urls <==> MinYear <= y <= currentYear
    ensures urls == AllZipUrls(currentYear)
  {
    urls := seq(currentYear - MinYear + 1, _ => "");
    var year := MinYear;
    while year <= currentYear
      invariant MinYear <= year <= currentYear + 1
      invariant |urls| == currentYear - MinYear + 1
      invariant forall i :: 0 <= i < year - MinYear ==> urls[i] == ZipUrl(MinYear + i)
    {
      var url := GenerateZipUrlForYear(year);
      var k := year - MinYear;
      SetYearUrl(urls, MinYear, k, url, urls[k := url]);
      urls := urls[k := url];
      year := year + 1;
    }
    FilledUrls(urls, currentYear);
  }

  /** A sequence holding each year's address from `MinYear` to the current
      year is the full list, and holds exactly the years in range. */
  lemma FilledUrls(urls: seq<string>, currentYear: int)
    requires |urls| == currentYear - MinYear + 1
    requires forall i :: 0 <= i < |urls| ==> urls[i] == ZipUrl(MinYear + i)
    ensures forall y :: ZipUrl(y) in urls <==> MinYear <= y <= currentYear
    ensures urls == AllZipUrls(currentYear)
  {
    ListedUrls(urls, ZipUrlDir, MinYear);
    forall y ensures ZipUrl(y) in urls <==> MinYear <= y <= currentYear {
      AllZipUrlsCoverYears(currentYear, y);
    }
  }

  lemma ListedUrls(urls: seq<string>, dir: string, first: int)
    requires forall i :: 0 <= i < |urls| ==> urls[i] == ArchiveUrl(dir, first + i)
    ensures urls == ArchiveUrls(dir, first, |urls|)
  {
  }

  /** Writing year `first + k`'s address at index `k` extends the filled
      prefix by one. */
  lemma SetYearUrl(urls: seq<string>, first: int, k: nat, url: string, next: seq<string>)
    requires k < |urls| && url == ZipUrl(first + k) && next == urls[k := url]
    requires forall i :: 0 <= i < k ==> urls[i] == ZipUrl(first + i)
    ensures forall i :: 0 <= i < k + 1 ==> next[i] == ZipUrl(first + i)
  {
  }

  datatype DisclosureDownload = DisclosureDownload(
    url: string,
    fileName: string,
    baseFilePath: string,
    zipPath: string,
    xmlPath: string,
    csvPath: string)

  /** `NewDisclosureDownload`: the name and extension of the address's last
      element give the archive, index and table paths in the base folder,
      and the temporary path in the temporary directory (a parameter, since
      `os.TempDir` reads the environment). */
  function NewDisclosureDownload(url: string, baseFolder: string, tempDir: string): (d: DisclosureDownload)
    ensures d.url == url && d.fileName == FileAndExtension(url).name
    ensures d.xmlPath == Join(baseFolder, d.fileName + ".xml") && d.csvPath == Join(baseFolder, d.fileName + ".csv")
  {
    var ne := FileAndExtension(url);
    DisclosureDownload(url, ne.name, Join(tempDir, ne.name + ne.ext),
      Join(baseFolder, ne.name + ne.ext), Join(baseFolder, ne.name + ".xml"), Join(baseFolder, ne.name + ".csv"))
  }

  lemma ItoaPlain(i: int)
    ensures NoSep(Itoa(i)) && '.' !in Itoa(i) && 'F' !in Itoa(i) && '/' !in Itoa(i)
  {
    forall c | c in Itoa(i) ensures c != '/' && c != '.' && c != 'F' {
      ItoaChars(i, c);
    }
  }

  /** A plain stem with ".zip" appended, in any directory, has that stem as
      its name and ".zip" as its extension. */
  lemma DotZipName(dir: string, stem: string)
    requires NoSep(stem)
    ensures FileAndExtension(Join(dir, stem + ".zip")) == NameExt(stem, ".zip")
  {
    var name := stem + ".zip";
    assert NoSep(".zip") by {
      assert ".zip" == ['.', 'z', 'i', 'p'];
    }
    assert NoSep(name);
    ExtOfDotSuffix(stem, "zip");
    assert stem + "." + "zip" == name;
    FileAndExtensionOfJoin(dir, name);
    assert name[..|name| - 4] == stem;
  }

  /** The file name of an archive `{year}FD.zip`, in any directory, is
      `{year}FD` with extension ".zip". */
  lemma YearArchiveName(dir: string, year: int)
    ensures FileAndExtension(Join(dir, Itoa(year) + ZipSuffix)) == NameExt(Itoa(year) + "FD", ".zip")
  {
    var stem := Itoa(year) + "FD";
    ItoaPlain(year);
    assert NoSep(stem) by {
      assert Separator !in stem;
    }
    assert Itoa(year) + ZipSuffix == stem + ".zip";
    DotZipName(dir, stem);
  }

  lemma StemSuffixes(x: string)
    ensures x + "FD" + ".zip" == x + ZipSuffix
    ensures x + "FD" + ".xml" == x + "FD.xml" && x + "FD" + ".csv" == x + "FD.csv"
  {
  }

  /** The download of an archive `{year}FD.zip` in any directory: name
      `{year}FD`, and the archive, index and table `{year}FD.zip`,
      `{year}FD.xml`, `{year}FD.csv` in the base folder, three different
      paths. */
  lemma DownloadInDir(dir: string, year: int, baseFolder: string, tempDir: string)
    ensures NewDisclosureDownload(Join(dir, Itoa(year) + ZipSuffix), baseFolder, tempDir)
      == DisclosureDownload(Join(dir, Itoa(year) + ZipSuffix), Itoa(year) + "FD",
           Join(tempDir, Itoa(year) + ZipSuffix), Join(baseFolder, Itoa(year) + ZipSuffix),
           Join(baseFolder, Itoa(year) + "FD.xml"), Join(baseFolder, Itoa(year) + "FD.csv"))
    ensures Join(baseFolder, Itoa(year) + ZipSuffix) != Join(baseFolder, Itoa(year) + "FD.xml")
  {
    YearArchiveName(dir, year);
    StemSuffixes(Itoa(year));
    JoinDistinct(baseFolder, Itoa(year) + ZipSuffix, Itoa(year) + "FD.xml");
  }

  /** The download of a year's archive. */
  lemma DownloadOfYear(year: int, baseFolder: string, tempDir: string)
    ensures NewDisclosureDownload(ZipUrl(year), baseFolder, tempDir)
      == DisclosureDownload(ZipUrl(year), Itoa(year) + "FD",
           Join(tempDir, Itoa(year) + ZipSuffix), Join(baseFolder, Itoa(year) + ZipSuffix),
           Join(baseFolder, Itoa(year) + "FD.xml"), Join(baseFolder, Itoa(year) + "FD.csv"))
    ensures Join(baseFolder, Itoa(year) + ZipSuffix) != Join(baseFolder, Itoa(year) + "FD.xml")
  {
    ZipUrlIsJoin(year);
    DownloadInDir(ZipUrlDir, year, baseFolder, tempDir);
  }

  /** Joining one folder with two different non-empty names gives two
      different paths. */
  lemma JoinDistinct(d: string, a: string, b: string)
    requires a != [] && b != [] && a != b
    ensures Join(d, a) != Join(d, b)
  {
    if d != [] {
      JoinInjective(d, a, b);
    }
  }

  /** `ZipIsPresent` / `XmlIsPresent`: any stat outcome but "does not
      exist" counts as present. */
  predicate Present(fs: FS, p: string) {
    Stat(fs, p) != NotExist
  }

  /** What a request for an address answers: a transport error, a status
      other than 200, or a body. */
  datatype Fetch = FetchFailed(msg: string) | BadStatus | Body(content: Content)

  /** `DownloadFile`: a transport error is returned; a status other than 200
      returns the (nil) error of the request, so nothing is written and no
      error is reported; a body is written to the output path. */
  function DownloadFile(fs: FS, outPath: string, fetch: Fetch): (r: (Status, FS))
    ensures fetch.FetchFailed? ==> r == (Err(fetch.msg), fs)
    ensures fetch.BadStatus? ==> r == (Ok, fs)
    ensures fetch.Body? && r.0.Ok? ==> r.1 == fs[outPath := File(fetch.content)]
    ensures fetch.Body? ==> (r.0.Ok? <==> CreateFile(fs, outPath, fetch.content).Success?)
  {
    match fetch
    case FetchFailed(m) => (Err(m), fs)
    case BadStatus => (Ok, fs)
    case Body(c) =>
      match CreateFile(fs, outPath, c)
      case Failure(m) => (Err(m), fs)
      case Success(fs1) => (Ok, fs1)
  }

  const XmlSuffix: string := ".xml"

  /** The loop with `break` of `Extract`: the index of the first member
      whose name ends in ".xml", or -1. */
  function FirstXml(ms: seq<ArchiveMember>, k: nat): (r: int)
    requires k <= |ms|
    ensures r == -1 <==> forall j :: k <= j < |ms| ==> !HasSuffix(ms[j].name, XmlSuffix)
    ensures r != -1 ==>
      (k <= r < |ms| && HasSuffix(ms[r].name, XmlSuffix)
       && forall j :: k <= j < r ==> !HasSuffix(ms[j].name, XmlSuffix))
    decreases |ms| - k
  {
    if k == |ms| then -1
    else if HasSuffix(ms[k].name, XmlSuffix) then k
    else FirstXml(ms, k + 1)
  }

  /** `Extract`: open the archive; unless it has exactly two members and
      one of them ends in ".xml", return nil without writing; otherwise
      write the first such member to the index path (truncating) and
      remove the archive. */
  function Extract(fs: FS, d: DisclosureDownload): (r: (Status, FS))
    ensures OpenArchive(fs, d.zipPath).Failure? ==> r == (Err(OpenArchive(fs, d.zipPath).msg), fs)
    ensures var a := OpenArchive(fs, d.zipPath);
      (a.Success? && (|a.value| != 2 || FirstXml(a.value, 0) < 0)) ==> r == (Ok, fs)
    ensures r.1 != fs ==>
      (OpenArchive(fs, d.zipPath).Success? && |OpenArchive(fs, d.zipPath).value| == 2
       && FirstXml(OpenArchive(fs, d.zipPath).value, 0) >= 0)
    ensures r.1 != fs && d.zipPath != d.xmlPath ==>
      (d.xmlPath in r.1
       && r.1[d.xmlPath] == File(Bytes(OpenArchive(fs, d.zipPath).value[FirstXml(OpenArchive(fs, d.zipPath).value, 0)].data)))
  {
    match OpenArchive(fs, d.zipPath)
    case Failure(m) => (Err(m), fs)
    case Success(ms) =>
      if |ms| != 2 then (Ok, fs)
      else
        var k := FirstXml(ms, 0);
        if k < 0 then (Ok, fs)
        else match CreateFile(fs, d.xmlPath, Bytes(ms[k].data))
          case Failure(m) => (Err(m), fs)
          case Success(fs1) =>
            match Remove(fs1, d.zipPath)
            case Failure(m) => (Err(m), fs1)
            case Success(fs2) => (Ok, fs2)
  }

  /** An archive of two members, one of them an index, at a path other than
      the index path whose directory exists: the first index member is
      written and the archive is gone. */
  lemma ExtractTakesFirstXml(fs: FS, d: DisclosureDownload, ms: seq<ArchiveMember>)
    requires d.zipPath in fs && fs[d.zipPath] == File(Archive(ms))
    requires |ms| == 2 && (HasSuffix(ms[0].name, XmlSuffix) || HasSuffix(ms[1].name, XmlSuffix))
    requires d.zipPath != d.xmlPath && Dir(d.xmlPath) in fs && fs[Dir(d.xmlPath)].Directory?
    requires !(d.xmlPath in fs && !fs[d.xmlPath].File?)
    ensures Extract(fs, d).0 == Ok
    ensures Extract(fs, d).1
      == fs[d.xmlPath := File(Bytes(ms[if HasSuffix(ms[0].name, XmlSuffix) then 0 else 1].data))] - {d.zipPath}
  {
    var k := if HasSuffix(ms[0].name, XmlSuffix) then 0 else 1;
    assert FirstXml(ms, 0) == k;
    var fs1 := fs[d.xmlPath := File(Bytes(ms[k].data))];
    assert CreateFile(fs, d.xmlPath, Bytes(ms[k].data)) == Success(fs1);
    assert Remove(fs1, d.zipPath) == Success(fs1 - {d.zipPath});
  }

  /** The three ways `DownloadZipsIfNotPresent` handles one download. */
  datatype Plan = SkipPresent | DownloadThenExtract | ExtractOnly

  function Decide(fs: FS, d: DisclosureDownload): (p: Plan)
    ensures p == SkipPresent <==> Present(fs, d.xmlPath)
    ensures p == DownloadThenExtract <==> !Present(fs, d.xmlPath) && !Present(fs, d.zipPath)
  {
    if Present(fs, d.xmlPath) then SkipPresent
    else if !Present(fs, d.zipPath) then DownloadThenExtract
    else ExtractOnly
  }

  /** One download: an index already present is skipped; otherwise the
      archive is fetched when absent, and then unpacked. An error here is
      fatal (`log.Fatalf`): the process exits. */
  function DownloadIfNotPresent(fs: FS, d: DisclosureDownload, fetch: Fetch): (r: (Status, FS))
    ensures Present(fs, d.xmlPath) ==> r == (Ok, fs)
    ensures Decide(fs, d) == ExtractOnly ==> r == Extract(fs, d)
  {
    match Decide(fs, d)
    case SkipPresent => (Ok, fs)
    case ExtractOnly => Extract(fs, d)
    case DownloadThenExtract =>
      var (st, fs1) := DownloadFile(fs, d.zipPath, fetch);
      if st.Err? then (st, fs1) else Extract(fs1, d)
  }

  /** A missing archive answered with a status other than 200: nothing is
      written and no error is reported, so unpacking then fails to open the
      archive, which is fatal. */
  lemma BadStatusIsFatal(fs: FS, d: DisclosureDownload)
    requires !Present(fs, d.xmlPath) && !Present(fs, d.zipPath)
    ensures DownloadIfNotPresent(fs, d, BadStatus) == (Err(ErrNotExist), fs)
  {
  }

  /** A year whose index and archive are both absent, answered with a
      two-member archive holding an index: afterwards exactly the index is
      there (the archive was written and removed again), and a second run
      skips the year whatever the network answers. */
  lemma DownloadThenSkip(fs: FS, d: DisclosureDownload, ms: seq<ArchiveMember>, other: Fetch)
    requires !Present(fs, d.xmlPath) && !Present(fs, d.zipPath) && d.zipPath != d.xmlPath
    requires Dir(d.zipPath) in fs && fs[Dir(d.zipPath)].Directory?
    requires Dir(d.xmlPath) in fs && fs[Dir(d.xmlPath)].Directory?
    requires |ms| == 2 && (HasSuffix(ms[0].name, XmlSuffix) || HasSuffix(ms[1].name, XmlSuffix))
    ensures DownloadIfNotPresent(fs, d, Body(Archive(ms))).0 == Ok
    ensures DownloadIfNotPresent(fs, d, Body(Archive(ms))).1
      == fs[d.xmlPath := File(Bytes(ms[if HasSuffix(ms[0].name, XmlSuffix) then 0 else 1].data))]
    ensures var fs' := DownloadIfNotPresent(fs, d, Body(Archive(ms))).1;
      DownloadIfNotPresent(fs', d, other) == (Ok, fs')
  {
    var fs1 := fs[d.zipPath := File(Archive(ms))];
    DownloadFirst(fs, d, Archive(ms));
    assert d.xmlPath != Dir(d.zipPath) && d.zipPath != Dir(d.xmlPath);
    ExtractTakesFirstXml(fs1, d, ms);
    var k := if HasSuffix(ms[0].name, XmlSuffix) then 0 else 1;
    var fs' := fs[d.xmlPath := File(Bytes(ms[k].data))];
    TemporaryGone(fs, d.zipPath, d.xmlPath, File(Archive(ms)), File(Bytes(ms[k].data)));
    assert Present(fs', d.xmlPath);
  }

  /** A file written and removed again leaves no trace. */
  lemma TemporaryGone(fs: FS, tmp: string, p: string, t: Node, n: Node)
    requires tmp !in fs && tmp != p
    ensures fs[tmp := t][p := n] - {tmp} == fs[p := n]
  {
  }

  /** With neither file there and the archive fetched, the download writes
      it and unpacking follows. */
  lemma DownloadFirst(fs: FS, d: DisclosureDownload, c: Content)
    requires !Present(fs, d.xmlPath) && !Present(fs, d.zipPath)
    requires Dir(d.zipPath) in fs && fs[Dir(d.zipPath)].Directory?
    ensures DownloadIfNotPresent(fs, d, Body(c)) == Extract(fs[d.zipPath := File(c)], d)
  {
    assert DownloadFile(fs, d.zipPath, Body(c)) == (Ok, fs[d.zipPath := File(c)]);
  }

  /** `DownloadZipsIfNotPresent`, one download after the other: the first
      error ends the process; when none occurs the result is nil. */
  function DownloadZipsIfNotPresent(fs: FS, ds: seq<DisclosureDownload>, fetches: seq<Fetch>): (r: (Status, FS))
    requires |fetches| == |ds|
    ensures (forall i :: 0 <= i < |ds| ==> Present(fs, ds[i].xmlPath)) ==> r == (Ok, fs)
    decreases |ds|
  {
    if |ds| == 0 then (Ok, fs)
    else
      var (st, fs1) := DownloadIfNotPresent(fs, ds[0], fetches[0]);
      if st.Err? then (st, fs1)
      else
        assert forall i :: 1 <= i < |ds| ==> ds[i] == ds[1..][i - 1];
        DownloadZipsIfNotPresent(fs1, ds[1..], fetches[1..])
  }

  /** One downloadable document: its address, the bytes once fetched, and
      its file path. */
  datatype Downloadable = Downloadable(url: string, bytes: seq<int>, fp: string)

  /** `DownloadMultiple`, with the byte-download answers given in input
      order: every success stores its bytes in its own value, every failure
      adds " " and its message to the aggregate error, and the values are
      returned in input order. */
  method DownloadMultiple(values: seq<Downloadable>, answers: seq<Result<seq<int>>>)
    returns (out: seq<Downloadable>, err: Status)
    requires |answers| == |values|
    ensures |out| == |values|
    ensures forall i :: 0 <= i < |values| ==>
      out[i].url == values[i].url && out[i].fp == values[i].fp
      && out[i].bytes == (if answers[i].Success? then answers[i].value else values[i].bytes)
    ensures err.Err? <==> exists i :: 0 <= i < |answers| && answers[i].Failure?
    ensures err.Err? ==> err.msg == Aggregation.ErrorText(AnswerStatuses(answers))
  {
    out := values;
    var errStr := "";
    var i := 0;
    while i < |values|
      invariant 0 <= i <= |values| && |out| == |values|
      invariant forall j :: 0 <= j < |values| ==> out[j] == (if j < i then Absorb(values[j], answers[j]) else values[j])
      invariant errStr == Aggregation.ErrorText(AnswerStatuses(answers[..i]))
    {
      ErrorTextStep(answers, i, errStr);
      if answers[i].Failure? {
        errStr := errStr + " " + answers[i].msg;
      }
      out := out[i := Absorb(out[i], answers[i])];
      i := i + 1;
    }
    AbsorbedAll(values, answers, out);
    ErrorTextFinal(answers, errStr);
    err := if errStr != "" then Err(errStr) else Ok;
  }

  lemma ErrorTextFinal(answers: seq<Result<seq<int>>>, errStr: string)
    requires errStr == Aggregation.ErrorText(AnswerStatuses(answers[..|answers|]))
    ensures errStr == Aggregation.ErrorText(AnswerStatuses(answers))
    ensures errStr != "" <==> exists i :: 0 <= i < |answers| && answers[i].Failure?
  {
    assert answers[..|answers|] == answers;
    Aggregation.ErrorTextEmptyIff(AnswerStatuses(answers));
  }

  /** A value after its answer: the fetched bytes on success, unchanged on
      failure. */
  function Absorb(v: Downloadable, a: Result<seq<int>>): Downloadable {
    if a.Success? then v.(bytes := a.value) else v
  }

  lemma AbsorbedAll(values: seq<Downloadable>, answers: seq<Result<seq<int>>>, out: seq<Downloadable>)
    requires |answers| == |values| == |out|
    requires forall j :: 0 <= j < |values| ==> out[j] == Absorb(values[j], answers[j])
    ensures forall i :: 0 <= i < |values| ==>
      out[i].url == values[i].url && out[i].fp == values[i].fp
      && out[i].bytes == (if answers[i].Success? then answers[i].value else values[i].bytes)
  {
  }

  /** One more answer adds its message, after a space, to the error text
      exactly when it failed. */
  lemma ErrorTextStep(answers: seq<Result<seq<int>>>, i: nat, errStr: string)
    requires i < |answers| && errStr == Aggregation.ErrorText(AnswerStatuses(answers[..i]))
    ensures Aggregation.ErrorText(AnswerStatuses(answers[..i + 1]))
      == if answers[i].Success? then errStr else errStr + " " + answers[i].msg
  {
    AnswerStatusesStep(answers, i);
    Aggregation.ErrorTextSnoc(AnswerStatuses(answers[..i]), answers[i].ToStatus());
  }

  /** The error halves of the answers, in order. */
  function AnswerStatuses(answers: seq<Result<seq<int>>>): (ss: seq<Status>)
    ensures |ss| == |answers|
    ensures forall i :: 0 <= i < |answers| ==> ss[i] == answers[i].ToStatus()
    ensures Aggregation.SomeFailed(ss) <==> exists i :: 0 <= i < |answers| && answers[i].Failure?
  {
    seq(|answers|, i requires 0 <= i < |answers| => answers[i].ToStatus())
  }

  lemma AnswerStatusesStep(answers: seq<Result<seq<int>>>, i: nat)
    requires i < |answers|
    ensures AnswerStatuses(answers[..i + 1]) == AnswerStatuses(answers[..i]) + [answers[i].ToStatus()]
  {
    assert answers[..i + 1] == answers[..i] + [answers[i]];
  }
}

=== FILE: filepath.dfy ===
/** The slash-separated path functions of Go's `path/filepath` on a Unix
    host: `Base`, `Ext`, `Split`, `Dir` and `Join`. `Join` and `Dir` are
    modelled without `Clean`'s removal of `.`/`..` elements and of repeated
    separators inside a path. */
module FilePath {
  import opened Strs

  const Separator: char := '/'

  /** The index of the last separator, or -1. */
  function LastSep(p: string): (r: int)
    ensures -1 <= r < |p|
    ensures r >= 0 ==> p[r] == Separator
    ensures forall j :: r < j < |p| ==> p[j] != Separator
  {
    LastIndexChar(p, Separator)
  }

  predicate NoSep(s: string) {
    forall i :: 0 <= i < |s| ==> s[i] != Separator
  }

  /** `p` without its trailing separators. */
  function TrimTrailingSeps(p: string): (r: string)
    ensures IsPrefix(r, p)
    ensures r == [] || r[|r| - 1] != Separator
    ensures forall j :: |r| <= j < |p| ==> p[j] == Separator
    decreases |p|
  {
    if |p| > 0 && p[|p| - 1] == Separator then TrimTrailingSeps(p[..|p| - 1]) else p
  }

  /** `filepath.Base`: the last element of the path; "." for the empty path
      and "/" for a path of separators only. */
  function Base(p: string): (r: string)
    ensures r != []
    ensures p == [] ==> r == "."
    ensures p != [] && TrimTrailingSeps(p) == [] ==> r == "/"
    ensures TrimTrailingSeps(p) != [] ==>
      NoSep(r) && HasSuffix(TrimTrailingSeps(p), r)
      && (|r| == |TrimTrailingSeps(p)| || TrimTrailingSeps(p)[|TrimTrailingSeps(p)| - |r| - 1] == Separator)
  {
    if p == [] then "."
    else
      var t := TrimTrailingSeps(p);
      if t == [] then "/" else t[LastSep(t) + 1..]
  }

  /** `filepath.Ext`: scanning back from the end, the suffix starting at the
      first '.' met before any separator, or "" when a separator or the start
      of the path comes first. */
  function Ext(p: string): (r: string)
    ensures r == [] || (r[0] == '.' && HasSuffix(p, r) && NoSep(r) && '.' !in r[1..])
  {
    assert p[|p|..] == [];
    ExtFrom(p, |p| - 1)
  }

  function ExtFrom(p: string, i: int): (r: string)
    requires -1 <= i < |p|
    requires NoSep(p[i + 1..]) && '.' !in p[i + 1..]
    ensures r == [] || (r[0] == '.' && HasSuffix(p, r) && NoSep(r) && '.' !in r[1..])
    decreases i + 1
  {
    if i < 0 || p[i] == Separator then []
    else if p[i] == '.' then
      assert p[i..] == [p[i]] + p[i + 1..];
      p[i..]
    else
      assert p[i..] == [p[i]] + p[i + 1..];
      ExtFrom(p, i - 1)
  }

  /** A plain name without '.' has no extension, wherever it is joined. */
  lemma {:induction false} ExtOfNameWithoutDot(d: string, name: string)
    requires name != [] && NoSep(name) && '.' !in name
    ensures Ext(Join(d, name)) == []
  {
    var p := Join(d, name);
    var n := |p| - |name|;
    assert p[n..] == name;
    assert p[|p|..] == [];
    ExtFromStops(p, |p| - 1, n);
  }

  /** A path whose last '.' is followed only by plain characters has the
      extension starting at that '.'. */
  lemma {:induction false} ExtOfDotSuffix(stem: string, suffix: string)
    requires NoSep(suffix) && '.' !in suffix
    ensures Ext(stem + "." + suffix) == "." + suffix
  {
    var p := stem + "." + suffix;
    assert p[|p|..] == [];
    ExtFromFindsDot(p, |p| - 1, |stem|);
    assert p[|stem|..] == "." + suffix;
  }

  /** Scanning back over a stretch without '.' or separator stops at the '.'
      before it. */
  lemma {:induction false} ExtFromFindsDot(p: string, i: int, n: int)
    requires 0 <= n <= i < |p| && p[n] == '.'
    requires NoSep(p[n + 1..]) && '.' !in p[n + 1..]
    requires NoSep(p[i + 1..]) && '.' !in p[i + 1..]
    ensures ExtFrom(p, i) == p[n..]
    decreases i
  {
    if i > n {
      assert p[i] == p[n + 1..][i - n - 1];
      assert p[i..] == [p[i]] + p[i + 1..];
      ExtFromFindsDot(p, i - 1, n);
    }
  }

  /** Scanning back over a stretch without '.' or separator reaches its start. */
  lemma {:induction false} ExtFromStops(p: string, i: int, n: int)
    requires 0 <= n <= |p| && n - 1 <= i < |p|
    requires NoSep(p[i + 1..]) && '.' !in p[i + 1..]
    requires NoSep(p[n..]) && '.' !in p[n..]
    requires n == 0 || p[n - 1] == Separator
    ensures ExtFrom(p, i) == []
    decreases i + 1
  {
    if i >= n {
      assert p[i] == p[n..][i - n];
      assert p[i..] == [p[i]] + p[i + 1..];
      ExtFromStops(p, i - 1, n);
    }
  }

  lemma NoSepAfterLast(p: string)
    ensures NoSep(p[LastSep(p) + 1..])
  {
    var k := LastSep(p);
    var tail := p[k + 1..];
    forall i | 0 <= i < |tail| ensures tail[i] != Separator {
      var j := k + 1 + i;
      assert k < j < |p|;
      assert p[j] != Separator;
      assert tail[i] == p[j];
    }
    assert NoSep(tail);
  }

  /** `filepath.Split`: everything up to and including the last separator,
      and the rest. */
  function Split(p: string): (r: (string, string))
    ensures r.0 + r.1 == p
    ensures NoSep(r.1)
    ensures r.0 == [] || r.0[|r.0| - 1] == Separator
  {
    var k := LastSep(p);
    NoSepAfterLast(p);
    assert p == p[..k + 1] + p[k + 1..];
    (p[..k + 1], p[k + 1..])
  }

  /** The `Split` of a path is the only way to cut it into a directory part
      that is empty or ends in a separator and a file part with none. */
  lemma {:induction false} SplitUnique(p: string, dir: string, file: string)
    requires dir + file == p
    requires NoSep(file)
    requires dir == [] || dir[|dir| - 1] == Separator
    ensures Split(p) == (dir, file)
  {
    var (d, f) := Split(p);
    var k := LastSep(p);
    assert |d| == k + 1;
    if |dir| > 0 {
      assert p[|dir| - 1] == Separator;
    }
    forall j | |dir| <= j < |p| ensures p[j] != Separator {
      assert p[j] == file[j - |dir|];
    }
    assert |dir| == k + 1;
  }

  /** `filepath.Dir`: the directory part of `Split` without its trailing
      separators; "." when there is none and "/" at the root. */
  function Dir(p: string): (r: string)
    ensures r != []
    ensures Split(p).0 == [] ==> r == "."
    ensures r != "." && r != "/" ==> |r| > 0 && IsPrefix(r, p) && r[|r| - 1] != Separator
  {
    var d := Split(p).0;
    if d == [] then "."
    else
      var t := TrimTrailingSeps(d);
      if t == [] then "/" else t
  }

  /** `filepath.Join` of two elements: an empty element is ignored, otherwise
      the two are joined by one separator. */
  function Join(a: string, b: string): (r: string)
    ensures a == [] ==> r == b
    ensures b == [] ==> r == a
    ensures a != [] && b != [] ==>
      |r| == |a| + 1 + |b| && IsPrefix(a, r) && r[|a|] == Separator && r[|a| + 1..] == b
  {
    if a == [] then b else if b == [] then a else a + [Separator] + b
  }

  /** Joining a directory and a plain file name: `Base` gives the name back. */
  lemma {:induction false} BaseOfJoin(d: string, name: string)
    requires name != [] && NoSep(name)
    ensures Base(Join(d, name)) == name
  {
    var p := Join(d, name);
    assert TrimTrailingSeps(p) == p;
    assert HasSuffix(p, name);
    var k := LastSep(p);
    if d != [] {
      assert p[|d|] == Separator;
      forall j | |d| < j < |p| ensures p[j] != Separator {
        assert p[j] == name[j - |d| - 1];
      }
      assert k == |d|;
      assert p[k + 1..] == name;
    } else {
      forall j | 0 <= j < |p| ensures p[j] != Separator {
        assert p[j] == name[j];
      }
      assert k == -1;
    }
  }

  /** Joining a directory and a plain file name: `Split` separates them again. */
  lemma {:induction false} SplitOfJoin(d: string, name: string)
    requires d != [] && name != [] && NoSep(name)
    ensures Split(Join(d, name)) == (d + [Separator], name)
  {
    var p := Join(d, name);
    assert p == (d + [Separator]) + name;
    SplitUnique(p, d + [Separator], name);
  }

  /** `Dir` undoes `Join` with a plain file name when the directory has no
      trailing separator. */
  lemma {:induction false} DirOfJoin(d: string, name: string)
    requires d != [] && d[|d| - 1] != Separator
    requires name != [] && NoSep(name)
    ensures Dir(Join(d, name)) == d
  {
    SplitOfJoin(d, name);
    var ds := d + [Separator];
    assert ds[..|ds| - 1] == d;
  }

  /** The extension of a joined path is the extension of its file name. */
  lemma {:induction false} ExtOfJoin(d: string, name: string)
    requires name != [] && NoSep(name)
    ensures Ext(Join(d, name)) == Ext(name)
  {
    var a := if d == [] then [] else d + [Separator];
    assert Join(d, name) == a + name;
    assert (a + name)[|a + name|..] == [] && name[|name|..] == [];
    ExtFromShift(a, name, |name| - 1);
  }

  lemma {:induction false} ExtFromShift(a: string, name: string, i: int)
    requires a == [] || a[|a| - 1] == Separator
    requires -1 <= i < |name|
    requires NoSep(name[i + 1..]) && '.' !in name[i + 1..]
    ensures (a + name)[|a| + i + 1..] == name[i + 1..]
    ensures ExtFrom(a + name, |a| + i) == ExtFrom(name, i)
    decreases i + 1
  {
    SuffixOfConcat(a, name, i + 1);
    if i < 0 {
      if a != [] {
        assert (a + name)[|a| - 1] == Separator;
      }
    } else if name[i] == '.' {
      SuffixOfConcat(a, name, i);
    } else if name[i] != Separator {
      assert (a + name)[|a| + i] == name[i];
      assert name[i..] == [name[i]] + name[i + 1..];
      ExtFromShift(a, name, i - 1);
    } else {
      assert (a + name)[|a| + i] == name[i];
    }
  }

  /** A suffix of `a + name` that starts inside `name` is a suffix of `name`. */
  lemma SuffixOfConcat(a: string, name: string, j: nat)
    requires j <= |name|
    ensures (a + name)[|a| + j..] == name[j..]
  {
  }

  /** Plain names stay plain under concatenation and truncation. */
  lemma NoSepConcat(a: string, b: string)
    requires NoSep(a) && NoSep(b)
    ensures NoSep(a + b)
    ensures forall n :: 0 <= n <= |a| ==> NoSep(a[..n])
  {
  }

  /** Joining one directory with two names gives the same path only for
      the same name. */
  lemma JoinInjective(d: string, a: string, b: string)
    requires d != [] && a != [] && b != []
    ensures Join(d, a) == Join(d, b) <==> a == b
  {
    if Join(d, a) == Join(d, b) {
      assert a == Join(d, a)[|d| + 1..];
    }
  }
}

=== FILE: filesystem.dfy ===
/** The abstract filesystem the commands read and write: a map from paths to
    nodes. A directory node carries its listing in the order `os.ReadDir`
    returns it; a file node carries an abstract content; an `Unreadable` node
    is a path whose `os.Stat` fails with an error other than "does not
    exist" (permissions, I/O). */
module FileSystem {
  import opened Outcomes
  import opened FilePath
  import opened OcrResults
  import Seqs

  datatype ImageFormat = Png | Jpeg

  /** Rendered page pixels; the model does not look inside them. */
  type Raster = seq<int>

  /** What the renderer produces for one page of a document. */
  datatype PageRender = Rendered(raster: Raster) | RenderFailed(msg: string)

  datatype ArchiveMember = ArchiveMember(name: string, data: seq<int>)

  datatype Content =
    | Pdf(pages: seq<PageRender>)              // a document the renderer can open
    | Image(format: ImageFormat, raster: Raster) // an encoded page image
    | Records(rows: seq<OcrResult>)            // a tab-separated OCR result file
    | Text(text: string)                       // a plain text file
    | Archive(members: seq<ArchiveMember>)     // a zip archive
    | Bytes(data: seq<int>)                    // any other file

  datatype Node = Directory(entries: seq<string>) | File(content: Content) | Unreadable(msg: string)

  type FS = map<string, Node>

  const ErrNotExist := "file does not exist"
  const ErrNotDir := "not a directory"
  const ErrIsDir := "is a directory"
  const ErrNotPdf := "cannot open document"
  const ErrNotArchive := "not a valid zip file"
  const ErrNotEmpty := "directory not empty"

  /** `os.Stat` classified the way the callers test it. */
  datatype StatResult = Found(node: Node) | NotExist | StatError(msg: string)

  function Stat(fs: FS, p: string): (r: StatResult)
    ensures r.NotExist? <==> p !in fs
    ensures r.StatError? <==> p in fs && fs[p].Unreadable?
    ensures r.StatError? ==> r.msg == fs[p].msg
    ensures r.Found? ==> r.node == fs[p]
  {
    if p !in fs then NotExist
    else match fs[p]
      case Unreadable(m) => StatError(m)
      case _ => Found(fs[p])
  }

  /** The three-way existence test `(bool, error)` of `ImageDirExists` and
      `CsvExists`: present, absent, or the stat error. */
  function Exists(fs: FS, p: string): (r: Result<bool>)
    ensures r == Success(true) <==> p in fs && !fs[p].Unreadable?
    ensures r == Success(false) <==> p !in fs
    ensures r.Failure? <==> p in fs && fs[p].Unreadable?
    ensures r.Failure? ==> r.msg == fs[p].msg
  {
    match Stat(fs, p)
    case Found(_) => Success(true)
    case NotExist => Success(false)
    case StatError(m) => Failure(m)
  }

  /** `TryCreateDirectories`: stat the path; only when it does not exist is
      it created (as an empty directory); otherwise the stat error is
      returned unchanged, which is nil when the path exists, whatever it is. */
  function EnsureDir(fs: FS, p: string): (r: (Status, FS))
    ensures r.0.Ok? <==> !(p in fs && fs[p].Unreadable?)
    ensures r.0.Err? ==> r.0.msg == fs[p].msg && r.1 == fs
    ensures r.0.Ok? ==> p in r.1 && !r.1[p].Unreadable?
    ensures p in fs ==> r.1 == fs
    ensures p !in fs ==> r.1[p] == Directory([])
    ensures r.1.Keys == fs.Keys + {p} || r.1.Keys == fs.Keys
    ensures forall q :: q in fs ==> q in r.1 && r.1[q] == fs[q]
  {
    match Stat(fs, p)
    case NotExist => (Ok, fs[p := Directory([])])
    case Found(_) => (Ok, fs)
    case StatError(m) => (Err(m), fs)
  }

  /** Ensuring a directory twice is ensuring it once. */
  lemma EnsureDirIdempotent(fs: FS, p: string)
    ensures EnsureDir(EnsureDir(fs, p).1, p) == (EnsureDir(fs, p).0, EnsureDir(fs, p).1)
  {
  }

  /** Ensuring a list of directories in order, stopping at the first error
      (the `CreateDirectories` loops of the configuration code). */
  function EnsureAll(fs: FS, ps: seq<string>): (r: (Status, FS))
    ensures r.0.Ok? <==> forall i :: 0 <= i < |ps| ==> !(ps[i] in fs && fs[ps[i]].Unreadable?)
    ensures r.0.Ok? ==> forall i :: 0 <= i < |ps| ==> ps[i] in r.1 && !r.1[ps[i]].Unreadable?
    ensures r.0.Err? ==> exists i :: 0 <= i < |ps| && ps[i] in fs && fs[ps[i]] == Unreadable(r.0.msg)
    ensures forall q :: q in fs ==> q in r.1 && r.1[q] == fs[q]
    ensures forall q :: q in r.1 && q !in fs ==> r.1[q] == Directory([]) && q in ps
    decreases |ps|
  {
    if |ps| == 0 then (Ok, fs)
    else
      var (st, fs1) := EnsureDir(fs, ps[0]);
      if st.Err? then (st, fs)
      else
        var r := EnsureAll(fs1, ps[1..]);
        assert forall i :: 1 <= i < |ps| ==> ps[i] == ps[1..][i - 1];
        assert forall i :: 0 <= i < |ps[1..]| ==> ps[1..][i] == ps[i + 1];
        r
  }

  /** Ensuring directories that all exist and can be read succeeds and
      changes nothing. */
  lemma EnsureAllExisting(fs: FS, ps: seq<string>)
    requires forall i :: 0 <= i < |ps| ==> ps[i] in fs && !fs[ps[i]].Unreadable?
    ensures EnsureAll(fs, ps) == (Ok, fs)
  {
    var r := EnsureAll(fs, ps);
    assert r.1.Keys == fs.Keys;
  }

  /** The first error stops the loop: every directory before the failing one
      was ensured, and none after it was touched. */
  lemma {:induction false} EnsureAllStopsAtFirstError(fs: FS, ps: seq<string>, k: nat)
    requires k < |ps| && ps[k] in fs && fs[ps[k]].Unreadable?
    requires forall i :: 0 <= i < k ==> !(ps[i] in fs && fs[ps[i]].Unreadable?)
    ensures EnsureAll(fs, ps).0 == Err(fs[ps[k]].msg)
    ensures EnsureAll(fs, ps).1 == EnsureAll(fs, ps[..k]).1
    decreases k
  {
    if k == 0 {
      assert ps[..k] == [];
    } else {
      var fs1 := EnsureDir(fs, ps[0]).1;
      EnsureAllCons(fs, ps);
      EnsureAllCons(fs, ps[..k]);
      EnsureDirKeepsReadable(fs, ps, k);
      EnsureAllStopsAtFirstError(fs1, ps[1..], k - 1);
      assert ps[..k][1..] == ps[1..][..k - 1];
    }
  }

  /** After a successful first step the loop goes on with the rest. */
  lemma EnsureAllCons(fs: FS, ps: seq<string>)
    requires |ps| > 0 && EnsureDir(fs, ps[0]).0.Ok?
    ensures EnsureAll(fs, ps) == EnsureAll(EnsureDir(fs, ps[0]).1, ps[1..])
  {
  }

  /** Ensuring the first directory keeps a failing later one failing, and
      the readable ones before it readable. */
  lemma EnsureDirKeepsReadable(fs: FS, ps: seq<string>, k: nat)
    requires 0 < k < |ps| && ps[k] in fs && fs[ps[k]].Unreadable?
    requires forall i :: 0 <= i < k ==> !(ps[i] in fs && fs[ps[i]].Unreadable?)
    ensures var fs1 := EnsureDir(fs, ps[0]).1;
      EnsureDir(fs, ps[0]).0.Ok? && ps[1..][k - 1] in fs1 && fs1[ps[1..][k - 1]] == fs[ps[k]]
      && forall i :: 0 <= i < k - 1 ==> !(ps[1..][i] in fs1 && fs1[ps[1..][i]].Unreadable?)
  {
    var fs1 := EnsureDir(fs, ps[0]).1;
    assert ps[1..][k - 1] == ps[k];
    forall i | 0 <= i < k - 1 ensures !(ps[1..][i] in fs1 && fs1[ps[1..][i]].Unreadable?) {
      assert ps[1..][i] == ps[i + 1];
    }
  }

  /** Ensuring `ps` and then `qs` is ensuring `ps + qs`: the second list is
      only reached when the first one succeeded. */
  lemma {:induction false} EnsureAllAppend(fs: FS, ps: seq<string>, qs: seq<string>)
    ensures EnsureAll(fs, ps + qs)
      == if EnsureAll(fs, ps).0.Ok? then EnsureAll(EnsureAll(fs, ps).1, qs) else EnsureAll(fs, ps)
    decreases |ps|
  {
    if |ps| == 0 {
      assert ps + qs == qs;
    } else {
      assert (ps + qs)[0] == ps[0];
      assert (ps + qs)[1..] == ps[1..] + qs;
      if EnsureDir(fs, ps[0]).0.Ok? {
        EnsureAllAppend(EnsureDir(fs, ps[0]).1, ps[1..], qs);
      }
    }
  }

  /** The directory-creation loop of the configuration code: each directory
      is ensured in turn and the first error is returned at once. */
  method CreateEach(fs: FS, dirs: seq<string>) returns (st: Status, fs': FS)
    ensures (st, fs') == EnsureAll(fs, dirs)
  {
    fs' := fs;
    var i := 0;
    while i < |dirs|
      invariant 0 <= i <= |dirs|
      invariant EnsureAll(fs, dirs[..i]) == (Ok, fs')
    {
      var step := EnsureDir(fs', dirs[i]);
      CreateStep(fs, dirs, i, fs');
      if step.0.Err? {
        return step.0, fs';
      }
      fs' := step.1;
      i := i + 1;
    }
    assert dirs[..i] == dirs;
    st := Ok;
  }

  /** One turn of that loop: the next directory extends the ensured prefix,
      and an error there is the outcome of the whole list. */
  lemma CreateStep(fs: FS, dirs: seq<string>, i: nat, cur: FS)
    requires i < |dirs| && EnsureAll(fs, dirs[..i]) == (Ok, cur)
    ensures EnsureAll(fs, dirs[..i + 1]) == EnsureDir(cur, dirs[i])
    ensures EnsureDir(cur, dirs[i]).0.Err? ==> EnsureAll(fs, dirs) == (EnsureDir(cur, dirs[i]).0, cur)
  {
    var prefix := dirs[..i + 1];
    Seqs.PrefixSnoc(dirs, i);
    EnsureAllAppend(fs, dirs[..i], [dirs[i]]);
    EnsureOne(cur, dirs[i]);
    if EnsureDir(cur, dirs[i]).0.Err? {
      ErrorEndsList(fs, prefix, dirs[i + 1..]);
      Seqs.SplitAt(dirs, i + 1);
    }
  }

  lemma EnsureOne(fs: FS, p: string)
    ensures EnsureAll(fs, [p]) == EnsureDir(fs, p)
  {
    assert [p][1..] == [];
  }

  lemma ErrorEndsList(fs: FS, ps: seq<string>, qs: seq<string>)
    requires EnsureAll(fs, ps).0.Err?
    ensures EnsureAll(fs, ps + qs) == EnsureAll(fs, ps)
  {
    EnsureAllAppend(fs, ps, qs);
  }

  /** `os.ReadDir`: the listing of a directory. */
  function ReadDir(fs: FS, p: string): (r: Result<seq<string>>)
    ensures r.Success? <==> p in fs && fs[p].Directory?
    ensures r.Success? ==> r.value == fs[p].entries
  {
    if p !in fs then Failure(ErrNotExist)
    else match fs[p]
      case Directory(es) => Success(es)
      case File(_) => Failure(ErrNotDir)
      case Unreadable(m) => Failure(m)
  }

  /** `os.Create`: the parent directory must exist; an existing file is
      truncated and replaced; a directory cannot be replaced. */
  function CreateFile(fs: FS, p: string, c: Content): (r: Result<FS>)
    ensures r.Success? <==> Dir(p) in fs && fs[Dir(p)].Directory? && !(p in fs && !fs[p].File?)
    ensures r.Success? ==> r.value == fs[p := File(c)]
  {
    var parent := Dir(p);
    if parent !in fs || !fs[parent].Directory? then Failure(ErrNotExist)
    else if p in fs && fs[p].Directory? then Failure(ErrIsDir)
    else if p in fs && fs[p].Unreadable? then Failure(fs[p].msg)
    else Success(fs[p := File(c)])
  }

  /** `os.OpenFile(p, O_CREATE|O_RDWR)` followed by writing `text` from
      offset 0 and closing: without `O_TRUNC`, the bytes of an older text
      beyond the new length survive. */
  function WriteFromStart(fs: FS, p: string, text: string): (r: Result<FS>)
    ensures r.Success? <==>
      (p in fs && fs[p].File?) || (p !in fs && Dir(p) in fs && fs[Dir(p)].Directory?)
    ensures r.Success? ==> p in r.value && r.value[p].File? && r.value[p].content.Text?
    ensures r.Success? ==> r.value.Keys == fs.Keys + {p}
    ensures r.Success? ==> forall q :: q in fs && q != p ==> r.value[q] == fs[q]
    ensures r.Success? ==> IsPrefixOf(text, r.value[p].content.text)
    ensures r.Success? && p in fs && fs[p].content.Text? && |fs[p].content.text| > |text| ==>
      r.value[p].content.text == text + fs[p].content.text[|text|..]
    ensures r.Success? && !(p in fs && fs[p].content.Text?) ==> r.value[p].content.text == text
  {
    if p in fs then
      match fs[p]
      case File(Text(prev)) =>
        var t := if |prev| > |text| then text + prev[|text|..] else text;
        Success(fs[p := File(Text(t))])
      case File(_) => Success(fs[p := File(Text(text))])
      case Directory(_) => Failure(ErrIsDir)
      case Unreadable(m) => Failure(m)
    else if Dir(p) in fs && fs[Dir(p)].Directory? then Success(fs[p := File(Text(text))])
    else Failure(ErrNotExist)
  }

  predicate IsPrefixOf(a: string, b: string) {
    |a| <= |b| && b[..|a|] == a
  }

  /** `os.Remove` of a file or an empty directory. */
  function Remove(fs: FS, p: string): (r: Result<FS>)
    ensures r.Success? <==> p in fs && (fs[p].File? || fs[p] == Directory([]))
    ensures r.Success? ==> r.value == fs - {p}
  {
    if p !in fs then Failure(ErrNotExist)
    else match fs[p]
      case File(_) => Success(fs - {p})
      case Directory(es) => if es == [] then Success(fs - {p}) else Failure(ErrNotEmpty)
      case Unreadable(m) => Failure(m)
  }

  /** `fitz.New(path)`: the pages of a document, or the open error. */
  function OpenPdf(fs: FS, p: string): (r: Result<seq<PageRender>>)
    ensures r.Success? <==> p in fs && fs[p].File? && fs[p].content.Pdf?
    ensures r.Success? ==> r.value == fs[p].content.pages
  {
    if p in fs && fs[p].File? && fs[p].content.Pdf? then Success(fs[p].content.pages)
    else if p in fs && fs[p].Unreadable? then Failure(fs[p].msg)
    else if p in fs && fs[p].File? then Failure(ErrNotPdf)
    else Failure(ErrNotExist)
  }

  /** `zip.OpenReader(path)`: the members of an archive, or the open error. */
  function OpenArchive(fs: FS, p: string): (r: Result<seq<ArchiveMember>>)
    ensures r.Success? <==> p in fs && fs[p].File? && fs[p].content.Archive?
    ensures r.Success? ==> r.value == fs[p].content.members
  {
    if p in fs && fs[p].File? && fs[p].content.Archive? then Success(fs[p].content.members)
    else if p in fs && fs[p].Unreadable? then Failure(fs[p].msg)
    else if p in fs && fs[p].File? then Failure(ErrNotArchive)
    else Failure(ErrNotExist)
  }
}

=== FILE: folder_builder.dfy ===
/** The folder layout of the configuration (`config/folderBuilder.go`):
    everything lives in `$HOME/.disclosurecli`, the data folders in its
    `data` sub-folder. The two builders take the folder names from the
    command line or from the configuration store, fall back to the default
    names, and always place the result directly in the data folder; the S3
    folder is always `data/s3`. The home directory is a parameter. */
module FolderBuilder {
  import opened FilePath
  import opened Constants
  import opened ConfigTypes
  import opened Viper

  const BaseFolderName: string := ".disclosurecli"
  const DataFolderName: string := "data"

  /** `GetConfigFileName`. */
  const ConfigFileName: string := "config.yaml"

  /** `GetConfigProfile`: the only profile. */
  const ConfigProfile: string := DefaultProfile

  /** `GetBaseFolder`. */
  function BaseFolder(home: string): (r: string)
    ensures r != [] && r[|r| - 1] != Separator
    ensures Base(r) == BaseFolderName
  {
    BaseOfJoin(home, BaseFolderName);
    Join(home, BaseFolderName)
  }

  /** `GetDataFolder`. */
  function DataFolder(home: string): (r: string)
    ensures r != [] && r[|r| - 1] != Separator
    ensures Base(r) == DataFolderName && Dir(r) == BaseFolder(home)
  {
    BaseOfJoin(BaseFolder(home), DataFolderName);
    DirOfJoin(BaseFolder(home), DataFolderName);
    Join(BaseFolder(home), DataFolderName)
  }

  /** A plain folder name placed in the data folder is found there again:
      its directory is the data folder and its base is the name. */
  lemma InDataFolder(home: string, name: string)
    requires name != [] && NoSep(name)
    ensures Dir(Join(DataFolder(home), name)) == DataFolder(home)
    ensures Base(Join(DataFolder(home), name)) == name
  {
    DirOfJoin(DataFolder(home), name);
    BaseOfJoin(DataFolder(home), name);
  }

  // The command-line builder (`CtxFolderBuilder`).

  const ImagesKey: string := "images"
  const DisclosuresKey: string := "disclosures"
  const OcrKey: string := "ocr"
  const CsvKey: string := "csv"

  /** `getFolderFromCtx`: the folder named on the command line, or the
      default name, in the data folder. */
  function FolderFromCtx(home: string, flags: Flags, flagName: string, defaultName: string): string {
    Join(DataFolder(home), OrDefault(Flag(flags, flagName), defaultName))
  }

  /** `CtxFolderBuilder.BuildCommonDirs`. */
  function CtxBuildCommonDirs(home: string, flags: Flags): (d: CommonDirs)
    ensures d.baseFolder == BaseFolder(home) && d.dataFolder == DataFolder(home)
    ensures d.s3Folder == Join(DataFolder(home), DefaultS3Folder)
  {
    CommonDirs(
      BaseFolder(home),
      DataFolder(home),
      Join(DataFolder(home), DefaultS3Folder),
      FolderFromCtx(home, flags, DisclosuresKey, DefaultDisclosuresFolder),
      FolderFromCtx(home, flags, ImagesKey, DefaultImageFolder),
      FolderFromCtx(home, flags, OcrKey, DefaultOcrFolder),
      FolderFromCtx(home, flags, CsvKey, DefaultCsvFolder))
  }

  /** A plain folder name on the command line (or the default name when
      the flag is empty or missing) gives a folder directly in the data
      folder under that name. */
  lemma CtxFolderInDataFolder(home: string, flags: Flags, flagName: string, defaultName: string)
    requires defaultName != []
    requires NoSep(OrDefault(Flag(flags, flagName), defaultName))
    ensures Dir(FolderFromCtx(home, flags, flagName, defaultName)) == DataFolder(home)
    ensures Base(FolderFromCtx(home, flags, flagName, defaultName)) == OrDefault(Flag(flags, flagName), defaultName)
  {
    InDataFolder(home, OrDefault(Flag(flags, flagName), defaultName));
  }

  // The configuration-store builder (`ViperFolderBuilder`).

  const ImagesConfigKey: string := "data.imagesFolder"
  const DisclosuresConfigKey: string := "data.disclosuresFolder"
  const OcrConfigKey: string := "data.ocrFolder"
  const CsvConfigKey: string := "data.csvFolder"

  /** `getFolderFromViper`: the folder stored under the profile's key, or
      the default name, in the data folder. */
  function FolderFromViper(home: string, v: Store, profile: string, key: string, defaultName: string): string {
    Join(DataFolder(home), OrDefault(GetString(v, profile + "." + key), defaultName))
  }

  /** `ViperFolderBuilder.BuildCommonDirs`. */
  function ViperBuildCommonDirs(home: string, v: Store, profile: string): (d: CommonDirs)
    ensures d.baseFolder == BaseFolder(home) && d.dataFolder == DataFolder(home)
    ensures d.s3Folder == Join(DataFolder(home), DefaultS3Folder)
  {
    CommonDirs(
      BaseFolder(home),
      DataFolder(home),
      Join(DataFolder(home), DefaultS3Folder),
      FolderFromViper(home, v, profile, DisclosuresConfigKey, DefaultDisclosuresFolder),
      FolderFromViper(home, v, profile, ImagesConfigKey, DefaultImageFolder),
      FolderFromViper(home, v, profile, OcrConfigKey, DefaultOcrFolder),
      FolderFromViper(home, v, profile, CsvConfigKey, DefaultCsvFolder))
  }

  /** A plain folder name in the store (or the default name when the key
      is empty or missing) gives a folder directly in the data folder under
      that name. */
  lemma ViperFolderInDataFolder(home: string, v: Store, profile: string, key: string, defaultName: string)
    requires defaultName != []
    requires NoSep(OrDefault(GetString(v, profile + "." + key), defaultName))
    ensures Dir(FolderFromViper(home, v, profile, key, defaultName)) == DataFolder(home)
    ensures Base(FolderFromViper(home, v, profile, key, defaultName)) == OrDefault(GetString(v, profile + "." + key), defaultName)
  {
    InDataFolder(home, OrDefault(GetString(v, profile + "." + key), defaultName));
  }

  /** The two builders agree whenever the store holds, under the profile's
      keys, what the command line gives: the source of the names is all
      that differs between them. */
  lemma BuildersAgree(home: string, flags: Flags, v: Store, profile: string)
    requires GetString(v, profile + "." + DisclosuresConfigKey) == Flag(flags, DisclosuresKey)
    requires GetString(v, profile + "." + ImagesConfigKey) == Flag(flags, ImagesKey)
    requires GetString(v, profile + "." + OcrConfigKey) == Flag(flags, OcrKey)
    requires GetString(v, profile + "." + CsvConfigKey) == Flag(flags, CsvKey)
    ensures ViperBuildCommonDirs(home, v, profile) == CtxBuildCommonDirs(home, flags)
  {
  }

  /** Without any configuration (an empty command line, an empty store)
      both builders give the default layout. */
  lemma BuildersDefaultLayout(home: string, profile: string)
    ensures var d := CtxBuildCommonDirs(home, map[]);
      d == ViperBuildCommonDirs(home, map[], profile)
      && d.disclosuresFolder == Join(DataFolder(home), DefaultDisclosuresFolder)
      && d.imageFolder == Join(DataFolder(home), DefaultImageFolder)
      && d.ocrFolder == Join(DataFolder(home), DefaultOcrFolder)
      && d.csvFolder == Join(DataFolder(home), DefaultCsvFolder)
  {
  }
}

=== FILE: init_config.dfy ===
/** The configuration builder with one field per folder
    (`config/initConfig.go`). Each folder has a key, the profile followed
    directly by the folder's name, and a value taken from the command line
    as given, else from the stored configuration, else the default inside
    the data folder. The data folder and the S3 folder are fixed. */
module InitConfigFields {
  import opened Outcomes
  import opened Strs
  import opened Constants
  import opened FilePath
  import opened FileSystem
  import opened ConfigTypes
  import opened Viper
  import opened FolderBuilder
  import CommonConfig
  import CommonConfigV2

  /** `ConfigurationValue`: a configuration key and the value resolved for
      it. */
  datatype ConfigurationValue = ConfigurationValue(key: string, value: string)

  /** `ConfigurationBuilder`: the store read at start-up together with the
      file it was read from, the profile, and the six folders. */
  datatype Builder = Builder(
    v: Store,
    configFile: string,
    profile: string,
    dataFolder: ConfigurationValue,
    disclosuresFolder: ConfigurationValue,
    imageFolder: ConfigurationValue,
    ocrFolder: ConfigurationValue,
    csvFolder: ConfigurationValue,
    s3Folder: ConfigurationValue)

  /** The key names of the folders; the profile is prefixed without a
      separator. */
  const DataFolderName: string := "dataFolder"
  const ImageFolderName: string := "imageFolder"
  const DisclosuresFolderName: string := "disclosuresFolder"
  const OcrFolderName: string := "ocrFolder"
  const CsvFolderName: string := "csvFolder"
  const S3FolderName: string := "s3Folder"

  /** The flag naming the profile. */
  const ProfileFlag: string := "profile"

  /** `extractValue`: the command-line value as given, else the stored
      value, else the default. */
  function ExtractValue(flags: Flags, v: Store, ctxKey: string, configKey: string, defaultValue: string): (r: string)
    ensures r == OrDefault(Flag(flags, ctxKey), OrDefault(GetString(v, configKey), defaultValue))
    ensures defaultValue != "" ==> r != ""
  {
    var value := Flag(flags, ctxKey);
    if value == "" then
      var stored := GetString(v, configKey);
      if stored == "" then defaultValue else stored
    else
      value
  }

  /** One folder of `initialize`: its key under the profile and its value
      from `ExtractValue`, defaulting inside the data folder. */
  function FolderValue(home: string, flags: Flags, v: Store, profile: string, flag: string, name: string, fallback: string)
    : (c: ConfigurationValue)
    ensures c.key == profile + name
    ensures Flag(flags, flag) != "" ==> c.value == Flag(flags, flag)
    ensures Flag(flags, flag) == "" && GetString(v, profile + name) != "" ==> c.value == GetString(v, profile + name)
    ensures Flag(flags, flag) == "" && GetString(v, profile + name) == "" ==> c.value == Join(DataFolder(home), fallback)
    ensures fallback != "" ==> c.value != ""
  {
    ConfigurationValue(profile + name, ExtractValue(flags, v, flag, profile + name, Join(DataFolder(home), fallback)))
  }

  /** Each folder's key is the profile followed by the folder's name. */
  predicate KeyedUnder(b: Builder) {
    b.dataFolder.key == b.profile + DataFolderName && b.imageFolder.key == b.profile + ImageFolderName
    && b.disclosuresFolder.key == b.profile + DisclosuresFolderName && b.ocrFolder.key == b.profile + OcrFolderName
    && b.csvFolder.key == b.profile + CsvFolderName && b.s3Folder.key == b.profile + S3FolderName
  }

  /** `initialize`: the data folder is always the home directory's, and the
      S3 folder always its `s3`, whatever the command line or the store
      say; the other four folders are resolved by `ExtractValue`. */
  function Initialize(home: string, v: Store, configFile: string, profile: string, flags: Flags): (b: Builder)
    ensures b.v == v && b.configFile == configFile && b.profile == profile && KeyedUnder(b)
    ensures b.dataFolder == ConfigurationValue(profile + DataFolderName, DataFolder(home))
    ensures b.s3Folder == ConfigurationValue(profile + S3FolderName, Join(DataFolder(home), DefaultS3Folder))
    ensures b.imageFolder == FolderValue(home, flags, v, profile, ImagesKey, ImageFolderName, DefaultImageFolder)
    ensures b.disclosuresFolder
      == FolderValue(home, flags, v, profile, DisclosuresKey, DisclosuresFolderName, DefaultDisclosuresFolder)
    ensures b.ocrFolder == FolderValue(home, flags, v, profile, OcrKey, OcrFolderName, DefaultOcrFolder)
    ensures b.csvFolder == FolderValue(home, flags, v, profile, CsvKey, CsvFolderName, DefaultCsvFolder)
  {
    var dataFolder := DataFolder(home);
    Builder(
      v, configFile, profile,
      ConfigurationValue(profile + DataFolderName, dataFolder),
      FolderValue(home, flags, v, profile, DisclosuresKey, DisclosuresFolderName, DefaultDisclosuresFolder),
      FolderValue(home, flags, v, profile, ImagesKey, ImageFolderName, DefaultImageFolder),
      FolderValue(home, flags, v, profile, OcrKey, OcrFolderName, DefaultOcrFolder),
      FolderValue(home, flags, v, profile, CsvKey, CsvFolderName, DefaultCsvFolder),
      ConfigurationValue(profile + S3FolderName, Join(dataFolder, DefaultS3Folder)))
  }

  /** `NewConfigurationBuilder`: fails exactly when the configuration file
      of the home directory's base folder cannot be read. */
  function NewConfigurationBuilder(home: string, profile: string, flags: Flags, files: ConfigFiles): (r: Result<Builder>)
    ensures r.Success? <==> CommonConfig.ConfigPath(BaseFolder(home)) in files
    ensures r.Success? ==>
      var path := CommonConfig.ConfigPath(BaseFolder(home));
      r.value == Initialize(home, files[path], path, profile, flags)
  {
    match CommonConfigV2.InitializeViper(home, files)
    case Failure(msg) => Failure(msg)
    case Success(v) => Success(Initialize(home, v, CommonConfig.ConfigPath(BaseFolder(home)), profile, flags))
  }

  /** The writes of `build`, in its order. */
  function Writes(b: Builder): seq<(string, string)> {
    [(b.dataFolder.key, b.dataFolder.value), (b.imageFolder.key, b.imageFolder.value),
     (b.disclosuresFolder.key, b.disclosuresFolder.value), (b.ocrFolder.key, b.ocrFolder.value),
     (b.csvFolder.key, b.csvFolder.value), (b.s3Folder.key, b.s3Folder.value)]
  }

  /** The store `build` writes: the start-up store with every folder set. */
  function BuiltStore(b: Builder): Store {
    SetAll(b.v, "", Writes(b))
  }

  /** `build`: sets the six folders and writes the store to the builder's
      file. The outcome of the write is a parameter; a failed write leaves
      the files as they were. */
  function BuildConfig(files: ConfigFiles, b: Builder, written: Status): (r: (Status, ConfigFiles))
    ensures r.0 == written
    ensures written.Err? ==> r.1 == files
    ensures written.Ok? ==>
      r.1.Keys == files.Keys + {b.configFile}
      && forall p :: p in files && p != b.configFile ==> r.1[p] == files[p]
  {
    WriteConfig(files, b.configFile, BuiltStore(b), written)
  }

  /** The folders in the order `createDirectories` creates them. */
  function Folders(b: Builder): seq<string> {
    [b.dataFolder.value, b.imageFolder.value, b.disclosuresFolder.value,
     b.ocrFolder.value, b.csvFolder.value, b.s3Folder.value]
  }

  /** `createDirectories`: the six folders in order, stopping at the first
      that cannot be created. */
  function CreateDirectories(fs: FS, b: Builder): (r: (Status, FS))
    ensures r.0.Ok? <==> forall i :: 0 <= i < 6 ==> !(Folders(b)[i] in fs && fs[Folders(b)[i]].Unreadable?)
    ensures r.0.Ok? ==> forall i :: 0 <= i < 6 ==> Folders(b)[i] in r.1 && !r.1[Folders(b)[i]].Unreadable?
    ensures forall q :: q in fs ==> q in r.1 && r.1[q] == fs[q]
  {
    EnsureAll(fs, Folders(b))
  }

  /** The first folder that cannot be created ends the creations with its
      error; only the folders before it have been created. */
  lemma CreateDirectoriesStopsAtFirstError(fs: FS, b: Builder, k: nat)
    requires k < 6 && Folders(b)[k] in fs && fs[Folders(b)[k]].Unreadable?
    requires forall i :: 0 <= i < k ==> !(Folders(b)[i] in fs && fs[Folders(b)[i]].Unreadable?)
    ensures CreateDirectories(fs, b).0 == Err(fs[Folders(b)[k]].msg)
    ensures CreateDirectories(fs, b).1 == EnsureAll(fs, Folders(b)[..k]).1
  {
    EnsureAllStopsAtFirstError(fs, Folders(b), k);
  }

  /** `InitConfig`: the base folder is created, then an empty configuration
      is written to its configuration file, replacing any configuration
      stored there. */
  function InitConfig(fs: FS, files: ConfigFiles, home: string, written: Status): (r: (Status, FS, ConfigFiles))
    ensures r.0.Ok? <==> written.Ok? && !(BaseFolder(home) in fs && fs[BaseFolder(home)].Unreadable?)
    ensures r.0.Ok? ==>
      BaseFolder(home) in r.1 && !r.1[BaseFolder(home)].Unreadable?
      && r.2 == files[CommonConfig.ConfigPath(BaseFolder(home)) := map[]]
    ensures r.0.Err? ==> r.2 == files
  {
    var (st, fs') := EnsureDir(fs, BaseFolder(home));
    if st.Err? then (st, fs', files)
    else
      var (st', files') := WriteConfig(files, CommonConfig.ConfigPath(BaseFolder(home)), map[], written);
      (st', fs', files')
  }

  /** The profile of `ConfigureDirectories`: the flag, or the default
      profile when it is empty. */
  function Profile(flags: Flags): (p: string)
    ensures p != ""
    ensures Flag(flags, ProfileFlag) != "" ==> p == Flag(flags, ProfileFlag)
  {
    OrDefault(Flag(flags, ProfileFlag), DefaultProfile)
  }

  /** The folders `ConfigureDirectories` hands out; the base folder is left
      empty. */
  function Dirs(b: Builder): CommonDirs {
    CommonDirs("", b.dataFolder.value, b.s3Folder.value, b.disclosuresFolder.value,
               b.imageFolder.value, b.ocrFolder.value, b.csvFolder.value)
  }

  /** The steps of `ConfigureDirectories` after the builder exists: create
      the folders, write the configuration, hand out the folders. Each
      step's error is returned as is and ends the run. */
  function Configure(fs: FS, files: ConfigFiles, b: Builder, written: Status): (r: (Result<CommonDirs>, FS, ConfigFiles))
    ensures r.0.Success? <==> CreateDirectories(fs, b).0.Ok? && written.Ok?
    ensures r.1 == CreateDirectories(fs, b).1
    ensures r.0.Failure? ==> r.2 == files
    ensures r.0.Success? ==> r.0.value == Dirs(b) && r.2 == files[b.configFile := BuiltStore(b)]
  {
    var (st, fs') := CreateDirectories(fs, b);
    if st.Err? then (Failure(st.msg), fs', files)
    else
      var (st', files') := BuildConfig(files, b, written);
      if st'.Err? then (Failure(st'.msg), fs', files')
      else (Success(Dirs(b)), fs', files')
  }

  /** `ConfigureDirectories`: builds for the selected profile, then
      creates the folders, writes the configuration and hands out the
      folders, with the data folder and S3 folder fixed and no base
      folder. */
  function ConfigureDirectories(home: string, fs: FS, files: ConfigFiles, flags: Flags, written: Status)
    : (r: (Result<CommonDirs>, FS, ConfigFiles))
    ensures CommonConfig.ConfigPath(BaseFolder(home)) !in files ==> r.0.Failure? && r.1 == fs && r.2 == files
    ensures CommonConfig.ConfigPath(BaseFolder(home)) in files ==>
      var path := CommonConfig.ConfigPath(BaseFolder(home));
      r == Configure(fs, files, Initialize(home, files[path], path, Profile(flags), flags), written)
    ensures r.0.Success? ==>
      r.0.value.baseFolder == "" && r.0.value.dataFolder == DataFolder(home)
      && r.0.value.s3Folder == Join(DataFolder(home), DefaultS3Folder)
  {
    match NewConfigurationBuilder(home, Profile(flags), flags, files)
    case Failure(msg) => (Failure(msg), fs, files)
    case Success(b) => Configure(fs, files, b, written)
  }

  /** A key after the profile is told apart from the other folder keys by
      its length and first letter. */
  lemma StemTag(profile: string, name: string)
    requires name != ""
    ensures |profile| < |profile + name|
    ensures Tag(profile + name, |profile|) == (|profile| + |name|, LowerChar(name[0]))
  {
    assert (profile + name)[|profile|] == name[0];
  }

  /** The lengths and first letters of the folder names. */
  lemma NameTags()
    ensures |DataFolderName| == 10 && LowerChar(DataFolderName[0]) == 'd'
    ensures |ImageFolderName| == 11 && LowerChar(ImageFolderName[0]) == 'i'
    ensures |DisclosuresFolderName| == 17 && LowerChar(DisclosuresFolderName[0]) == 'd'
    ensures |OcrFolderName| == 9 && LowerChar(OcrFolderName[0]) == 'o'
    ensures |CsvFolderName| == 9 && LowerChar(CsvFolderName[0]) == 'c'
    ensures |S3FolderName| == 8 && LowerChar(S3FolderName[0]) == 's'
  {
  }

  /** The writes of a builder keyed under its profile never set the same
      key twice. */
  lemma WritesTagged(b: Builder)
    requires KeyedUnder(b)
    ensures TagsDistinct(Writes(b), |b.profile|)
  {
    NameTags();
    StemTag(b.profile, DataFolderName);
    StemTag(b.profile, ImageFolderName);
    StemTag(b.profile, DisclosuresFolderName);
    StemTag(b.profile, OcrFolderName);
    StemTag(b.profile, CsvFolderName);
    StemTag(b.profile, S3FolderName);
  }

  /** `build` stores each folder's value under its key, so reading the key
      gives the value back. */
  lemma BuiltStoreReads(b: Builder)
    requires KeyedUnder(b)
    ensures GetString(BuiltStore(b), b.dataFolder.key) == b.dataFolder.value
    ensures GetString(BuiltStore(b), b.imageFolder.key) == b.imageFolder.value
    ensures GetString(BuiltStore(b), b.disclosuresFolder.key) == b.disclosuresFolder.value
    ensures GetString(BuiltStore(b), b.ocrFolder.key) == b.ocrFolder.value
    ensures GetString(BuiltStore(b), b.csvFolder.key) == b.csvFolder.value
    ensures GetString(BuiltStore(b), b.s3Folder.key) == b.s3Folder.value
  {
    WritesTagged(b);
    ReadWrite(b, 0);
    ReadWrite(b, 1);
    ReadWrite(b, 2);
    ReadWrite(b, 3);
    ReadWrite(b, 4);
    ReadWrite(b, 5);
  }

  lemma ReadWrite(b: Builder, i: nat)
    requires KeyedUnder(b) && i < 6 && TagsDistinct(Writes(b), |b.profile|)
    ensures GetString(BuiltStore(b), Writes(b)[i].0) == Writes(b)[i].1
  {
    assert "" + Writes(b)[i].0 == Writes(b)[i].0;
    ReadWritten(b.v, "", Writes(b), i, Writes(b)[i].0, |b.profile|);
  }

  /** A folder whose key holds its non-empty value, read with nothing on the
      command line, resolves to that value. */
  lemma FolderFromStore(home: string, flags: Flags, v: Store, profile: string, flag: string, name: string,
                        fallback: string, c: ConfigurationValue)
    requires Flag(flags, flag) == "" && c.key == profile + name
    requires c.value != "" && GetString(v, profile + name) == c.value
    ensures FolderValue(home, flags, v, profile, flag, name, fallback) == c
  {
  }

  /** Reading back what `build` wrote, with no folder on the command line,
      resolves every folder to the value written. */
  lemma ReinitializeFromBuilt(home: string, v: Store, configFile: string, profile: string, flags: Flags, flags': Flags)
    requires Flag(flags', ImagesKey) == "" && Flag(flags', DisclosuresKey) == ""
    requires Flag(flags', OcrKey) == "" && Flag(flags', CsvKey) == ""
    ensures var b := Initialize(home, v, configFile, profile, flags);
      Initialize(home, BuiltStore(b), configFile, profile, flags') == b.(v := BuiltStore(b))
  {
    var b := Initialize(home, v, configFile, profile, flags);
    var s := BuiltStore(b);
    BuiltStoreReads(b);
    FolderFromStore(home, flags', s, profile, ImagesKey, ImageFolderName, DefaultImageFolder, b.imageFolder);
    FolderFromStore(home, flags', s, profile, DisclosuresKey, DisclosuresFolderName, DefaultDisclosuresFolder,
                    b.disclosuresFolder);
    FolderFromStore(home, flags', s, profile, OcrKey, OcrFolderName, DefaultOcrFolder, b.ocrFolder);
    FolderFromStore(home, flags', s, profile, CsvKey, CsvFolderName, DefaultCsvFolder, b.csvFolder);
  }
  /** Once the folders of a builder have been created, configuring a
      builder with the same folders creates nothing and hands out its
      folders. */
  lemma ConfigureAgain(fs: FS, files: ConfigFiles, b: Builder, b': Builder, written: Status)
    requires CreateDirectories(fs, b).0.Ok? && Folders(b') == Folders(b) && written.Ok?
    ensures Configure(CreateDirectories(fs, b).1, files, b', written).0 == Success(Dirs(b'))
    ensures Configure(CreateDirectories(fs, b).1, files, b', written).1 == CreateDirectories(fs, b).1
  {
    EnsureAllExisting(CreateDirectories(fs, b).1, Folders(b));
  }

  /** Configuring a second time, with the same profile and no folder on the
      command line, hands out the same folders and creates nothing: the
      first run stored every folder it resolved. */
  lemma ReconfigureIsStable(home: string, fs: FS, files: ConfigFiles, flags: Flags, flags': Flags, written': Status)
    requires ConfigureDirectories(home, fs, files, flags, Ok).0.Success?
    requires Flag(flags', ProfileFlag) == Flag(flags, ProfileFlag)
    requires Flag(flags', ImagesKey) == "" && Flag(flags', DisclosuresKey) == ""
    requires Flag(flags', OcrKey) == "" && Flag(flags', CsvKey) == ""
    requires written'.Ok?
    ensures var (d, fs1, files1) := ConfigureDirectories(home, fs, files, flags, Ok);
      var (d', fs2, _) := ConfigureDirectories(home, fs1, files1, flags', written');
      d' == d && fs2 == fs1
  {
    var path := CommonConfig.ConfigPath(BaseFolder(home));
    var b := Initialize(home, files[path], path, Profile(flags), flags);
    var fs1 := CreateDirectories(fs, b).1;
    var files1 := files[path := BuiltStore(b)];
    ReinitializeFromBuilt(home, files[path], path, Profile(flags), flags, flags');
    ConfigureAgain(fs, files1, b, b.(v := BuiltStore(b)), written');
  }
}

=== FILE: init_config_keyed.dfy ===
/** The configuration builder driven by the key table
    (`config/init_config.go`). It reads the configuration file, resolves
    every folder of the table from the command line, the stored value or
    the default, creates the folders and writes the resolved values back. */
module InitConfigKeyed {
  import opened Outcomes
  import opened Strs
  import opened Constants
  import opened FilePath
  import opened FileSystem
  import opened ConfigTypes
  import opened Viper
  import opened FolderBuilder
  import opened KeyMap
  import CommonConfig
  import CommonConfigV2
  import InitConfigFields

  /** `ConfigurationBuilder`: the store read at start-up together with the
      file it was read from, the profile and the key table. */
  datatype Builder = Builder(v: Store, configFile: string, profile: string, confKeys: ConfKeys)

  /** `extractValue`: a folder given on the command line is taken inside the
      data folder; otherwise the stored value is used as it is; otherwise
      the default, which is a bare folder name. */
  function ExtractValue(home: string, flags: Flags, v: Store, m: ConfKeyMap): (r: string)
    ensures Flag(flags, m.contextKey) != "" ==> r == Join(DataFolder(home), Flag(flags, m.contextKey))
    ensures Flag(flags, m.contextKey) == "" ==> r == OrDefault(GetString(v, m.configKey), m.defaultVal)
    ensures m.defaultVal != "" ==> r != ""
  {
    var value := Flag(flags, m.contextKey);
    if value == "" then
      var stored := GetString(v, m.configKey);
      if stored == "" then m.defaultVal else stored
    else
      Join(DataFolder(home), value)
  }

  /** The two versions of `extractValue` agree except on a command-line
      value, which this one takes inside the data folder and the other
      takes as given. */
  lemma ExtractValueVersions(home: string, flags: Flags, v: Store, m: ConfKeyMap)
    ensures var other := InitConfigFields.ExtractValue(flags, v, m.contextKey, m.configKey, m.defaultVal);
      ExtractValue(home, flags, v, m) == if Flag(flags, m.contextKey) == "" then other else Join(DataFolder(home), other)
  {
  }

  /** The table with each current value resolved by `ExtractValue`. */
  function Resolve(home: string, flags: Flags, v: Store, c: ConfKeys): (r: ConfKeys)
    ensures r.profile == c.profile && |r.keyMap| == |c.keyMap|
    ensures forall i :: 0 <= i < |c.keyMap| ==>
      r.keyMap[i] == c.keyMap[i].(currentVal := ExtractValue(home, flags, v, c.keyMap[i]))
  {
    ConfKeys(c.profile, seq(|c.keyMap|, i requires 0 <= i < |c.keyMap| =>
      c.keyMap[i].(currentVal := ExtractValue(home, flags, v, c.keyMap[i]))))
  }

  /** Resolving a built table keeps its flags, keys and defaults. */
  lemma ResolvedTable(home: string, flags: Flags, v: Store, profile: string, order: seq<string>)
    requires IsOrder(order)
    ensures var r := Resolve(home, flags, v, BuildConfKeyMaps(profile, order));
      r.profile == profile && FlagsInOrder(r, order)
      && forall i :: 0 <= i < |order| ==>
        r.keyMap[i].configKey == ConfigKeyOf(profile, order[i])
        && r.keyMap[i].defaultVal == ConfigKeys[order[i]]
        && r.keyMap[i].currentVal == ExtractValue(home, flags, v, r.keyMap[i])
  {
    var c := BuildConfKeyMaps(profile, order);
    var r := Resolve(home, flags, v, c);
    forall i | 0 <= i < |order|
      ensures r.keyMap[i].contextKey == ConfigKeys[order[i]]
      ensures r.keyMap[i].configKey == ConfigKeyOf(profile, order[i])
      ensures r.keyMap[i].defaultVal == ConfigKeys[order[i]]
      ensures r.keyMap[i].currentVal == ExtractValue(home, flags, v, r.keyMap[i])
    {
      assert r.keyMap[i] == c.keyMap[i].(currentVal := ExtractValue(home, flags, v, c.keyMap[i]));
    }
  }

  /** `NewConfigurationBuilder`: fails exactly when the configuration file
      cannot be read; otherwise every entry of the freshly built table gets
      its current value from `ExtractValue`, and nothing else of the entry
      changes. */
  function NewConfigurationBuilder(home: string, profile: string, flags: Flags, files: ConfigFiles, order: seq<string>)
    : (r: Result<Builder>)
    requires IsOrder(order)
    ensures r.Success? <==> CommonConfig.ConfigPath(BaseFolder(home)) in files
    ensures r.Success? ==>
      var path := CommonConfig.ConfigPath(BaseFolder(home));
      r.value.v == files[path] && r.value.configFile == path && r.value.profile == profile
      && r.value.confKeys.profile == profile && FlagsInOrder(r.value.confKeys, order)
      && forall i :: 0 <= i < |order| ==>
        r.value.confKeys.keyMap[i].configKey == ConfigKeyOf(profile, order[i])
        && r.value.confKeys.keyMap[i].defaultVal == ConfigKeys[order[i]]
        && r.value.confKeys.keyMap[i].currentVal == ExtractValue(home, flags, files[path], r.value.confKeys.keyMap[i])
  {
    match CommonConfigV2.InitializeViper(home, files)
    case Failure(msg) => Failure(msg)
    case Success(v) =>
      ResolvedTable(home, flags, v, profile, order);
      Success(Builder(v, CommonConfig.ConfigPath(BaseFolder(home)), profile,
                      Resolve(home, flags, v, BuildConfKeyMaps(profile, order))))
  }

  /** The writes of `build`: each entry's configuration key and current
      value, in table order. */
  function Writes(c: ConfKeys): (w: seq<(string, string)>)
    ensures |w| == |c.keyMap|
    ensures forall i :: 0 <= i < |w| ==> w[i] == (c.keyMap[i].configKey, c.keyMap[i].currentVal)
  {
    seq(|c.keyMap|, i requires 0 <= i < |c.keyMap| => (c.keyMap[i].configKey, c.keyMap[i].currentVal))
  }

  /** The store `build` writes: the start-up store with every entry set. */
  function BuiltStore(b: Builder): Store {
    SetAll(b.v, "", Writes(b.confKeys))
  }

  /** `build`: sets every entry (`SetViperValue`) and writes the store to the
      builder's file. The outcome of the write is a parameter; a failed
      write leaves the files as they were. */
  function BuildConfig(files: ConfigFiles, b: Builder, written: Status): (r: (Status, ConfigFiles))
    ensures r.0 == written
    ensures written.Err? ==> r.1 == files
    ensures written.Ok? ==>
      r.1.Keys == files.Keys + {b.configFile}
      && forall p :: p in files && p != b.configFile ==> r.1[p] == files[p]
  {
    WriteConfig(files, b.configFile, BuiltStore(b), written)
  }

  /** `Build`: creates every folder of the table in table order, stopping at
      the first failure, and only then writes the configuration. */
  function Build(fs: FS, files: ConfigFiles, b: Builder, written: Status): (r: (Status, FS, ConfigFiles))
    ensures var folders := GetFolders(b.confKeys);
      r.0.Ok? <==>
      written.Ok? && forall i :: 0 <= i < |folders| ==> !(folders[i] in fs && fs[folders[i]].Unreadable?)
    ensures var folders := GetFolders(b.confKeys);
      (exists i :: 0 <= i < |folders| && folders[i] in fs && fs[folders[i]].Unreadable?) ==>
      r.0.Err? && r.2 == files
    ensures var folders := GetFolders(b.confKeys);
      r.0.Ok? ==>
      (forall i :: 0 <= i < |folders| ==> folders[i] in r.1 && !r.1[folders[i]].Unreadable?)
      && r.2 == files[b.configFile := BuiltStore(b)]
    ensures forall q :: q in fs ==> q in r.1 && r.1[q] == fs[q]
  {
    var (st, fs') := EnsureAll(fs, GetFolders(b.confKeys));
    if st.Err? then (st, fs', files)
    else
      var (st', files') := BuildConfig(files, b, written);
      (st', fs', files')
  }

  /** `GetCommonDirs` of the builder: the table's folders. */
  function GetBuilderCommonDirs(home: string, b: Builder): (d: CommonDirs)
    requires HasFolderEntries(b.confKeys)
    ensures d == GetCommonDirs(home, b.confKeys)
  {
    GetCommonDirs(home, b.confKeys)
  }

  /** The folder a builder settles on for a folder key, read off the
      command line and the store directly: the flag's value inside the data
      folder, else the value stored under "<profile>.folders.<key>", else
      the key's bare default name. */
  function FolderOf(home: string, flags: Flags, v: Store, profile: string, key: string): string
    requires key in ConfigKeys
  {
    var name := ConfigKeys[key];
    if Flag(flags, name) != "" then Join(DataFolder(home), Flag(flags, name))
    else if GetString(v, ConfigKeyOf(profile, key)) != "" then GetString(v, ConfigKeyOf(profile, key))
    else name
  }

  /** The entry of a folder key in a successfully made builder holds the
      folder `FolderOf` names. */
  lemma ResolvedEntry(home: string, profile: string, flags: Flags, files: ConfigFiles, order: seq<string>, key: string)
    requires IsOrder(order) && key in FolderKeys
    requires NewConfigurationBuilder(home, profile, flags, files, order).Success?
    ensures key in order && key in ConfigKeys
    ensures var b := NewConfigurationBuilder(home, profile, flags, files, order).value;
      b.confKeys.keyMap[Position(order, key)].currentVal
        == FolderOf(home, flags, files[CommonConfig.ConfigPath(BaseFolder(home))], profile, key)
  {
    DefaultNamesDistinct(key, key);
    var i := Position(order, key);
    assert i < |order|;
  }

  /** For any command line and any stored configuration, the folder set of
      a builder made from them holds, for each of the five folders, the flag
      joined into the data folder, else the stored value, else the bare
      default, whatever the iteration order of the key table. */
  lemma BuilderCommonDirs(home: string, profile: string, flags: Flags, files: ConfigFiles, order: seq<string>)
    requires IsOrder(order)
    requires NewConfigurationBuilder(home, profile, flags, files, order).Success?
    ensures var b := NewConfigurationBuilder(home, profile, flags, files, order).value;
      HasFolderEntries(b.confKeys)
    ensures var b := NewConfigurationBuilder(home, profile, flags, files, order).value;
      var v := files[CommonConfig.ConfigPath(BaseFolder(home))];
      var d := GetBuilderCommonDirs(home, b);
      d.baseFolder == BaseFolder(home) && d.dataFolder == DataFolder(home)
      && d.s3Folder == FolderOf(home, flags, v, profile, "s3Folder")
      && d.disclosuresFolder == FolderOf(home, flags, v, profile, "disclosuresFolder")
      && d.imageFolder == FolderOf(home, flags, v, profile, "imagesFolder")
      && d.ocrFolder == FolderOf(home, flags, v, profile, "ocrFolder")
      && d.csvFolder == FolderOf(home, flags, v, profile, "csvFolder")
  {
    var b := NewConfigurationBuilder(home, profile, flags, files, order).value;
    DefaultNames();
    TableCommonDirs(home, b.confKeys, order);
    ResolvedEntry(home, profile, flags, files, order, "s3Folder");
    ResolvedEntry(home, profile, flags, files, order, "disclosuresFolder");
    ResolvedEntry(home, profile, flags, files, order, "imagesFolder");
    ResolvedEntry(home, profile, flags, files, order, "ocrFolder");
    ResolvedEntry(home, profile, flags, files, order, "csvFolder");
  }

  /** The key of a folder sits after the profile and ".folders."; its
      length and first letter tell it apart from the other folder keys. */
  lemma ConfigKeyTag(profile: string, key: string)
    requires key in ConfigKeys
    ensures |profile| + 9 < |ConfigKeyOf(profile, key)|
    ensures Tag(ConfigKeyOf(profile, key), |profile| + 9) == (|profile| + 9 + |key|, LowerChar(key[0]))
  {
    assert ConfigKeyOf(profile, key) == profile + ".folders." + key;
    assert (profile + ".folders." + key)[|profile| + 9] == key[0];
  }

  /** Distinct folder keys differ in length or in first letter. */
  lemma FolderKeysTagged(a: string, b: string)
    requires a in ConfigKeys && b in ConfigKeys && a != b
    ensures |a| != |b| || LowerChar(a[0]) != LowerChar(b[0])
  {
  }

  /** The writes of a table whose keys follow an iteration order never set
      the same key twice. */
  lemma WritesTagged(c: ConfKeys, order: seq<string>)
    requires IsOrder(order) && FlagsInOrder(c, order)
    requires forall i :: 0 <= i < |order| ==> c.keyMap[i].configKey == ConfigKeyOf(c.profile, order[i])
    ensures TagsDistinct(Writes(c), |c.profile| + 9)
  {
    var w := Writes(c);
    var at := |c.profile| + 9;
    forall i | 0 <= i < |w| ensures at < |w[i].0| {
      ConfigKeyTag(c.profile, order[i]);
    }
    forall i, j | 0 <= i < j < |w| ensures Tag(w[i].0, at) != Tag(w[j].0, at) {
      ConfigKeyTag(c.profile, order[i]);
      ConfigKeyTag(c.profile, order[j]);
      FolderKeysTagged(order[i], order[j]);
    }
  }

  /** `build` stores every entry's current value under its configuration
      key. */
  lemma BuiltStoreReads(c: ConfKeys, v: Store, configFile: string, order: seq<string>, i: nat)
    requires IsOrder(order) && FlagsInOrder(c, order)
    requires forall j :: 0 <= j < |order| ==> c.keyMap[j].configKey == ConfigKeyOf(c.profile, order[j])
    requires i < |order|
    ensures GetString(BuiltStore(Builder(v, configFile, c.profile, c)), c.keyMap[i].configKey) == c.keyMap[i].currentVal
  {
    WritesTagged(c, order);
    ConfigKeyTag(c.profile, order[i]);
    var w := Writes(c);
    ReadWritten(v, "", w, i, c.keyMap[i].configKey, |c.profile| + 9);
    assert "" + c.keyMap[i].configKey == c.keyMap[i].configKey;
  }

  /** Building and then reading the configuration back with no folder given
      on the command line yields the same table: every resolved value is
      non-empty, so the stored value wins over the default on the second
      read. */
  lemma ReloadAfterBuild(home: string, profile: string, flags: Flags, files: ConfigFiles, order: seq<string>)
    requires IsOrder(order)
    requires NewConfigurationBuilder(home, profile, flags, files, order).Success?
    ensures var b := NewConfigurationBuilder(home, profile, flags, files, order).value;
      var files' := files[b.configFile := BuiltStore(b)];
      NewConfigurationBuilder(home, profile, map[], files', order) == Success(b.(v := BuiltStore(b)))
  {
    var b := NewConfigurationBuilder(home, profile, flags, files, order).value;
    var v' := BuiltStore(b);
    var files' := files[b.configFile := v'];
    var r := NewConfigurationBuilder(home, profile, map[], files', order).value;
    forall i | 0 <= i < |order| ensures r.confKeys.keyMap[i] == b.confKeys.keyMap[i] {
      BuiltStoreReads(b.confKeys, b.v, b.configFile, order, i);
      DefaultNamesDistinct(order[i], order[i]);
    }
    assert r.confKeys.keyMap == b.confKeys.keyMap;
  }

  /** With nothing on the command line and nothing stored, resolving a
      built table changes nothing: every entry keeps its default. */
  lemma FreshResolveKeepsTable(home: string, profile: string, order: seq<string>)
    requires IsOrder(order)
    ensures Resolve(home, map[], map[], BuildConfKeyMaps(profile, order)) == BuildConfKeyMaps(profile, order)
  {
    var c := BuildConfKeyMaps(profile, order);
    var r := Resolve(home, map[], map[], c);
    forall i | 0 <= i < |order| ensures r.keyMap[i] == c.keyMap[i] {
      DefaultNamesDistinct(order[i], order[i]);
    }
    assert r.keyMap == c.keyMap;
  }

  /** With nothing on the command line and nothing stored, the builder's
      folders are the bare default names, not paths inside the data
      folder. */
  lemma FreshBuilderCommonDirs(home: string, profile: string, files: ConfigFiles, order: seq<string>)
    requires IsOrder(order)
    requires CommonConfig.ConfigPath(BaseFolder(home)) in files
    requires files[CommonConfig.ConfigPath(BaseFolder(home))] == map[]
    ensures var b := NewConfigurationBuilder(home, profile, map[], files, order).value;
      b.confKeys == BuildConfKeyMaps(profile, order)
      && HasFolderEntries(b.confKeys)
      && GetBuilderCommonDirs(home, b)
        == CommonDirs(BaseFolder(home), DataFolder(home), DefaultS3Folder, DefaultDisclosuresFolder,
                      DefaultImageFolder, DefaultOcrFolder, DefaultCsvFolder)
  {
    FreshResolveKeepsTable(home, profile, order);
    BuiltCommonDirs(home, profile, order);
  }
}

=== FILE: keymap.dfy ===
/** The key table of the keyed configuration (`config/keymap.go`): one
    entry per data folder, holding the command-line flag that names it, the
    configuration key it is stored under, its default and its current
    value. The table is built by iterating over a Go map, whose order is
    unspecified: the order is a parameter, any listing of the five folder
    keys. */
module KeyMap {
  import opened Outcomes
  import opened Constants
  import opened ConfigTypes
  import opened Viper
  import opened FolderBuilder

  datatype ConfKeyMap = ConfKeyMap(contextKey: string, configKey: string, defaultVal: string, currentVal: string)

  datatype ConfKeys = ConfKeys(profile: string, keyMap: seq<ConfKeyMap>)

  /** The folder keys and their default folder names. */
  const ConfigKeys: map<string, string> := map[
    "disclosuresFolder" := DefaultDisclosuresFolder,
    "imagesFolder" := DefaultImageFolder,
    "ocrFolder" := DefaultOcrFolder,
    "csvFolder" := DefaultCsvFolder,
    "s3Folder" := DefaultS3Folder]

  /** The folder keys in the order of the map literal. */
  const FolderKeys: seq<string> := ["disclosuresFolder", "imagesFolder", "ocrFolder", "csvFolder", "s3Folder"]

  /** An iteration order of the map: every folder key exactly once. */
  predicate IsOrder(order: seq<string>) {
    |order| == |FolderKeys|
    && (forall k :: k in FolderKeys ==> k in order)
    && (forall i :: 0 <= i < |order| ==> order[i] in ConfigKeys)
    && (forall i, j :: 0 <= i < j < |order| ==> order[i] != order[j])
  }

  /** The configuration key of a folder key under a profile. */
  function ConfigKeyOf(profile: string, key: string): string {
    profile + ".folders." + key
  }

  /** `BuildConfKeyMaps`: one entry per folder key, in iteration order, whose
      flag, default and current value are all the default folder name. */
  function BuildConfKeyMaps(profile: string, order: seq<string>): (c: ConfKeys)
    requires IsOrder(order)
    ensures c.profile == profile && |c.keyMap| == |order|
    ensures forall i :: 0 <= i < |order| ==>
      c.keyMap[i].configKey == ConfigKeyOf(profile, order[i])
      && c.keyMap[i].contextKey == c.keyMap[i].defaultVal == c.keyMap[i].currentVal == ConfigKeys[order[i]]
  {
    ConfKeys(profile, seq(|order|, i requires 0 <= i < |order| =>
      var name := ConfigKeys[order[i]];
      ConfKeyMap(name, ConfigKeyOf(profile, order[i]), name, name)))
  }

  /** The first entry, from position `i`, whose flag is `ctxKey`. */
  function FindFrom(ms: seq<ConfKeyMap>, ctxKey: string, i: nat): (r: Option<nat>)
    requires i <= |ms|
    ensures r.None? <==> forall j :: i <= j < |ms| ==> ms[j].contextKey != ctxKey
    ensures r.Some? ==>
      i <= r.value < |ms| && ms[r.value].contextKey == ctxKey
      && forall j :: i <= j < r.value ==> ms[j].contextKey != ctxKey
    decreases |ms| - i
  {
    if i == |ms| then None
    else if ms[i].contextKey == ctxKey then Some(i)
    else FindFrom(ms, ctxKey, i + 1)
  }

  /** `GetKeyMap`: the first entry whose flag is `ctxKey`, or none (nil). */
  function GetKeyMap(c: ConfKeys, ctxKey: string): (r: Option<ConfKeyMap>)
    ensures r.None? <==> forall j :: 0 <= j < |c.keyMap| ==> c.keyMap[j].contextKey != ctxKey
    ensures r.Some? ==> exists j ::
      0 <= j < |c.keyMap| && c.keyMap[j] == r.value && r.value.contextKey == ctxKey
      && forall k :: 0 <= k < j ==> c.keyMap[k].contextKey != ctxKey
  {
    match FindFrom(c.keyMap, ctxKey, 0)
    case None => None
    case Some(j) => Some(c.keyMap[j])
  }

  /** `GetFolders`: the current values, in table order. */
  function GetFolders(c: ConfKeys): (folders: seq<string>)
    ensures |folders| == |c.keyMap|
    ensures forall i :: 0 <= i < |folders| ==> folders[i] == c.keyMap[i].currentVal
  {
    seq(|c.keyMap|, i requires 0 <= i < |c.keyMap| => c.keyMap[i].currentVal)
  }

  /** Every folder `GetCommonDirs` looks up has an entry. */
  predicate HasFolderEntries(c: ConfKeys) {
    GetKeyMap(c, DefaultS3Folder).Some? && GetKeyMap(c, DefaultDisclosuresFolder).Some?
    && GetKeyMap(c, DefaultImageFolder).Some? && GetKeyMap(c, DefaultOcrFolder).Some?
    && GetKeyMap(c, DefaultCsvFolder).Some?
  }

  /** `GetCommonDirs`: the current value of each folder's entry, looked up
      by its flag. A missing entry is a nil dereference in the source. */
  function GetCommonDirs(home: string, c: ConfKeys): (d: CommonDirs)
    requires HasFolderEntries(c)
    ensures d.baseFolder == BaseFolder(home) && d.dataFolder == DataFolder(home)
  {
    CommonDirs(
      BaseFolder(home),
      DataFolder(home),
      GetKeyMap(c, DefaultS3Folder).value.currentVal,
      GetKeyMap(c, DefaultDisclosuresFolder).value.currentVal,
      GetKeyMap(c, DefaultImageFolder).value.currentVal,
      GetKeyMap(c, DefaultOcrFolder).value.currentVal,
      GetKeyMap(c, DefaultCsvFolder).value.currentVal)
  }

  /** The folder keys are the keys of the map, and distinct keys have
      distinct default names. */
  lemma DefaultNamesDistinct(a: string, b: string)
    ensures a in FolderKeys <==> a in ConfigKeys
    ensures a in ConfigKeys && b in ConfigKeys && ConfigKeys[a] == ConfigKeys[b] ==> a == b
  {
  }

  /** The default name of each folder key. */
  lemma DefaultNames()
    ensures "s3Folder" in FolderKeys && ConfigKeys["s3Folder"] == DefaultS3Folder
    ensures "disclosuresFolder" in FolderKeys && ConfigKeys["disclosuresFolder"] == DefaultDisclosuresFolder
    ensures "imagesFolder" in FolderKeys && ConfigKeys["imagesFolder"] == DefaultImageFolder
    ensures "ocrFolder" in FolderKeys && ConfigKeys["ocrFolder"] == DefaultOcrFolder
    ensures "csvFolder" in FolderKeys && ConfigKeys["csvFolder"] == DefaultCsvFolder
  {
  }

  /** Where a key stands in an iteration order. */
  function Position(order: seq<string>, key: string): (i: nat)
    requires key in order
    ensures i < |order| && order[i] == key
    ensures forall j :: 0 <= j < i ==> order[j] != key
  {
    if order[0] == key then 0
    else
      assert key in order[1..] by {
        var k :| 0 <= k < |order| && order[k] == key;
        assert order[1..][k - 1] == key;
      }
      var p := Position(order[1..], key);
      assert forall j :: 1 <= j <= p ==> order[j] == order[1..][j - 1];
      1 + p
  }

  /** An entry whose flag no other entry carries is the one `GetKeyMap`
      finds. */
  lemma FindsOnlyEntry(c: ConfKeys, ctxKey: string, i: nat)
    requires i < |c.keyMap| && c.keyMap[i].contextKey == ctxKey
    requires forall j :: 0 <= j < |c.keyMap| && j != i ==> c.keyMap[j].contextKey != ctxKey
    ensures GetKeyMap(c, ctxKey) == Some(c.keyMap[i])
  {
  }

  /** The flags of a table are the default names of an iteration order, one
      entry each: true of a built table, and kept when only current values
      change. */
  predicate FlagsInOrder(c: ConfKeys, order: seq<string>) {
    |c.keyMap| == |order|
    && forall i :: 0 <= i < |order| ==> order[i] in ConfigKeys && c.keyMap[i].contextKey == ConfigKeys[order[i]]
  }

  /** In such a table the entry of a folder key is the only one whose flag
      is its default name, so `GetKeyMap` finds it. */
  lemma EntryOf(c: ConfKeys, order: seq<string>, key: string)
    requires IsOrder(order) && FlagsInOrder(c, order) && key in FolderKeys
    ensures key in order
    ensures GetKeyMap(c, ConfigKeys[key]) == Some(c.keyMap[Position(order, key)])
  {
    DefaultNamesDistinct(key, key);
    var i := Position(order, key);
    forall j | 0 <= j < |c.keyMap| && j != i ensures c.keyMap[j].contextKey != ConfigKeys[key] {
      DefaultNamesDistinct(order[j], key);
    }
    FindsOnlyEntry(c, ConfigKeys[key], i);
  }

  /** In a table whose flags follow an iteration order, `GetCommonDirs`
      finds every folder, and each folder is the current value of the entry
      at that folder key's position in the order. */
  lemma TableCommonDirs(home: string, c: ConfKeys, order: seq<string>)
    requires IsOrder(order) && FlagsInOrder(c, order)
    ensures HasFolderEntries(c)
    ensures "s3Folder" in order && "disclosuresFolder" in order && "imagesFolder" in order
      && "ocrFolder" in order && "csvFolder" in order
    ensures var d := GetCommonDirs(home, c);
      d.s3Folder == c.keyMap[Position(order, "s3Folder")].currentVal
      && d.disclosuresFolder == c.keyMap[Position(order, "disclosuresFolder")].currentVal
      && d.imageFolder == c.keyMap[Position(order, "imagesFolder")].currentVal
      && d.ocrFolder == c.keyMap[Position(order, "ocrFolder")].currentVal
      && d.csvFolder == c.keyMap[Position(order, "csvFolder")].currentVal
  {
    DefaultNames();
    EntryOf(c, order, "s3Folder");
    EntryOf(c, order, "disclosuresFolder");
    EntryOf(c, order, "imagesFolder");
    EntryOf(c, order, "ocrFolder");
    EntryOf(c, order, "csvFolder");
  }

  /** A built table, whatever the order, keeps its flags in that order. */
  lemma BuiltEntry(profile: string, order: seq<string>, key: string)
    requires IsOrder(order) && key in FolderKeys
    ensures key in order
    ensures var c := BuildConfKeyMaps(profile, order);
      GetKeyMap(c, ConfigKeys[key]) == Some(c.keyMap[Position(order, key)])
  {
    EntryOf(BuildConfKeyMaps(profile, order), order, key);
  }

  /** The entry `GetKeyMap` finds for a default name in a built table holds
      that name as its current value. */
  lemma BuiltLookup(profile: string, order: seq<string>, key: string, name: string)
    requires IsOrder(order) && key in FolderKeys && ConfigKeys[key] == name
    ensures GetKeyMap(BuildConfKeyMaps(profile, order), name).Some?
    ensures GetKeyMap(BuildConfKeyMaps(profile, order), name).value.currentVal == name
  {
    BuiltEntry(profile, order, key);
  }

  /** A table whose every folder entry holds its default name gives the
      default layout. */
  lemma DefaultCommonDirs(home: string, c: ConfKeys)
    requires GetKeyMap(c, DefaultS3Folder).Some? && GetKeyMap(c, DefaultS3Folder).value.currentVal == DefaultS3Folder
    requires GetKeyMap(c, DefaultDisclosuresFolder).Some?
      && GetKeyMap(c, DefaultDisclosuresFolder).value.currentVal == DefaultDisclosuresFolder
    requires GetKeyMap(c, DefaultImageFolder).Some? && GetKeyMap(c, DefaultImageFolder).value.currentVal == DefaultImageFolder
    requires GetKeyMap(c, DefaultOcrFolder).Some? && GetKeyMap(c, DefaultOcrFolder).value.currentVal == DefaultOcrFolder
    requires GetKeyMap(c, DefaultCsvFolder).Some? && GetKeyMap(c, DefaultCsvFolder).value.currentVal == DefaultCsvFolder
    ensures HasFolderEntries(c)
    ensures GetCommonDirs(home, c)
      == CommonDirs(BaseFolder(home), DataFolder(home), DefaultS3Folder, DefaultDisclosuresFolder,
                    DefaultImageFolder, DefaultOcrFolder, DefaultCsvFolder)
  {
  }

  /** A freshly built table, whatever the iteration order, has every entry
      `GetCommonDirs` needs, and gives each folder its bare default name
      (a path relative to the working directory, not to the data
      folder). */
  lemma BuiltCommonDirs(home: string, profile: string, order: seq<string>)
    requires IsOrder(order)
    ensures HasFolderEntries(BuildConfKeyMaps(profile, order))
    ensures GetCommonDirs(home, BuildConfKeyMaps(profile, order))
      == CommonDirs(BaseFolder(home), DataFolder(home), DefaultS3Folder, DefaultDisclosuresFolder,
                    DefaultImageFolder, DefaultOcrFolder, DefaultCsvFolder)
  {
    var c := BuildConfKeyMaps(profile, order);
    DefaultNames();
    BuiltLookup(profile, order, "s3Folder", DefaultS3Folder);
    BuiltLookup(profile, order, "disclosuresFolder", DefaultDisclosuresFolder);
    BuiltLookup(profile, order, "imagesFolder", DefaultImageFolder);
    BuiltLookup(profile, order, "ocrFolder", DefaultOcrFolder);
    BuiltLookup(profile, order, "csvFolder", DefaultCsvFolder);
    DefaultCommonDirs(home, c);
  }

  /** The folders of a freshly built table are the five default names, one
      each, in iteration order. */
  lemma BuiltFolders(profile: string, order: seq<string>)
    requires IsOrder(order)
    ensures var folders := GetFolders(BuildConfKeyMaps(profile, order));
      |folders| == 5
      && (forall k :: k in FolderKeys ==> ConfigKeys[k] in folders)
      && forall i, j :: 0 <= i < j < 5 ==> folders[i] != folders[j]
  {
    var folders := GetFolders(BuildConfKeyMaps(profile, order));
    forall k | k in FolderKeys ensures ConfigKeys[k] in folders {
      DefaultNamesDistinct(k, k);
      assert folders[Position(order, k)] == ConfigKeys[k];
    }
    forall i, j | 0 <= i < j < 5 ensures folders[i] != folders[j] {
      DefaultNamesDistinct(order[i], order[j]);
    }
  }
}

=== FILE: main_downloads.dfy ===
/** The download paths of the first program (`main.go`). Its address
    generation, its byte-download aggregation and its directory creation
    are the same code as the `downloader` package's and the file-system
    primitive's; only the paths of a download are derived differently: the
    file name is the address's last element with its first ".zip" removed. */
module MainDownloads {
  import opened Strs
  import opened FilePath
  import opened Paths
  import Downloader

  const ZipMarker: string := ".zip"

  /** `NewDisclosureDownload` of the first program, with the temporary
      directory as a parameter. The file name is the address's last element
      with its first ".zip" cut out (a replacement with count 1). */
  function NewDisclosureDownload(url: string, baseFolder: string, tempDir: string): (d: Downloader.DisclosureDownload)
    ensures d.url == url && d.baseFilePath == Join(tempDir, Base(url))
    ensures !Contains(Base(url), ZipMarker) ==> d.fileName == Base(url)
    ensures Contains(Base(url), ZipMarker) ==> |d.fileName| == |Base(url)| - |ZipMarker|
    ensures Contains(Base(url), ZipMarker) ==>
      var i := IndexOf(Base(url), ZipMarker);
      d.fileName == Base(url)[..i] + Base(url)[i + |ZipMarker|..]
    ensures d.zipPath == Join(baseFolder, d.fileName + ZipMarker)
    ensures d.xmlPath == Join(baseFolder, d.fileName + ".xml") && d.csvPath == Join(baseFolder, d.fileName + ".csv")
  {
    var urlFileName := Base(url);
    var i := IndexOf(urlFileName, ZipMarker);
    var fileName := if i < 0 then urlFileName else urlFileName[..i] + urlFileName[i + |ZipMarker|..];
    Downloader.DisclosureDownload(url, fileName, Join(tempDir, urlFileName),
      Join(baseFolder, fileName + ZipMarker), Join(baseFolder, fileName + ".xml"), Join(baseFolder, fileName + ".csv"))
  }

  /** For an archive `{stem}.zip` whose stem holds no dot and no separator,
      the first program and the `downloader` package derive the same
      download. */
  lemma AgreesOnPlainArchives(dir: string, stem: string, baseFolder: string, tempDir: string)
    requires NoSep(stem) && '.' !in stem
    ensures NewDisclosureDownload(Join(dir, stem + ZipMarker), baseFolder, tempDir)
      == Downloader.NewDisclosureDownload(Join(dir, stem + ZipMarker), baseFolder, tempDir)
  {
    var url := Join(dir, stem + ZipMarker);
    StemOfPlainArchive(dir, stem, ZipMarker);
    assert FileAndExtension(url) == NameExt(stem, ZipMarker) by {
      Downloader.DotZipName(dir, stem);
    }
  }

  /** The first program's file name of a plain archive is its stem. */
  lemma StemOfPlainArchive(dir: string, stem: string, marker: string)
    requires marker == ZipMarker
    requires NoSep(stem) && '.' !in stem
    ensures Base(Join(dir, stem + marker)) == stem + marker
    ensures IndexOf(stem + marker, marker) == |stem|
    ensures (stem + marker)[..|stem|] + (stem + marker)[|stem| + |marker|..] == stem
  {
    PlainArchiveBase(dir, stem, marker);
    PlainArchiveMarker(stem, marker);
  }

  lemma PlainArchiveBase(dir: string, stem: string, marker: string)
    requires marker == ZipMarker && NoSep(stem)
    ensures Base(Join(dir, stem + marker)) == stem + marker
  {
    assert marker == ['.', 'z', 'i', 'p'];
    NoSepConcat(stem, marker);
    BaseOfJoin(dir, stem + marker);
  }

  lemma PlainArchiveMarker(stem: string, marker: string)
    requires marker == ZipMarker && '.' !in stem
    ensures IndexOf(stem + marker, marker) == |stem|
    ensures (stem + marker)[..|stem|] + (stem + marker)[|stem| + |marker|..] == stem
  {
    assert marker == ['.', 'z', 'i', 'p'];
    MissingFirstChar(stem, marker);
    IndexOfOwnSuffix(stem, marker);
    assert (stem + marker)[..|stem|] == stem;
    assert (stem + marker)[|stem| + |marker|..] == [];
  }

  /** For every generated address both programs derive the year's archive
      `{year}FD.zip`, index `{year}FD.xml` and table `{year}FD.csv`. */
  lemma DownloadOfYear(year: int, baseFolder: string, tempDir: string)
    ensures NewDisclosureDownload(Downloader.ZipUrl(year), baseFolder, tempDir)
      == Downloader.NewDisclosureDownload(Downloader.ZipUrl(year), baseFolder, tempDir)
    ensures NewDisclosureDownload(Downloader.ZipUrl(year), baseFolder, tempDir).fileName == Itoa(year) + "FD"
  {
    var stem := Itoa(year) + "FD";
    Downloader.ItoaPlain(year);
    assert NoSep(stem) && '.' !in stem by {
      assert Separator !in stem && '.' !in stem;
    }
    assert Itoa(year) + Downloader.ZipSuffix == stem + ZipMarker;
    Downloader.ZipUrlIsJoin(year);
    AgreesOnPlainArchives(Downloader.ZipUrlDir, stem, baseFolder, tempDir);
    Downloader.DownloadOfYear(year, baseFolder, tempDir);
  }
}

=== FILE: naming.dfy ===
/** The naming rules the PDF converters share: a document's base name is the
    last path element of the text before its first ".pdf", and page `n` of
    it becomes the image `{base}-{n}{ext}`. */
module Naming {
  import opened Strs
  import opened FilePath

  const PdfSuffix: string := ".pdf"

  /** `filepath.Base(strings.Split(pdfPath, ".pdf")[0])`. */
  function PdfBaseName(pdfPath: string): (r: string)
    ensures r != []
    ensures !Contains(r, PdfSuffix) || r == "."
  {
    var before := BeforeFirst(pdfPath, PdfSuffix);
    forall j | 0 <= j < |before| ensures !OccursAt(before, PdfSuffix, j) {
      assert !OccursAt(pdfPath, PdfSuffix, j);
      if j + |PdfSuffix| <= |before| {
        assert before == pdfPath[..|before|];
        assert before[j..j + |PdfSuffix|] == pdfPath[j..j + |PdfSuffix|];
      }
    }
    BaseHasNoPdf(before);
    Base(before)
  }

  /** `Base` returns a piece of its argument (or "." / "/"), so a text
      holding no ".pdf" gives a base holding none either. */
  lemma BaseHasNoPdf(p: string)
    requires forall j :: 0 <= j < |p| ==> !OccursAt(p, PdfSuffix, j)
    ensures !Contains(Base(p), PdfSuffix) || Base(p) == "."
  {
    var b := Base(p);
    if p != [] && TrimTrailingSeps(p) != [] {
      var t := TrimTrailingSeps(p);
      assert b == p[|t| - |b|..|t|];
      NoneInSlice(p, PdfSuffix, |t| - |b|, |t|);
    } else if p != [] {
      assert forall i :: 0 <= i <= |b| ==> !OccursAt(b, PdfSuffix, i);
    }
  }

  /** A piece of a text holding no occurrence of a pattern holds none
      either. */
  lemma NoneInSlice(s: string, pat: string, lo: nat, hi: nat)
    requires lo <= hi <= |s| && pat != []
    requires forall j :: 0 <= j < |s| ==> !OccursAt(s, pat, j)
    ensures !Contains(s[lo..hi], pat)
  {
    forall i | 0 <= i <= hi - lo ensures !OccursAt(s[lo..hi], pat, i) {
      if i + |pat| <= hi - lo {
        var w := s[lo..hi][i..i + |pat|];
        assert |w| == |pat|;
        forall k | 0 <= k < |pat| ensures w[k] == s[lo + i + k] {}
        assert w == s[lo + i..lo + i + |pat|];
        assert !OccursAt(s, pat, lo + i);
      }
    }
  }

  /** `fmt.Sprintf("%s-%d%s", base, n, ext)`. */
  function PageImageName(base: string, n: int, ext: string): (r: string)
    ensures IsPrefix(base + "-", r) && HasSuffix(r, ext)
    ensures |r| == |base| + 1 + |Itoa(n)| + |ext|
    ensures r[|base| + 1..|r| - |ext|] == Itoa(n)
  {
    var r := base + "-" + Itoa(n) + ext;
    assert r[|base| + 1..|r| - |ext|] == Itoa(n);
    r
  }

  /** Different pages of one document get different image names. */
  lemma PageImageNamesDistinct(base: string, m: int, n: int, ext: string)
    ensures PageImageName(base, m, ext) == PageImageName(base, n, ext) <==> m == n
  {
    var a := PageImageName(base, m, ext);
    var b := PageImageName(base, n, ext);
    if a == b {
      assert Itoa(m) == a[|base| + 1..|a| - |ext|] == Itoa(n);
      ItoaInjective(m, n);
    }
  }

  /** The base name of a document listed in a directory is its file name
      without the ".pdf" suffix, provided neither the directory nor the
      stem already holds ".pdf". */
  lemma {:induction false} PdfBaseNameOfEntry(dir: string, stem: string)
    requires stem != [] && NoSep(stem)
    requires !Contains(Join(dir, stem), PdfSuffix)
    ensures PdfBaseName(Join(dir, stem + PdfSuffix)) == stem
  {
    var pre := Join(dir, stem);
    assert Join(dir, stem + PdfSuffix) == pre + PdfSuffix;
    IndexOfOwnSuffix(pre, PdfSuffix);
    assert (pre + PdfSuffix)[..|pre|] == pre;
    assert BeforeFirst(pre + PdfSuffix, PdfSuffix) == pre;
    BaseOfJoin(dir, stem);
  }

  /** A page image name built from plain parts is itself plain. */
  lemma PageImageNameNoSep(base: string, n: int, ext: string)
    requires NoSep(base) && NoSep(ext)
    ensures NoSep(PageImageName(base, n, ext))
  {
    var s := PageImageName(base, n, ext);
    forall i | 0 <= i < |s| ensures s[i] != Separator {
      if i < |base| {
        assert s[i] == base[i];
      } else if |base| + 1 <= i < |s| - |ext| {
        ItoaChars(n, s[i]);
      } else if i >= |s| - |ext| {
        assert s[i] == ext[i - (|s| - |ext|)];
      }
    }
  }
}

=== FILE: ocr.dfy ===
/** The text-extraction command (`OcrImages`): discover the page images
    whose CSV file is missing, extract each one with the OCR engine, join
    the errors, and record the failed image paths in `failed.txt`. The OCR
    engine is a parameter; the concurrent extraction is modelled as a
    sequential pass in discovery order. */
module Ocr {
  import opened Outcomes
  import opened Strs
  import opened FilePath
  import opened FileSystem
  import opened OcrResults
  import opened ConfigTypes
  import opened Seqs
  import Aggregation

  /** The bound on concurrently running extractions. */
  const MaxConversions: nat := 25

  /** `math.MaxInt` on a 64-bit platform. */
  const MaxInt: int := 0x7FFF_FFFF_FFFF_FFFF

  const PngSuffix := ".png"
  const CsvSuffix := ".csv"
  const FailedFileName := "failed.txt"

  /** The `limit` flag, with 0 meaning "no limit". */
  function EffectiveLimit(flag: int): (limit: int)
    ensures flag == 0 ==> limit == MaxInt
    ensures flag != 0 ==> limit == flag
  {
    if flag == 0 then MaxInt else flag
  }

  /** `csvPathFromImagePath`: the image's file name with every ".png"
      replaced by ".csv"; a plain file name whenever the path has one. */
  function CsvPathFromImagePath(imagePath: string): (r: string)
    ensures TrimTrailingSeps(imagePath) != [] ==> NoSep(r)
  {
    var b := Base(imagePath);
    var r := ReplaceAll(b, PngSuffix, CsvSuffix);
    ReplaceAllChars(b, PngSuffix, CsvSuffix);
    assert Separator !in CsvSuffix by {
      assert CsvSuffix == ['.', 'c', 's', 'v'];
    }
    assert TrimTrailingSeps(imagePath) != [] ==> NoSep(r) by {
      if TrimTrailingSeps(imagePath) != [] {
        assert forall i :: 0 <= i < |r| ==> r[i] in b || r[i] in CsvSuffix;
        assert forall i :: 0 <= i < |b| ==> b[i] != Separator;
      }
    }
    r
  }

  /** A page image `stem.png` inside any directory gets the CSV name
      `stem.csv`. */
  lemma CsvPathOfPageImage(d: string, stem: string)
    requires stem != [] && NoSep(stem) && !Contains(stem, PngSuffix)
    ensures CsvPathFromImagePath(Join(d, stem + PngSuffix)) == stem + CsvSuffix
  {
    assert PngSuffix == ['.', 'p', 'n', 'g'];
    assert NoSep(stem + PngSuffix);
    BaseOfJoin(d, stem + PngSuffix);
    ReplaceAllOwnSuffix(stem, PngSuffix, CsvSuffix);
  }

  /** Where the CSV file of an image goes. */
  function CsvPath(csvFolder: string, imagePath: string): string {
    Join(csvFolder, CsvPathFromImagePath(imagePath))
  }

  predicate CsvUnreadable(fs: FS, csvFolder: string, imagePath: string) {
    CsvPath(csvFolder, imagePath) in fs && fs[CsvPath(csvFolder, imagePath)].Unreadable?
  }

  /** The paths of a directory's entries, in listing order. */
  function ImagePaths(dir: string, files: seq<string>): (ps: seq<string>)
    ensures |ps| == |files|
    ensures forall k :: 0 <= k < |files| ==> ps[k] == Join(dir, files[k])
  {
    seq(|files|, k requires 0 <= k < |files| => Join(dir, files[k]))
  }

  /** The inner discovery loop over one subdirectory's images from `j`: an
      image whose CSV exists (even as a directory) is skipped, one whose
      CSV is missing is enqueued, and any other stat error ends discovery. */
  function ScanImages(fs: FS, csvFolder: string, paths: seq<string>, j: nat): (r: Result<seq<string>>)
    requires j <= |paths|
    ensures r.Success? ==> forall p :: p in r.value ==> CsvPath(csvFolder, p) !in fs
    ensures r.Success? ==> |r.value| <= |paths| - j
    decreases |paths| - j
  {
    if j == |paths| then Success([])
    else
      match Stat(fs, CsvPath(csvFolder, paths[j]))
      case Found(_) => ScanImages(fs, csvFolder, paths, j + 1)
      case StatError(m) => Failure(m)
      case NotExist =>
        match ScanImages(fs, csvFolder, paths, j + 1)
        case Failure(m) => Failure(m)
        case Success(rest) => Success([paths[j]] + rest)
  }

  /** What discovery enqueues from one subdirectory: every image whose CSV
      is missing, in listing order, and nothing else; a stat error stops at
      the first unreadable CSV. */
  lemma {:induction false} ScanImagesExact(fs: FS, csvFolder: string, paths: seq<string>, j: nat)
    requires j <= |paths|
    ensures ScanImages(fs, csvFolder, paths, j).Success? <==> forall k :: j <= k < |paths| ==> !CsvUnreadable(fs, csvFolder, paths[k])
    ensures ScanImages(fs, csvFolder, paths, j).Success? ==>
      (forall k :: j <= k < |paths| && CsvPath(csvFolder, paths[k]) !in fs ==> paths[k] in ScanImages(fs, csvFolder, paths, j).value)
      && IsSubsequence(ScanImages(fs, csvFolder, paths, j).value, paths[j..])
    ensures ScanImages(fs, csvFolder, paths, j).Failure? ==>
      exists k :: j <= k < |paths| && CsvUnreadable(fs, csvFolder, paths[k])
        && fs[CsvPath(csvFolder, paths[k])].msg == ScanImages(fs, csvFolder, paths, j).msg
        && forall i :: j <= i < k ==> !CsvUnreadable(fs, csvFolder, paths[i])
    decreases |paths| - j
  {
    if j < |paths| {
      ScanImagesExact(fs, csvFolder, paths, j + 1);
      assert paths[j..][0] == paths[j] && paths[j..][1..] == paths[j + 1..];
    }
  }

  /** The outer discovery loop from subdirectory `k`, with `found` enqueued
      so far. The limit is compared with the count only before a
      subdirectory is entered; an entered subdirectory contributes all of
      its images. */
  function Discover(fs: FS, csvFolder: string, imageDir: string, subDirs: seq<string>, k: nat, found: seq<string>, limit: int)
    : (r: Result<seq<string>>)
    requires k <= |subDirs|
    ensures r.Success? ==> found <= r.value
    ensures |found| >= limit ==> r == Success(found)
    ensures k < |subDirs| && |found| < limit && ReadDir(fs, Join(imageDir, subDirs[k])).Failure? ==>
      r == Failure(ReadDir(fs, Join(imageDir, subDirs[k])).msg)
    decreases |subDirs| - k
  {
    if k == |subDirs| || |found| >= limit then Success(found)
    else
      var dir := Join(imageDir, subDirs[k]);
      match ReadDir(fs, dir)
      case Failure(m) => Failure(m)
      case Success(files) =>
        match ScanImages(fs, csvFolder, ImagePaths(dir, files), 0)
        case Failure(m) => Failure(m)
        case Success(more) => Discover(fs, csvFolder, imageDir, subDirs, k + 1, found + more, limit)
  }

  /** Discovery without any limit: every subdirectory in order. */
  function DiscoverAll(fs: FS, csvFolder: string, imageDir: string, subDirs: seq<string>, k: nat): (r: Result<seq<string>>)
    requires k <= |subDirs|
    decreases |subDirs| - k
  {
    if k == |subDirs| then Success([])
    else
      var dir := Join(imageDir, subDirs[k]);
      match ReadDir(fs, dir)
      case Failure(m) => Failure(m)
      case Success(files) =>
        match ScanImages(fs, csvFolder, ImagePaths(dir, files), 0)
        case Failure(m) => Failure(m)
        case Success(more) =>
          match DiscoverAll(fs, csvFolder, imageDir, subDirs, k + 1)
          case Failure(m) => Failure(m)
          case Success(rest) => Success(more + rest)
  }

  /** The number of entries in the readable subdirectories from `k` on. */
  function TotalEntries(fs: FS, imageDir: string, subDirs: seq<string>, k: nat): nat
    requires k <= |subDirs|
    decreases |subDirs| - k
  {
    if k == |subDirs| then 0
    else
      var n := match ReadDir(fs, Join(imageDir, subDirs[k]))
        case Success(files) => |files|
        case Failure(_) => 0;
      n + TotalEntries(fs, imageDir, subDirs, k + 1)
  }

  /** A limit above every image there is never bites: discovery then
      enqueues what limit-free discovery finds, subdirectory by
      subdirectory and file by file, and fails where it fails. */
  lemma {:induction false} DiscoverWithinLimit(fs: FS, csvFolder: string, imageDir: string, subDirs: seq<string>, k: nat,
                                               found: seq<string>, limit: int)
    requires k <= |subDirs|
    requires |found| + TotalEntries(fs, imageDir, subDirs, k) < limit
    ensures Discover(fs, csvFolder, imageDir, subDirs, k, found, limit)
      == match DiscoverAll(fs, csvFolder, imageDir, subDirs, k)
         case Success(all) => Success(found + all)
         case Failure(m) => Failure(m)
    decreases |subDirs| - k
  {
    if k < |subDirs| {
      var dir := Join(imageDir, subDirs[k]);
      match ReadDir(fs, dir)
      case Failure(_) =>
      case Success(files) =>
        match ScanImages(fs, csvFolder, ImagePaths(dir, files), 0)
        case Failure(_) =>
        case Success(more) =>
          assert TotalEntries(fs, imageDir, subDirs, k) == |files| + TotalEntries(fs, imageDir, subDirs, k + 1);
          assert |more| <= |files|;
          assert |found| < limit;
          assert Discover(fs, csvFolder, imageDir, subDirs, k, found, limit)
              == Discover(fs, csvFolder, imageDir, subDirs, k + 1, found + more, limit);
          DiscoverWithinLimit(fs, csvFolder, imageDir, subDirs, k + 1, found + more, limit);
          match DiscoverAll(fs, csvFolder, imageDir, subDirs, k + 1)
          case Failure(_) =>
          case Success(rest) =>
            AppendAssoc(found, more, rest);
    } else {
      assert found + [] == found;
    }
  }

  lemma AppendAssoc(a: seq<string>, b: seq<string>, c: seq<string>)
    ensures a + b + c == a + (b + c)
  {
  }

  /** With the limit flag at 0 and fewer images than `MaxInt`, discovery
      is limit-free. */
  lemma DiscoverUnlimited(fs: FS, csvFolder: string, imageDir: string, subDirs: seq<string>)
    requires TotalEntries(fs, imageDir, subDirs, 0) < MaxInt
    ensures Discover(fs, csvFolder, imageDir, subDirs, 0, [], EffectiveLimit(0)) == DiscoverAll(fs, csvFolder, imageDir, subDirs, 0)
  {
    DiscoverWithinLimit(fs, csvFolder, imageDir, subDirs, 0, [], EffectiveLimit(0));
    match DiscoverAll(fs, csvFolder, imageDir, subDirs, 0)
    case Failure(_) =>
    case Success(all) => assert [] + all == all;
  }

  /** A negative limit flag examines no subdirectory at all. */
  lemma DiscoverNegativeLimit(fs: FS, csvFolder: string, imageDir: string, subDirs: seq<string>, flag: int)
    requires flag < 0
    ensures Discover(fs, csvFolder, imageDir, subDirs, 0, [], EffectiveLimit(flag)) == Success([])
  {
  }

  /** The limit is not a bound on the result: with any positive limit, a
      single subdirectory contributes every image it has, however many. */
  lemma DiscoverOvershootsLimit(fs: FS, csvFolder: string, imageDir: string, sub: string, limit: int, more: seq<string>)
    requires limit > 0
    requires ReadDir(fs, Join(imageDir, sub)).Success?
    requires ScanImages(fs, csvFolder, ImagePaths(Join(imageDir, sub), ReadDir(fs, Join(imageDir, sub)).value), 0) == Success(more)
    ensures Discover(fs, csvFolder, imageDir, [sub], 0, [], limit) == Success(more)
  {
    assert [] + more == more;
  }

  /** What the OCR engine reports for one image: the client could not be
      set up for it (image, data prefix or language), the word boxes could
      not be read, or the boxes. */
  datatype OcrOutcome = ClientFailed(msg: string) | BoxesFailed(msg: string) | Boxes(boxes: seq<BoundingBox>)

  /** The engine, as a function from an image path to its outcome. */
  type Engine = string -> OcrOutcome

  /** `extractOcrResults`: a box failure gives nil results, not an error. */
  function ExtractOcrResults(o: OcrOutcome): (r: Option<seq<OcrResult>>)
    requires !o.ClientFailed?
    ensures r.None? <==> o.BoxesFailed?
    ensures o.Boxes? ==> r.Some? && r.value == Results(o.boxes)
  {
    match o
    case BoxesFailed(_) => None
    case Boxes(bs) => Some(Results(bs))
  }

  /** The records a marshalled result list holds; nil marshals as none. */
  function Rows(rs: Option<seq<OcrResult>>): seq<OcrResult> {
    match rs
    case None => []
    case Some(v) => v
  }

  /** `extractImageToCsvIfNotExists`: (true, nil) once the missing CSV file
      is written; (false, nil) without writing when the CSV path is there
      or cannot be checked (only "does not exist" leads to writing); the
      client's or the file creation's error otherwise. */
  function ExtractImageToCsvIfNotExists(fs: FS, engine: Engine, imagePath: string, csvPath: string): (r: (Result<bool>, FS))
    ensures r.0 == Success(true) <==>
      !engine(imagePath).ClientFailed? && csvPath !in fs && Dir(csvPath) in fs && fs[Dir(csvPath)].Directory?
    ensures r.0 == Success(true) ==>
      r.1 == fs[csvPath := File(Records(Rows(ExtractOcrResults(engine(imagePath)))))]
    ensures r.0 == Success(false) <==> !engine(imagePath).ClientFailed? && csvPath in fs
    ensures engine(imagePath).ClientFailed? ==> r.0 == Failure(engine(imagePath).msg)
    ensures r.0 != Success(true) ==> r.1 == fs
  {
    match engine(imagePath)
    case ClientFailed(m) => (Failure(m), fs)
    case _ =>
      var results := ExtractOcrResults(engine(imagePath));
      if Stat(fs, csvPath).NotExist? then
        match CreateFile(fs, csvPath, Records(Rows(results)))
        case Failure(m) => (Failure(m), fs)
        case Success(fs1) => (Success(true), fs1)
      else (Success(false), fs)
  }

  /** One extraction per discovered image, in order, each reported under
      its image path. */
  function RunExtractions(fs: FS, engine: Engine, csvFolder: string, paths: seq<string>): (r: (seq<Aggregation.Report>, FS))
    ensures |r.0| == |paths|
    ensures forall i :: 0 <= i < |paths| ==> r.0[i].id == paths[i]
    decreases |paths|
  {
    if |paths| == 0 then ([], fs)
    else
      var (res, fs1) := ExtractImageToCsvIfNotExists(fs, engine, paths[0], CsvPath(csvFolder, paths[0]));
      var (rest, fs2) := RunExtractions(fs1, engine, csvFolder, paths[1..]);
      ([Aggregation.Report(paths[0], res.ToStatus())] + rest, fs2)
  }

  /** The text written to `failed.txt`: every failed path followed by a
      line break. */
  function FailedText(ids: seq<string>): string
    decreases |ids|
  {
    if |ids| == 0 then "" else ids[0] + "\n" + FailedText(ids[1..])
  }

  /** The lines of a text whose every line ends in a line break. */
  function Lines(s: string): seq<string>
    decreases |s|
  {
    if |s| == 0 then []
    else if '\n' !in s then [s]
    else
      var j := FirstNewline(s, 0);
      [s[..j]] + Lines(s[j + 1..])
  }

  function FirstNewline(s: string, k: nat): (j: nat)
    requires k <= |s| && '\n' in s[k..]
    ensures k <= j < |s| && s[j] == '\n'
    ensures forall i :: k <= i < j ==> s[i] != '\n'
    decreases |s| - k
  {
    if s[k] == '\n' then k
    else
      assert s[k..] == [s[k]] + s[k + 1..];
      FirstNewline(s, k + 1)
  }

  /** Reading `failed.txt` back line by line gives the failed paths, as
      long as no path holds a line break. */
  lemma {:induction false} LinesOfFailedText(ids: seq<string>)
    requires forall i :: 0 <= i < |ids| ==> '\n' !in ids[i]
    ensures Lines(FailedText(ids)) == ids
    decreases |ids|
  {
    if |ids| > 0 {
      var s := FailedText(ids);
      var id := ids[0];
      var rest := FailedText(ids[1..]);
      assert s == id + "\n" + rest;
      assert s[|id|] == '\n';
      assert '\n' in s;
      assert s[0..] == s;
      forall i | 0 <= i < |id| ensures s[i] != '\n' {
        assert s[i] == id[i];
      }
      assert FirstNewline(s, 0) == |id|;
      assert s[..|id|] == id;
      assert s[|id| + 1..] == rest;
      LinesOfFailedText(ids[1..]);
    }
  }

  /** `OcrImages`: list the image folder, discover, extract, then write
      `failed.txt` and return the joined error text. Listing, discovery and
      `failed.txt` errors are returned as they are and win over the
      extraction errors. */
  function OcrImages(fs: FS, dirs: CommonDirs, limitFlag: int, engine: Engine): (r: (Status, FS))
    ensures ReadDir(fs, dirs.imageFolder).Failure? ==> r == (Err(ReadDir(fs, dirs.imageFolder).msg), fs)
    ensures ReadDir(fs, dirs.imageFolder).Success? ==>
      var found := Discover(fs, dirs.csvFolder, dirs.imageFolder, ReadDir(fs, dirs.imageFolder).value, 0, [], EffectiveLimit(limitFlag));
      (found.Failure? ==> r == (Err(found.msg), fs))
      && (found.Success? ==>
        var run := RunExtractions(fs, engine, dirs.csvFolder, found.value);
        var failedPath := Join(dirs.csvFolder, FailedFileName);
        var text := FailedText(Aggregation.FailedIds(run.0));
        var w := WriteFromStart(run.1, failedPath, text);
        (w.Failure? ==> r == (Err(w.msg), run.1))
        && (w.Success? ==>
          (r.0.Err? <==> Aggregation.SomeFailed(Aggregation.Statuses(run.0)))
          && (r.0.Err? ==> r.0.msg == Aggregation.ErrorText(Aggregation.Statuses(run.0)))
          && failedPath in r.1 && r.1[failedPath].File? && r.1[failedPath].content.Text?
          && IsPrefixOf(text, r.1[failedPath].content.text)
          && (failedPath in run.1 && run.1[failedPath].File? && run.1[failedPath].content.Text?
              && |run.1[failedPath].content.text| > |text| ==>
              r.1[failedPath].content.text == text + run.1[failedPath].content.text[|text|..])))
  {
    match ReadDir(fs, dirs.imageFolder)
    case Failure(m) => (Err(m), fs)
    case Success(subDirs) =>
      match Discover(fs, dirs.csvFolder, dirs.imageFolder, subDirs, 0, [], EffectiveLimit(limitFlag))
      case Failure(m) => (Err(m), fs)
      case Success(paths) =>
        var (reports, fs1) := RunExtractions(fs, engine, dirs.csvFolder, paths);
        var failed := Aggregation.FailedIds(reports);
        match WriteFromStart(fs1, Join(dirs.csvFolder, FailedFileName), FailedText(failed))
        case Failure(m) => (Err(m), fs1)
        case Success(fs2) => (Aggregation.Combine(Aggregation.Statuses(reports)), fs2)
  }

  /** The extraction pool takes one of `MaxConversions` tokens per image and
      a failed extraction keeps its token, so the source command never
      returns normally (it blocks, or the runtime aborts on deadlock) when
      that many extractions fail before the last image is dispatched. Every such run is one the model reports as failed. */
  lemma BlockedRunFails(fs: FS, dirs: CommonDirs, limitFlag: int, engine: Engine)
    requires ReadDir(fs, dirs.imageFolder).Success?
    requires Discover(fs, dirs.csvFolder, dirs.imageFolder, ReadDir(fs, dirs.imageFolder).value, 0, [], EffectiveLimit(limitFlag)).Success?
    ensures var found := Discover(fs, dirs.csvFolder, dirs.imageFolder, ReadDir(fs, dirs.imageFolder).value, 0, [], EffectiveLimit(limitFlag));
      var outcomes := Aggregation.Statuses(RunExtractions(fs, engine, dirs.csvFolder, found.value).0);
      Aggregation.PoolBlocks(outcomes, MaxConversions) ==> OcrImages(fs, dirs, limitFlag, engine).0.Err?
  {
    var found := Discover(fs, dirs.csvFolder, dirs.imageFolder, ReadDir(fs, dirs.imageFolder).value, 0, [], EffectiveLimit(limitFlag));
    var outcomes := Aggregation.Statuses(RunExtractions(fs, engine, dirs.csvFolder, found.value).0);
    Aggregation.PoolBlocksOnlyOnFailures(outcomes, MaxConversions);
  }

  /** An `ImageExtractor`: the image and where its CSV file goes. */
  datatype ImageExtractor = ImageExtractor(imagePath: string, csvPath: string)

  function NewImageExtractor(imagePath: string, dirs: CommonDirs): ImageExtractor {
    ImageExtractor(imagePath, CsvPath(dirs.csvFolder, imagePath))
  }

  /** `CsvExists`: (true, nil) when the CSV path is there, (false, nil) when
      it does not exist, the stat error otherwise. */
  function CsvExists(fs: FS, e: ImageExtractor): (r: Result<bool>)
    ensures r == Success(true) <==> e.csvPath in fs && !fs[e.csvPath].Unreadable?
    ensures r == Success(false) <==> e.csvPath !in fs
    ensures r.Failure? ==> e.csvPath in fs && r.msg == fs[e.csvPath].msg
  {
    Exists(fs, e.csvPath)
  }

  /** `ExtractIfNotExists`: nil results for an existing CSV, the stat
      error for an unreadable one, and otherwise the engine's results, where
      here a box failure is an error. Nothing is written. */
  function ExtractIfNotExists(fs: FS, e: ImageExtractor, engine: Engine): (r: Result<Option<seq<OcrResult>>>)
    ensures e.csvPath in fs && !fs[e.csvPath].Unreadable? ==> r == Success(None)
    ensures e.csvPath in fs && fs[e.csvPath].Unreadable? ==> r == Failure(fs[e.csvPath].msg)
    ensures e.csvPath !in fs ==>
      (r.Success? <==> engine(e.imagePath).Boxes?)
      && (r.Success? ==> r.value == Some(Results(engine(e.imagePath).boxes)))
      && (r.Failure? ==> r.msg == engine(e.imagePath).msg)
  {
    match CsvExists(fs, e)
    case Failure(m) => Failure(m)
    case Success(true) => Success(None)
    case Success(false) =>
      match engine(e.imagePath)
      case ClientFailed(m) => Failure(m)
      case BoxesFailed(m) => Failure(m)
      case Boxes(bs) => Success(Some(Results(bs)))
  }
}

=== FILE: ocr_iterator.dfy ===
/** The nested image iterator of the text-extraction command
    (`ImageIterator`): it walks the subdirectories of a base directory and
    yields the path of every file in each, reading a subdirectory's listing
    only when the previous one is used up. The iterator is a value; `HasNext`
    and `GetNext` return the next state along with their answer. */
module OcrImageIterator {
  import opened Outcomes
  import opened FilePath
  import opened FileSystem
  import opened Seqs
  import Ocr

  datatype ImageIterator = ImageIterator(
    baseDir: string,
    subDirs: seq<string>,
    currentDir: string,
    currentImages: seq<string>,
    currentIdx: int,
    subDirIdx: nat)

  /** The states the iterator can reach: the subdirectory index stays in
      range, and the image index stays below the listing (or the listing is
      empty after a failed read). */
  predicate Valid(it: ImageIterator) {
    it.subDirIdx <= |it.subDirs| && -1 <= it.currentIdx
    && (it.currentImages == [] || it.currentIdx < |it.currentImages|)
  }

  /** `NewImageIterator`: the listing of the base directory, no images yet. */
  function NewImageIterator(fs: FS, baseDir: string): (r: Result<ImageIterator>)
    ensures r.Success? <==> ReadDir(fs, baseDir).Success?
    ensures r.Success? ==>
      (Valid(r.value) && r.value.subDirs == ReadDir(fs, baseDir).value
       && r.value.currentImages == [] && r.value.subDirIdx == 0 && r.value.baseDir == baseDir)
  {
    match ReadDir(fs, baseDir)
    case Failure(m) => Failure(m)
    case Success(subDirs) => Success(ImageIterator(baseDir, subDirs, "", [], -1, 0))
  }

  /** The images left in the current listing. */
  function Left(it: ImageIterator): nat {
    if it.currentIdx + 1 < |it.currentImages| then |it.currentImages| - it.currentIdx - 1 else 0
  }

  /** `HasNext`: while the current listing is used up and subdirectories
      remain, read the next one; a read error answers false and leaves the
      subdirectory index where it is. */
  function HasNext(fs: FS, it: ImageIterator): (r: (bool, ImageIterator))
    requires Valid(it)
    ensures Valid(r.1)
    ensures r.1.baseDir == it.baseDir && r.1.subDirs == it.subDirs && r.1.subDirIdx >= it.subDirIdx
    ensures r.0 <==> r.1.currentIdx + 1 < |r.1.currentImages|
    ensures r.0 ==> r.1 == it || r.1.subDirIdx > it.subDirIdx
    decreases |it.subDirs| - it.subDirIdx
  {
    if NeedsRead(it) then
      var dir := NextDir(it);
      match ReadDir(fs, dir)
      case Failure(_) => (false, it.(currentDir := dir, currentImages := []))
      case Success(images) => HasNext(fs, Entered(it, images))
    else (it.currentIdx + 1 < |it.currentImages|, it)
  }

  /** The current listing is used up and subdirectories remain. */
  predicate NeedsRead(it: ImageIterator) {
    (it.currentIdx + 1 >= |it.currentImages| || |it.currentImages| == 0) && it.subDirIdx < |it.subDirs|
  }

  function NextDir(it: ImageIterator): string
    requires NeedsRead(it)
  {
    Join(it.baseDir, it.subDirs[it.subDirIdx])
  }

  /** The state after reading the next subdirectory's listing. */
  function Entered(it: ImageIterator, images: seq<string>): (r: ImageIterator)
    requires Valid(it) && NeedsRead(it)
    ensures Valid(r)
  {
    it.(currentDir := NextDir(it), currentImages := images, currentIdx := -1, subDirIdx := it.subDirIdx + 1)
  }

  /** `GetNext`: the next image path, or "" when there is none. */
  function GetNext(fs: FS, it: ImageIterator): (r: (string, ImageIterator))
    requires Valid(it)
    ensures Valid(r.1)
    ensures !HasNext(fs, it).0 ==> r == ("", HasNext(fs, it).1)
  {
    var (more, it1) := HasNext(fs, it);
    if more then
      var it2 := it1.(currentIdx := it1.currentIdx + 1);
      (Join(it2.currentDir, it2.currentImages[it2.currentIdx]), it2)
    else ("", it1)
  }

  /** Everything the loop `for it.HasNext() { it.GetNext() }` yields. */
  function Collect(fs: FS, it: ImageIterator): seq<string>
    requires Valid(it)
    decreases |it.subDirs| - it.subDirIdx, Left(it)
  {
    var (more, it1) := HasNext(fs, it);
    if !more then []
    else
      var (p, it2) := GetNext(fs, it);
      [p] + Collect(fs, it2)
  }

  /** Reference walk: the files of every subdirectory from `k` on, in
      order, up to the first subdirectory that cannot be read. */
  function FilesFrom(fs: FS, baseDir: string, subDirs: seq<string>, k: nat): seq<string>
    requires k <= |subDirs|
    decreases |subDirs| - k
  {
    if k == |subDirs| then []
    else
      var dir := Join(baseDir, subDirs[k]);
      match ReadDir(fs, dir)
      case Failure(_) => []
      case Success(images) => Ocr.ImagePaths(dir, images) + FilesFrom(fs, baseDir, subDirs, k + 1)
  }

  /** The images still to come from a state: the rest of the current
      listing, then every later subdirectory. */
  function Remaining(fs: FS, it: ImageIterator): seq<string>
    requires Valid(it)
  {
    var rest := if it.currentIdx + 1 < |it.currentImages| then it.currentImages[it.currentIdx + 1..] else [];
    Ocr.ImagePaths(it.currentDir, rest) + FilesFrom(fs, it.baseDir, it.subDirs, it.subDirIdx)
  }

  /** `HasNext` changes nothing about what is still to come, and it answers
      true exactly when something is. */
  lemma {:induction false} HasNextKeepsRemaining(fs: FS, it: ImageIterator)
    requires Valid(it)
    ensures Remaining(fs, HasNext(fs, it).1) == Remaining(fs, it)
    ensures HasNext(fs, it).0 <==> Remaining(fs, it) != []
    decreases |it.subDirs| - it.subDirIdx
  {
    if NeedsRead(it) {
      match ReadDir(fs, NextDir(it))
      case Failure(_) =>
        ReadFailureEnds(fs, it);
      case Success(images) =>
        ReadKeepsRemaining(fs, it, images);
        HasNextKeepsRemaining(fs, Entered(it, images));
    } else {
      NoReadKeepsRemaining(fs, it);
    }
  }

  /** A listing that cannot be read ends the walk: nothing is left. */
  lemma ReadFailureEnds(fs: FS, it: ImageIterator)
    requires Valid(it) && NeedsRead(it) && ReadDir(fs, NextDir(it)).Failure?
    ensures !HasNext(fs, it).0
    ensures Remaining(fs, HasNext(fs, it).1) == [] == Remaining(fs, it)
  {
    assert Ocr.ImagePaths(it.currentDir, []) == [];
    assert Ocr.ImagePaths(NextDir(it), []) == [];
  }

  /** Reading the next listing moves its images from the walk's tail to
      the current listing. */
  lemma ReadKeepsRemaining(fs: FS, it: ImageIterator, images: seq<string>)
    requires Valid(it) && NeedsRead(it) && ReadDir(fs, NextDir(it)) == Success(images)
    ensures HasNext(fs, it) == HasNext(fs, Entered(it, images))
    ensures Remaining(fs, Entered(it, images)) == Remaining(fs, it)
  {
    assert Ocr.ImagePaths(it.currentDir, []) == [];
    assert images[0..] == images;
  }

  /** Without a read, `HasNext` keeps the state and answers whether the
      current listing has more. */
  lemma NoReadKeepsRemaining(fs: FS, it: ImageIterator)
    requires Valid(it) && !NeedsRead(it)
    ensures HasNext(fs, it) == (it.currentIdx + 1 < |it.currentImages|, it)
    ensures HasNext(fs, it).0 <==> Remaining(fs, it) != []
  {
    if it.currentIdx + 1 >= |it.currentImages| {
      assert Ocr.ImagePaths(it.currentDir, []) == [];
    }
  }

  lemma ImagePathsCons(dir: string, names: seq<string>)
    requires |names| > 0
    ensures Ocr.ImagePaths(dir, names) == [Join(dir, names[0])] + Ocr.ImagePaths(dir, names[1..])
  {
  }

  /** Stepping past an image of the current listing takes it off the front
      of what is still to come. */
  lemma RemainingStep(fs: FS, it: ImageIterator)
    requires Valid(it) && it.currentIdx + 1 < |it.currentImages|
    ensures Valid(it.(currentIdx := it.currentIdx + 1))
    ensures Remaining(fs, it)
      == [Join(it.currentDir, it.currentImages[it.currentIdx + 1])] + Remaining(fs, it.(currentIdx := it.currentIdx + 1))
  {
    var i := it.currentIdx + 1;
    var imgs := it.currentImages;
    var tail := FilesFrom(fs, it.baseDir, it.subDirs, it.subDirIdx);
    assert Remaining(fs, it.(currentIdx := i)) == Ocr.ImagePaths(it.currentDir, imgs[i + 1..]) + tail;
    assert imgs[i..][1..] == imgs[i + 1..];
    ImagePathsCons(it.currentDir, imgs[i..]);
  }

  /** `GetNext` yields the first image still to come and moves past it. */
  lemma GetNextTakesFirst(fs: FS, it: ImageIterator)
    requires Valid(it) && HasNext(fs, it).0
    ensures Remaining(fs, it) == [GetNext(fs, it).0] + Remaining(fs, GetNext(fs, it).1)
  {
    HasNextKeepsRemaining(fs, it);
    var it1 := HasNext(fs, it).1;
    RemainingStep(fs, it1);
  }

  /** Iterating to the end yields every image still to come, each once, in
      order. */
  lemma {:induction false} CollectIsRemaining(fs: FS, it: ImageIterator)
    requires Valid(it)
    ensures Collect(fs, it) == Remaining(fs, it)
    decreases |it.subDirs| - it.subDirIdx, Left(it)
  {
    HasNextKeepsRemaining(fs, it);
    if HasNext(fs, it).0 {
      GetNextTakesFirst(fs, it);
      CollectIsRemaining(fs, GetNext(fs, it).1);
    }
  }

  /** From a fresh iterator: every file of every subdirectory, subdirectory
      by subdirectory, with empty subdirectories contributing nothing, up
      to the first subdirectory that cannot be read. */
  lemma CollectFresh(fs: FS, baseDir: string)
    requires NewImageIterator(fs, baseDir).Success?
    ensures Collect(fs, NewImageIterator(fs, baseDir).value)
      == FilesFrom(fs, baseDir, ReadDir(fs, baseDir).value, 0)
  {
    var it := NewImageIterator(fs, baseDir).value;
    CollectIsRemaining(fs, it);
    assert Ocr.ImagePaths(it.currentDir, []) == [];
  }

  /** Once `HasNext` has answered false, it keeps answering false and
      `GetNext` keeps returning "". */
  lemma ExhaustedStaysExhausted(fs: FS, it: ImageIterator)
    requires Valid(it) && !HasNext(fs, it).0
    ensures !HasNext(fs, HasNext(fs, it).1).0
    ensures GetNext(fs, HasNext(fs, it).1).0 == ""
  {
    HasNextKeepsRemaining(fs, it);
    HasNextKeepsRemaining(fs, HasNext(fs, it).1);
  }
}

=== FILE: ocr_result.dfy ===
/** One recognised word of a page image, as the text-extraction command
    stores it: the engine's bounding box with line breaks and spaces removed
    from the word. */
module OcrResults {
  import opened Strs

  /** A word box reported by the OCR engine. The confidence is a float in the
      engine; the model only carries it through. */
  datatype BoundingBox = BoundingBox(lineNum: int, wordNum: int, word: string, confidence: real)

  /** One CSV record: line number, word number, cleaned word, confidence. */
  datatype OcrResult = OcrResult(lineNum: int, wordNum: int, word: string, confidence: real)

  /** The word with every line break and then every space deleted. */
  function CleanWord(w: string): (r: string)
    ensures '\n' !in r && ' ' !in r
    ensures forall c :: c != '\n' && c != ' ' ==> multiset(r)[c] == multiset(w)[c]
  {
    CleanWordIsFilter(w);
    WithoutContents(w, '\n');
    WithoutContents(Without(w, '\n'), ' ');
    ReplaceAll(ReplaceAll(w, "\n", ""), " ", "")
  }

  /** The two `ReplaceAll` calls filter the two characters out. */
  lemma CleanWordIsFilter(w: string)
    ensures ReplaceAll(ReplaceAll(w, "\n", ""), " ", "") == Without(Without(w, '\n'), ' ')
  {
    assert "\n" == ['\n'] && " " == [' '];
    ReplaceAllOneCharIsWithout(w, '\n');
    ReplaceAllOneCharIsWithout(Without(w, '\n'), ' ');
  }

  /** Cleaning distributes over concatenation: it acts on each character on
      its own and keeps the order of the others. */
  lemma {:induction false} CleanWordAppend(a: string, b: string)
    ensures CleanWord(a + b) == CleanWord(a) + CleanWord(b)
  {
    CleanWordIsFilter(a + b);
    CleanWordIsFilter(a);
    CleanWordIsFilter(b);
    WithoutAppend(a, b, '\n');
    WithoutAppend(Without(a, '\n'), Without(b, '\n'), ' ');
  }

  /** Cleaning a clean word changes nothing, so cleaning twice is cleaning once. */
  lemma {:induction false} CleanWordIdempotent(w: string)
    ensures CleanWord(CleanWord(w)) == CleanWord(w)
  {
    var r := CleanWord(w);
    CleanWordIsFilter(r);
    forall j | 0 <= j < |r| ensures r[j] != '\n' && r[j] != ' ' {
      assert r[j] in r;
    }
    WithoutAbsent(r, '\n');
    WithoutAbsent(r, ' ');
  }

  /** `NewOcrResult`: the box's numbers and confidence unchanged, its word
      without line breaks or spaces and otherwise the same characters. */
  function NewOcrResult(box: BoundingBox): (r: OcrResult)
    ensures r.lineNum == box.lineNum && r.wordNum == box.wordNum && r.confidence == box.confidence
    ensures '\n' !in r.word && ' ' !in r.word
    ensures forall c :: c != '\n' && c != ' ' ==> multiset(r.word)[c] == multiset(box.word)[c]
  {
    OcrResult(box.lineNum, box.wordNum, CleanWord(box.word), box.confidence)
  }

  /** The records of a page: one per box, in the engine's order. */
  function Results(boxes: seq<BoundingBox>): (rs: seq<OcrResult>)
    ensures |rs| == |boxes|
    ensures forall i :: 0 <= i < |boxes| ==> rs[i] == NewOcrResult(boxes[i])
  {
    seq(|boxes|, i requires 0 <= i < |boxes| => NewOcrResult(boxes[i]))
  }
}

=== FILE: outcomes.dfy ===
/** Error-carrying values shared by every module. Go reports failure through an
    `error` return (nil or a message) and through `(T, error)` pairs; these two
    datatypes are their counterparts. */
module Outcomes {

  /** Go's `error`: nil, or an error whose `Error()` text is `msg`. */
  datatype Status = Ok | Err(msg: string)

  /** Go's `(T, error)` pair when exactly one of the two is meaningful. */
  datatype Result<+T> = Success(value: T) | Failure(msg: string) {

    predicate IsFailure() {
      Failure?
    }

    function PropagateFailure<U>(): Result<U>
      requires Failure?
    {
      Failure(msg)
    }

    function Extract(): T
      requires Success?
    {
      value
    }

    /** The error half of the pair, as a `Status`. */
    function ToStatus(): Status {
      match this
      case Success(_) => Ok
      case Failure(m) => Err(m)
    }
  }

  /** A nil-able value (Go pointers returned without an error). */
  datatype Option<+T> = None | Some(value: T)
}

/** Aggregation of per-item errors, the pattern every pipeline of the system
    repeats: `errStr = errStr + " " + err.Error()` over the failed items, then
    `errors.New(errStr)` when the text is not empty, plus (for text extraction)
    the list of failed item identifiers. The concurrent channel draining is
    modelled as a sequential fold over the items' completion reports. */
module Aggregation {
  import opened Outcomes

  /** One completion report: the item's identifier and its outcome. */
  datatype Report = Report(id: string, status: Status)

  /** What one outcome contributes to the aggregate text. */
  function Piece(s: Status): string {
    match s
    case Ok => ""
    case Err(m) => " " + m
  }

  /** The aggregate error text: `" " + msg` for every failure, in order. */
  function ErrorText(ss: seq<Status>): string
    decreases |ss|
  {
    if |ss| == 0 then "" else Piece(ss[0]) + ErrorText(ss[1..])
  }

  predicate SomeFailed(ss: seq<Status>) {
    exists i :: 0 <= i < |ss| && ss[i].Err?
  }

  function CountFailed(ss: seq<Status>): nat
    decreases |ss|
  {
    if |ss| == 0 then 0 else (if ss[0].Err? then 1 else 0) + CountFailed(ss[1..])
  }

  lemma {:induction false} ErrorTextEmptyIff(ss: seq<Status>)
    ensures ErrorText(ss) == "" <==> !SomeFailed(ss)
    decreases |ss|
  {
    if |ss| > 0 {
      ErrorTextEmptyIff(ss[1..]);
      if ss[0].Ok? && !SomeFailed(ss[1..]) {
        forall i | 0 <= i < |ss| ensures ss[i].Ok? {
          if i > 0 { assert ss[i] == ss[1..][i - 1]; }
        }
      }
      if SomeFailed(ss[1..]) {
        var i :| 0 <= i < |ss[1..]| && ss[1..][i].Err?;
        assert ss[i + 1].Err?;
      }
    }
  }

  /** Every failure adds its own message plus one separating space, so the
      text is at least as long as the number of failures. */
  lemma {:induction false} ErrorTextLength(ss: seq<Status>)
    ensures |ErrorText(ss)| >= CountFailed(ss)
    decreases |ss|
  {
    if |ss| > 0 {
      ErrorTextLength(ss[1..]);
    }
  }

  /** The aggregate text of a concatenation is the concatenation of the texts:
      failures appear in report order and nothing else is inserted. */
  lemma {:induction false} ErrorTextAppend(a: seq<Status>, b: seq<Status>)
    ensures ErrorText(a + b) == ErrorText(a) + ErrorText(b)
    decreases |a|
  {
    if |a| > 0 {
      assert (a + b)[1..] == a[1..] + b;
      ErrorTextAppend(a[1..], b);
    } else {
      assert a + b == b;
    }
  }

  /** One more outcome adds exactly its own piece at the end. */
  lemma ErrorTextSnoc(ss: seq<Status>, s: Status)
    ensures ErrorText(ss + [s]) == ErrorText(ss) + Piece(s)
  {
    ErrorTextAppend(ss, [s]);
    assert [s][1..] == [];
  }

  /** The failures of a concatenation are those of its parts. */
  lemma {:induction false} CountFailedAppend(a: seq<Status>, b: seq<Status>)
    ensures CountFailed(a + b) == CountFailed(a) + CountFailed(b)
    decreases |a|
  {
    if |a| > 0 {
      assert (a + b)[1..] == a[1..] + b;
      CountFailedAppend(a[1..], b);
    } else {
      assert a + b == b;
    }
  }

  /** Some item failed exactly when the failure count is positive. */
  lemma {:induction false} CountFailedPositive(ss: seq<Status>)
    ensures CountFailed(ss) > 0 <==> SomeFailed(ss)
    decreases |ss|
  {
    if |ss| > 0 {
      CountFailedPositive(ss[1..]);
      if SomeFailed(ss[1..]) {
        var i :| 0 <= i < |ss[1..]| && ss[1..][i].Err?;
        assert ss[i + 1].Err?;
      }
      if SomeFailed(ss) && ss[0].Ok? {
        var i :| 0 <= i < |ss| && ss[i].Err?;
        assert ss[1..][i - 1].Err?;
      }
    }
  }

  /** The bounded worker pools hand out `slots` tokens, one taken before each
      item is dispatched. An item that succeeds gives its token back; one
      that fails returns without doing so. The dispatch of the last item,
      and so the whole command, therefore never proceeds exactly when at
      least `slots` of the items before it failed: the command blocks, or
      the runtime aborts on deadlock. */
  predicate PoolBlocks(ss: seq<Status>, slots: nat) {
    |ss| > 0 && CountFailed(ss[..|ss| - 1]) >= slots
  }

  /** A blocked pool has at least `slots` failures, so with any tokens at all
      the aggregate is an error; fewer failures than tokens never block. */
  lemma PoolBlocksOnlyOnFailures(ss: seq<Status>, slots: nat)
    ensures PoolBlocks(ss, slots) ==> CountFailed(ss) >= slots
    ensures PoolBlocks(ss, slots) && slots > 0 ==> SomeFailed(ss)
    ensures CountFailed(ss) < slots ==> !PoolBlocks(ss, slots)
  {
    if |ss| > 0 {
      assert ss == ss[..|ss| - 1] + [ss[|ss| - 1]];
      CountFailedAppend(ss[..|ss| - 1], [ss[|ss| - 1]]);
    }
    CountFailedPositive(ss);
  }

  /** `if errStr != "" { err = errors.New(errStr) }`: the aggregate error is
      non-nil exactly when some item failed, and then its text is the joined
      messages. */
  function Combine(ss: seq<Status>): (r: Status)
    ensures r.Err? <==> SomeFailed(ss)
    ensures r.Err? ==> r.msg == ErrorText(ss)
  {
    ErrorTextEmptyIff(ss);
    var t := ErrorText(ss);
    if t == "" then Ok else Err(t)
  }

  function Statuses(rs: seq<Report>): (ss: seq<Status>)
    ensures |ss| == |rs|
    ensures forall i :: 0 <= i < |rs| ==> ss[i] == rs[i].status
  {
    seq(|rs|, i requires 0 <= i < |rs| => rs[i].status)
  }

  /** The failed-identifier list: the identifiers of the failed reports, in
      report order. */
  function FailedIds(rs: seq<Report>): seq<string>
    decreases |rs|
  {
    if |rs| == 0 then []
    else (if rs[0].status.Err? then [rs[0].id] else []) + FailedIds(rs[1..])
  }

  lemma {:induction false} FailedIdsAppend(a: seq<Report>, b: seq<Report>)
    ensures FailedIds(a + b) == FailedIds(a) + FailedIds(b)
    decreases |a|
  {
    if |a| > 0 {
      assert (a + b)[1..] == a[1..] + b;
      FailedIdsAppend(a[1..], b);
    } else {
      assert a + b == b;
    }
  }

  /** The failed list holds exactly the identifiers of failed reports: one
      entry per failure, and an identifier appears iff some report carrying it
      failed. */
  lemma {:induction false} FailedIdsExact(rs: seq<Report>)
    ensures |FailedIds(rs)| == CountFailed(Statuses(rs))
    ensures forall id :: id in FailedIds(rs) <==>
      exists i :: 0 <= i < |rs| && rs[i].id == id && rs[i].status.Err?
    decreases |rs|
  {
    if |rs| > 0 {
      FailedIdsExact(rs[1..]);
      assert Statuses(rs)[1..] == Statuses(rs[1..]);
      forall id | id in FailedIds(rs)
        ensures exists i :: 0 <= i < |rs| && rs[i].id == id && rs[i].status.Err?
      {
        if rs[0].status.Err? && id == rs[0].id {
        } else {
          assert id in FailedIds(rs[1..]);
          var j :| 0 <= j < |rs[1..]| && rs[1..][j].id == id && rs[1..][j].status.Err?;
          assert rs[j + 1] == rs[1..][j];
        }
      }
      forall id | exists i :: 0 <= i < |rs| && rs[i].id == id && rs[i].status.Err?
        ensures id in FailedIds(rs)
      {
        var i :| 0 <= i < |rs| && rs[i].id == id && rs[i].status.Err?;
        if i > 0 {
          assert rs[1..][i - 1] == rs[i];
        }
      }
    }
  }

  /** The draining loop of the text-extraction command, written as the Go code
      iterates: one report per dispatched item, appending the error text and
      the failed path in lockstep. */
  method Drain(rs: seq<Report>) returns (errStr: string, failed: seq<string>)
    ensures errStr == ErrorText(Statuses(rs))
    ensures failed == FailedIds(rs)
    ensures errStr == "" <==> !SomeFailed(Statuses(rs))
  {
    errStr := "";
    failed := [];
    var i := 0;
    while i < |rs|
      invariant 0 <= i <= |rs|
      invariant errStr == ErrorText(Statuses(rs[..i]))
      invariant failed == FailedIds(rs[..i])
    {
      assert rs[..i + 1] == rs[..i] + [rs[i]];
      assert Statuses(rs[..i + 1]) == Statuses(rs[..i]) + [rs[i].status];
      ErrorTextAppend(Statuses(rs[..i]), [rs[i].status]);
      FailedIdsAppend(rs[..i], [rs[i]]);
      if rs[i].status.Err? {
        errStr := errStr + " " + rs[i].status.msg;
        failed := failed + [rs[i].id];
      }
      i := i + 1;
    }
    assert rs[..i] == rs;
    ErrorTextEmptyIff(Statuses(rs));
  }
}

=== FILE: paths.dfy ===
/** The path helpers of the `common/paths` package: a path's file name without
    extension and its extension, and a path's directory and file parts. */
module Paths {
  import opened Strs
  import opened FilePath

  datatype NameExt = NameExt(name: string, ext: string)

  datatype DirFile = DirFile(dir: string, file: string)

  /** The cases in which a path names no file: it ends in a separator, or its
      base is empty, ".", ".." or the separator itself. */
  predicate NoFileName(input: string, base: string) {
    LastIndexChar(input, Separator) == |input| - 1
    || base == "" || base == "." || base == ".." || base == [Separator]
  }

  /** `base[:strings.LastIndex(base, ".")]` is only reached when the base
      holds a '.', so the slice is in range. */
  predicate ExtractFilenameDefined(input: string, ext: string, base: string) {
    NoFileName(input, base) || ext == [] || LastIndexChar(base, '.') >= 0
  }

  /** `extractFilename`: the base without everything from its last '.' when
      there is an extension, the base itself when there is none, and "" in
      the no-file-name cases. */
  function ExtractFilename(input: string, ext: string, base: string): (name: string)
    requires ExtractFilenameDefined(input, ext, base)
    ensures NoFileName(input, base) ==> name == []
    ensures !NoFileName(input, base) && ext == [] ==> name == base
    ensures !NoFileName(input, base) && ext != [] ==>
      |name| < |base| && IsPrefix(name, base) && base[|name|] == '.' && '.' !in base[|name| + 1..]
  {
    if NoFileName(input, base) then []
    else if ext != [] then
      var d := LastIndexChar(base, '.');
      var rest := base[d + 1..];
      assert '.' !in rest by {
        forall j | 0 <= j < |rest| ensures rest[j] != '.' {
          assert rest[j] == base[d + 1 + j];
        }
      }
      base[..d]
    else base
  }

  /** The extension of a path that does not end in a separator is a suffix
      of its base. */
  lemma {:induction false} ExtIsSuffixOfBase(p: string)
    requires p != [] && p[|p| - 1] != Separator
    ensures HasSuffix(Base(p), Ext(p))
  {
    var e := Ext(p);
    assert TrimTrailingSeps(p) == p;
    var k := LastSep(p);
    assert Base(p) == p[k + 1..];
    forall j | |p| - |e| <= j < |p| ensures p[j] != Separator {
      assert p[j] == e[j - (|p| - |e|)];
    }
    assert k < |p| - |e|;
    assert Base(p)[|Base(p)| - |e|..] == p[|p| - |e|..];
  }

  /** A suffix starting with the only '.' it holds marks the last '.' of the
      text, and cutting the text there leaves the part before it. */
  lemma {:induction false} LastDotOfExtension(base: string, ext: string)
    requires HasSuffix(base, ext) && ext != [] && ext[0] == '.' && '.' !in ext[1..]
    ensures LastIndexChar(base, '.') == |base| - |ext|
    ensures base[..|base| - |ext|] + ext == base
  {
    var i := |base| - |ext|;
    assert base[i..] == ext;
    assert base[i] == '.';
    forall j | i < j < |base| ensures base[j] != '.' {
      assert base[j] == ext[1..][j - i - 1];
    }
  }

  /** A path ends in a separator exactly when its last separator is its last
      character. */
  lemma LastSepAtEnd(input: string)
    requires input != []
    ensures LastIndexChar(input, Separator) == |input| - 1 <==> input[|input| - 1] == Separator
  {
  }

  /** `fileAndExt` (and so `FileAndExtension`): "" and "" for the empty path,
      otherwise `filepath.Ext` and the file name `extractFilename` derives.
      The name and extension rebuild the base of any path naming a file. */
  function FileAndExtension(input: string): (r: NameExt)
    ensures input == [] ==> r == NameExt([], [])
    ensures input != [] ==> r.ext == Ext(input)
    ensures input != [] && input[|input| - 1] == Separator ==> r.name == []
    ensures input != [] && !NoFileName(input, Base(input)) ==> r.name + r.ext == Base(input)
    ensures NoSep(r.name)
  {
    if input == [] then NameExt([], [])
    else
      var ext := Ext(input);
      var base := Base(input);
      FileNameDefined(input);
      NameExt(ExtractFilename(input, ext, base), ext)
  }

  /** `extractFilename` never panics when called from `fileAndExt`, and the
      name it produces rebuilds the base with the extension. */
  lemma {:induction false} FileNameDefined(input: string)
    requires input != []
    ensures ExtractFilenameDefined(input, Ext(input), Base(input))
    ensures input[|input| - 1] == Separator ==> NoFileName(input, Base(input))
    ensures !NoFileName(input, Base(input)) ==>
      ExtractFilename(input, Ext(input), Base(input)) + Ext(input) == Base(input)
    ensures NoSep(ExtractFilename(input, Ext(input), Base(input)))
  {
    var ext := Ext(input);
    var base := Base(input);
    LastSepAtEnd(input);
    if !NoFileName(input, base) {
      assert TrimTrailingSeps(input) == input;
      assert NoSep(base);
      ExtIsSuffixOfBase(input);
      ExtractFilenameRebuilds(input, ext, base);
      var name := ExtractFilename(input, ext, base);
      forall j | 0 <= j < |name| ensures name[j] != Separator {
        assert name[j] == base[j];
      }
    }
  }

  /** With an extension that is a suffix of the base, starting at its only
      '.', the file name and the extension rebuild the base. */
  lemma ExtractFilenameRebuilds(input: string, ext: string, base: string)
    requires !NoFileName(input, base) && HasSuffix(base, ext)
    requires ext == [] || (ext[0] == '.' && '.' !in ext[1..])
    ensures ExtractFilenameDefined(input, ext, base)
    ensures ExtractFilename(input, ext, base) + ext == base
  {
    if ext != [] {
      LastDotOfExtension(base, ext);
    }
  }

  /** `FileAndExtensionNoDelimiter`: the same name, and the extension without
      its leading '.'. */
  function FileAndExtensionNoDelimiter(input: string): (r: NameExt)
    ensures r.name == FileAndExtension(input).name
    ensures FileAndExtension(input).ext == (if r.ext == [] && FileAndExtension(input).ext != "." then [] else "." + r.ext)
  {
    var ne := FileAndExtension(input);
    var t := TrimPrefix(ne.ext, ".");
    assert ne.ext == [] || (IsPrefix(".", ne.ext) && "." + t == ne.ext);
    NameExt(ne.name, t)
  }

  /** `SplitDirFile`: the two halves of `filepath.Split`. */
  function SplitDirFile(path: string): (r: DirFile)
    ensures r.dir + r.file == path
    ensures NoSep(r.file)
    ensures r.dir == [] || r.dir[|r.dir| - 1] == Separator
  {
    var (d, f) := Split(path);
    DirFile(d, f)
  }

  /** A directory joined with a file name: the name is split at the start of
      its extension. */
  lemma {:induction false} FileAndExtensionOfJoin(d: string, name: string)
    requires name != [] && NoSep(name) && name != "." && name != ".."
    ensures FileAndExtension(Join(d, name)) == NameExt(name[..|name| - |Ext(name)|], Ext(name))
  {
    var p := Join(d, name);
    BaseOfJoin(d, name);
    ExtOfJoin(d, name);
    assert p[|p| - 1] == name[|name| - 1];
    LastSepAtEnd(p);
    assert !NoFileName(p, Base(p));
    var r := FileAndExtension(p);
    assert r.name + r.ext == name;
    assert r.name == name[..|name| - |Ext(name)|];
  }

  /** The package's table of examples for `FileAndExtension`, one lemma per
      row, each about the path it names. */
  lemma ExampleMd()
    ensures FileAndExtension("path/to/file.md") == NameExt("file", ".md")
  {
    var p := "path/to/file.md";
    assert "." + "md" == ".md";
    assert "file" + ".md" == "file.md";
    assert p == "path/to" + "/" + "file.md";
    DottedInDir(p, "path/to", "file", "md");
  }

  /** Only the last extension comes off: the name keeps its ".tar". */
  lemma ExampleTarGz()
    ensures FileAndExtension("path/to/file.tar.gz") == NameExt("file.tar", ".gz")
    ensures '.' in FileAndExtension("path/to/file.tar.gz").name
  {
    var p := "path/to/file.tar.gz";
    assert "." + "gz" == ".gz";
    assert "file.tar" + ".gz" == "file.tar.gz";
    assert p == "path/to" + "/" + "file.tar.gz";
    DottedInDir(p, "path/to", "file.tar", "gz");
  }

  lemma ExampleHidden()
    ensures FileAndExtension("path/to/.hiddenfile") == NameExt("", ".hiddenfile")
  {
    var p := "path/to/.hiddenfile";
    var e := "hiddenfile";
    assert "." + e == ".hiddenfile";
    assert p == "path/to" + "/" + ("" + "." + e);
    DottedInDir(p, "path/to", "", e);
  }

  /** A path whose file name is a stem, a '.' and a plain extension: the name
      is the stem and the extension starts at that '.'. */
  lemma DottedInDir(p: string, d: string, stem: string, e: string)
    requires NoSep(stem) && NoSep(e) && '.' !in e && e != []
    requires p == Join(d, stem + "." + e)
    ensures FileAndExtension(p) == NameExt(stem, "." + e)
  {
    var name := stem + "." + e;
    forall j | 0 <= j < |name| ensures name[j] != Separator {
      if j < |stem| {
        assert name[j] == stem[j];
      } else if j > |stem| {
        assert name[j] == e[j - |stem| - 1];
      }
    }
    assert name[|name| - 1] == e[|e| - 1];
    ExtOfDotSuffix(stem, e);
    FileAndExtensionOfJoin(d, name);
    assert name[..|name| - |"." + e|] == stem;
  }

  lemma ExamplePlainFile()
    ensures FileAndExtension("file") == NameExt("file", "")
  {
    var p := "file";
    assert p == Join("", "file");
    ExtOfNameWithoutDot("", "file");
    FileAndExtensionOfJoin("", "file");
  }

  lemma ExampleDirectory()
    ensures FileAndExtension("path/to/") == NameExt("", "")
  {
    var p := "path/to/";
    assert p[|p|..] == [];
    assert Ext(p) == [];
  }

  /** The package's table of examples for `FileAndExtensionNoDelimiter`. */
  lemma NoDelimiterExampleMd()
    ensures FileAndExtensionNoDelimiter("path/to/file.md") == NameExt("file", "md")
  {
    var p := "path/to/file.md";
    assert "." + "md" == ".md";
    assert "file" + ".md" == "file.md";
    assert p == "path/to" + "/" + "file.md";
    DottedNoDelimiter(p, "path/to", "file", "md");
  }

  lemma NoDelimiterExamplePlainFile()
    ensures FileAndExtensionNoDelimiter("file") == NameExt("file", "")
  {
    var p := "file";
    ExamplePlainFile();
    DelimiterDropped(p, "file", "");
  }

  lemma NoDelimiterExampleDirectory()
    ensures FileAndExtensionNoDelimiter("path/to/") == NameExt("", "")
  {
    var p := "path/to/";
    ExampleDirectory();
    DelimiterDropped(p, "", "");
  }

  lemma NoDelimiterExampleEmpty()
    ensures FileAndExtensionNoDelimiter("") == NameExt("", "")
  {
    var p := "";
    DelimiterDropped(p, "", "");
  }

  /** Only the last extension comes off here too. */
  lemma NoDelimiterExampleTarGz()
    ensures FileAndExtensionNoDelimiter("path/to/file.tar.gz") == NameExt("file.tar", "gz")
    ensures '.' in FileAndExtensionNoDelimiter("path/to/file.tar.gz").name
  {
    var p := "path/to/file.tar.gz";
    assert "." + "gz" == ".gz";
    assert "file.tar" + ".gz" == "file.tar.gz";
    assert p == "path/to" + "/" + "file.tar.gz";
    DottedNoDelimiter(p, "path/to", "file.tar", "gz");
  }

  lemma NoDelimiterExampleHidden()
    ensures FileAndExtensionNoDelimiter("path/to/.hiddenfile") == NameExt("", "hiddenfile")
  {
    var p := "path/to/.hiddenfile";
    var e := "hiddenfile";
    assert "." + e == ".hiddenfile";
    assert p == "path/to" + "/" + ("" + "." + e);
    DottedNoDelimiter(p, "path/to", "", e);
  }

  /** The same path without the '.' in the extension. */
  lemma DottedNoDelimiter(p: string, d: string, stem: string, e: string)
    requires NoSep(stem) && NoSep(e) && '.' !in e && e != []
    requires p == Join(d, stem + "." + e)
    ensures FileAndExtensionNoDelimiter(p) == NameExt(stem, e)
  {
    DottedInDir(p, d, stem, e);
    DelimiterDropped(p, stem, e);
  }

  lemma DelimiterDropped(input: string, name: string, ext: string)
    requires FileAndExtension(input) == NameExt(name, if ext == [] then [] else "." + ext)
    ensures FileAndExtensionNoDelimiter(input) == NameExt(name, ext)
  {
    if ext != [] {
      assert IsPrefix(".", "." + ext);
      assert ("." + ext)[1..] == ext;
    }
  }

  /** The package's table of examples for `SplitDirFile`. */
  lemma SplitDirFileExamples()
    ensures SplitDirFile("path/to/file.md") == DirFile("path/to/", "file.md")
    ensures SplitDirFile("file") == DirFile("", "file")
    ensures SplitDirFile("path/to/") == DirFile("path/to/", "")
    ensures SplitDirFile("") == DirFile("", "")
  {
    SplitUnique("path/to/file.md", "path/to/", "file.md");
    SplitUnique("file", "", "file");
    SplitUnique("path/to/", "path/to/", "");
    SplitUnique("", "", "");
  }
}

=== FILE: pdf_conversion_v2.dfy ===
/** The batch converter that plans batches by page weight
    (`BatchPdfToPng` of the page-weighted version): list the document
    directory, plan the batches, then hand each batch to a worker pool as
    one task per document. The pool's execution of the tasks is not part of
    this model; each task's work is `ConverterV2.ConvertEntry`. */
module PdfConversionV2 {
  import opened Outcomes
  import opened Seqs
  import opened FileSystem
  import opened BatchGreedy
  import ConverterV2

  /** A pool task: the directories its closure captures, the document entry
      it converts and its index in the batch. */
  datatype Task = Task(pdfDir: string, imageDir: string, entry: string, id: nat)

  /** What running a task does (the closure built in `processBatch`). */
  function TaskWork(fs: FS, t: Task): (r: (Status, FS)) {
    ConverterV2.ConvertEntry(fs, t.pdfDir, t.imageDir, t.entry)
  }

  /** `processBatch`'s task list: task `i` carries entry `i` and id `i`. */
  function ProcessBatch(batch: seq<string>, pdfDir: string, imageDir: string): (tasks: seq<Task>)
    ensures |tasks| == |batch|
    ensures forall i :: 0 <= i < |batch| ==>
      tasks[i].entry == batch[i] && tasks[i].id == i && tasks[i].pdfDir == pdfDir && tasks[i].imageDir == imageDir
  {
    seq(|batch|, i requires 0 <= i < |batch| => Task(pdfDir, imageDir, batch[i], i))
  }

  function TaskEntries(tasks: seq<Task>): (es: seq<string>)
    ensures |es| == |tasks|
    ensures forall i :: 0 <= i < |tasks| ==> es[i] == tasks[i].entry
  {
    seq(|tasks|, i requires 0 <= i < |tasks| => tasks[i].entry)
  }

  /** The tasks of a batch hand back exactly the batch, and their ids are
      pairwise distinct. */
  lemma ProcessBatchRoundTrip(batch: seq<string>, pdfDir: string, imageDir: string)
    ensures TaskEntries(ProcessBatch(batch, pdfDir, imageDir)) == batch
    ensures forall i, j :: 0 <= i < j < |batch| ==>
      ProcessBatch(batch, pdfDir, imageDir)[i].id != ProcessBatch(batch, pdfDir, imageDir)[j].id
  {
  }

  /** `getPdfEntries`: the listing, or only its first 200 entries when
      slicing (a shorter listing would make the slice expression panic). */
  function GetPdfEntries(fs: FS, slice: bool, pdfDir: string): (r: Result<seq<string>>)
    requires slice && ReadDir(fs, pdfDir).Success? ==> |ReadDir(fs, pdfDir).value| >= 200
    ensures r.Success? <==> ReadDir(fs, pdfDir).Success?
    ensures r.Success? && !slice ==> r.value == ReadDir(fs, pdfDir).value
    ensures r.Success? && slice ==> |r.value| == 200 && IsPrefixSeq(r.value, ReadDir(fs, pdfDir).value)
  {
    var pdfs :- ReadDir(fs, pdfDir);
    if slice then Success(pdfs[..200]) else Success(pdfs)
  }

  predicate IsPrefixSeq(a: seq<string>, b: seq<string>) {
    |a| <= |b| && b[..|a|] == a
  }

  function BatchEntries(plan: seq<seq<Task>>): (bs: seq<seq<string>>)
    ensures |bs| == |plan|
    ensures forall k :: 0 <= k < |plan| ==> bs[k] == TaskEntries(plan[k])
  {
    seq(|plan|, k requires 0 <= k < |plan| => TaskEntries(plan[k]))
  }

  /** `BatchPdfToPng`: a listing or planning error is returned; otherwise
      the result is nil, whatever the tasks later report, and the planned
      task lists, one per batch in order, cover the listing. */
  method BatchPdfToPng(fs: FS, pdfDir: string, imageDir: string, probe: Probe)
    returns (st: Status, plan: seq<seq<Task>>)
    ensures st.Ok? <==> (ReadDir(fs, pdfDir).Success? &&
      forall i :: 0 <= i < |ReadDir(fs, pdfDir).value| ==> ProbeOk(probe, pdfDir, ReadDir(fs, pdfDir).value[i]))
    ensures st.Ok? ==> GreedyPlan(probe, pdfDir, ReadDir(fs, pdfDir).value, BatchEntries(plan))
    ensures st.Ok? ==> forall k, i :: 0 <= k < |plan| && 0 <= i < |plan[k]| ==>
      plan[k][i].id == i && plan[k][i].pdfDir == pdfDir && plan[k][i].imageDir == imageDir
    ensures st.Err? ==> plan == []
  {
    var listed := GetPdfEntries(fs, false, pdfDir);
    if listed.Failure? {
      return Err(listed.msg), [];
    }
    var batches := CalculateBatches(listed.value, pdfDir, probe);
    if batches.Failure? {
      return Err(batches.msg), [];
    }
    PlanIsGreedy(probe, pdfDir, listed.value);
    plan := [];
    var k := 0;
    while k < |batches.value|
      invariant 0 <= k <= |batches.value|
      invariant |plan| == k
      invariant forall j :: 0 <= j < k ==> plan[j] == ProcessBatch(batches.value[j], pdfDir, imageDir)
    {
      plan := plan + [ProcessBatch(batches.value[k], pdfDir, imageDir)];
      k := k + 1;
    }
    forall j | 0 <= j < |plan| ensures BatchEntries(plan)[j] == batches.value[j] {
      ProcessBatchRoundTrip(batches.value[j], pdfDir, imageDir);
    }
    assert BatchEntries(plan) == batches.value;
    st := Ok;
  }
}

=== FILE: pdf_conversion_v2_slices.dfy ===
/** The batch converter that cuts the listing into fixed-size slices
    (`BatchPdfToPng` of the fixed-slice version): it always lists with
    slicing on, keeps the first 500 entries, and hands consecutive slices of
    250 to the worker pool. The pool's execution is not part of this model. */
module PdfConversionV2Slices {
  import opened Outcomes
  import opened Seqs
  import opened FileSystem
  import PdfConversionV2

  const BatchSize: nat := 250
  /** How many entries the sliced listing keeps. */
  const SliceLength: nat := 500

  function Min(a: int, b: int): int {
    if a < b then a else b
  }

  /** `getPdfEntries` of this version: the sliced listing keeps the first
      500 entries; a shorter listing makes the slice expression panic. */
  function GetPdfEntries(fs: FS, slice: bool, pdfDir: string): (r: Result<seq<string>>)
    requires slice && ReadDir(fs, pdfDir).Success? ==> |ReadDir(fs, pdfDir).value| >= SliceLength
    ensures r.Success? <==> ReadDir(fs, pdfDir).Success?
    ensures r.Success? && !slice ==> r.value == ReadDir(fs, pdfDir).value
    ensures r.Success? && slice ==> |r.value| == SliceLength && ReadDir(fs, pdfDir).value[..SliceLength] == r.value
  {
    var pdfs :- ReadDir(fs, pdfDir);
    if slice then Success(pdfs[..SliceLength]) else Success(pdfs)
  }

  /** The slicing loop: `[250k, min(250(k+1), n))` for k = 0, 1, … while
      `250k < n`. */
  method SliceBatches(entries: seq<string>) returns (bs: seq<seq<string>>)
    ensures Flatten(bs) == entries
    ensures |bs| == (|entries| + BatchSize - 1) / BatchSize
    ensures forall k :: 0 <= k < |bs| ==>
      BatchSize * k < |entries| && bs[k] == entries[BatchSize * k..Min(BatchSize * (k + 1), |entries|)]
    ensures forall k :: 0 <= k < |bs| ==> bs[k] != []
    ensures forall k :: 0 <= k < |bs| - 1 ==> |bs[k]| == BatchSize
  {
    var total := |entries|;
    bs := [];
    var startIdx := 0;
    while startIdx < total
      invariant startIdx == BatchSize * |bs|
      invariant |bs| > 0 ==> BatchSize * (|bs| - 1) < total
      invariant Flatten(bs) == entries[..Min(startIdx, total)]
      invariant forall k :: 0 <= k < |bs| ==>
        BatchSize * k < total && bs[k] == entries[BatchSize * k..Min(BatchSize * (k + 1), total)]
      decreases total - startIdx
    {
      var end := startIdx + BatchSize;
      if end > total {
        end := total;
      }
      var batch := entries[startIdx..end];
      SliceStep(entries, bs, batch, bs + [batch]);
      SliceStepPlaces(entries, bs, batch, bs + [batch]);
      bs := bs + [batch];
      startIdx := startIdx + BatchSize;
    }
    SlicesCover(entries, bs);
  }

  /** One more slice extends the covered prefix by the slice. */
  lemma SliceStep(entries: seq<string>, bs: seq<seq<string>>, batch: seq<string>, next: seq<seq<string>>)
    requires BatchSize * |bs| < |entries|
    requires batch == entries[BatchSize * |bs|..Min(BatchSize * |bs| + BatchSize, |entries|)] && next == bs + [batch]
    requires Flatten(bs) == entries[..BatchSize * |bs|]
    ensures Flatten(next) == entries[..Min(BatchSize * |next|, |entries|)]
  {
    var start := BatchSize * |bs|;
    var end := Min(start + BatchSize, |entries|);
    assert Min(BatchSize * |next|, |entries|) == end by {
      assert BatchSize * |next| == start + BatchSize;
    }
    assert Flatten(next) == Flatten(bs) + batch by {
      FlattenSnoc(bs, batch);
    }
    PrefixSplit(entries, start, end);
  }

  lemma PrefixSplit<T>(s: seq<T>, i: nat, j: nat)
    requires i <= j <= |s|
    ensures s[..j] == s[..i] + s[i..j]
  {
  }

  /** The new slice is the `|bs|`-th, the others are unchanged. */
  lemma SliceStepPlaces(entries: seq<string>, bs: seq<seq<string>>, batch: seq<string>, next: seq<seq<string>>)
    requires BatchSize * |bs| < |entries|
    requires batch == entries[BatchSize * |bs|..Min(BatchSize * |bs| + BatchSize, |entries|)] && next == bs + [batch]
    requires forall k :: 0 <= k < |bs| ==>
      BatchSize * k < |entries| && bs[k] == entries[BatchSize * k..Min(BatchSize * (k + 1), |entries|)]
    ensures forall k :: 0 <= k < |next| ==>
      BatchSize * k < |entries| && next[k] == entries[BatchSize * k..Min(BatchSize * (k + 1), |entries|)]
  {
    forall k | 0 <= k < |next|
      ensures BatchSize * k < |entries| && next[k] == entries[BatchSize * k..Min(BatchSize * (k + 1), |entries|)]
    {
      if k < |bs| {
        assert next[k] == bs[k];
      } else {
        assert k == |bs| && next[k] == batch;
        assert BatchSize * (k + 1) == BatchSize * |bs| + BatchSize;
      }
    }
  }

  /** Slices laid end to end past the last entry cover the listing, each
      is non-empty and all but the last are full. */
  lemma SlicesCover(entries: seq<string>, bs: seq<seq<string>>)
    requires BatchSize * |bs| >= |entries| && (|bs| > 0 ==> BatchSize * (|bs| - 1) < |entries|)
    requires Flatten(bs) == entries[..Min(BatchSize * |bs|, |entries|)]
    requires forall k :: 0 <= k < |bs| ==>
      BatchSize * k < |entries| && bs[k] == entries[BatchSize * k..Min(BatchSize * (k + 1), |entries|)]
    ensures Flatten(bs) == entries
    ensures |bs| == (|entries| + BatchSize - 1) / BatchSize
    ensures forall k :: 0 <= k < |bs| ==> bs[k] != []
    ensures forall k :: 0 <= k < |bs| - 1 ==> |bs[k]| == BatchSize
  {
    assert entries[..Min(BatchSize * |bs|, |entries|)] == entries;
    SliceCount(|entries|, |bs|);
    forall k | 0 <= k < |bs| - 1 ensures |bs[k]| == BatchSize {
      assert BatchSize * (k + 1) <= BatchSize * (|bs| - 1) < |entries|;
    }
  }

  /** `k` slices of 250 are the fewest that cover `n` entries. */
  lemma SliceCount(n: nat, k: nat)
    requires BatchSize * k >= n
    requires k > 0 ==> BatchSize * (k - 1) < n
    ensures k == (n + BatchSize - 1) / BatchSize
  {
  }

  /** `BatchPdfToPng`: a listing error is returned; otherwise the result is
      nil and the first 500 entries are planned as two batches of 250. */
  method BatchPdfToPng(fs: FS, pdfDir: string, imageDir: string)
    returns (st: Status, plan: seq<seq<PdfConversionV2.Task>>)
    requires ReadDir(fs, pdfDir).Success? ==> |ReadDir(fs, pdfDir).value| >= SliceLength
    ensures st.Ok? <==> ReadDir(fs, pdfDir).Success?
    ensures st.Ok? ==> |plan| == 2 && Flatten(PdfConversionV2.BatchEntries(plan)) == ReadDir(fs, pdfDir).value[..SliceLength]
    ensures st.Ok? ==> forall k :: 0 <= k < |plan| ==> |plan[k]| == BatchSize
    ensures st.Err? ==> plan == []
  {
    var listed := GetPdfEntries(fs, true, pdfDir);
    if listed.Failure? {
      return Err(listed.msg), [];
    }
    var batches := SliceBatches(listed.value);
    assert |batches| == 2;
    assert |batches[1]| == Min(BatchSize * 2, SliceLength) - BatchSize == BatchSize;
    plan := [];
    var k := 0;
    while k < |batches|
      invariant 0 <= k <= |batches|
      invariant |plan| == k
      invariant forall j :: 0 <= j < k ==> plan[j] == PdfConversionV2.ProcessBatch(batches[j], pdfDir, imageDir)
    {
      plan := plan + [PdfConversionV2.ProcessBatch(batches[k], pdfDir, imageDir)];
      k := k + 1;
    }
    forall j | 0 <= j < |plan| ensures PdfConversionV2.BatchEntries(plan)[j] == batches[j] {
      PdfConversionV2.ProcessBatchRoundTrip(batches[j], pdfDir, imageDir);
    }
    assert PdfConversionV2.BatchEntries(plan) == batches;
    st := Ok;
  }
}

=== FILE: pdf_to_png.dfy ===
/** The per-document converter of the conversion command (`PdfConverter`
    and `PdfToPng`): a document whose image directory already exists is
    skipped; otherwise the directory is created first, then the document is
    opened and its pages are rendered and written one by one, stopping at
    the first failure. Per-document errors are joined into one. */
module PdfToPng {
  import opened Outcomes
  import opened Strs
  import opened FilePath
  import opened FileSystem
  import opened Naming
  import opened ConfigTypes
  import opened Seqs
  import Aggregation
  import Constants

  datatype PdfConverter = PdfConverter(pdfPath: string, imageFolder: string, baseFileName: string, imageDir: string)

  /** `NewPdfConverter`: the base name of the document, and the image
      directory named after it inside the image folder. */
  function NewPdfConverter(pdfPath: string, dirs: CommonDirs): (c: PdfConverter)
    ensures c.pdfPath == pdfPath && c.imageFolder == dirs.imageFolder
    ensures c.baseFileName == PdfBaseName(pdfPath)
    ensures c.imageDir == Join(dirs.imageFolder, c.baseFileName) && c.imageDir != []
  {
    var base := PdfBaseName(pdfPath);
    PdfConverter(pdfPath, dirs.imageFolder, base, Join(dirs.imageFolder, base))
  }

  function GetImageName(c: PdfConverter, pageNumber: int, extension: string): string {
    PageImageName(c.baseFileName, pageNumber, extension)
  }

  function PagePath(c: PdfConverter, n: int, extension: string): string {
    Join(c.imageDir, GetImageName(c, n, extension))
  }

  /** `ImageDirExists`: (true, nil) when present, (false, nil) when it does
      not exist, (false, err) on any other stat error. */
  function ImageDirExists(fs: FS, c: PdfConverter): (r: Result<bool>)
    ensures r == Success(true) <==> c.imageDir in fs && !fs[c.imageDir].Unreadable?
    ensures r == Success(false) <==> c.imageDir !in fs
    ensures r.Failure? <==> c.imageDir in fs && fs[c.imageDir].Unreadable?
  {
    Exists(fs, c.imageDir)
  }

  /** The paths of a document's first `count` pages, in page order. */
  function PagePaths(c: PdfConverter, count: nat, extension: string): (ps: seq<string>)
    requires c.imageDir != []
    ensures |ps| == count
    ensures forall k :: 0 <= k < count ==> ps[k] == PagePath(c, k, extension) && InImageDir(c, ps[k])
  {
    var ps := seq(count, k requires 0 <= k < count => PagePath(c, k, extension));
    forall k | 0 <= k < count ensures InImageDir(c, ps[k]) {
      PagePathInImageDir(c, k, extension);
    }
    ps
  }

  /** The page loop from page `n`, page `k` going to `paths[k]`: render,
      create the file, encode (always as PNG, whatever the extension says)
      and close; the first failure is returned with the pages before it
      written. Encoding and closing are taken to succeed. */
  function WriteImages(fs: FS, paths: seq<string>, pages: seq<PageRender>, n: nat): (r: (Status, FS))
    requires n <= |pages| == |paths|
    ensures forall q :: q in fs ==> q in r.1
    ensures forall q :: q in r.1 && q !in fs ==> q in paths[n..]
    ensures forall q :: q in fs && q !in paths[n..] ==> r.1[q] == fs[q]
    ensures r.0.Ok? ==> forall k :: n <= k < |pages| ==> pages[k].Rendered?
    decreases |pages| - n
  {
    if n == |pages| then (Ok, fs)
    else match pages[n]
      case RenderFailed(m) => (Err(m), fs)
      case Rendered(img) =>
        match CreateFile(fs, paths[n], Image(Png, img))
        case Failure(m) => (Err(m), fs)
        case Success(fs1) =>
          InSuffix(paths, n);
          WriteImages(fs1, paths, pages, n + 1)
  }

  /** The page loop of `ConvertPagesToImages` over the document's pages. */
  function WritePages(fs: FS, c: PdfConverter, pages: seq<PageRender>, extension: string, n: nat): (r: (Status, FS))
    requires n <= |pages|
    requires c.imageDir != []
    ensures forall q :: q in fs ==> q in r.1
    ensures forall q :: q in r.1 && q !in fs ==> InImageDir(c, q)
    ensures forall q :: q in fs && !InImageDir(c, q) ==> r.1[q] == fs[q]
    ensures r.0.Ok? ==> forall k :: n <= k < |pages| ==> pages[k].Rendered?
  {
    WriteImages(fs, PagePaths(c, |pages|, extension), pages, n)
  }

  /** `q` lies inside the image directory. */
  predicate InImageDir(c: PdfConverter, q: string) {
    IsPrefix(c.imageDir + [Separator], q)
  }

  lemma PagePathInImageDir(c: PdfConverter, n: int, extension: string)
    requires c.imageDir != []
    ensures InImageDir(c, PagePath(c, n, extension))
  {
    var name := GetImageName(c, n, extension);
    assert name != [];
    assert PagePath(c, n, extension) == c.imageDir + [Separator] + name;
  }

  /** `ConvertIfNotPresent`. */
  function ConvertIfNotPresent(fs: FS, c: PdfConverter, extension: string): (r: (Status, FS))
    requires c.imageDir != []
    ensures ImageDirExists(fs, c) == Success(true) ==> r == (Ok, fs)
    ensures ImageDirExists(fs, c).Failure? ==> r == (Err(fs[c.imageDir].msg), fs)
    ensures ImageDirExists(fs, c) == Success(false) ==> c.imageDir in r.1 && r.1[c.imageDir] == Directory([])
    ensures ImageDirExists(fs, c) == Success(false) && OpenPdf(fs, c.pdfPath).Failure? ==>
      r.0.Err? && r.1 == fs[c.imageDir := Directory([])]
  {
    match ImageDirExists(fs, c)
    case Failure(m) => (Err(m), fs)
    case Success(true) => (Ok, fs)
    case Success(false) =>
      var (st, fs1) := EnsureDir(fs, c.imageDir);
      if st.Err? then (st, fs1)
      else match OpenPdf(fs1, c.pdfPath)
        case Failure(m) => (Err(m), fs1)
        case Success(pages) =>
          WritePages(fs1, c, pages, extension, 0)
  }

  /** Whatever the first run did, provided its stat succeeded, the image
      directory now exists and a second run changes nothing: a document
      whose open failed keeps its empty directory and is skipped from then
      on. */
  lemma {:induction false} ConvertIfNotPresentIdempotent(fs: FS, c: PdfConverter, extension: string)
    requires c.imageDir != []
    requires ImageDirExists(fs, c).Success?
    ensures var r := ConvertIfNotPresent(fs, c, extension);
      ConvertIfNotPresent(r.1, c, extension) == (Ok, r.1)
  {
    var r := ConvertIfNotPresent(fs, c, extension);
    assert c.imageDir in r.1 && !r.1[c.imageDir].Unreadable?;
  }

  /** A render failure at page `k` after good pages: the error is that
      page's, and the filesystem is what writing only the pages before it
      leaves, so no later page is written. */
  lemma {:induction false} WriteImagesStopsAtRenderFailure(fs: FS, paths: seq<string>, pages: seq<PageRender>, n: nat, k: nat)
    requires n <= k < |pages| == |paths| && pages[k].RenderFailed?
    requires forall j :: n <= j < k ==> pages[j].Rendered?
    ensures WriteImages(fs, paths[..k], pages[..k], n).0.Ok? ==>
      WriteImages(fs, paths, pages, n).0 == Err(pages[k].msg)
    ensures WriteImages(fs, paths, pages, n).1 == WriteImages(fs, paths[..k], pages[..k], n).1
    decreases k - n
  {
    if n < k {
      assert pages[..k][n] == pages[n] && paths[..k][n] == paths[n];
      match CreateFile(fs, paths[n], Image(Png, pages[n].raster))
      case Failure(m) =>
      case Success(fs1) =>
        WriteImagesStopsAtRenderFailure(fs1, paths, pages, n + 1, k);
    }
  }

  /** The same for the document's own page paths. */
  lemma WritePagesStopsAtRenderFailure(fs: FS, c: PdfConverter, pages: seq<PageRender>, extension: string, k: nat)
    requires k < |pages| && pages[k].RenderFailed?
    requires c.imageDir != []
    requires forall j :: 0 <= j < k ==> pages[j].Rendered?
    ensures WritePages(fs, c, pages[..k], extension, 0).0.Ok? ==>
      WritePages(fs, c, pages, extension, 0).0 == Err(pages[k].msg)
    ensures WritePages(fs, c, pages, extension, 0).1 == WritePages(fs, c, pages[..k], extension, 0).1
  {
    var paths := PagePaths(c, |pages|, extension);
    assert PagePaths(c, k, extension) == paths[..k];
    WriteImagesStopsAtRenderFailure(fs, paths, pages, 0, k);
  }

  /** The page paths of a document: one per page, pairwise distinct, each
      directly inside the image directory. */
  lemma PagePathsDistinct(c: PdfConverter, extension: string, count: nat)
    requires c.imageDir != [] && c.imageDir[|c.imageDir| - 1] != Separator
    requires NoSep(c.baseFileName) && NoSep(extension)
    ensures forall k :: 0 <= k < count ==> Dir(PagePaths(c, count, extension)[k]) == c.imageDir
    ensures forall j, k :: 0 <= j < k < count ==> PagePaths(c, count, extension)[j] != PagePaths(c, count, extension)[k]
  {
    var paths := PagePaths(c, count, extension);
    forall k | 0 <= k < count ensures Dir(paths[k]) == c.imageDir {
      PageImageNameNoSep(c.baseFileName, k, extension);
      DirOfJoin(c.imageDir, GetImageName(c, k, extension));
    }
    forall j, k | 0 <= j < k < count ensures paths[j] != paths[k] {
      PageImageNamesDistinct(c.baseFileName, j, k, extension);
      JoinInjective(c.imageDir, GetImageName(c, j, extension), GetImageName(c, k, extension));
    }
  }

  /** When no target path from page `n` on exists yet, the loop changes
      nothing that existed before, whether it succeeds or stops early. */
  lemma WriteImagesKeeps(fs: FS, paths: seq<string>, pages: seq<PageRender>, n: nat)
    requires n <= |pages| == |paths|
    requires forall k :: n <= k < |pages| ==> paths[k] !in fs
    ensures forall q :: q in fs ==> q in WriteImages(fs, paths, pages, n).1 && WriteImages(fs, paths, pages, n).1[q] == fs[q]
  {
    assert forall i :: 0 <= i < |paths[n..]| ==> paths[n..][i] == paths[n + i];
  }

  /** Into an existing directory, with the target paths pairwise distinct
      and free and every page rendered, the loop succeeds and page `k` is
      written to `paths[k]`. */
  lemma {:induction false} WriteImagesComplete(fs: FS, d: string, paths: seq<string>, pages: seq<PageRender>, n: nat)
    requires n <= |pages| == |paths|
    requires d in fs && fs[d].Directory?
    requires forall k :: 0 <= k < |paths| ==> Dir(paths[k]) == d
    requires forall j, k :: 0 <= j < k < |paths| ==> paths[j] != paths[k]
    requires forall k :: n <= k < |pages| ==> pages[k].Rendered? && paths[k] !in fs
    ensures WriteImages(fs, paths, pages, n).0 == Ok
    ensures Stored(WriteImages(fs, paths, pages, n).1, paths, pages, n)
    decreases |pages| - n
  {
    if n < |pages| {
      var fs1 := fs[paths[n] := File(Image(Png, pages[n].raster))];
      FirstPageWritable(fs, d, paths, pages, n);
      WriteImagesComplete(fs1, d, paths, pages, n + 1);
      WriteImagesStep(fs, paths, pages, n);
      WriteImagesKeeps(fs1, paths, pages, n + 1);
      StoredStep(WriteImages(fs1, paths, pages, n + 1).1, paths, pages, n);
    }
  }

  /** Page `k` is stored at `paths[k]` for every `k` from `n` on. */
  predicate Stored(fs: FS, paths: seq<string>, pages: seq<PageRender>, n: nat)
    requires n <= |pages| == |paths|
  {
    forall k :: n <= k < |pages| ==>
      pages[k].Rendered? && paths[k] in fs && fs[paths[k]] == File(Image(Png, pages[k].raster))
  }

  lemma StoredStep(fs: FS, paths: seq<string>, pages: seq<PageRender>, n: nat)
    requires n < |pages| == |paths|
    requires Stored(fs, paths, pages, n + 1)
    requires pages[n].Rendered? && paths[n] in fs && fs[paths[n]] == File(Image(Png, pages[n].raster))
    ensures Stored(fs, paths, pages, n)
  {
  }

  /** A page written successfully hands over to the next page. */
  lemma WriteImagesStep(fs: FS, paths: seq<string>, pages: seq<PageRender>, n: nat)
    requires n < |pages| == |paths| && pages[n].Rendered?
    requires CreateFile(fs, paths[n], Image(Png, pages[n].raster)).Success?
    ensures WriteImages(fs, paths, pages, n)
      == WriteImages(CreateFile(fs, paths[n], Image(Png, pages[n].raster)).value, paths, pages, n + 1)
  {
  }

  /** Writing page `n` succeeds, and afterwards the directory is still there
      and the later paths are still free. */
  lemma FirstPageWritable(fs: FS, d: string, paths: seq<string>, pages: seq<PageRender>, n: nat)
    requires n < |pages| == |paths|
    requires d in fs && fs[d].Directory?
    requires Dir(paths[n]) == d
    requires forall j, k :: 0 <= j < k < |paths| ==> paths[j] != paths[k]
    requires forall k :: n <= k < |pages| ==> pages[k].Rendered? && paths[k] !in fs
    ensures var fs1 := fs[paths[n] := File(Image(Png, pages[n].raster))];
      CreateFile(fs, paths[n], Image(Png, pages[n].raster)) == Success(fs1)
      && d in fs1 && fs1[d].Directory?
      && forall k :: n < k < |pages| ==> pages[k].Rendered? && paths[k] !in fs1
  {
  }

  /** A document whose image directory is missing, whose pages all render
      and whose page paths are free is converted completely: page `n`
      becomes `{base}-{n}{ext}` in the new directory. */
  lemma ConvertIfNotPresentWritesEveryPage(fs: FS, c: PdfConverter, extension: string, pages: seq<PageRender>)
    requires c.imageDir != [] && c.imageDir[|c.imageDir| - 1] != Separator && c.imageDir !in fs
    requires c.pdfPath != c.imageDir && OpenPdf(fs, c.pdfPath) == Success(pages)
    requires NoSep(c.baseFileName) && NoSep(extension)
    requires forall k :: 0 <= k < |pages| ==> pages[k].Rendered? && PagePath(c, k, extension) !in fs
    ensures ConvertIfNotPresent(fs, c, extension).0 == Ok
    ensures forall k :: 0 <= k < |pages| ==>
      PagePath(c, k, extension) in ConvertIfNotPresent(fs, c, extension).1
      && ConvertIfNotPresent(fs, c, extension).1[PagePath(c, k, extension)] == File(Image(Png, pages[k].raster))
  {
    var fs1 := fs[c.imageDir := Directory([])];
    assert OpenPdf(fs1, c.pdfPath) == Success(pages);
    var paths := PagePaths(c, |pages|, extension);
    PagePathsDistinct(c, extension, |pages|);
    WriteImagesKeeps(fs1, paths, pages, 0);
    WriteImagesComplete(fs1, c.imageDir, paths, pages, 0);
  }

  /** The conversion command's extension choice. */
  function Extension(jpgInstead: bool): (ext: string)
    ensures ext == ".jpg" <==> jpgInstead
    ensures ext == ".png" <==> !jpgInstead
  {
    if jpgInstead then ".jpg" else ".png"
  }

  /** One converter per listed entry, in listing order. */
  function Converters(entries: seq<string>, dirs: CommonDirs): (cs: seq<PdfConverter>)
    ensures |cs| == |entries|
    ensures forall i :: 0 <= i < |entries| ==> cs[i] == NewPdfConverter(Join(dirs.disclosuresFolder, entries[i]), dirs)
  {
    seq(|entries|, i requires 0 <= i < |entries| => NewPdfConverter(Join(dirs.disclosuresFolder, entries[i]), dirs))
  }

  /** Running every converter, one after the other, collecting each outcome. */
  function RunAll(fs: FS, cs: seq<PdfConverter>, extension: string): (r: (seq<Status>, FS))
    requires forall i :: 0 <= i < |cs| ==> cs[i].imageDir != []
    ensures |r.0| == |cs|
    decreases |cs|
  {
    if |cs| == 0 then ([], fs)
    else
      var (st, fs1) := ConvertIfNotPresent(fs, cs[0], extension);
      var (rest, fs2) := RunAll(fs1, cs[1..], extension);
      ([st] + rest, fs2)
  }

  /** `PdfToPng`: a listing error is returned as is; otherwise the result
      is non-nil exactly when some conversion failed, and then its text is
      the failures' messages, each after a space, in order. */
  function PdfToPngCmd(fs: FS, dirs: CommonDirs, jpgInstead: bool): (r: (Status, FS))
    ensures ReadDir(fs, dirs.disclosuresFolder).Failure? ==> r == (Err(ReadDir(fs, dirs.disclosuresFolder).msg), fs)
    ensures ReadDir(fs, dirs.disclosuresFolder).Success? ==>
      var outcomes := RunAll(fs, Converters(ReadDir(fs, dirs.disclosuresFolder).value, dirs), Extension(jpgInstead)).0;
      (r.0.Err? <==> Aggregation.SomeFailed(outcomes))
      && (r.0.Err? ==> r.0.msg == Aggregation.ErrorText(outcomes))
  {
    match ReadDir(fs, dirs.disclosuresFolder)
    case Failure(m) => (Err(m), fs)
    case Success(entries) =>
      var (outcomes, fs1) := RunAll(fs, Converters(entries, dirs), Extension(jpgInstead));
      (Aggregation.Combine(outcomes), fs1)
  }

  /** Converters whose image directories all exist are all skipped: every
      outcome is nil and nothing changes. */
  lemma {:induction false} RunAllSkipsPresent(fs: FS, cs: seq<PdfConverter>, extension: string)
    requires forall i :: 0 <= i < |cs| ==> cs[i].imageDir != [] && cs[i].imageDir in fs && !fs[cs[i].imageDir].Unreadable?
    ensures RunAll(fs, cs, extension).1 == fs
    ensures forall i :: 0 <= i < |cs| ==> RunAll(fs, cs, extension).0[i] == Ok
    decreases |cs|
  {
    if |cs| > 0 {
      assert ConvertIfNotPresent(fs, cs[0], extension) == (Ok, fs);
      RunAllSkipsPresent(fs, cs[1..], extension);
      var rest := RunAll(fs, cs[1..], extension).0;
      assert RunAll(fs, cs, extension).0 == [Ok] + rest;
      assert forall i :: 1 <= i < |cs| ==> RunAll(fs, cs, extension).0[i] == rest[i - 1];
    }
  }

  /** A run over a listing whose documents all have their image directory
      already returns nil and changes nothing. */
  lemma PdfToPngCmdSkipsConverted(fs: FS, dirs: CommonDirs, jpgInstead: bool)
    requires ReadDir(fs, dirs.disclosuresFolder).Success?
    requires forall i :: 0 <= i < |ReadDir(fs, dirs.disclosuresFolder).value| ==>
      var c := NewPdfConverter(Join(dirs.disclosuresFolder, ReadDir(fs, dirs.disclosuresFolder).value[i]), dirs);
      c.imageDir in fs && !fs[c.imageDir].Unreadable?
    ensures PdfToPngCmd(fs, dirs, jpgInstead) == (Ok, fs)
  {
    var cs := Converters(ReadDir(fs, dirs.disclosuresFolder).value, dirs);
    RunAllSkipsPresent(fs, cs, Extension(jpgInstead));
  }

  /** The dispatch loop bounds the running conversions with `MaxJobs`
      tokens, and a failed conversion keeps its token, so the source command
      never returns normally (it blocks, or the runtime aborts on deadlock)
      when `MaxJobs` conversions fail before the last one is dispatched. Every such run is one the model reports as failed, and a
      run with fewer failures than tokens never blocks. */
  lemma BlockedRunFails(fs: FS, dirs: CommonDirs, jpgInstead: bool)
    requires ReadDir(fs, dirs.disclosuresFolder).Success?
    ensures var outcomes := RunAll(fs, Converters(ReadDir(fs, dirs.disclosuresFolder).value, dirs), Extension(jpgInstead)).0;
      (Aggregation.PoolBlocks(outcomes, Constants.MaxJobs) ==> PdfToPngCmd(fs, dirs, jpgInstead).0.Err?)
      && (Aggregation.CountFailed(outcomes) < Constants.MaxJobs ==> !Aggregation.PoolBlocks(outcomes, Constants.MaxJobs))
  {
    var outcomes := RunAll(fs, Converters(ReadDir(fs, dirs.disclosuresFolder).value, dirs), Extension(jpgInstead)).0;
    Aggregation.PoolBlocksOnlyOnFailures(outcomes, Constants.MaxJobs);
  }
}

=== FILE: s3_profile.dfy ===
/** The S3 connection settings (`model/s3Profile.go`): a default profile
    (credentials come from the host's own AWS set-up) or a static profile,
    which embeds the default one and adds an API key and a secret key. */
module S3Profiles {
  datatype S3Settings = S3Settings(bucket: string, region: string, hostname: string)

  datatype S3Profile =
    | S3DefaultProfile(settings: S3Settings)
    | S3StaticProfile(settings: S3Settings, apiKey: string, secretKey: string)
  {
    function GetBucket(): string { settings.bucket }
    function GetRegion(): string { settings.region }
    function GetHostname(): string { settings.hostname }

    /** Whether the profile carries its own credentials. */
    predicate StaticAuthentication() { S3StaticProfile? }
  }

  /** The static profile answers the three getters through the default
      profile it embeds, and differs from it only in its authentication. */
  lemma StaticEmbedsDefault(s: S3Settings, apiKey: string, secretKey: string)
    ensures var st := S3StaticProfile(s, apiKey, secretKey);
      var df := S3DefaultProfile(s);
      st.GetBucket() == df.GetBucket() == s.bucket
      && st.GetRegion() == df.GetRegion() == s.region
      && st.GetHostname() == df.GetHostname() == s.hostname
      && st.StaticAuthentication() && !df.StaticAuthentication()
  {
  }

  /** The profile as configuration code builds it from settings and
      credentials read from somewhere: static exactly when both the key and
      the secret are non-empty. */
  function SelectProfile(s: S3Settings, apiKey: string, secretKey: string): (p: S3Profile)
    ensures p.settings == s
    ensures p.StaticAuthentication() <==> apiKey != "" && secretKey != ""
    ensures p.S3StaticProfile? ==> p.apiKey == apiKey && p.secretKey == secretKey
  {
    if apiKey != "" && secretKey != "" then S3StaticProfile(s, apiKey, secretKey)
    else S3DefaultProfile(s)
  }

  /** A profile that configuration code can produce: a static profile's
      credentials are both non-empty. */
  predicate Canonical(p: S3Profile) {
    p.S3StaticProfile? ==> p.apiKey != "" && p.secretKey != ""
  }

  /** The key a profile stores for itself, "" for a default profile. */
  function ApiKeyOf(p: S3Profile): string {
    if p.S3StaticProfile? then p.apiKey else ""
  }

  /** The secret a profile stores for itself, "" for a default profile. */
  function SecretKeyOf(p: S3Profile): string {
    if p.S3StaticProfile? then p.secretKey else ""
  }

  /** Selection gives canonical profiles, and every canonical profile is
      selected back from its own settings and credentials. */
  lemma SelectProfileRoundTrip(p: S3Profile, s: S3Settings, apiKey: string, secretKey: string)
    ensures Canonical(SelectProfile(s, apiKey, secretKey))
    ensures Canonical(p) <==> SelectProfile(p.settings, ApiKeyOf(p), SecretKeyOf(p)) == p
  {
  }
}

=== FILE: seqs.dfy ===
/** Sequence helpers shared by the batch planners and the discovery loops. */
module Seqs {

  /** The concatenation of a sequence of sequences, in order. */
  function Flatten<T>(bs: seq<seq<T>>): seq<T>
    decreases |bs|
  {
    if |bs| == 0 then [] else Flatten(bs[..|bs| - 1]) + bs[|bs| - 1]
  }

  lemma FlattenSnoc<T>(bs: seq<seq<T>>, b: seq<T>)
    ensures Flatten(bs + [b]) == Flatten(bs) + b
  {
    assert (bs + [b])[..|bs|] == bs;
  }

  /** A list holding, at each position `i`, the image of `first + i` under
      an injective map holds each value once, and holds the image of `y`
      exactly when `y` is in range. */
  lemma InjectiveImage<T>(xs: seq<T>, f: int -> T, first: int, y: int)
    requires forall a: int, b: int :: f(a) == f(b) ==> a == b
    requires forall i :: 0 <= i < |xs| ==> xs[i] == f(first + i)
    ensures forall i, j :: 0 <= i < j < |xs| ==> xs[i] != xs[j]
    ensures f(y) in xs <==> first <= y < first + |xs|
  {
    if f(y) in xs {
      var i :| 0 <= i < |xs| && xs[i] == f(y);
      assert f(first + i) == f(y);
    }
    if first <= y < first + |xs| {
      assert xs[y - first] == f(y);
    }
  }

  /** A sequence is its prefix up to `k` followed by the rest. */
  lemma SplitAt<T>(s: seq<T>, k: nat)
    requires k <= |s|
    ensures s[..k] + s[k..] == s
  {
  }

  /** Extending a prefix by one element. */
  lemma PrefixSnoc<T>(s: seq<T>, k: nat)
    requires k < |s|
    ensures s[..k + 1] == s[..k] + [s[k]]
  {
  }

  lemma InSuffix<T>(s: seq<T>, n: nat)
    requires n < |s|
    ensures forall x :: x in s[n..] <==> x == s[n] || x in s[n + 1..]
  {
    assert s[n..] == [s[n]] + s[n + 1..];
  }

  /** `a` is `b` with some elements left out, the rest kept in order. */
  predicate IsSubsequence<T(==)>(a: seq<T>, b: seq<T>)
    decreases |b|
  {
    if a == [] then true
    else if b == [] then false
    else (a[0] == b[0] && IsSubsequence(a[1..], b[1..])) || IsSubsequence(a, b[1..])
  }
}

=== FILE: strings.dfy ===
/** The text primitives of Go's `strings` and `strconv` packages that the
    system relies on, on `seq<char>`: first-occurrence search, `Split(s, sep)[0]`,
    `Replace(s, target, repl, 1)`, `ReplaceAll`, `HasSuffix`, `TrimPrefix`, `Itoa` and
    (ASCII) `ToLower`. */
module Strs {

  predicate IsPrefix(p: string, s: string) {
    |p| <= |s| && s[..|p|] == p
  }

  predicate HasSuffix(s: string, suffix: string) {
    |suffix| <= |s| && s[|s| - |suffix|..] == suffix
  }

  /** `strings.TrimPrefix`. */
  function TrimPrefix(s: string, p: string): (r: string)
    ensures IsPrefix(p, s) ==> p + r == s
    ensures !IsPrefix(p, s) ==> r == s
  {
    if IsPrefix(p, s) then s[|p|..] else s
  }

  /** `pat` occurs in `s` starting at index `i`. */
  predicate OccursAt(s: string, pat: string, i: int) {
    0 <= i && i + |pat| <= |s| && s[i..i + |pat|] == pat
  }

  predicate Contains(s: string, pat: string) {
    exists i :: 0 <= i <= |s| && OccursAt(s, pat, i)
  }

  /** The first occurrence of `pat` at or after `k`, or -1. */
  function IndexFrom(s: string, pat: string, k: nat): (r: int)
    ensures r == -1 || (k <= r && OccursAt(s, pat, r))
    ensures forall j :: k <= j && (r == -1 || j < r) ==> !OccursAt(s, pat, j)
    decreases |s| - k
  {
    if k + |pat| > |s| then -1
    else if s[k..k + |pat|] == pat then k
    else IndexFrom(s, pat, k + 1)
  }

  /** `strings.Index`: the first occurrence of `pat`, or -1 when there is none. */
  function IndexOf(s: string, pat: string): (r: int)
    ensures r == -1 <==> !Contains(s, pat)
    ensures r >= 0 ==> OccursAt(s, pat, r)
    ensures forall j :: 0 <= j < r ==> !OccursAt(s, pat, j)
  {
    IndexFrom(s, pat, 0)
  }

  /** When the first character of `pat` does not appear in `pre`, the first
      occurrence of `pat` in `pre + pat + post` is the one right after `pre`. */
  lemma {:induction false} IndexAfterPlainPrefix(pre: string, pat: string, post: string)
    requires |pat| > 0
    requires forall i :: 0 <= i < |pre| ==> pre[i] != pat[0]
    ensures IndexOf(pre + pat + post, pat) == |pre|
  {
    var s := pre + pat + post;
    assert OccursAt(s, pat, |pre|) by {
      assert s[|pre|..|pre| + |pat|] == pat;
    }
    forall j | 0 <= j < |pre| ensures !OccursAt(s, pat, j) {
      if j + |pat| <= |s| {
        assert s[j..j + |pat|][0] == pre[j];
      }
    }
  }

  /** `strings.LastIndex(s, string(c))`: the last index holding `c`, or -1. */
  function LastIndexChar(s: string, c: char): (r: int)
    ensures -1 <= r < |s|
    ensures r >= 0 ==> s[r] == c
    ensures forall j :: r < j < |s| ==> s[j] != c
    decreases |s|
  {
    if |s| == 0 then -1
    else if s[|s| - 1] == c then |s| - 1
    else LastIndexChar(s[..|s| - 1], c)
  }

  /** `strings.Split(s, sep)[0]`: the text before the first `sep`, or all of
      `s` when `sep` does not occur. */
  function BeforeFirst(s: string, sep: string): (r: string)
    requires |sep| > 0
    ensures IsPrefix(r, s)
    ensures !Contains(s, sep) ==> r == s
    ensures Contains(s, sep) ==> OccursAt(s, sep, |r|)
    ensures forall j :: 0 <= j < |r| ==> !OccursAt(s, sep, j)
  {
    var i := IndexOf(s, sep);
    if i < 0 then s else s[..i]
  }

  /** `strings.Replace(s, target, repl, 1)`. With an empty `target` Go matches at the
      start of the string, which `IndexOf` reproduces (it answers 0). */
  function ReplaceFirst(s: string, target: string, repl: string): (r: string)
    ensures !Contains(s, target) ==> r == s
    ensures Contains(s, target) ==>
      exists i :: 0 <= i && OccursAt(s, target, i) && r == s[..i] + repl + s[i + |target|..]
                  && forall j :: 0 <= j < i ==> !OccursAt(s, target, j)
  {
    var i := IndexOf(s, target);
    if i < 0 then s else s[..i] + repl + s[i + |target|..]
  }

  /** A text without the first character of a pattern does not contain it. */
  lemma MissingFirstChar(s: string, pat: string)
    requires |pat| > 0 && pat[0] !in s
    ensures !Contains(s, pat)
  {
    forall i | 0 <= i <= |s| ensures !OccursAt(s, pat, i) {
      if i < |s| {
        assert s[i] != pat[0];
      }
    }
  }

  /** Replacing the first `target` in a text whose prefix cannot start it. */
  lemma {:induction false} ReplaceFirstAfterPlainPrefix(pre: string, target: string, post: string, repl: string)
    requires |target| > 0
    requires forall i :: 0 <= i < |pre| ==> pre[i] != target[0]
    ensures ReplaceFirst(pre + target + post, target, repl) == pre + repl + post
  {
    var s := pre + target + post;
    IndexAfterPlainPrefix(pre, target, post);
    assert s[..|pre|] == pre;
    assert s[|pre| + |target|..] == post;
  }

  /** `strings.ReplaceAll` for a non-empty `target`: every non-overlapping
      occurrence, scanning left to right. */
  function ReplaceAll(s: string, target: string, repl: string): (r: string)
    requires |target| > 0
    ensures !Contains(s, target) ==> r == s
    decreases |s|
  {
    var i := IndexOf(s, target);
    if i < 0 then s else s[..i] + repl + ReplaceAll(s[i + |target|..], target, repl)
  }

  /** Replacing never introduces a character that is in neither the text
      nor the replacement. */
  lemma {:induction false} ReplaceAllChars(s: string, target: string, repl: string)
    requires |target| > 0
    ensures forall c :: c in ReplaceAll(s, target, repl) ==> c in s || c in repl
    decreases |s|
  {
    var i := IndexOf(s, target);
    if i >= 0 {
      var pre, rest := s[..i], s[i + |target|..];
      ReplaceAllChars(rest, target, repl);
      var r := ReplaceAll(s, target, repl);
      assert r == pre + repl + ReplaceAll(rest, target, repl);
      forall c | c in r ensures c in s || c in repl {
        if c in pre {
          var k :| 0 <= k < |pre| && pre[k] == c;
          assert s[k] == c;
        } else if c in rest {
          var k :| 0 <= k < |rest| && rest[k] == c;
          assert s[i + |target| + k] == c;
        }
      }
    }
  }

  /** The characters of `s` other than `c`, in order. */
  function Without(s: string, c: char): (r: string)
    ensures c !in r
    decreases |s|
  {
    if |s| == 0 then [] else (if s[0] == c then [] else [s[0]]) + Without(s[1..], c)
  }

  /** Filtering keeps every other character, as often as it occurs. */
  lemma {:induction false} WithoutContents(s: string, c: char)
    ensures forall x :: x in Without(s, c) <==> x in s && x != c
    ensures forall x :: x != c ==> multiset(Without(s, c))[x] == multiset(s)[x]
    decreases |s|
  {
    if |s| > 0 {
      WithoutContents(s[1..], c);
      assert s == [s[0]] + s[1..];
    }
  }

  /** Deleting every occurrence of a one-character string with `ReplaceAll` is
      filtering that character out. */
  lemma {:induction false} ReplaceAllOneCharIsWithout(s: string, c: char)
    ensures ReplaceAll(s, [c], "") == Without(s, c)
    decreases |s|
  {
    var i := IndexOf(s, [c]);
    if i < 0 {
      CharBeforeFirstOccurrence(s, c, |s|);
      WithoutAbsent(s, c);
    } else {
      ReplaceAllOneCharIsWithout(s[i + 1..], c);
      DeleteAtFirst(s, c);
    }
  }

  /** One step of `ReplaceAllOneCharIsWithout`: if deleting agrees with
      filtering after the first `c`, it agrees on the whole text. */
  lemma DeleteAtFirst(s: string, c: char)
    requires IndexOf(s, [c]) >= 0
    requires ReplaceAll(s[IndexOf(s, [c]) + 1..], [c], "") == Without(s[IndexOf(s, [c]) + 1..], c)
    ensures ReplaceAll(s, [c], "") == Without(s, c)
  {
    var i := IndexOf(s, [c]);
    var rest := s[i + 1..];
    assert ReplaceAll(s, [c], "") == s[..i] + ReplaceAll(rest, [c], "") by {
      ReplaceAllAtFirst(s, [c], "");
      assert s[..i] + "" == s[..i];
    }
    assert Without(s, c) == s[..i] + Without(rest, c) by {
      FirstOccurrenceOfChar(s, c, i);
      WithoutAtFirst(s, c, i);
    }
  }

  /** `ReplaceAll` replaces the first occurrence and continues after it. */
  lemma ReplaceAllAtFirst(s: string, target: string, repl: string)
    requires |target| > 0 && IndexOf(s, target) >= 0
    ensures ReplaceAll(s, target, repl)
         == s[..IndexOf(s, target)] + repl + ReplaceAll(s[IndexOf(s, target) + |target|..], target, repl)
  {
  }

  /** Filtering out `c` keeps a `c`-free text before an occurrence of `c`
      and drops that occurrence. */
  lemma WithoutAtFirst(s: string, c: char, i: int)
    requires 0 <= i < |s| && s[i] == c && Without(s[..i], c) == s[..i]
    ensures Without(s, c) == s[..i] + Without(s[i + 1..], c)
  {
    var pre, rest := s[..i], s[i + 1..];
    var tail: string := [c] + rest;
    assert s == pre + tail;
    WithoutAppend(pre, tail, c);
    assert tail[1..] == rest && tail[0] == c;
  }

  /** The first occurrence of `[c]` is a `c`, and before it filtering out
      `c` changes nothing. */
  lemma FirstOccurrenceOfChar(s: string, c: char, i: int)
    requires i == IndexOf(s, [c]) && i >= 0
    ensures s[i] == c && Without(s[..i], c) == s[..i]
  {
    assert s[i..i + 1] == [c];
    CharBeforeFirstOccurrence(s, c, i);
    WithoutAbsent(s[..i], c);
  }

  /** Every `c` of `s` turned into `d`, every other character kept. */
  function Subst(s: string, c: char, d: char): (r: string)
    ensures |r| == |s|
    ensures forall i :: 0 <= i < |s| ==> r[i] == if s[i] == c then d else s[i]
  {
    seq(|s|, i requires 0 <= i < |s| => if s[i] == c then d else s[i])
  }

  /** Replacing every occurrence of a one-character text by another
      one-character text is substituting the character. */
  lemma {:induction false} ReplaceAllOneCharIsSubst(s: string, c: char, d: char)
    ensures ReplaceAll(s, [c], [d]) == Subst(s, c, d)
    decreases |s|
  {
    var i := IndexOf(s, [c]);
    if i < 0 {
      CharBeforeFirstOccurrence(s, c, |s|);
    } else {
      var pre, rest := s[..i], s[i + 1..];
      assert s[i] == c by { assert s[i..i + 1] == [c]; }
      CharBeforeFirstOccurrence(s, c, i);
      ReplaceAllOneCharIsSubst(rest, c, d);
      var r := ReplaceAll(s, [c], [d]);
      assert r == pre + [d] + Subst(rest, c, d);
      forall k | 0 <= k < |s| ensures r[k] == Subst(s, c, d)[k] {
        if k > i {
          assert r[k] == Subst(rest, c, d)[k - i - 1];
          assert rest[k - i - 1] == s[k];
        }
      }
    }
  }

  /** Before the first occurrence of the one-character text `[c]` there is no `c`. */
  lemma CharBeforeFirstOccurrence(s: string, c: char, i: int)
    requires 0 <= i <= |s|
    requires forall j :: 0 <= j < i ==> !OccursAt(s, [c], j)
    ensures forall j :: 0 <= j < i ==> s[j] != c
  {
    forall j | 0 <= j < i ensures s[j] != c {
      assert !OccursAt(s, [c], j);
      assert s[j..j + 1] == [s[j]];
    }
  }

  lemma {:induction false} WithoutAbsent(s: string, c: char)
    requires forall j :: 0 <= j < |s| ==> s[j] != c
    ensures Without(s, c) == s
    decreases |s|
  {
    if |s| > 0 {
      WithoutAbsent(s[1..], c);
      assert s == [s[0]] + s[1..];
    }
  }

  lemma {:induction false} WithoutAppend(a: string, b: string, c: char)
    ensures Without(a + b, c) == Without(a, c) + Without(b, c)
    decreases |a|
  {
    if |a| > 0 {
      assert (a + b)[1..] == a[1..] + b;
      assert (a + b)[0] == a[0];
      WithoutAppend(a[1..], b, c);
    } else {
      assert a + b == b;
    }
  }

  /** Filtering is idempotent, and filtering by two characters commutes. */
  lemma {:induction false} WithoutIdempotent(s: string, c: char)
    ensures Without(Without(s, c), c) == Without(s, c)
  {
    var w := Without(s, c);
    forall j | 0 <= j < |w| ensures w[j] != c {
      assert w[j] in w;
    }
    WithoutAbsent(w, c);
  }

  lemma {:induction false} WithoutCommutes(s: string, c: char, d: char)
    ensures Without(Without(s, c), d) == Without(Without(s, d), c)
    decreases |s|
  {
    if |s| > 0 {
      WithoutCommutes(s[1..], c, d);
      WithoutAppend(if s[0] == c then [] else [s[0]], Without(s[1..], c), d);
      WithoutAppend(if s[0] == d then [] else [s[0]], Without(s[1..], d), c);
      WithoutAbsentOrSingle(s[0], c, d);
      WithoutAbsentOrSingle(s[0], d, c);
    }
  }

  lemma WithoutAbsentOrSingle(x: char, c: char, d: char)
    ensures Without(if x == c then [] else [x], d) == if x == c || x == d then [] else [x]
  {
    if x != c {
      var one: string := [x];
      assert one[1..] == [];
    }
  }

  /** When `pat` cannot start a second time inside itself (the
      only `'.'` of `".png"` is its first character), the first occurrence of
      `pat` in `stem + pat` is the one after `stem`, provided `stem` itself
      has none. */
  lemma {:induction false} IndexOfOwnSuffix(stem: string, pat: string)
    requires |pat| > 0
    requires forall k :: 1 <= k < |pat| ==> pat[k] != pat[0]
    requires !Contains(stem, pat)
    ensures IndexOf(stem + pat, pat) == |stem|
  {
    var s := stem + pat;
    assert OccursAt(s, pat, |stem|) by {
      assert s[|stem|..] == pat;
    }
    forall r | 0 <= r < |stem| ensures !OccursAt(s, pat, r) {
      if r + |pat| <= |stem| {
        assert s[r..r + |pat|] == stem[r..r + |pat|];
        assert !OccursAt(stem, pat, r);
      } else if r + |pat| <= |s| {
        var k := |stem| - r;
        assert s[r..r + |pat|][k] == s[|stem|] == pat[0] != pat[k];
      }
    }
  }

  /** Replacing a suffix occurrence: `stem + pat` becomes `stem + repl` when the
      stem holds no `pat` and `pat` cannot overlap itself through its first
      character. */
  lemma {:induction false} ReplaceAllOwnSuffix(stem: string, pat: string, repl: string)
    requires |pat| > 0
    requires forall k :: 1 <= k < |pat| ==> pat[k] != pat[0]
    requires !Contains(stem, pat)
    ensures ReplaceAll(stem + pat, pat, repl) == stem + repl
  {
    var s := stem + pat;
    IndexOfOwnSuffix(stem, pat);
    assert s[..|stem|] == stem;
    assert s[|stem| + |pat|..] == [];
    assert !Contains([], pat);
  }

  // strings.Split and strings.Join with a one-character separator.

  /** `strings.Split(s, string(c))`: the pieces between the occurrences of
      `c`, empty pieces included; the empty text gives one empty piece. */
  function SplitOn(s: string, c: char): (parts: seq<string>)
    ensures |parts| > 0
    ensures forall k :: 0 <= k < |parts| ==> c !in parts[k]
    decreases |s|
  {
    if |s| == 0 then [[]]
    else
      var rest := SplitOn(s[1..], c);
      if s[0] == c then [[]] + rest else [[s[0]] + rest[0]] + rest[1..]
  }

  /** `strings.Join(parts, string(c))`. */
  function JoinWith(parts: seq<string>, c: char): string
    requires |parts| > 0
    decreases |parts|
  {
    if |parts| == 1 then parts[0] else parts[0] + [c] + JoinWith(parts[1..], c)
  }

  /** A text without the separator is a single piece, and the separator
      after such a text starts a new piece. */
  lemma {:induction false} SplitOnPlain(a: string, c: char, t: string)
    requires c !in a
    ensures SplitOn(a, c) == [a]
    ensures SplitOn(a + [c] + t, c) == [a] + SplitOn(t, c)
    decreases |a|
  {
    if |a| > 0 {
      assert a[1..] + [c] + t == (a + [c] + t)[1..];
      SplitOnPlain(a[1..], c, t);
      assert [a[0]] + a[1..] == a;
    } else {
      assert a + [c] + t == [c] + t;
      assert ([c] + t)[1..] == t;
    }
  }

  /** A separator followed by a text without it adds that text as the last
      piece. */
  lemma {:induction false} SplitOnSnoc(s: string, c: char, t: string)
    requires c !in t
    ensures SplitOn(s + [c] + t, c) == SplitOn(s, c) + [t]
    decreases |s|
  {
    if |s| == 0 {
      assert s + [c] + t == [] + [c] + t;
      SplitOnPlain([], c, t);
      SplitOnPlain(t, c, []);
    } else {
      assert (s + [c] + t)[1..] == s[1..] + [c] + t;
      SplitOnSnoc(s[1..], c, t);
    }
  }

  /** Joining one more piece appends the separator and the piece. */
  lemma {:induction false} JoinWithSnoc(parts: seq<string>, p: string, c: char)
    requires |parts| > 0
    ensures JoinWith(parts + [p], c) == JoinWith(parts, c) + [c] + p
    decreases |parts|
  {
    if |parts| > 1 {
      assert (parts + [p])[1..] == parts[1..] + [p];
      JoinWithSnoc(parts[1..], p, c);
    }
  }

  /** Splitting undoes joining when no piece holds the separator. */
  lemma {:induction false} SplitOnJoinWith(parts: seq<string>, c: char)
    requires |parts| > 0
    requires forall k :: 0 <= k < |parts| ==> c !in parts[k]
    ensures SplitOn(JoinWith(parts, c), c) == parts
    decreases |parts|
  {
    if |parts| == 1 {
      SplitOnPlain(parts[0], c, []);
    } else {
      SplitOnJoinWith(parts[1..], c);
      SplitOnPlain(parts[0], c, JoinWith(parts[1..], c));
    }
  }

  /** Joining undoes splitting. */
  lemma {:induction false} JoinWithSplitOn(s: string, c: char)
    ensures JoinWith(SplitOn(s, c), c) == s
    decreases |s|
  {
    if |s| > 0 {
      var rest := SplitOn(s[1..], c);
      JoinWithSplitOn(s[1..], c);
      if s[0] == c {
        assert JoinWith([[]] + rest, c) == [] + [c] + JoinWith(rest, c);
      } else {
        var parts := [[s[0]] + rest[0]] + rest[1..];
        if |rest| == 1 {
          assert JoinWith(parts, c) == [s[0]] + rest[0];
        } else {
          assert parts[1..] == rest[1..];
          assert JoinWith(rest, c) == rest[0] + [c] + JoinWith(rest[1..], c);
          assert JoinWith(parts, c) == [s[0]] + rest[0] + [c] + JoinWith(rest[1..], c);
        }
        assert s == [s[0]] + s[1..];
      }
    }
  }

  // Decimal text of integers (strconv.Itoa, fmt's %d).

  predicate IsDigit(c: char) {
    '0' <= c <= '9'
  }

  predicate AllDigits(s: string) {
    forall i :: 0 <= i < |s| ==> IsDigit(s[i])
  }

  function DigitChar(d: nat): (c: char)
    requires d < 10
    ensures IsDigit(c)
  {
    (48 + d) as char
  }

  /** The decimal text of a natural number, most significant digit first,
      without leading zeros. */
  function NatToString(n: nat): (s: string)
    ensures |s| > 0 && AllDigits(s)
    ensures |s| > 1 ==> s[0] != '0'
    decreases n
  {
    if n < 10 then [DigitChar(n)] else NatToString(n / 10) + [DigitChar(n % 10)]
  }

  /** The value of a text of decimal digits (strconv.Atoi on such texts). */
  function DigitsValue(s: string): nat
    requires AllDigits(s)
    decreases |s|
  {
    if |s| == 0 then 0
    else DigitsValue(s[..|s| - 1]) * 10 + ((s[|s| - 1] as int) - 48)
  }

  /** Parsing the decimal text gives the number back. */
  lemma {:induction false} DigitsValueOfNatToString(n: nat)
    ensures DigitsValue(NatToString(n)) == n
    decreases n
  {
    var s := NatToString(n);
    if n >= 10 {
      DigitsValueOfNatToString(n / 10);
      assert s[..|s| - 1] == NatToString(n / 10);
    }
  }

  lemma NatToStringInjective(a: nat, b: nat)
    ensures NatToString(a) == NatToString(b) <==> a == b
  {
    if NatToString(a) == NatToString(b) {
      DigitsValueOfNatToString(a);
      DigitsValueOfNatToString(b);
    }
  }

  /** `strconv.Itoa`: a leading `-` for negative numbers. */
  function Itoa(i: int): (s: string)
    ensures |s| > 0
    ensures i >= 0 ==> AllDigits(s)
    ensures i < 0 ==> s[0] == '-' && AllDigits(s[1..])
    ensures s[0] == '-' <==> i < 0
  {
    if i < 0 then "-" + NatToString(-i) else NatToString(i)
  }

  /** Distinct numbers have distinct decimal texts. */
  lemma {:induction false} ItoaInjective(a: int, b: int)
    ensures Itoa(a) == Itoa(b) <==> a == b
  {
    if Itoa(a) == Itoa(b) {
      if a < 0 {
        assert Itoa(a)[1..] == NatToString(-a);
        assert Itoa(b)[1..] == NatToString(-b);
        NatToStringInjective(-a, -b);
      } else {
        NatToStringInjective(a, b);
      }
    }
  }

  /** The decimal text holds no character other than digits and `-`. */
  lemma ItoaChars(i: int, c: char)
    requires c in Itoa(i)
    ensures IsDigit(c) || c == '-'
  {
    var s := Itoa(i);
    var k :| 0 <= k < |s| && s[k] == c;
    if i < 0 && k > 0 {
      assert s[1..][k - 1] == c;
    }
  }

  // ASCII case folding (viper keys are case-insensitive).

  function LowerChar(c: char): (r: char)
    ensures 'A' <= c <= 'Z' ==> 'a' <= r <= 'z' && r as int - c as int == 32
    ensures !('A' <= c <= 'Z') ==> r == c
  {
    if 'A' <= c <= 'Z' then (c as int + 32) as char else c
  }

  function Lower(s: string): (r: string)
    ensures |r| == |s|
    ensures forall i :: 0 <= i < |s| ==> r[i] == LowerChar(s[i])
  {
    seq(|s|, i requires 0 <= i < |s| => LowerChar(s[i]))
  }

  lemma LowerAppend(a: string, b: string)
    ensures Lower(a + b) == Lower(a) + Lower(b)
  {
  }

  lemma LowerIdempotent(s: string)
    ensures Lower(Lower(s)) == Lower(s)
  {
  }
}
